=== FILE: README.md ===
# Peoples-Advisor in Dafny

Peoples-Advisor is a forex trading engine for the OANDA v20 REST API. It has
two revisions: the earlier package `pa/` and the later `peoples_advisor/`.
This project models the engine's core in both revisions as pure Dafny
functions over immutable datatypes, and proves properties of that model.
The core covers:

- the events and the priority order of the event queue;
- the control loop that drains that queue and routes events to the signal
  and sizing strategies;
- the example strategies;
- the line format of backtest history files, the names of those files and
  of live-feed logs, and the replay and merge of candle streams into ticks;
- the portfolio's currency conversion, profit, margin and equity;
- the request bodies built by the v20 API client, including the order
  requests, the candle pagination and the price stream;
- the RC4 decoding of the unofficial price feed;
- settings validation, the instrument closure and the margin-rate choice;
- the command-line front end: its argument readers, its syntax
  highlighter, its error line and one turn of its command loop.

Python values become Dafny values as follows:

- a `Decimal` that is written or read as text, as event prices are, is the
  `Decimals.Decimal` record of sign, coefficient and places; one used only
  in arithmetic, as in the portfolio, is `real`;
- a `datetime` is the `DateTime` record of `OandaTime`, or whole epoch
  seconds where the source keeps only `int(time.timestamp())`;
- a `dict` sent to the broker by the newer client is a `map<Key, Json>`,
  whose keys are the v20 field names and whose values are JSON values; the
  earlier client's query parameters are a `map<string, Param>`;
- a raised exception is the `Err` branch of a `Result`.

Whatever the code asks of the outside world is a parameter of the function
that needs it:

- the broker's instrument list;
- the pages a candle request returns;
- the lines of a stream;
- the strategies' own state.

Files, one module each:

| file | module | models |
|---|---|---|
| wrappers.dfy | Wrappers | `Option` and `Result` |
| text.dfy | Text | `split`, `join`, `replace`, digits, `str.title` |
| decimals.dfy | Decimals | `Decimal` text and `quantize` |
| oanda_time.dfy | OandaTime | ISO 8601 and RFC 3339 timestamps |
| events.dfy | Events | peoples_advisor/event/event.py |
| legacy_events.dfy | LegacyEvents | pa/event/event.py |
| control.dfy | Control | peoples_advisor/control/control.py |
| legacy_control.dfy | LegacyControl | pa/control/control.py |
| strategies.dfy | Strategies | the two example_strategy.py files |
| feeds.dfy | Feeds | the two oanda_price.py files |
| filenames.dfy | FileNames | the backtest and price `common.py` files |
| backtest.dfy | Backtest | pa/backtest/oanda_backtest.py |
| portfolio.dfy | Portfolio | peoples_advisor/portfolio/portfolio.py |
| orders.dfy | Orders | the two order `common.py` files |
| common.dfy | Common | pa/common/common.py |
| candles.dfy | Candles | pa/api/oanda.py |
| oanda_api.dfy | OandaApi | peoples_advisor/api/oanda/oanda_api.py |
| unofficial.dfy | Unofficial | peoples_advisor/api/oanda/unofficial_oanda_api.py |
| cli.dfy | Cli | the two cli/cli.py files |

Each operation that has an inverse, an invariant or an independent
reference is tied to it by a lemma over all inputs. Examples:

- event text and `event_from_repr`;
- file names and their readers;
- RC4 applied twice;
- replay after build;
- the corrected and as-written versions of each defect below.

## Model

| member | source | states |
|---|---|---|
| Events.LessTotal | peoples_advisor/event/event.py:14-18 | `__lt__` compares priorities with `<=`, so any two events are ordered at least one way, and they are ordered both ways exactly when `__eq__` calls them equal |
| Events.Priority | peoples_advisor/event/event.py:34-198 | priorities run from 0 to 5. Only EXIT has priority 0, and only STOP has priority 5 |
| Events.Less | peoples_advisor/event/event.py:14-15 | `__lt__` holds whenever its left side is EXIT or its right side is STOP |
| Events.Same | peoples_advisor/event/event.py:17-18 | `__eq__` holds exactly when `__lt__` holds both ways |
| Events.ExitFirstStopLast | peoples_advisor/event/event.py:171-198 | EXIT (priority 0) sorts before every event, and only EXIT sorts before it. STOP (priority 5) sorts after every event, and only STOP sorts after it |
| Events.Repr | peoples_advisor/event/event.py:148-149 | an event has a text form exactly when it is not an order, whose `__repr__` returns nothing; every text form begins with the event's type tag |
| Events.EventFromRepr | peoples_advisor/event/event.py:201-204 | `event_from_repr` never yields an order event. When it succeeds, the line with its newlines removed holds no quote, backslash or carriage return that would break the literal it evaluates |
| Events.FromFields | peoples_advisor/event/event.py:201-204 | the dispatch on the title-cased first field never produces an order event |
| Events.DecodeJoined | peoples_advisor/event/event.py:201-204 | a line joined from plain fields is decoded by dispatching on its own fields. This holds with or without a trailing newline, because newlines are removed first |
| Events.DispatchPrice | peoples_advisor/event/event.py:203-204 | a first field that title-cases to `Price` or `Quote` selects that class's `from_repr` |
| Events.DispatchSignal | peoples_advisor/event/event.py:203-204 | a first field that title-cases to `Signal` selects `SignalEvent.from_repr` |
| Events.PriceFieldsParts | peoples_advisor/event/event.py:57-65 | the five written fields of a price read back as its instrument, its epoch seconds, and its bid and ask |
| Events.PriceFieldsRoundTrip | peoples_advisor/event/event.py:54-99 | `PriceEvent.from_repr` and `QuoteEvent.from_repr` rebuild a price or a quote from its `__repr__` fields |
| Events.SignalFieldsRoundTrip | peoples_advisor/event/event.py:124-132 | a signal whose info is `None` is rebuilt from its `__repr__` fields |
| Events.FieldsRoundTrip | peoples_advisor/event/event.py:156-198 | every writable event is rebuilt from its fields. START, STOP and EXIT ignore everything after their tag |
| Events.ReprRoundTrip | peoples_advisor/event/event.py:201-204 | for every writable event, `event_from_repr(repr(e))` is `e`, with or without the newline the history file adds |
| LegacyEvents.LegacyOrdering | pa/event/event.py:13-91 | in the earlier revision EXIT (priority 0) sorts before every event and only EXIT sorts before it. Every event sorts before both STOP and EOF (priority 5). STOP and EOF compare equal although they are different events |
| LegacyEvents.Priority | pa/event/event.py:30-91 | priorities run from 0 to 5. Only EXIT has priority 0, and exactly STOP and EOF have priority 5 |
| LegacyEvents.Less | pa/event/event.py:13-14 | `__lt__` holds whenever its left side is EXIT or its right side is STOP or EOF |
| LegacyEvents.Same | pa/event/event.py:16-17 | `__eq__` holds exactly when `__lt__` holds both ways |
| Control.QueueEvent | peoples_advisor/control/control.py:60-62 | an event is queued only when the exit flag is clear and the strategy returned one. Nothing else in the controller changes |
| Control.Handle | peoples_advisor/control/control.py:36-62 | one event's effect. The exit flag ends up set exactly when it was set or the event is EXIT. With the run flag set, a price replaces the signal strategy's state with the one `gen_signal` returns, and adds the event it returns to the queue unless the exit flag is set; a signal does the same through `gen_order` and the sizing strategy. Any other event, and every event while the run flag is clear, leaves the queue and both strategies' states as they were |
| Control.Step | peoples_advisor/control/control.py:32-58 | a turn takes a least-priority event from the queue. The exit flag ends up set exactly when that event was EXIT. The queue never grows, and every other queued event stays queued |
| Control.StepQueue | peoples_advisor/control/control.py:42-58 | the queue after a turn, exactly. With the run flag set, a price leaves the queue minus the event taken plus whatever `gen_signal` returned, and the signal strategy takes its new state. A signal does the same through `gen_order`. Every other event just leaves the queue minus the event taken, and the strategies' states unchanged |
| Control.ExitPreempts | peoples_advisor/control/control.py:33-37 | while an EXIT is queued, the queue always hands out an EXIT next |
| Control.ExitEndsLoop | peoples_advisor/control/control.py:33-37 | with an EXIT queued, the next turn sets the exit flag, so the loop stops, and it removes just that EXIT |
| Control.RunFlagEvents | peoples_advisor/control/control.py:38-41 | START sets the run flag and STOP clears it. Nothing else changes |
| Control.StoppedDrops | peoples_advisor/control/control.py:42-57 | while the run flag is clear, every event other than START, STOP and EXIT is dropped without effect |
| Control.QuotesAndOrdersIgnored | peoples_advisor/control/control.py:43-55 | quotes and orders reach no strategy and change nothing |
| Control.StrategyRouting | peoples_advisor/control/control.py:45-52 | the signal strategy's state changes only on a price, and the sizing strategy's only on a signal, in both cases only while the run flag is set. When they are called, each takes the state its strategy returned |
| LegacyControl.QueueEvent | pa/control/control.py:56-58 | an event is queued only when the exit flag is clear and an event was given. Nothing else changes |
| LegacyControl.Handle | pa/control/control.py:34-58 | a turn fails exactly on a START while trading live once the feed thread has started. Otherwise the exit flag is set by EXIT only. A price always reaches the portfolio and `gen_signal`: the signal strategy takes its new state and the event it returns is queued unless the exit flag is set. A signal does the same through `gen_order`. A STOP clears the run flag and queues an EXIT. Every other event leaves the queue and the strategies' states as they were |
| LegacyControl.Step | pa/control/control.py:30-58 | a turn on the least-priority event fails exactly on a repeated live START. On success the exit flag is set exactly when the event was EXIT, and every other queued event stays queued. A price leaves the queue minus the event taken plus what `gen_signal` returned, a signal likewise with `gen_order`, and any event other than a price, a signal or a STOP leaves just the queue minus the event taken |
| LegacyControl.StopThenExit | pa/control/control.py:51-53 | a STOP clears the run flag and queues an EXIT. The next event taken is that EXIT, and it ends the loop |
| LegacyControl.RestartFails | pa/control/control.py:36-39 | trading live, a second START tries to start the feed thread again, which raises |
| LegacyControl.PricesAlwaysReachPortfolio | pa/control/control.py:45-50 | every price and informational price updates the portfolio, whether or not the run flag is set |
| Common.LegPairs | pa/common/common.py:82-90 | each leg is priced by `LEG_ACCOUNT` when that is listed, else by `ACCOUNT_LEG`. On success the result is exactly the legs' chosen pairs: every leg's chosen pair is in it, every element is the chosen pair of some leg, and all are listed. The step fails exactly when some leg has neither pair |
| Common.Closure | pa/common/common.py:77-92 | the extended list holds every requested instrument and, for each requested instrument that does not name the account currency, the chosen pair of each of its legs; every entry is one of these, so nothing else is added (and every entry is requested or listed by the broker) |
| Common.ClosureExact | pa/common/common.py:77-92 | an instrument is in the extended list exactly when it is requested or is the pair chosen for a leg of a requested instrument that does not name the account currency |
| Common.ExtendInstrumentList | pa/common/common.py:70-92 | the result is `None` unless the broker is OANDA. For OANDA a list comes back whenever no error is raised |
| Common.InstrumentFailsIff | pa/common/common.py:78-90 | an instrument that does not name the account currency fails exactly when one of its legs has no listed pair with that currency |
| Common.ClosureFailsIff | pa/common/common.py:70-92 | `extend_instrument_list` raises exactly when some requested instrument has a leg that cannot be priced in the account currency |
| Common.AccountInstrumentAlone | pa/common/common.py:79-80 | an instrument that names the account currency adds only itself |
| Common.GetMarginsAsWritten | pa/common/common.py:95-107 | `get_margins` as written returns `None` for every input |
| Common.GetMargins | pa/common/common.py:98-105 | with the missing return added, every instrument in the result was requested, and its rate is at least the leverage |
| Common.GetMarginsKeys | pa/common/common.py:99-107 | an instrument gets a rate exactly when it is requested and the account lists it |
| Common.GetMarginsRate | pa/common/common.py:101-105 | an instrument's rate is the larger of the leverage and the broker's rate, taken from the account's last listing of that name |
| Common.GetMarginsDropped | pa/common/common.py:95-107 | for a single requested and listed instrument, the corrected version returns its rate but the code as written returns nothing |
| Common.Number | pa/common/common.py:37-38 | only booleans, integers, decimals and floats can be compared with a number. Any other value raises a type error |
| Common.CheckHead | pa/common/common.py:14-50 | the first checks fail with a type error only when LEVERAGE is not a number. They report a missing entry only when LIVE_STRATEGIES is a tuple of fewer than two entries |
| Common.HeadOkIff | pa/common/common.py:14-50 | the first checks pass exactly when all of these hold: the broker is OANDA; the token is non-empty; LIVE is a bool; the account index is a non-negative int; the format is RFC3339 or UNIX; every instrument is listed; LEVERAGE is a `Decimal` in (0, 1]; LIVE_STRATEGIES pairs a signal strategy with a sizing strategy |
| Common.CheckPairsAsWritten | pa/common/common.py:51-63 | the BACKTEST_STRATEGIES loop as written passes exactly when every entry is a tuple, because its subclass tests look at LIVE_STRATEGIES |
| Common.CheckPairs | pa/common/common.py:51-63 | the corrected loop passes exactly when every entry pairs a signal strategy with a sizing strategy |
| Common.CheckTail | pa/common/common.py:64-67 | the last checks pass exactly when BALANCE is a positive number and TERMINAL_COLORS is a bool |
| Common.ValidateSettingsAsWritten | pa/common/common.py:14-67 | the first failing check of the head decides the outcome, before the loop is reached |
| Common.ValidateSettings | pa/common/common.py:14-67 | the corrected validation keeps the same order of checks: a failing head check decides the outcome |
| Common.ValidateSettingsIff | pa/common/common.py:14-67 | the corrected validation accepts exactly the well-formed settings |
| Common.ValidateSettingsAsWrittenIff | pa/common/common.py:51-63 | the validation as written accepts every well-formed settings module. It also accepts any module whose backtest entries are merely tuples |
| Common.NonePairAccepted | pa/common/common.py:56-63 | a backtest entry `(None, None)` passes the validation as written but fails the corrected one |
| Strategies.SignalDecision | peoples_advisor/strategy/example_strategy.py:14-21 | the signal strategy only ever chooses BUY or SELL, or nothing |
| Strategies.OrderUnits | peoples_advisor/strategy/example_strategy.py:33-34 | an order is for 100 or -100 units, and it is long exactly when the signal's side is BUY |
| Strategies.GenSignal | peoples_advisor/strategy/example_strategy.py:14-21 | each call advances the counter by one. A signal comes back exactly on the calls where the counter's decision is a side, and it carries the price's instrument and time with that side |
| Strategies.GenOrder | peoples_advisor/strategy/example_strategy.py:29-39 | each call advances the counter by one. An order comes back exactly on every fifth call: a market order for the signal's instrument and time, long or short by its side |
| Strategies.LegacyGenSignal | pa/strategy/example_strategy.py:14-21 | the same behaviour as `GenSignal`, over the earlier revision's events |
| Strategies.LegacyGenOrder | pa/strategy/example_strategy.py:29-39 | the same behaviour as `GenOrder`, over the earlier revision's events |
| Strategies.Decisions | peoples_advisor/strategy/example_strategy.py:15-21 | `n` consecutive calls make the decisions of counters `ticks+1` to `ticks+n` |
| Strategies.DecisionPeriod | peoples_advisor/strategy/example_strategy.py:16-19 | the signal strategy's decisions repeat every ten calls |
| Strategies.DecisionWindow | peoples_advisor/strategy/example_strategy.py:16-21 | any ten consecutive calls make the same decisions as the first ten, in some order |
| Strategies.TenCallsOneBuyOneSell | peoples_advisor/strategy/example_strategy.py:16-21 | any ten consecutive prices yield exactly one BUY, exactly one SELL and eight nothings |
| Strategies.OrderWindow | peoples_advisor/strategy/example_strategy.py:30-31 | `n` consecutive calls of the sizing strategy order on the counters divisible by five |
| Strategies.FiveSignalsOneOrder | peoples_advisor/strategy/example_strategy.py:30-39 | any five consecutive signals yield exactly one order |
| Feeds.ReadTickValue | peoples_advisor/price/oanda/oanda_price.py:42-55 | a tick reads exactly when its time converts and both its best bid and its best ask are readable decimals. The reading carries those values and records whether the instrument is traded |
| Feeds.ReadTick | peoples_advisor/price/oanda/oanda_price.py:42-55 | a tick whose time does not convert fails as a bad time, and one with an empty bid or ask ladder fails. A reading carries the tick's instrument and converted time, and is traded exactly when its instrument is. Errors never blame the instrument list |
| Feeds.Consume | peoples_advisor/price/oanda/oanda_price.py:39-59 | the exit flag is set exactly when an error ended the loop, and no more events are queued than ticks were read |
| Feeds.ConsumeEnd | peoples_advisor/price/oanda/oanda_price.py:39-59 | without an error, the loop ends at the end of the stream or at the first tick seen with the run flag clear. With an error, the loop ends at the first tick that does not read, and that tick's error is the one re-raised |
| Feeds.ConsumeReads | peoples_advisor/price/oanda/oanda_price.py:40-56 | each queued event is the reading of the tick in the same position, and that tick was seen with the run flag set |
| Feeds.Gen | peoples_advisor/price/oanda/oanda_price.py:33-59 | the failure is the instrument-list failure exactly when `extend_instrument_list` raised, and then the exit flag is set before any tick is read. A missing list (`None`, returned when the broker is not OANDA, pa/common/common.py:70-92) fails exactly as the stream's `",".join(None)` does (peoples_advisor/api/oanda/oanda_api.py:1732): the exit flag is set and no event is queued. Otherwise the exit flag is set exactly when a tick failed, and no more events are queued than ticks were read |
| Feeds.NewerEvents | peoples_advisor/price/oanda/oanda_price.py:42-55 | each reading becomes a Price when its instrument is traded and a Quote otherwise, carrying the reading's instrument, time, bid and ask |
| Feeds.OlderEvents | pa/price/oanda_price.py:36-49 | each reading becomes a Price when its instrument is traded and an Info otherwise, carrying the same values |
| Feeds.EveryTickQueued | peoples_advisor/price/oanda/oanda_price.py:39-56 | with the run flag set throughout and every tick readable, every tick is queued in order and classified by its instrument, and the exit flag stays clear |
| Feeds.RevisionsAgree | pa/price/oanda_price.py:36-49 | the two revisions classify every reading alike: the earlier Info events are the later Quote events |
| Backtest.Init | pa/backtest/oanda_backtest.py:42-58 | an instrument is tracked exactly when its first page has candles. Every tracked instrument starts with both cursors at 0 |
| Backtest.MeasureUpdate | pa/backtest/oanda_backtest.py:62-138 | replacing one cursor changes the count of candles still ahead by exactly the change in that cursor's own count. The loop's termination rests on this |
| Backtest.Refresh | pa/backtest/oanda_backtest.py:65-87 | a current candle is kept exactly when it is before the end time. A used-up page is replaced by the next page, cursor reset to 0, exactly when that page has more than one candle and starts before the end time. Otherwise the instrument is retired |
| Backtest.RefreshAll | pa/backtest/oanda_backtest.py:65-92 | after the pass every remaining instrument has a current candle before the end time, no instrument is added, and the candles still ahead do not grow |
| Backtest.RefreshAllNames | pa/backtest/oanda_backtest.py:89-92 | retiring instruments never introduces an instrument that was not tracked |
| Backtest.Earliest | pa/backtest/oanda_backtest.py:93-96 | the stable sort's first entry is one of the tracked instruments |
| Backtest.EarliestLeast | pa/backtest/oanda_backtest.py:93-96 | the chosen instrument has the least candle time, and every instrument before it has a strictly later one: the first of the ties wins |
| Backtest.AdvanceSpread | pa/backtest/oanda_backtest.py:100-106 | the spread cursor only moves forward, and it passes only samples older than the candle. It stops at the last sample or at the first sample not older than the candle |
| Backtest.AdvanceSpreadFirst | pa/backtest/oanda_backtest.py:100-106 | the cursor never passes a sample at or after the candle's time |
| Backtest.HalfSpread | pa/backtest/oanda_backtest.py:111-119 | a non-negative pip spread gives a non-negative offset. `HalfSpreadScale` states its size |
| Backtest.HalfSpreadScale | pa/backtest/oanda_backtest.py:111-119 | the offset is half the pip spread with a pip one unit in the place before the last decimal: scaled by `10^digits` it is `5 * pips` |
| Backtest.Tick | pa/backtest/oanda_backtest.py:107-136 | a tick is written exactly when the instrument has spread samples and its mid price text has a decimal point and reads as a decimal. It is a Price for a traded instrument and a Quote otherwise, with the instrument's name and the candle's time |
| Backtest.Chosen | pa/backtest/oanda_backtest.py:93-106 | the chosen instrument's candle is the earliest one and its price cursor is unchanged. Its spread cursor has only moved forward |
| Backtest.Advanced | pa/backtest/oanda_backtest.py:137-138 | after a tick only the chosen instrument's price cursor moves on, so the candles still ahead strictly decrease |
| Backtest.AdvancedAt | pa/backtest/oanda_backtest.py:137-138 | every other instrument is untouched, and the chosen one's price cursor moves by one |
| Backtest.MergeFrom | pa/backtest/oanda_backtest.py:62-140 | every written tick is a Price or a Quote before the end time, a Price exactly for a traded instrument. No more ticks are written than candles remain. That every remaining candle is written is `MergeComplete` |
| Backtest.MergeStep | pa/backtest/oanda_backtest.py:62-140 | a round that writes a tick writes that tick first and then continues from the advanced cursors |
| Backtest.MergeNames | pa/backtest/oanda_backtest.py:62-140 | every written tick names a tracked instrument |
| Backtest.Build | pa/backtest/oanda_backtest.py:36-140 | `OandaBacktestingData.gen` writes only ticks before the end time, a Price exactly for the traded instruments. That every candle before the end time is written is `BuildComplete` |
| Backtest.BuildNames | pa/backtest/oanda_backtest.py:44-140 | every written tick names an instrument whose history was fetched |
| Backtest.RefreshAllFloored | pa/backtest/oanda_backtest.py:65-92 | refreshing never brings an older candle into view than the ones already ahead |
| Backtest.RefreshAllSorted | pa/backtest/oanda_backtest.py:65-92 | refreshing keeps every instrument's candles in time order |
| Backtest.RoundSorted | pa/backtest/oanda_backtest.py:93-138 | after a round over sorted instruments, no candle still ahead is older than the tick just written |
| Backtest.RoundAboveFloor | pa/backtest/oanda_backtest.py:93-96 | the round's tick is no older than the oldest candle any instrument still had ahead |
| Backtest.MergeAscending | pa/backtest/oanda_backtest.py:62-140 | when no candle ahead is older than a time, the ticks written ascend in time, and none is older than that time |
| Backtest.MergeSortedAscending | pa/backtest/oanda_backtest.py:62-140 | when every instrument's candles ascend across its pages, the merged ticks ascend in time: the loop always writes the oldest candle still pending. That the ticks are the candles before the end is `MergeComplete` |
| Backtest.BuildAscending | pa/backtest/oanda_backtest.py:36-140 | when every instrument's candles ascend, the history file `gen` writes is in time order. That it holds every candle before the end is `BuildComplete` |
| Backtest.MergeComplete | pa/backtest/oanda_backtest.py:62-140 | with one page per instrument and every candle list ascending, a merge that does not fail writes exactly one tick per pending candle older than the end time: the written (instrument, time) stamps are, as a multiset, the stamps of those candles |
| Backtest.BuildComplete | pa/backtest/oanda_backtest.py:36-140 | with one ascending page per instrument, a `gen` that does not fail writes exactly one tick for each candle older than the end time, and nothing else: the written stamps equal, as a multiset, the stamps of those candles |
| Backtest.ParsePlaces | pa/backtest/oanda_backtest.py:114 | the number of decimals `Decimal` reads from a price text is the length of its text after the point |
| Backtest.TickBrackets | pa/backtest/oanda_backtest.py:116-135 | with a non-negative spread the bid is at most the mid price and the ask at least it, and both keep the mid's number of decimals |
| Backtest.ExampleQuantize | pa/backtest/oanda_backtest.py:119-127 | a 5-decimal candle closing at 1.10010 with a 2-pip spread gives bid 1.10000 and ask 1.10020 |
| Backtest.TickOfPrice | pa/backtest/oanda_backtest.py:108-128 | a traded instrument's tick is a Price with bid and ask equal to the mid minus and plus the half spread, quantized to the mid's decimals |
| Backtest.ReplayDecoded | pa/backtest/oanda_backtest.py:150-158 | the replayer queues the decoded line events in order until a line seen with the run flag clear or the end of the file, and then a Stop. A line that does not decode ends it without a Stop |
| Backtest.Replay | pa/backtest/oanda_backtest.py:150-158 | a replay either fails at the first line that does not decode, with that line's error, or ends by queueing a STOP. Every event queued before was read from the line in the same position while the run flag was set |
| Backtest.Decoded | pa/backtest/oanda_backtest.py:155 | each line is decoded by `event_from_repr` |
| Backtest.ReplayWritten | pa/backtest/oanda_backtest.py:136-158 | replaying the lines written for writable ticks, with the run flag set throughout, queues exactly those ticks in order and then a Stop |
| Backtest.BuiltWritable | pa/backtest/oanda_backtest.py:122-136 | ticks built for instruments without commas, quotes, backslashes or line breaks can be read back |
| Backtest.BuildThenReplay | pa/backtest/oanda_backtest.py:36-158 | building the history and replaying it with the run flag set queues exactly the built ticks, then a Stop |
| Portfolio.UpdatePrice | peoples_advisor/portfolio/portfolio.py:20-21 | the event's instrument now maps to the event's bid and ask. Every other instrument keeps its quote, and nothing else in the portfolio changes |
| Portfolio.BaseCurrency | peoples_advisor/portfolio/portfolio.py:103-105 | the base currency is the part of the name before its first underscore |
| Portfolio.QuoteCurrency | peoples_advisor/portfolio/portfolio.py:107-109 | reading the quote currency fails exactly when the name has no underscore, because indexing the second piece raises. The result holds no underscore |
| Portfolio.SplitCount | peoples_advisor/portfolio/portfolio.py:109 | splitting yields a second piece exactly when the separator occurs |
| Portfolio.PairCurrencies | peoples_advisor/portfolio/portfolio.py:103-109 | for a pair written `A_B`, the base currency is `A` and the quote currency is `B` |
| Portfolio.ConvertAsWritten | peoples_advisor/portfolio/portfolio.py:80-101 | a zero amount converts to zero. A non-zero amount fails with "impossible currency pair" exactly when neither `TO_FROM` nor `FROM_TO` is quoted |
| Portfolio.Convert | peoples_advisor/portfolio/portfolio.py:80-101 | converting a currency to itself returns the amount unchanged. Any other conversion is the one the code performs |
| Portfolio.ConvertKeepsSign | peoples_advisor/portfolio/portfolio.py:80-101 | with positive prices and a quoted pair, a conversion succeeds and keeps the sign of the amount |
| Portfolio.ConvertRoundTripLoses | peoples_advisor/portfolio/portfolio.py:83-87 | converting a positive amount across a quoted pair and straight back never gains, because the bid is used one way and the ask the other |
| Portfolio.Profit | peoples_advisor/portfolio/portfolio.py:27-41 | the corrected profit term is positive for a long position when the price has risen and for a short position when it has fallen |
| Portfolio.ProfitAsWritten | peoples_advisor/portfolio/portfolio.py:29-38 | the profit term as written, `units * (entry - current)`, is exactly the negation of the corrected one |
| Portfolio.SumPl | peoples_advisor/portfolio/portfolio.py:27-42 | the loop of `unrealized_pl` over the positions from index `i` on. It is 0 when all of them are flat. When it fails for a missing price, that instrument has no price, and it only fails when some position is open |
| Portfolio.UnrealizedPlAsWritten | peoples_advisor/portfolio/portfolio.py:27-42 | `unrealized_pl` as written is 0 for a portfolio of flat positions. When it fails for a missing price, that instrument has no price |
| Portfolio.UnrealizedPl | peoples_advisor/portfolio/portfolio.py:27-42 | the corrected `unrealized_pl` is 0 for a portfolio of flat positions. When it fails for a missing price, that instrument has no price |
| Portfolio.HomeQuotedSumPl | peoples_advisor/portfolio/portfolio.py:27-42 | when every position from index `i` is quoted in the home currency and priced, the sum is the plain sum of `units * (current - entry)`, with no conversion |
| Portfolio.HomeQuotedPl | peoples_advisor/portfolio/portfolio.py:27-42 | for a portfolio quoted in the home currency, the corrected unrealized profit is the plain sum of the positions' profits |
| Portfolio.RequiredMargin | peoples_advisor/portfolio/portfolio.py:48-60 | no units need no margin. Otherwise a missing margin rate raises. For an instrument based on the home currency the margin is `|units| * rate`. For any other it is that amount converted from the base currency into the home currency, exactly as `_convert` does between different currencies |
| Portfolio.RequiredMarginAsWritten | peoples_advisor/portfolio/portfolio.py:48-60 | `required_margin` as written: no units need no margin, a missing rate raises, and for an instrument not based on the home currency the result is the corrected margin |
| Portfolio.HomeBasedMarginAsWritten | peoples_advisor/portfolio/portfolio.py:48-60 | for a pair based on the home currency with a positive margin rate, the margin as written raises for want of the pair `home_home`, while the corrected margin is `|units| * rate` |
| Portfolio.MarginFor | peoples_advisor/portfolio/portfolio.py:49-55 | with a non-negative rate the margin is never negative, whichever way the position faces |
| Portfolio.RequiredMarginSymmetric | peoples_advisor/portfolio/portfolio.py:48-60 | a short position needs the same margin as a long one of the same size |
| Portfolio.UsedMarginAsWritten | peoples_advisor/portfolio/portfolio.py:62-67 | `used_margin` as written succeeds exactly when there are no positions. It passes the units where the instrument is expected, so the first position raises |
| Portfolio.SumMargin | peoples_advisor/portfolio/portfolio.py:62-67 | the loop of `used_margin` over the positions from index `i` on. It is 0 when all of them are flat; when it fails for a missing rate, that instrument has no rate, and it only fails when some position is open |
| Portfolio.UsedMargin | peoples_advisor/portfolio/portfolio.py:62-67 | the corrected `used_margin` is 0 for a portfolio of flat positions. When it fails for a missing rate, that instrument has no rate |
| Portfolio.RequiredMarginNonNegative | peoples_advisor/portfolio/portfolio.py:48-60 | with positive prices and non-negative rates, a required margin is never negative |
| Portfolio.SumMarginNonNegative | peoples_advisor/portfolio/portfolio.py:62-67 | with the arguments in their intended order, the sum of the margins of any suffix of the positions is never negative |
| Portfolio.UsedMarginNonNegative | peoples_advisor/portfolio/portfolio.py:62-67 | the corrected used margin is never negative |
| Portfolio.Equity | peoples_advisor/portfolio/portfolio.py:44-46 | the corrected equity, on the corrected `UnrealizedPl` (profit sign and `_convert` rows under "## Findings"): it is available exactly when the unrealised profit is, and it exceeds the balance by exactly that profit |
| Portfolio.EquityAsWritten | peoples_advisor/portfolio/portfolio.py:44-46 | `equity` as written, on the sign-flipped profit: available exactly when that profit is, and the balance when every position is flat |
| Portfolio.FreeMarginAsWritten | peoples_advisor/portfolio/portfolio.py:69-71 | `free_margin` as written exists exactly when there are no positions, and is then the balance; with any position whose equity exists, it raises the TypeError of `used_margin` |
| Portfolio.MarginLevelAsWritten | peoples_advisor/portfolio/portfolio.py:73-78 | `margin_level` as written is 0 without positions and raises with any position, flat or not |
| Portfolio.AccountFiguresAgree | peoples_advisor/portfolio/portfolio.py:44-78 | without positions the as-written and corrected equity, free margin and margin level agree (balance, balance, 0); with any position the as-written free margin and margin level do not exist |
| Portfolio.FreeMargin | peoples_advisor/portfolio/portfolio.py:69-71 | the corrected `free_margin`, on the corrected `UsedMargin` (`used_margin` row under "## Findings"; as written see `FreeMarginAsWritten`): it succeeds exactly when equity and used margin do, and then free margin plus used margin is the equity, so with positive prices and non-negative rates it never exceeds the equity (`FreeMarginAtMostEquity`) |
| Portfolio.MarginLevel | peoples_advisor/portfolio/portfolio.py:73-78 | the corrected `margin_level`, on the corrected `UsedMargin` (as written see `MarginLevelAsWritten`): it needs the used margin. With no margin used it is 0; otherwise the level times the used margin is 100 times the equity, so a non-negative equity gives a non-negative level (`MarginLevelNonNegative`) |
| Portfolio.EquityNoPositions | peoples_advisor/portfolio/portfolio.py:44-78 | in the corrected chain, with every position flat, equity and free margin are the balance and the margin level is 0. As written this holds only with no positions at all (`AccountFiguresAgree`) |
| Portfolio.FreeMarginAtMostEquity | peoples_advisor/portfolio/portfolio.py:62-71 | in the corrected chain, with positive prices and non-negative margin rates, free margin never exceeds equity. As written free margin exists only without positions, where it equals the equity |
| Portfolio.MarginLevelNonNegative | peoples_advisor/portfolio/portfolio.py:62-78 | in the corrected chain, with positive prices, non-negative rates and non-negative equity, the margin level is never negative. As written it is 0 or raises |
| Portfolio.ProfitSignAsWritten | peoples_advisor/portfolio/portfolio.py:35-41 | a long position whose bid has risen above its entry shows a loss as written, and a gain once corrected |
| Portfolio.HomeQuotedAsWritten | peoples_advisor/portfolio/portfolio.py:32-41 | a position in a pair quoted in the home currency cannot be valued as written, because it looks up the pair `HOME_HOME`. Corrected, its profit is `units * (bid - entry)` |
| Orders.TypeTag | peoples_advisor/order/forex/common/common.py:12-84 | every order kind carries a non-empty type tag |
| Orders.Trigger | peoples_advisor/order/forex/common/common.py:27-90 | `trigger` returns nothing exactly when the order has zero units, and it always fires at the trigger price itself. Away from that price, a long order of a buy-low kind (limit, take profit, market-if-touched) fires below the trigger and a long order of any other kind above it. A short order is the mirror image |
| Orders.TagsDistinct | peoples_advisor/order/forex/common/common.py:12-84 | the seven order kinds are distinct and their type tags differ |
| Orders.ExactlyOneUnconditional | peoples_advisor/order/common/common.py:9-41 | the market order is the only kind whose `conditional` flag is false |
| Orders.MirrorKinds | peoples_advisor/order/forex/common/common.py:27-90 | a buy-low kind of `n` units fires exactly where a stop kind of `-n` units with the same trigger fires |
| Orders.OppositeSides | peoples_advisor/order/forex/common/common.py:31-35 | reversing an order's side reverses its decision at every price but the trigger price, where both sides fire |
| FileNames.YearText | peoples_advisor/backtest/common/common.py:9 | `%Y` writes the year as decimal digits that read back as the year |
| FileNames.FourDigitYear | peoples_advisor/backtest/common/common.py:9 | a year from 1000 to 9999 is written with four characters |
| FileNames.StandardFileName | pa/backtest/common.py:9-12 | the earlier revision's name always ends in `].txt` |
| FileNames.StandardName | peoples_advisor/backtest/common/common.py:8-11 | the name begins with the from-date text and ends in `].txt`. `NameRoundTrip` reads it back |
| FileNames.ParseStandardName | peoples_advisor/backtest/common/common.py:8-11 | a name that reads as a history file name ends in `].txt` and has at least the 27 characters of two dates, a dash and the brackets |
| FileNames.DayRoundTrip | peoples_advisor/backtest/common/common.py:9 | with a four-digit year, `%Y.%m.%d` is ten characters long and reads back as the same calendar day |
| FileNames.NameRoundTrip | peoples_advisor/backtest/common/common.py:8-11 | the history file name gives back both calendar days and the instruments in order. This needs four-digit years, at least one instrument, and no instrument holding a dash. The copy in peoples_advisor/backtest/common.py builds the same name |
| FileNames.RevisionsNameAlike | pa/backtest/common.py:9-12 | the earlier `standard_file_name` takes the instruments first but builds the same name, and the name reads back to the same days and instruments |
| FileNames.LiveName | peoples_advisor/price/common/common.py:14-17 | a live log name starts with `LIVE-[` and ends with `]`, and it has no extension |
| FileNames.ParseLiveName | peoples_advisor/price/common/common.py:14-17 | only a 46-character text reads as a live log name |
| FileNames.StampRoundTrip | peoples_advisor/price/common/common.py:15 | with a four-digit year, `%Y.%m.%dT%H.%M.%S` is 19 characters long and reads back as the time cut to the whole second |
| FileNames.LiveRoundTrip | peoples_advisor/price/common/common.py:14-17 | with four-digit years a live log name is 46 characters long and gives back the start and end times, to the second, in order |
| FileNames.FileSize | peoples_advisor/backtest/common/common.py:21-26 | `filesize` yields 1, 2, ... up to the number of lines, one count per line, and returns the number of lines. The copy in peoples_advisor/backtest/common.py and `file_size` in pa/backtest/common.py behave the same |
| Candles.BaseSeconds | pa/api/oanda.py:55-64 | every unit letter the table knows (S, M, H, D, W, and a bare M for a 30-day month) lasts a positive number of seconds |
| Candles.UnitAsWritten | pa/api/oanda.py:64-66 | as written, the multiplier is the single character after the letter: a candle lasts the letter's seconds times that one digit |
| Candles.Unit | pa/api/oanda.py:64-66 | with the whole number after the letter read as the multiplier, a known letter and a positive multiplier give a positive candle length |
| Candles.UnitOfText | pa/api/oanda.py:64-66 | a granularity written as a unit letter followed by the digits of a positive number lasts that many units |
| Candles.UnitSingleDigit | pa/api/oanda.py:64-66 | the code as written and the corrected reading agree on a letter alone and on a letter with one digit |
| Candles.HourOfFifteenMinutes | pa/api/oanda.py:53-67 | an hour of M15 candles with no count: as written the call asks for 60 candles, corrected for 4 |
| Candles.FifteenMinutesMiscounted | pa/api/oanda.py:64-67 | `M15` is read as 60 seconds instead of 900, so an hour's range asks for 60 candles instead of 4 |
| Candles.CandleParams | pa/api/oanda.py:88-99 | `_get_instrument_candles_params` sets `count`, `granularity`, `start` and `end` exactly when each is truthy. Every other key of the caller's dictionary is kept unchanged, and so is each of those four keys when it is not set |
| Candles.Steps | pa/api/oanda.py:73 | every page asks for between 1 and 4000 candles |
| Candles.Paginate | pa/api/oanda.py:68-79 | when paging succeeds, at least the requested count has come back after the candles already held, which come first. Every request asks for 1 to 4000 candles at the call's granularity. Running out of responses, or an empty first page, is an error |
| Candles.StepsLength | pa/api/oanda.py:72-73 | a broker that fills its pages is asked ceil((count - running) / 4000) times |
| Candles.FullPages | pa/api/oanda.py:72-79 | a broker that fills every page returns exactly the missing candles, with each request asking for the next page size in turn |
| Candles.PaginateStep | pa/api/oanda.py:73-79 | one round asks for the next page from the current start, then carries on from the time of the last candle received |
| Candles.InstrumentCandles | pa/api/oanda.py:46-86 | with `asWritten` the granularity is read as lines 64-66 do (one digit), otherwise by the corrected `Unit` (multiplier row under "## Findings"). Either way the call raises for want of a range exactly when it has neither a count nor a start, or an end without a start. It refuses exactly a count above 5000 without a start. Every request carries the given granularity, or S5 when none is given |
| Candles.CountFromRange | pa/api/oanda.py:53-67 | for the length `unit` that the as-written or the corrected reading gives the granularity: without a count, the call makes one request for the whole number of candles between the start and now, and it sets the end to now |
| Candles.LargeCountPaged | pa/api/oanda.py:68-79 | with a count given the granularity is never read, so the as-written and corrected calls agree; a count above 5000, served in full, comes back complete in ceil(count / 4000) requests |
| Candles.CloseTradeBody | pa/api/oanda.py:136-138 | `close_trade` sends only `units`, which is ALL unless an amount is given |
| Candles.ClosePositionBody | pa/api/oanda.py:173-175 | `close_position` sends both `longUnits` and `shortUnits`, each ALL unless an amount is given |
| OandaTime.Pad | peoples_advisor/api/oanda/oanda_api.py:1756 | a zero-padded field has exactly its width, and its digits read back as the number |
| OandaTime.IsoFormat | peoples_advisor/api/oanda/oanda_api.py:1756 | `isoformat("T")` is 19 characters long, or 26 when there is a fraction of a second |
| OandaTime.Field | peoples_advisor/api/oanda/oanda_api.py:1746 | a fixed-width field reads as a number exactly when all its characters are digits |
| OandaTime.FromIsoFormat | peoples_advisor/api/oanda/oanda_api.py:1746-1748 | a text is read only in the shape `YYYY-MM-DD?HH:MM:SS`, optionally followed by `.ffffff`, and the result is a valid datetime, with no microseconds when the fraction is absent. `IsoRoundTrip` ties it to `isoformat` |
| OandaTime.IsoFields | peoples_advisor/api/oanda/oanda_api.py:1756 | every field of a formatted datetime sits at its fixed position with its separators |
| OandaTime.IsoRoundTrip | peoples_advisor/api/oanda/oanda_api.py:1746-1756 | `fromisoformat(isoformat(d))` is `d` for every valid datetime, with or without a fraction of a second |
| OandaTime.Truncate | peoples_advisor/api/oanda/oanda_api.py:1750 | `int` of a float truncates toward zero |
| OandaTime.ToDateTime | peoples_advisor/api/oanda/oanda_api.py:1743-1752 | any format other than RFC3339 and UNIX raises. In RFC3339 mode an empty text raises; otherwise a text ending in `Z` loses its last four characters, any other is read whole, and the result is what `fromisoformat` reads from that. In UNIX mode the result exists exactly when the text reads as a decimal |
| OandaTime.Stripped | peoples_advisor/api/oanda/oanda_api.py:1745-1748 | the slice `time_str[0:-4]` is taken only for a text ending in `Z`: it is a prefix four characters shorter, or empty when the text is shorter than four. Any other text is kept whole |
| OandaTime.FromDateTime | peoples_advisor/api/oanda/oanda_api.py:1754-1760 | any format other than RFC3339 and UNIX raises. In RFC3339 mode the result is a text ending in `000Z` |
| OandaTime.RfcRoundTrip | peoples_advisor/api/oanda/oanda_api.py:1743-1760 | in RFC3339 mode a datetime written for the broker reads back as the same datetime |
| Decimals.Show | peoples_advisor/event/event.py:55 | the text of a decimal is non-empty and uses only digits, a point and a minus sign |
| Decimals.ShowLayout | peoples_advisor/event/event.py:55 | the text starts with a minus sign exactly when the decimal is negative, and a decimal with `places` places ends with a point and exactly `places` digits. `ParseShow` reads it back |
| Decimals.Padded | peoples_advisor/event/event.py:55 | the coefficient's digits are padded so that at least one digit precedes the point, and they still read as the coefficient |
| Decimals.Parse | peoples_advisor/event/event.py:63-64 | `Decimal(s)` accepts only non-empty text of digits, at most one point and a leading minus sign. The result is negative exactly when the text starts with a minus sign, and it has fewer places than the text has characters |
| Decimals.ParseWhole | peoples_advisor/event/event.py:63-64 | a signed run of digits reads as that whole number |
| Decimals.ParseFraction | peoples_advisor/event/event.py:63-64 | a signed `a.b` reads as the digits of `ab` with `len(b)` decimal places |
| Decimals.ParseShow | peoples_advisor/event/event.py:55-64 | `Decimal(str(d))` is `d`, with the same sign and number of places |
| Decimals.RoundHalfUp | pa/peoples_advisor.py:7 | ROUND_HALF_UP gives the nearest integer, with ties away from zero, and keeps the sign |
| Decimals.RoundHalfUpMonotone | pa/peoples_advisor.py:7 | rounding preserves order |
| Decimals.RoundHalfUpWhole | pa/peoples_advisor.py:7 | a whole number is its own rounding |
| Decimals.Quantize | pa/backtest/oanda_backtest.py:126-127 | `quantize` keeps the requested places and the sign, and it lands within half a step of the value: it rounds the value counted in steps |
| Decimals.QuantizeMonotone | pa/backtest/oanda_backtest.py:126-127 | quantizing preserves order |
| Decimals.QuantizeOwnPlaces | pa/backtest/oanda_backtest.py:126-127 | a decimal quantized to its own number of places keeps its value |
| Unofficial.HexDigit | peoples_advisor/api/oanda/unofficial_oanda_api.py:51 | every value below 16 has a hex digit that reads back as it |
| Unofficial.Pairs | peoples_advisor/api/oanda/unofficial_oanda_api.py:51 | an even-length text decodes exactly when every character is a hex digit, into one byte per pair of digits |
| Unofficial.HexDecode | peoples_advisor/api/oanda/unofficial_oanda_api.py:48-52 | `_hex_decode` succeeds exactly when every character is a hex digit, and gives one byte per pair of digits. An odd-length text gains a leading `0`, so its first byte is its first digit's value. `HexRoundTrip` ties it to encoding |
| Unofficial.PadKeepsHex | peoples_advisor/api/oanda/unofficial_oanda_api.py:49-50 | the padding `0` never turns a hex text into a non-hex one, or the reverse |
| Unofficial.HexRoundTrip | peoples_advisor/api/oanda/unofficial_oanda_api.py:48-52 | decoding the lower-case hex of any bytes gives the bytes back |
| Unofficial.SwapPermutes | peoples_advisor/api/oanda/unofficial_oanda_api.py:61 | the swap of two schedule entries permutes the schedule |
| Unofficial.KsaUpToPermutes | peoples_advisor/api/oanda/unofficial_oanda_api.py:57-61 | every round of key scheduling keeps the schedule a permutation of 0..255 |
| Unofficial.Ksa | peoples_advisor/api/oanda/unofficial_oanda_api.py:56-61 | key scheduling leaves 256 entries, and every value from 0 to 255 is among them |
| Unofficial.PrgaUpToPermutes | peoples_advisor/api/oanda/unofficial_oanda_api.py:66-69 | the generation loop keeps the schedule a permutation of the one key scheduling produced |
| Unofficial.XorCancel | peoples_advisor/api/oanda/unofficial_oanda_api.py:70 | masking a byte twice with the same byte gives it back |
| Unofficial.MaskedAt | peoples_advisor/api/oanda/unofficial_oanda_api.py:66-70 | output byte `m` is input byte `m` masked with the keystream byte of round `m` |
| Unofficial.Rc4 | peoples_advisor/api/oanda/unofficial_oanda_api.py:55-71 | `_rc4decrypt` fails only on an empty key, which divides by zero. Otherwise its output is as long as its input |
| Unofficial.Rc4At | peoples_advisor/api/oanda/unofficial_oanda_api.py:55-71 | each output byte is the input byte masked with a keystream byte that depends on the key and the position alone |
| Unofficial.Rc4Involution | peoples_advisor/api/oanda/unofficial_oanda_api.py:55-71 | decrypting the decryption with the same key gives the text back |
| Unofficial.SameKeystream | peoples_advisor/api/oanda/unofficial_oanda_api.py:66-70 | two texts under the same key are masked by the same keystream |
| Unofficial.PrgaNext | peoples_advisor/api/oanda/unofficial_oanda_api.py:66-70 | round `k + 1` of generation follows from round `k` and emits keystream byte `k` |
| Unofficial.Rc4Decrypt | peoples_advisor/api/oanda/unofficial_oanda_api.py:55-71 | the loops as written, on a mutable schedule, compute the functional RC4 above |
| Unofficial.PriceDict | peoples_advisor/api/oanda/unofficial_oanda_api.py:74-79 | the loop over the lines fails exactly when some line has fewer than five `=`-separated fields |
| Unofficial.PriceDictKeys | peoples_advisor/api/oanda/unofficial_oanda_api.py:74-79 | the dictionary's names are exactly the first fields of the lines |
| Unofficial.PriceDictLastWins | peoples_advisor/api/oanda/unofficial_oanda_api.py:78 | the last line with a given name sets its bid, ask and spread |
| Unofficial.ToPriceDict | peoples_advisor/api/oanda/unofficial_oanda_api.py:74-79 | `_to_price_dict` succeeds exactly when every newline-separated line has all the fields it reads |
| Unofficial.TrailingNewlineRaises | peoples_advisor/api/oanda/unofficial_oanda_api.py:76-78 | a text ending in a newline has an empty last line, and that raises |
| OandaApi.ConditionalUpdate | peoples_advisor/api/oanda/oanda_api.py:15-17 | `_conditional_update` sets the key to the value exactly when the condition is not None. The test `condition is not bool` compares against the type, so it always holds |
| OandaApi.ConditionalUpdateFrame | peoples_advisor/api/oanda/oanda_api.py:15-17 | a conditional update leaves every other key as it was |
| OandaApi.FalseConditionAdds | peoples_advisor/api/oanda/oanda_api.py:15-17 | a condition of `False` still adds its key; only None leaves the dictionary unchanged |
| OandaApi.ExtensionsDict | peoples_advisor/api/oanda/oanda_api.py:43-44 | client extensions serialise to exactly `id`, `tag` and `comment` |
| OandaApi.MergeExtensions | peoples_advisor/api/oanda/oanda_api.py:75-83 | details merge their extensions' three keys at the top level, or nothing when there are none |
| OandaApi.MergeExtensionsFrame | peoples_advisor/api/oanda/oanda_api.py:75-83 | merging extensions leaves every other key as it was |
| OandaApi.MakeStopLossDetails | peoples_advisor/api/oanda/oanda_api.py:91-122 | the stop-loss details constructors raise exactly when price and distance are both missing or both truthy. Otherwise they keep both |
| OandaApi.ExactlyOneOfPriceDistance | peoples_advisor/api/oanda/oanda_api.py:116-117 | for non-zero amounts, the constructors accept exactly one of price and distance |
| OandaApi.DetailsDict | peoples_advisor/api/oanda/oanda_api.py:77-83 | `as_dict` of any details raises exactly when the time in force is GTD without a GTD time |
| OandaApi.DetailsDictTime | peoples_advisor/api/oanda/oanda_api.py:77-83 | a serialised details object always has a time in force and a `gtdTime` key. The condition is a bool, so it is never None |
| OandaApi.DetailsDictPrice | peoples_advisor/api/oanda/oanda_api.py:77-221 | take-profit details always name their price and trailing stop-loss details never do. The stop-losses name it only when it is truthy |
| OandaApi.DetailsDictDistance | peoples_advisor/api/oanda/oanda_api.py:124-221 | every kind but take-profit names its distance exactly when it is truthy |
| OandaApi.Serialise | peoples_advisor/api/oanda/oanda_api.py:305-340 | a given part's `as_dict` fails exactly when it is a GTD details object without a time |
| OandaApi.EagerUpdates | peoples_advisor/api/oanda/oanda_api.py:305-340 | the updates as written, which call `as_dict` before testing the part, succeed exactly when every part is given and serialises |
| OandaApi.LazyUpdates | peoples_advisor/api/oanda/oanda_api.py:305-340 | with None parts skipped, the updates fail only on a part that cannot serialise. When every part is given they agree with the updates as written |
| OandaApi.LazyUpdatesKeys | peoples_advisor/api/oanda/oanda_api.py:305-340 | the corrected updates keep every key they do not own. They hold a key exactly when it was there or a given part sends it |
| OandaApi.LazyKey | peoples_advisor/api/oanda/oanda_api.py:305-340 | `LazyUpdatesKeys` for one key |
| OandaApi.OnFillAsWrittenNeedsAll | peoples_advisor/api/oanda/oanda_api.py:296-341 | a market or limit body as written serialises only when all six on-fill parts are given |
| OandaApi.OnFillBodyOk | peoples_advisor/api/oanda/oanda_api.py:296-341 | the corrected on-fill updates fail only on a part that cannot serialise |
| OandaApi.OnFillAgree | peoples_advisor/api/oanda/oanda_api.py:296-341 | with all six parts given, the corrected and the as-written updates agree |
| OandaApi.PartsOwnOnly | peoples_advisor/api/oanda/oanda_api.py:305-340 | the on-fill updates touch none of the base keys |
| OandaApi.PartsSend | peoples_advisor/api/oanda/oanda_api.py:305-340 | an on-fill key is sent exactly when its part is given |
| OandaApi.NotOwned | peoples_advisor/api/oanda/oanda_api.py:305-340 | updates that never name a key neither own it nor send it |
| OandaApi.OwnedAt | peoples_advisor/api/oanda/oanda_api.py:305-340 | a key named by one update alone is sent exactly when that update's part is given |
| OandaApi.BodyKey | peoples_advisor/api/oanda/oanda_api.py:296-341 | a key outside the on-fill keys is in the corrected body exactly when it is in the base, with the same value |
| OandaApi.BodyOnFillKey | peoples_advisor/api/oanda/oanda_api.py:296-341 | an on-fill key is in the corrected body exactly when the base has it or its part is given |
| OandaApi.DefaultMarket | peoples_advisor/api/oanda/oanda_api.py:235-294 | `MarketOrderRequest(instrument, units)` is a FOK order with position fill DEFAULT and no on-fill part |
| OandaApi.MarketDictAsWritten | peoples_advisor/api/oanda/oanda_api.py:296-341 | `MarketOrderRequest.as_dict` as written succeeds exactly when all six parts are given and serialise |
| OandaApi.MarketDict | peoples_advisor/api/oanda/oanda_api.py:296-341 | the corrected market body fails exactly when a given on-fill part cannot serialise. On success it is the head with the on-fill parts added: the head's other keys keep their values, nothing else is added, each given part's key holds its `as_dict()`, and a part left at None leaves its key as the head had it |
| OandaApi.OnFillContents | peoples_advisor/api/oanda/oanda_api.py:305-340 | the on-fill updates succeed exactly when every given part serialises, and then the body is the head with those parts added |
| OandaApi.LazyValue | peoples_advisor/api/oanda/oanda_api.py:305-340 | in the corrected updates each given part's key ends up holding that part's `as_dict()` |
| OandaApi.Kept | peoples_advisor/api/oanda/oanda_api.py:297-340 | a key outside the on-fill keys is in the body exactly when it is in the head, with the head's value |
| OandaApi.MarketBodyKeys | peoples_advisor/api/oanda/oanda_api.py:297-340 | a body carrying the market head keeps its type, instrument, units, time in force and position fill, and holds `priceBound` exactly when the request has one |
| OandaApi.MarketHeadKeys | peoples_advisor/api/oanda/oanda_api.py:297-304 | the market body starts from type MARKET, the instrument, the units text, the time in force and the position fill |
| OandaApi.MarketHeadBound | peoples_advisor/api/oanda/oanda_api.py:304 | the price bound is sent exactly when one is given |
| OandaApi.MarketHeadNoOnFill | peoples_advisor/api/oanda/oanda_api.py:297-304 | the market base holds no on-fill key |
| OandaApi.MarketDictBase | peoples_advisor/api/oanda/oanda_api.py:296-341 | the corrected market body keeps type MARKET, the instrument, the units text, the time in force and the position fill, and holds `priceBound` exactly when one is given |
| OandaApi.MarketDictOnFill | peoples_advisor/api/oanda/oanda_api.py:305-340 | the corrected market body sends an on-fill key exactly when its part is given |
| OandaApi.DefaultMarketFails | peoples_advisor/api/oanda/oanda_api.py:296-310 | the default market order cannot be serialised as written: `None.as_dict()` raises on its take-profit part |
| OandaApi.DefaultMarketBody | peoples_advisor/api/oanda/oanda_api.py:235-341 | the corrected serialiser sends the default market order as its five base keys and nothing else |
| OandaApi.MarketAgree | peoples_advisor/api/oanda/oanda_api.py:296-341 | with every part given, the corrected and the as-written market bodies agree |
| OandaApi.NoneGiven | peoples_advisor/api/oanda/oanda_api.py:305-340 | with no part given, the corrected updates change nothing |
| OandaApi.LimitDictAsWritten | peoples_advisor/api/oanda/oanda_api.py:413-462 | `LimitOrderRequest.as_dict` raises on GTD without a time. Otherwise it succeeds exactly when all six parts are given and serialise |
| OandaApi.LimitDict | peoples_advisor/api/oanda/oanda_api.py:413-462 | the corrected limit body fails exactly on GTD without a time, which raises its own error, or on a given part that cannot serialise. On success it is the head with the on-fill parts added, as for the market body |
| OandaApi.LimitDictKeys | peoples_advisor/api/oanda/oanda_api.py:413-427 | the corrected limit body always has type LIMIT, the price text and a `gtdTime` key |
| OandaApi.LimitDictTakeProfit | peoples_advisor/api/oanda/oanda_api.py:428-432 | the corrected limit body sends a take-profit exactly when one is given |
| OandaApi.LimitHeadKeys | peoples_advisor/api/oanda/oanda_api.py:413-427 | the limit base names its type, its price and a GTD time, and no take-profit |
| OandaApi.LimitAgree | peoples_advisor/api/oanda/oanda_api.py:413-462 | with every part given, the corrected and the as-written limit bodies agree |
| OandaApi.ExtensionsAsWritten | peoples_advisor/api/oanda/oanda_api.py:772-777 | the dependent order requests evaluate `client_extensions.as_dict()` first, so None raises. Given extensions are stored under `clientExtensions` |
| OandaApi.WithExtensions | peoples_advisor/api/oanda/oanda_api.py:772-777 | with None skipped, `clientExtensions` is sent exactly when given, as the source sends it |
| OandaApi.WithExtensionsFrame | peoples_advisor/api/oanda/oanda_api.py:772-777 | adding extensions leaves every other key as it was |
| OandaApi.TakeProfitDictAsWritten | peoples_advisor/api/oanda/oanda_api.py:759-778 | `TakeProfitOrderRequest.as_dict` succeeds exactly when a GTD order has its time and extensions are given |
| OandaApi.TakeProfitDict | peoples_advisor/api/oanda/oanda_api.py:759-778 | the corrected take-profit body fails only on GTD without a time. With extensions it equals the source's body |
| OandaApi.TakeProfitHeadKeys | peoples_advisor/api/oanda/oanda_api.py:760-771 | the take-profit body names type TAKE_PROFIT and its trade, always has a `gtdTime` key, and has `clientTradeID` exactly when one is given |
| OandaApi.TakeProfitHeadNoExtensions | peoples_advisor/api/oanda/oanda_api.py:760-771 | the take-profit base holds no extensions |
| OandaApi.TakeProfitDictKeys | peoples_advisor/api/oanda/oanda_api.py:759-778 | the corrected take-profit body keeps the base keys and sends extensions exactly when given |
| OandaApi.MakeStopLossOrder | peoples_advisor/api/oanda/oanda_api.py:780-829 | the stop-loss order constructors raise exactly when price and distance are both missing or both truthy |
| OandaApi.StopLossHeadKeys | peoples_advisor/api/oanda/oanda_api.py:831-842 | the stop-loss base names its (guaranteed or plain) type and holds price and distance exactly when they are truthy |
| OandaApi.StopLossDictAsWritten | peoples_advisor/api/oanda/oanda_api.py:830-849 | `StopLossOrderRequest.as_dict` succeeds exactly when a GTD order has its time and extensions are given |
| OandaApi.StopLossDict | peoples_advisor/api/oanda/oanda_api.py:830-849 | the corrected stop-loss body fails only on GTD without a time. It names the price or the distance when truthy and extensions when given, and equals the source's body when extensions are given |
| OandaApi.StopLossNamesOne | peoples_advisor/api/oanda/oanda_api.py:780-849 | a constructed stop-loss order with non-zero amounts sends exactly one of price and distance |
| OandaApi.CloseTradeBody | peoples_advisor/api/oanda/oanda_api.py:1408 | `close_trade` sends only `units`: "ALL" unless a number is given |
| OandaApi.SideAsWritten | peoples_advisor/api/oanda/oanda_api.py:1542-1553 | as written, a side is sent exactly when it is a string other than "ALL"; a number is dropped |
| OandaApi.Side | peoples_advisor/api/oanda/oanda_api.py:1542-1553 | the corrected side also sends a number, as its text, and otherwise agrees with the source |
| OandaApi.Put | peoples_advisor/api/oanda/oanda_api.py:1541-1555 | an optional update adds its key exactly when a value is given |
| OandaApi.ClosePositionBody | peoples_advisor/api/oanda/oanda_api.py:1541-1555 | `close_instrument_position` sends each units key exactly when its side is sent. It sends each extensions key exactly when extensions are given |
| OandaApi.PartialCloseDropped | peoples_advisor/api/oanda/oanda_api.py:1518-1555 | closing a number of long units sends no `longUnits` as written, so the whole side closes. The corrected body sends the number. The defaults send an empty body |
| OandaApi.DependentAsWritten | peoples_advisor/api/oanda/oanda_api.py:1446-1469 | as written, a field raises on a string other than NO_CHANGE and CANCEL. It sends null only for CANCEL, and never sends a details object |
| OandaApi.DependentField | peoples_advisor/api/oanda/oanda_api.py:1446-1469 | the corrected field sends a details object as its `as_dict()` and otherwise agrees with the source |
| OandaApi.ModifyBody | peoples_advisor/api/oanda/oanda_api.py:1411-1474 | `modify_trade_dependent_orders` fails exactly when some field fails. Its keys are among the four field names, and each field's key is present exactly when that field sends a value, holding that value |
| OandaApi.DetailsNeverSent | peoples_advisor/api/oanda/oanda_api.py:1446-1451 | a take-profit given as details sends nothing as written; the corrected body sends it |
| OandaApi.Popped | peoples_advisor/api/oanda/oanda_api.py:1740 | popping "status" removes that key and keeps every other |
| OandaApi.Stream | peoples_advisor/api/oanda/oanda_api.py:1736-1741 | no yielded price keeps its status. The loop fails (`KeyError`) exactly when some tradeable PRICE message has no status |
| OandaApi.StreamYieldsPrices | peoples_advisor/api/oanda/oanda_api.py:1738-1741 | every yielded message is a tradeable PRICE message with its status popped |
| OandaApi.StreamYieldsAll | peoples_advisor/api/oanda/oanda_api.py:1738-1741 | when the loop does not fail, every tradeable PRICE message is yielded |
| Cli.FirstIndex | peoples_advisor/cli/cli.py:59 | the first occurrence of a character, or none when it does not occur |
| Cli.DatetimeMatch | peoples_advisor/cli/cli.py:59 | a match of the datetime pattern starts with `(` and ends at a `)` inside the text |
| Cli.Fields | peoples_advisor/cli/cli.py:238 | reading the comma-separated pieces gives one integer per piece |
| Cli.FieldsValues | peoples_advisor/cli/cli.py:238 | the pieces read exactly when each is an integer, each into the integer it spells |
| Cli.Padded | peoples_advisor/cli/cli.py:239-240 | the list is filled with zeros up to six values, keeping what it held |
| Cli.CliDatetime | peoples_advisor/cli/cli.py:233-248 | `cli_datetime` raises `ArgumentTypeError` exactly when the pattern does not match at the start. A datetime it returns is valid and whole to the second |
| Cli.ParenRefused | peoples_advisor/cli/cli.py:238 | `int` refuses a piece holding a `)` |
| Cli.ShortMatchRefused | peoples_advisor/cli/cli.py:234-248 | a text the pattern matches only in part is refused as an invalid value, because the sliced text's last piece keeps a `)` |
| Cli.WholeMatchReads | peoples_advisor/cli/cli.py:234-248 | a text the pattern matches whole always reads as integers, so only `datetime` itself can still refuse it |
| Cli.DatetimeTextRoundTrip | peoples_advisor/cli/cli.py:233-248 | typing the first 3 to 6 fields of a valid datetime, the rest being zero, reads back that datetime |
| Cli.CliGranularity | peoples_advisor/cli/cli.py:251-255 | `cli_granularity` accepts exactly the listed granularities and returns the text unchanged |
| Cli.GranularitiesUnderstood | peoples_advisor/cli/cli.py:61-83 | every granularity the command line accepts turns into a positive number of seconds for the candle request |
| Cli.CliFilename | peoples_advisor/cli/cli.py:258-263 | `cli_filename` returns a non-empty name unchanged, or refuses it with its own message |
| Cli.FilenameFirstOnly | peoples_advisor/cli/cli.py:259 | only the first character decides, since the pattern is not anchored at the end |
| Cli.FilenameLeadingChars | peoples_advisor/cli/cli.py:259 | a name starting with `-` is accepted; one starting with `^` or `\` is refused |
| Cli.HistoryFileName | pa/cli/cli.py:805-810 | the history file name always ends in `.txt` |
| Cli.AliasNamesFile | pa/cli/cli.py:805-810 | an accepted alias names the file, with `.txt` added |
| Cli.StandardNameNotAlias | pa/cli/cli.py:261-268 | a standard history name starts with a digit, so the command line would refuse it as an alias |
| Cli.ErrorText | peoples_advisor/cli/cli.py:575-583 | the plain error line is framed by `    Error: ` and a newline |
| Cli.Renamed | peoples_advisor/cli/cli.py:576-583 | the renaming in `error` leaves a message holding none of the internal argument names as it was. `ErrorTextNamesFrom` shows a name being renamed |
| Cli.ErrorTextKeeps | peoples_advisor/cli/cli.py:659-671 | a plain message is shown word for word inside the frame |
| Cli.ErrorTextInvalidCommand | peoples_advisor/cli/cli.py:662-664 | argparse's complaint about an unknown command is shortened to `invalid command: ` |
| Cli.ErrorTextNamesFrom | peoples_advisor/cli/cli.py:576-583 | the positional `from_time` is called FROM in the error line |
| Cli.LexTokens | peoples_advisor/cli/cli.py:167-190 | the lexer emits two fragments per token |
| Cli.ClassifyKinds | peoples_advisor/cli/cli.py:167-187 | a token is coloured as a command exactly when it is one of the seven command words. A flag starts with `-` and a letter and is neither a history file nor a granularity, and a plain token is neither a flag nor a history file |
| Cli.TokensText | peoples_advisor/cli/cli.py:167-191 | the fragments' text is the tokens joined by spaces, plus a trailing space |
| Cli.LexLine | peoples_advisor/cli/cli.py:162-189 | the coloured line has two fragments per space-separated token and shows exactly the typed line, plus one trailing space |
| Cli.LexFragments | peoples_advisor/cli/cli.py:167-190 | fragment `2k` carries token `k` in the style of its kind; fragment `2k+1` is the space |
| Cli.AcceptedDatetimeIsVariable | peoples_advisor/cli/cli.py:178-179 | a text the datetime type accepts is coloured as a value |
| Cli.CommandsAreWords | peoples_advisor/cli/cli.py:61-83 | every command starts with a lower-case letter and every granularity with an upper-case one |
| Cli.AcceptedGranularityIsVariable | peoples_advisor/cli/cli.py:180-181 | every granularity the command line accepts is coloured as a value |
| Cli.BeforeOrder | peoples_advisor/cli/cli.py:1047 | comparing naive datetimes is a strict total order |
| Cli.TurnAsWritten | peoples_advisor/cli/cli.py:1045-1049 | as written, a history range whose FROM is not before TO shows the usage and an error, yet the command is still dispatched |
| Cli.EmptyRangeDispatched | peoples_advisor/cli/cli.py:1045-1049 | a request for the empty range from an instant to itself is dispatched |
| Cli.Turn | peoples_advisor/cli/cli.py:1045-1049 | the loop as intended: a command that runs is the one typed, and nothing is shown for it |
| Cli.TurnRuns | peoples_advisor/cli/cli.py:1045-1049 | a command runs exactly when it is not a reversed history range, so every history request that runs spans a non-empty range. A refused one shows the usage and one error |
| Text.Split | peoples_advisor/event/event.py:59 | `s.split(c)` gives at least one piece, and the first piece is a prefix of `s` |
| Text.SplitPiecesFree | peoples_advisor/event/event.py:59 | no piece of a split holds the separator |
| Text.SplitJoin | peoples_advisor/event/event.py:55-59 | splitting the joined fields at a separator none of them holds gives the fields back |
| Text.JoinSplit | peoples_advisor/event/event.py:59 | joining the pieces of a split with the separator gives the text back |
| Text.JoinExcludes | peoples_advisor/event/event.py:55 | a character in neither the fields nor the separator is not in the joined text |
| Text.ReplaceAbsent | peoples_advisor/event/event.py:202 | `replace` leaves a text without the pattern unchanged |
| Text.ReplaceOnce | peoples_advisor/event/event.py:202 | a text with exactly one occurrence of the pattern gets exactly that occurrence replaced |
| Text.NatToDigits | peoples_advisor/event/event.py:55 | `str` of a natural number is a non-empty run of digits |
| Text.NatDigitsRoundTrip | peoples_advisor/event/event.py:55-62 | reading the digits of a natural number gives it back |
| Text.IntRoundTrip | peoples_advisor/event/event.py:55-62 | `int(str(i))` is `i` for every integer, negative ones included |
| Text.Title | peoples_advisor/event/event.py:203 | `title()` over ASCII keeps the length and every non-letter. A letter is upper-cased when it starts the text or follows a non-letter, and lower-cased otherwise |
| Text.Replace | peoples_advisor/event/event.py:202 | `replace` keeps the length when the replacement is as long as the pattern, and replacing a pattern by itself changes nothing. `ReplaceAbsent` and `ReplaceOnce` say where it acts |
| Text.ParseInt | peoples_advisor/event/event.py:55-62 | `int(s)` refuses the empty text, reads every digit run as a non-negative number, and otherwise reads only a minus sign followed by digits, as a number at most 0. `IntRoundTrip` ties it to `str` |
| Text.TitleAfter | peoples_advisor/event/event.py:203 | title-casing the rest of a text keeps its length and every non-letter. A letter is upper-cased when it starts a word, that is when the character before it is not a letter (or, at the start, when the text before was not a letter), and lower-cased otherwise |
| Text.TitleIgnoresCase | peoples_advisor/event/event.py:203 | texts that differ only in letter case title-case alike, so `price`, `PRICE` and `Price` name one class |
| Unofficial.Swap | peoples_advisor/api/oanda/unofficial_oanda_api.py:61 | the swap exchanges the two entries and keeps the length |
| Unofficial.Schedule256 | peoples_advisor/api/oanda/unofficial_oanda_api.py:57-61 | the key-scheduling loops as written, on a mutable list of 256 entries starting from `range(256)`, leave exactly the functional schedule `Ksa` of a non-empty key. `Rc4Decrypt` answers the empty key, on which `i % len(key)` divides by zero, before calling it |
| Unofficial.KsaRound | peoples_advisor/api/oanda/unofficial_oanda_api.py:59-61 | one pass of the key-scheduling loop on the mutable list, updating `j` and swapping entries `i` and `j`, is one functional key-scheduling step |
| Unofficial.HexEncode | peoples_advisor/api/oanda/unofficial_oanda_api.py:48-52 | the hex text of a byte string has two digits per byte |
| Unofficial.Masked | peoples_advisor/api/oanda/unofficial_oanda_api.py:66-70 | masking the first `k` bytes gives `k` bytes |
| Unofficial.Round | peoples_advisor/api/oanda/unofficial_oanda_api.py:66-70 | one pass of the generation loop on the mutable schedule is one functional generation step, and it emits that step's keystream byte |
| Unofficial.Generate | peoples_advisor/api/oanda/unofficial_oanda_api.py:63-71 | the generation loop on the mutable schedule masks the text with the functional keystream |
| Unofficial.SplitLastEmpty | peoples_advisor/api/oanda/unofficial_oanda_api.py:75 | a text that ends in a newline splits into lines whose last one is empty |

## Left out

- HTTP and streaming I/O: `_oanda_api_call`, `_oanda_api_stream_call`, the endpoint modules of `pa/api`, `get_historical_spreads` and the fetches of `get_all_current_prices`. The broker's answers are inputs instead: candle pages, spread lists, stream lines and the set of listed instruments.
- The read-only client calls of `OandaApi`, such as accounts, orders, trades, positions, transactions and books. They only forward their arguments to HTTP.
- `StopOrderRequest` and `MarketIfTouchedOrderRequest` (peoples_advisor/api/oanda/oanda_api.py:538-588 and 665-715). Their `as_dict` is the modelled limit-order body (`LimitDictAsWritten`) under another type tag, plus one more field: `priceBound`, the text of `price_floor`, sent when `price_floor` is truthy.
- `TrailingStopLossOrderRequest` (peoples_advisor/api/oanda/oanda_api.py:926-986). Its `as_dict` sends the type, `tradeID`, the time in force and the trigger condition, then `distance` only when it is truthy, the GTD time, `clientTradeID` and the client extensions. It has the GTD check and the eager `client_extensions.as_dict()` of the modelled `StopLossDictAsWritten`. Unlike the stop-loss order it never sends `price`, its constructor does not check price against distance, and it has no guaranteed flag.
- Threads: the pricing thread started on START, thread joins and daemon flags. The dispatcher and the feeds run single-threaded, and the event queue is a multiset from which some event of least priority is taken. The source's heap gives no order among equal priorities.
- The file system: `history_filepath` and `history_file_path` unlinking, opening and writing files, and the completers' directory scans. A history file is a sequence of lines; the history directory is a set of names.
- The terminal: prompt sessions, progress bars, coloured `FormattedText`, the usage texts, the `SystemExit` handling that prints the usage for the command named in argparse's output, and `KeyboardInterrupt`. Only the plain-text branch of `error` is modelled.
- Python `eval`: `SignalEvent.from_repr` evaluates its info field, and `event_from_repr` evaluates the whole call. Only the info text `None` and the dispatch on the first field are modelled. Any other info decodes to an error.
- Floats: `str` of a float unit or price is kept as an opaque text next to its value.
- Decimal precision: arithmetic on `Decimal` is exact `real` arithmetic. Python's default context rounds products and quotients to 28 significant digits; only the explicit `quantize` with ROUND_HALF_UP is modelled.
- Wall-clock and local time: `datetime.now()` becomes the `end` argument of the candle request. The conversions between local `datetime` and epoch seconds (`timestamp`, `fromtimestamp`) are function parameters, and the UNIX branch of the time conversion takes them as such.
- Factories and entry points: `backtest.py`, `price.py`, `api/api.py`, `main.py`, `pa/peoples_advisor.py` and `setup.py`. Only the ROUND_HALF_UP rounding mode set in `pa/peoples_advisor.py` is kept.
- Abstract bases with no bodies: the signal and sizing bases and the `Base*Gen` classes. Strategies are functions from an event and a counter to an event and a counter.
- Cross-revision imports: `pa/backtest/oanda_backtest.py` imports `QuoteEvent` and `event_from_repr`, which only `peoples_advisor/event/event.py` defines. It also imports a `standard_filename` that `pa/backtest/common.py` does not define. The replay therefore uses the newer event codec. `pa/price/oanda_price.py` builds an `InfoEvent` that no module defines; the model gives it an `Info` event kind, which the older control loop handles.
- `cli_filename`'s character class `[a-zA-Z-_\[\].]`: Python reads the `-` after the completed range `A-Z` as a literal. The class is therefore the letters and `- _ [ ] .`, so a name starting with `-` is accepted and one starting with `^` or `\` is not. The model follows this reading of the pattern, not the reading of `Z-_` as a range.
- `Control` and `LegacyControl` do not model the portfolio updates, which are commented out in the newer revision. In the older revision the model records that a PRICE or INFO event reaches the portfolio, but not the update itself.
- Unofficial.Schedule256, Unofficial.KsaRound, Unofficial.Round, Unofficial.Generate: these state their effect on a mutable array (`fresh`, `old`, `modifies`). The functional `Ksa`, `Rc4At` and `Rc4Involution` carry the properties, and `Rc4Decrypt` ties the array loops to them.
- `sandbox.py` and `sandbox_two.py`: they refer to names that are never defined.
- OandaTime.FromIsoFormat: reads only the two shapes `isoformat` writes, `YYYY-MM-DD?HH:MM:SS` and the same with `.ffffff`. Python's `fromisoformat` also reads a bare date, `THH`, `THH:MM`, a three-digit fraction and `+HH:MM` offsets; these are refused here. In particular the slice of a whole-second time ending in `Z` leaves `YYYY-MM-DDTHH:MM`, which Python reads with its seconds dropped and the model refuses. The round trip with the `000Z` suffix of `datetime_to_oanda_time` is exact.
- OandaTime.ToDateTime: the UNIX branch reads the text with `Decimals.Parse` instead of `float`, so exponents, `inf` and `nan` are refused, and `fromtimestamp` is a parameter.
- Decimals.Parse: `Decimal(s)` also accepts a leading `+`, surrounding whitespace, `.5`, `1.`, exponents such as `1E-7`, and `NaN` or `Infinity`. Only an optional minus sign, digits and an optional point followed by digits are read; anything else is refused.
- Decimals.Show: `str(Decimal)` switches to exponent notation (`1E-7`) for small exponents. The model always writes plain notation, which is what the backtest produces for prices with a handful of places.
- Text.ParseInt: `int(s)` also accepts a leading `+`, surrounding whitespace and underscores between digits (`+5`, ` 5`, `1_0`). These are refused here.
- Unofficial.HexDecode: `int(pair, 16)` also accepts a sign or a space inside a pair (`+a`, ` a`). Only two hex digits are read here.
- Text.Title: ASCII letters only. Python's `str.title` also cases other Unicode letters and may change the length (`ß` becomes `Ss`, `ſtart` becomes `Start`). The event tags it is applied to are ASCII.
- Text.TitleAfter: ASCII letters only, as for `Text.Title`.
- Backtest.MergeComplete: completeness is proved for one page per instrument. With several pages the ticks are still ordered and well-formed (`MergeSortedAscending`, `MergeFrom`), but that no candle is dropped is not proved.
- Backtest.MergeSortedAscending: order only; the ticks are shown to be the pending candles by `MergeComplete`, for one page per instrument.
- Backtest.BuildAscending: order only; completeness is `BuildComplete`, for one page per instrument.
- Backtest.BuildComplete: completeness is proved for one page per instrument, as for `MergeComplete`.
- Backtest.MergeFrom: its own contract states what is written, not that all is written; `MergeComplete` states the latter for single pages.
- Backtest.Build: as for `MergeFrom`; `BuildComplete` states completeness for single pages.
- Events.ReprRoundTrip: a time is whole epoch seconds here. `__repr__` writes `int(self.time.timestamp())`, so in Python the round trip returns the same event only for whole-second times; a time with microseconds comes back truncated.
- Portfolio.Equity: states the corrected equity, built on the corrected profit sign and conversion. The equity as written is `EquityAsWritten`.
- Portfolio.FreeMargin: states the corrected free margin, built on the corrected `used_margin`. As written it raises for any position (`FreeMarginAsWritten`).
- Portfolio.MarginLevel: states the corrected margin level. As written it raises for any position (`MarginLevelAsWritten`).
- Portfolio.EquityNoPositions: states the corrected values for flat positions. As written they hold only with no positions at all (`AccountFiguresAgree`).
- Portfolio.FreeMarginAtMostEquity: a property of the corrected chain. As written the free margin exists only without positions.
- Portfolio.MarginLevelNonNegative: a property of the corrected chain. As written the level is 0 or raises.
- Candles.InstrumentCandles: the as-written one-digit reading and the corrected reading are both modelled, chosen by `asWritten`.
- Candles.Paginate: an empty later page leaves the running count and the start unchanged, so the source asks for the same page again, and it never stops while the broker keeps answering with empty pages. The model sends the same request once for each empty page it is given and ends with `NoResponse` when the given pages run out, since a total function cannot loop forever.
- Candles.CountFromRange: stated for the unit of either reading; the as-written count for M15 or H12 is 15 or 12 times too large (`HourOfFifteenMinutes`).
- Behaviour the code does not have: FIFO order among equal priorities, teeing the live feed into a log, and order execution.

## Findings

| source | as written | input that shows it | evidently intended | confidence | as-written member | corrected member |
|---|---|---|---|---|---|---|
| peoples_advisor/portfolio/portfolio.py:29-38 | the profit of a position is `units * (entry - current)` | a long position of 1 unit entered at 1.0 whose bid is now 1.1 shows a loss of 0.1 | `units * (current - entry)`, so a long gains when the price rises | not executed | Portfolio.ProfitAsWritten, Portfolio.ProfitSignAsWritten, Portfolio.EquityAsWritten | Portfolio.Profit, Portfolio.Equity |
| peoples_advisor/portfolio/portfolio.py:80-101 | `_convert` always looks the pair up, even when both currencies are the same | a position in EUR_USD held in a USD account: `_convert("USD", "USD", x)` looks for `USD_USD` and raises; likewise `required_margin` for USD_JPY in a USD account | converting a currency into itself returns the amount | not executed | Portfolio.ConvertAsWritten, Portfolio.HomeQuotedAsWritten, Portfolio.HomeBasedMarginAsWritten | Portfolio.Convert, Portfolio.RequiredMargin |
| peoples_advisor/portfolio/portfolio.py:62-67 | `used_margin` calls `required_margin(position[0], instrument)`, whose parameters are `(instrument, units)` | any portfolio with one open position: the units are compared with 0 as if they were the instrument, and the rate is looked up under a number | `required_margin(instrument, position[0])` | not executed | Portfolio.UsedMarginAsWritten, Portfolio.FreeMarginAsWritten, Portfolio.MarginLevelAsWritten | Portfolio.UsedMarginNonNegative, Portfolio.FreeMarginAtMostEquity |
| pa/common/common.py:95-107 | `get_margins` fills `margins` but has no `return` | any instrument list: the result is `None` | return the margins dictionary | not executed | Common.GetMarginsAsWritten, Common.GetMarginsDropped | Common.GetMarginsKeys |
| pa/common/common.py:51-63 | the BACKTEST_STRATEGIES loop tests `LIVE_STRATEGIES[0]` and `[1]` instead of the pair it iterates | `BACKTEST_STRATEGIES = ((None, None),)` with valid LIVE_STRATEGIES is accepted | test `strategy_pair[0]` and `strategy_pair[1]` | not executed | Common.ValidateSettingsAsWritten, Common.NonePairAccepted | Common.ValidateSettingsIff |
| peoples_advisor/api/oanda/oanda_api.py:296-341 | each on-fill part's `as_dict()` is evaluated before `_conditional_update` tests the part | `MarketOrderRequest("EUR_USD", 100).as_dict()` with every default raises `AttributeError` on `None.as_dict()`; `LimitOrderRequest` (lines 413-462) likewise | skip the parts that are None | not executed | OandaApi.MarketDictAsWritten, OandaApi.DefaultMarketFails | OandaApi.MarketDict, OandaApi.DefaultMarketBody |
| peoples_advisor/api/oanda/oanda_api.py:759-778 | the take-profit and stop-loss order requests call `client_extensions.as_dict()` before testing it | a `TakeProfitOrderRequest` without client extensions raises on `as_dict`; `StopLossOrderRequest` (lines 830-849) likewise | send `clientExtensions` only when given | not executed | OandaApi.TakeProfitDictAsWritten, OandaApi.StopLossDictAsWritten | OandaApi.TakeProfitDict, OandaApi.StopLossDict |
| peoples_advisor/api/oanda/oanda_api.py:1542-1553 | a side is sent only when it is a string other than "ALL" | `close_instrument_position(..., long_units=100.0)` sends no `longUnits`, so the broker closes the whole long side | send a number as its text | not executed | OandaApi.SideAsWritten, OandaApi.PartialCloseDropped | OandaApi.Side |
| peoples_advisor/api/oanda/oanda_api.py:1446-1469 | a field enters the body only when it is a string other than "NO_CHANGE" | `modify_trade_dependent_orders(..., take_profit=TakeProfitDetails(1.2))` sends no `takeProfit` | send a details object as its `as_dict()` | not executed | OandaApi.DependentAsWritten, OandaApi.DetailsNeverSent | OandaApi.DependentField |
| pa/api/oanda.py:64-66 | the multiplier is `int(granularity[1])`, one digit | "M15" counts as 60 seconds and "H12" as 3600 | the whole number after the letter: 900 and 43200 seconds | not executed | Candles.UnitAsWritten, Candles.FifteenMinutesMiscounted, Candles.HourOfFifteenMinutes | Candles.Unit, Candles.UnitOfText |
| peoples_advisor/cli/cli.py:1045-1049 | a history range whose FROM is not before TO gets the usage text and an error, but the loop does not `continue`; pa/cli/cli.py:997-1001 likewise | `history (2021,1,1) (2021,1,1) -g M5` still runs the history download | report the error and go to the next prompt | not executed | Cli.TurnAsWritten, Cli.EmptyRangeDispatched | Cli.Turn, Cli.TurnRuns |

=== FILE: backtest.dfy ===
/** The backtest's history builder and replayer (pa/backtest/oanda_backtest.py).
    The builder interleaves per-instrument candle pages by time, pairing each
    candle with the spread sample current at its time and writing one tick
    line per candle; the replayer reads the lines back onto the queue.
    The broker's answers are inputs: for each instrument, the first page of
    candles and then each page a refetch returns, and its spread samples. */
module Backtest {
  import opened Wrappers
  import opened Text
  import opened Decimals
  import opened Events

  /** A candle: its time in whole epoch seconds and its closing mid price
      as the broker's text. */
  datatype Candle = Candle(time: int, mid: string)

  /** A historical spread sample: its time and the spread in pips. */
  datatype Sample = Sample(time: int, pips: real)

  /** What the broker yields for one instrument: `pages[0]` is the first
      page, `pages[j + 1]` the page fetched once `pages[j]` is used up. */
  datatype Source = Source(instrument: string, pages: seq<seq<Candle>>, spreads: seq<Sample>)

  /** One tracked instrument: the current page and the price and spread
      cursors into it. */
  datatype Cursor = Cursor(src: Source, page: nat, price: nat, spread: nat)

  datatype MergeError =
    | NoSpread(instrument: string)     // the spread list is empty: IndexError
    | NoFraction(instrument: string)   // the mid text has no '.': IndexError
    | BadPrice(instrument: string)     // `Decimal` refuses the mid text

  /** The lines written before the loop ended, and why it ended early if it did. */
  datatype Outcome = Outcome(ticks: seq<Event>, failure: Option<MergeError>)

  // ---------------------------------------------------------------- cursors

  predicate Tracked(c: Cursor) {
    && c.page < |c.src.pages|
    && c.price <= |c.src.pages[c.page]|
    && (c.spread == 0 || c.spread < |c.src.spreads|)
  }

  predicate AtCandle(c: Cursor) {
    Tracked(c) && c.price < |c.src.pages[c.page]|
  }

  function Head(c: Cursor): Candle
    requires AtCandle(c)
  {
    c.src.pages[c.page][c.price]
  }

  predicate AllTracked(cs: seq<Cursor>) {
    forall k :: 0 <= k < |cs| ==> Tracked(cs[k])
  }

  predicate AllAtCandle(cs: seq<Cursor>) {
    forall k :: 0 <= k < |cs| ==> AtCandle(cs[k])
  }

  /** Every cursor tracks one of the `allowed` instruments. */
  predicate NamedIn(cs: seq<Cursor>, allowed: set<string>) {
    forall k :: 0 <= k < |cs| ==> cs[k].src.instrument in allowed
  }

  /** The first page is fetched for every instrument, and only those whose
      first page has candles are tracked. */
  predicate Starts(s: Source) {
    |s.pages| > 0 && |s.pages[0]| > 0
  }

  /** The cursors the builder starts from, in the instruments' order; all
      cursors start at 0. */
  function Init(sources: seq<Source>): (r: seq<Cursor>)
    ensures AllAtCandle(r)
    ensures forall s :: s in sources ==> (Starts(s) <==> Cursor(s, 0, 0, 0) in r)
    ensures forall c :: c in r ==> c.src in sources && Starts(c.src) && c == Cursor(c.src, 0, 0, 0)
    decreases |sources|
  {
    if |sources| == 0 then []
    else
      var rest := Init(sources[1..]);
      assert forall s :: s in sources[1..] ==> s in sources;
      if Starts(sources[0]) then [Cursor(sources[0], 0, 0, 0)] + rest else rest
  }

  // ---------------------------------------------------------------- termination measure

  /** The candles of pages `j` onward, counting each page once more. */
  function Later(pages: seq<seq<Candle>>, j: nat): nat
    decreases |pages| - j
  {
    if j >= |pages| then 0 else |pages[j]| + 1 + Later(pages, j + 1)
  }

  function Remaining(c: Cursor): nat
    requires Tracked(c)
  {
    |c.src.pages[c.page]| - c.price + Later(c.src.pages, c.page + 1)
  }

  function Measure(cs: seq<Cursor>): nat
    requires AllTracked(cs)
  {
    if |cs| == 0 then 0 else Remaining(cs[0]) + Measure(cs[1..])
  }

  lemma {:induction false} MeasureUpdate(cs: seq<Cursor>, i: nat, c: Cursor)
    requires AllTracked(cs) && Tracked(c) && i < |cs|
    ensures AllTracked(cs[i := c])
    ensures Measure(cs[i := c]) + Remaining(cs[i]) == Measure(cs) + Remaining(c)
    decreases i
  {
    if i > 0 {
      MeasureUpdate(cs[1..], i - 1, c);
      assert cs[i := c][1..] == cs[1..][i - 1 := c];
    } else {
      assert cs[i := c][1..] == cs[1..];
    }
  }

  // ---------------------------------------------------------------- one round

  /** Lines 66-87 for one instrument: keep a current candle before `end`;
      replace a used-up page by the next one when that has more than one
      candle and starts before `end`; otherwise retire the instrument. */
  function Refresh(c: Cursor, end: int): (r: Option<Cursor>)
    requires Tracked(c)
    ensures r.Some? ==> AtCandle(r.value) && Head(r.value).time < end
    ensures r.Some? ==> r.value.src == c.src && r.value.spread == c.spread && Remaining(r.value) <= Remaining(c)
    ensures c.price < |c.src.pages[c.page]| ==> (r.Some? <==> Head(c).time < end) && (r.Some? ==> r.value == c)
    ensures c.price == |c.src.pages[c.page]| ==>
      (r.Some? <==> c.page + 1 < |c.src.pages| && |c.src.pages[c.page + 1]| > 1 && c.src.pages[c.page + 1][0].time < end)
    ensures c.price == |c.src.pages[c.page]| && r.Some? ==> r.value.page == c.page + 1 && r.value.price == 0
  {
    var pages := c.src.pages;
    if c.price < |pages[c.page]| then
      if pages[c.page][c.price].time < end then Some(c) else None
    else if c.page + 1 < |pages| && |pages[c.page + 1]| > 1 && pages[c.page + 1][0].time < end then
      Some(c.(page := c.page + 1, price := 0))
    else None
  }

  /** The instruments still tracked after one pass over the dictionary, in order. */
  function RefreshAll(cs: seq<Cursor>, end: int): (r: seq<Cursor>)
    requires AllTracked(cs)
    ensures AllAtCandle(r) && |r| <= |cs|
    ensures forall k :: 0 <= k < |r| ==> Head(r[k]).time < end
    ensures Measure(r) <= Measure(cs)
    decreases |cs|
  {
    if |cs| == 0 then []
    else
      var rest := RefreshAll(cs[1..], end);
      match Refresh(cs[0], end)
      case None => rest
      case Some(c) =>
        assert ([c] + rest)[1..] == rest;
        [c] + rest
  }

  /** Refreshing keeps only instruments that were tracked. */
  lemma {:induction false} RefreshAllNames(cs: seq<Cursor>, end: int, allowed: set<string>)
    requires AllTracked(cs) && NamedIn(cs, allowed)
    ensures NamedIn(RefreshAll(cs, end), allowed)
    decreases |cs|
  {
    if |cs| > 0 {
      assert NamedIn(cs[1..], allowed) by {
        assert forall k :: 0 <= k < |cs[1..]| ==> cs[1..][k] == cs[k + 1];
      }
      RefreshAllNames(cs[1..], end, allowed);
      var r := Refresh(cs[0], end);
      if r.Some? {
        NamedCons(r.value, RefreshAll(cs[1..], end), allowed);
      }
    }
  }

  lemma NamedCons(c: Cursor, rest: seq<Cursor>, allowed: set<string>)
    requires c.src.instrument in allowed && NamedIn(rest, allowed)
    ensures NamedIn([c] + rest, allowed)
  {
    assert forall k :: 1 <= k < |[c] + rest| ==> ([c] + rest)[k] == rest[k - 1];
  }

  /** The position `earliest[0]` names after the stable sort: the first
      cursor whose candle time is least. */
  function Earliest(cs: seq<Cursor>): (r: nat)
    requires |cs| > 0 && AllAtCandle(cs)
    ensures r < |cs|
    decreases |cs|
  {
    if |cs| == 1 then 0
    else
      var j := Earliest(cs[1..]) + 1;
      if Head(cs[0]).time <= Head(cs[j]).time then 0 else j
  }

  /** The cursor picked holds a least candle time, and every cursor before
      it a later one: the sort is stable. */
  lemma {:induction false} EarliestLeast(cs: seq<Cursor>)
    requires |cs| > 0 && AllAtCandle(cs)
    ensures forall k :: 0 <= k < |cs| ==> Head(cs[Earliest(cs)]).time <= Head(cs[k]).time
    ensures forall k :: 0 <= k < Earliest(cs) ==> Head(cs[k]).time > Head(cs[Earliest(cs)]).time
    decreases |cs|
  {
    if |cs| > 1 {
      EarliestLeast(cs[1..]);
      assert forall k :: 1 <= k < |cs| ==> cs[k] == cs[1..][k - 1];
    }
  }

  /** Lines 100-106: move forward while another sample follows and the
      current one is older than `t`. */
  function AdvanceSpread(samples: seq<Sample>, k: nat, t: int): (r: nat)
    ensures r >= k
    ensures k >= |samples| ==> r == k
    ensures k < |samples| ==> r < |samples| && (r + 1 == |samples| || samples[r].time >= t)
    ensures forall m :: k <= m < r ==> samples[m].time < t
    decreases |samples| - k
  {
    if k + 1 < |samples| && samples[k].time < t then AdvanceSpread(samples, k + 1, t) else k
  }

  /** The spread cursor moves to the first sample at or after `t`, or to
      the last sample, and never backwards. */
  lemma AdvanceSpreadFirst(samples: seq<Sample>, k: nat, t: int, m: nat)
    requires k <= m < |samples| && samples[m].time >= t
    ensures AdvanceSpread(samples, k, t) <= m
  {
  }

  /** Half the spread in price units: a pip is one unit in the last place
      but one of a price with `digits` decimals (lines 111-119). */
  function HalfSpread(pips: real, digits: nat): (h: real)
    ensures pips >= 0.0 ==> h >= 0.0
  {
    pips / 2.0 * 10.0 / Pow10(digits) as real
  }

  /** In units of the last decimal, the half spread is five per pip. */
  lemma HalfSpreadScale(pips: real, digits: nat)
    ensures HalfSpread(pips, digits) * Pow10(digits) as real == pips * 5.0
  {
  }

  /** Lines 108-135 for the chosen cursor, its spread cursor already moved. */
  function Tick(c: Cursor, traded: seq<string>): (r: Result<Event, MergeError>)
    requires AtCandle(c)
    ensures |c.src.spreads| == 0 ==> r == Err(NoSpread(c.src.instrument))
    ensures r.Ok? ==> r.value.Price? || r.value.Quote?
    ensures r.Ok? ==> (r.value.Price? <==> c.src.instrument in traded)
    ensures r.Ok? ==> r.value.instrument == c.src.instrument && r.value.time == Head(c).time
    ensures r.Ok? <==> |c.src.spreads| > 0 && |Split(Head(c).mid, '.')| >= 2 && Parse(Head(c).mid).Some?
  {
    var candle := Head(c);
    var inst := c.src.instrument;
    if |c.src.spreads| == 0 then Err(NoSpread(inst))
    else
      var pieces := Split(candle.mid, '.');
      if |pieces| < 2 then Err(NoFraction(inst))
      else match Parse(candle.mid)
        case None => Err(BadPrice(inst))
        case Some(mid) =>
          Ok(Quoted(inst, candle.time, mid, c.src.spreads[c.spread].pips, |pieces[1]|, inst in traded))
  }

  /** The event for a candle whose mid price `mid` has `digits` fraction
      digits: bid and ask lie half the spread below and above the mid. */
  function Quoted(inst: string, time: int, mid: Decimal, pips: real, digits: nat, traded: bool): Event
  {
    var half := HalfSpread(pips, digits);
    var bid := Quantize(Value(mid) - half, digits);
    var ask := Quantize(Value(mid) + half, digits);
    if traded then Price(inst, time, bid, ask) else Quote(inst, time, bid, ask)
  }

  // ---------------------------------------------------------------- the loop

  /** A written tick: a Price or Quote before `end`, a Price exactly for
      the traded instruments. */
  predicate GoodTick(e: Event, end: int, traded: seq<string>) {
    (e.Price? || e.Quote?) && e.time < end && (e.Price? <==> e.instrument in traded)
  }

  predicate GoodTicks(ts: seq<Event>, end: int, traded: seq<string>) {
    forall k :: 0 <= k < |ts| ==> GoodTick(ts[k], end, traded)
  }

  /** The chosen cursor with its spread cursor moved to the candle's time. */
  function Chosen(live: seq<Cursor>): (c: Cursor)
    requires |live| > 0 && AllAtCandle(live)
    ensures AtCandle(c) && c.src == live[Earliest(live)].src
    ensures Head(c) == Head(live[Earliest(live)])
    ensures Remaining(c) == Remaining(live[Earliest(live)])
    ensures c.spread >= live[Earliest(live)].spread
  {
    var d := live[Earliest(live)];
    d.(spread := AdvanceSpread(d.src.spreads, d.spread, Head(d).time))
  }

  /** The cursors after the chosen one's price cursor moves past its candle. */
  function Advanced(live: seq<Cursor>): (r: seq<Cursor>)
    requires |live| > 0 && AllAtCandle(live)
    ensures AllTracked(r) && Measure(r) < Measure(live)
    ensures |r| == |live|
  {
    var i := Earliest(live);
    var c := Chosen(live);
    MeasureUpdate(live, i, c.(price := c.price + 1));
    live[i := c.(price := c.price + 1)]
  }

  /** Advancing moves only the chosen cursor's price cursor, by one. */
  lemma AdvancedAt(live: seq<Cursor>, k: nat)
    requires |live| > 0 && AllAtCandle(live) && k < |live|
    ensures k != Earliest(live) ==> Advanced(live)[k] == live[k]
    ensures Advanced(live)[k].src == live[k].src
    ensures k == Earliest(live) ==> Advanced(live)[k] == live[k].(spread := Advanced(live)[k].spread, price := live[k].price + 1)
  {
  }

  /** Lines 62-140: each round refreshes every instrument, then writes the
      tick of the earliest one and advances its price cursor. */
  function MergeFrom(cs: seq<Cursor>, end: int, traded: seq<string>): (r: Outcome)
    requires AllTracked(cs)
    ensures GoodTicks(r.ticks, end, traded)
    ensures |r.ticks| <= Measure(cs)
    decreases Measure(cs)
  {
    var live := RefreshAll(cs, end);
    if |live| == 0 then Outcome([], None)
    else
      match Tick(Chosen(live), traded)
      case Err(e) => Outcome([], Some(e))
      case Ok(ev) =>
        var rest := MergeFrom(Advanced(live), end, traded);
        assert Head(live[Earliest(live)]).time < end;
        GoodTicksCons(ev, rest.ticks, end, traded);
        Outcome([ev] + rest.ticks, rest.failure)
  }

  lemma GoodTicksCons(e: Event, rest: seq<Event>, end: int, traded: seq<string>)
    requires GoodTick(e, end, traded) && GoodTicks(rest, end, traded)
    ensures GoodTicks([e] + rest, end, traded)
  {
    assert forall k :: 1 <= k < |[e] + rest| ==> ([e] + rest)[k] == rest[k - 1];
  }

  /** Every written tick names a tracked instrument. */
  lemma {:induction false} MergeNames(cs: seq<Cursor>, end: int, traded: seq<string>, allowed: set<string>)
    requires AllTracked(cs) && NamedIn(cs, allowed)
    ensures forall k :: 0 <= k < |MergeFrom(cs, end, traded).ticks| ==> MergeFrom(cs, end, traded).ticks[k].instrument in allowed
    decreases Measure(cs)
  {
    var live := RefreshAll(cs, end);
    RefreshAllNames(cs, end, allowed);
    if |live| > 0 && Tick(Chosen(live), traded).Ok? {
      var next := Advanced(live);
      assert NamedIn(next, allowed) by {
        forall k | 0 <= k < |next| ensures next[k].src.instrument in allowed {
          AdvancedAt(live, k);
        }
      }
      MergeNames(next, end, traded, allowed);
    }
  }

  /** `OandaBacktestingData.gen`: the ticks written to the history file. */
  function Build(sources: seq<Source>, end: int, traded: seq<string>): (r: Outcome)
    ensures GoodTicks(r.ticks, end, traded)
  {
    MergeFrom(Init(sources), end, traded)
  }

  /** The instruments of the built ticks are those of the sources. */
  lemma BuildNames(sources: seq<Source>, end: int, traded: seq<string>)
    ensures var r := Build(sources, end, traded);
      forall k :: 0 <= k < |r.ticks| ==> r.ticks[k].instrument in InstrumentsOf(sources)
  {
    var cs := Init(sources);
    assert NamedIn(cs, InstrumentsOf(sources)) by {
      forall k | 0 <= k < |cs| ensures cs[k].src.instrument in InstrumentsOf(sources) {
        assert cs[k] in cs;
      }
    }
    MergeNames(cs, end, traded, InstrumentsOf(sources));
  }

  function InstrumentsOf(sources: seq<Source>): set<string> {
    set s | s in sources :: s.instrument
  }

  // ---------------------------------------------------------------- order

  /** The broker's candles for one instrument ascend across all its pages. */
  predicate SourceSorted(s: Source) {
    forall j1, k1, j2, k2 ::
      0 <= j1 < |s.pages| && 0 <= k1 < |s.pages[j1]| && 0 <= j2 < |s.pages| && 0 <= k2 < |s.pages[j2]| &&
      (j1 < j2 || (j1 == j2 && k1 <= k2))
      ==> s.pages[j1][k1].time <= s.pages[j2][k2].time
  }

  /** Position `(j, k)` is at or after the cursor's price cursor. */
  predicate Ahead(c: Cursor, j: int, k: int) {
    (j == c.page && c.price <= k) || c.page < j
  }

  /** No candle still ahead of the cursor is older than `t`. */
  predicate NotBefore(c: Cursor, t: int) {
    forall j, k :: 0 <= j < |c.src.pages| && 0 <= k < |c.src.pages[j]| && Ahead(c, j, k) ==> c.src.pages[j][k].time >= t
  }

  predicate AllSorted(cs: seq<Cursor>) {
    forall k :: 0 <= k < |cs| ==> SourceSorted(cs[k].src)
  }

  predicate Floored(cs: seq<Cursor>, t: int) {
    AllSorted(cs) && forall k :: 0 <= k < |cs| ==> NotBefore(cs[k], t)
  }

  predicate Ascending(ts: seq<Event>) {
    forall a, b :: 0 <= a <= b < |ts| ==> TimeOf(ts[a]) <= TimeOf(ts[b])
  }

  function TimeOf(e: Event): int {
    match e
    case Price(_, t, _, _) => t
    case Quote(_, t, _, _) => t
    case Signal(_, t, _, _) => t
    case Order(_, t, _, _) => t
    case _ => 0
  }

  lemma {:induction false} RefreshAllFloored(cs: seq<Cursor>, end: int, t: int)
    requires AllTracked(cs) && Floored(cs, t)
    ensures Floored(RefreshAll(cs, end), t)
    decreases |cs|
  {
    if |cs| > 0 {
      FlooredTail(cs, t);
      RefreshAllFloored(cs[1..], end, t);
      var r := Refresh(cs[0], end);
      if r.Some? {
        var c := r.value;
        assert NotBefore(c, t) by {
          forall j, k | 0 <= j < |c.src.pages| && 0 <= k < |c.src.pages[j]| && Ahead(c, j, k)
            ensures c.src.pages[j][k].time >= t
          {
            assert Ahead(cs[0], j, k);
          }
        }
        FlooredCons(c, RefreshAll(cs[1..], end), t);
      }
    }
  }

  lemma FlooredTail(cs: seq<Cursor>, t: int)
    requires |cs| > 0 && Floored(cs, t)
    ensures Floored(cs[1..], t)
  {
    assert forall k :: 0 <= k < |cs[1..]| ==> cs[1..][k] == cs[k + 1];
  }

  lemma SortedCons(c: Cursor, rest: seq<Cursor>)
    requires SourceSorted(c.src) && AllSorted(rest)
    ensures AllSorted([c] + rest)
  {
    assert forall k :: 1 <= k < |[c] + rest| ==> ([c] + rest)[k] == rest[k - 1];
  }

  lemma FlooredCons(c: Cursor, rest: seq<Cursor>, t: int)
    requires SourceSorted(c.src) && NotBefore(c, t) && Floored(rest, t)
    ensures Floored([c] + rest, t)
  {
    assert forall k :: 1 <= k < |[c] + rest| ==> ([c] + rest)[k] == rest[k - 1];
  }

  /** A sorted source's remaining candles are no older than its current one,
      nor than the one just consumed. */
  lemma HeadFloor(c: Cursor)
    requires AtCandle(c) && SourceSorted(c.src)
    ensures NotBefore(c, Head(c).time)
    ensures NotBefore(c.(price := c.price + 1), Head(c).time)
  {
    forall j, k | 0 <= j < |c.src.pages| && 0 <= k < |c.src.pages[j]| && Ahead(c, j, k)
      ensures c.src.pages[j][k].time >= Head(c).time
    {
      assert c.page < j || (c.page == j && c.price <= k);
    }
  }

  lemma {:induction false} RefreshAllSorted(cs: seq<Cursor>, end: int)
    requires AllTracked(cs) && AllSorted(cs)
    ensures AllSorted(RefreshAll(cs, end))
    decreases |cs|
  {
    if |cs| > 0 {
      assert AllSorted(cs[1..]) by {
        assert forall k :: 0 <= k < |cs[1..]| ==> cs[1..][k] == cs[k + 1];
      }
      RefreshAllSorted(cs[1..], end);
      var r := Refresh(cs[0], end);
      if r.Some? {
        SortedCons(r.value, RefreshAll(cs[1..], end));
      }
    }
  }

  /** After a round over sorted sources, every tracked instrument's
      remaining candles are no older than the tick the round wrote. */
  lemma {:induction false} RoundSorted(live: seq<Cursor>)
    requires |live| > 0 && AllAtCandle(live) && AllSorted(live)
    ensures Floored(Advanced(live), Head(Chosen(live)).time)
  {
    var i := Earliest(live);
    var t1 := Head(Chosen(live)).time;
    var next := Advanced(live);
    EarliestLeast(live);
    forall k | 0 <= k < |next|
      ensures SourceSorted(next[k].src) && NotBefore(next[k], t1)
    {
      AdvancedAt(live, k);
      if k == i {
        HeadFloor(live[i]);
        forall j, m | 0 <= j < |next[k].src.pages| && 0 <= m < |next[k].src.pages[j]| && Ahead(next[k], j, m)
          ensures next[k].src.pages[j][m].time >= t1
        {
          assert Ahead(live[i].(price := live[i].price + 1), j, m);
        }
      } else {
        HeadFloor(live[k]);
      }
    }
  }

  /** The round's tick is no older than any floor the cursors had. */
  lemma RoundAboveFloor(live: seq<Cursor>, t: int)
    requires |live| > 0 && AllAtCandle(live) && Floored(live, t)
    ensures Head(Chosen(live)).time >= t
  {
    var i := Earliest(live);
    assert Ahead(live[i], live[i].page, live[i].price);
    EarliestLeast(live);
  }

  /** One round that writes a tick, unfolded. */
  lemma MergeStep(cs: seq<Cursor>, end: int, traded: seq<string>)
    requires AllTracked(cs)
    requires |RefreshAll(cs, end)| > 0 && Tick(Chosen(RefreshAll(cs, end)), traded).Ok?
    ensures MergeFrom(cs, end, traded).ticks ==
      [Tick(Chosen(RefreshAll(cs, end)), traded).value] + MergeFrom(Advanced(RefreshAll(cs, end)), end, traded).ticks
    ensures MergeFrom(cs, end, traded).failure == MergeFrom(Advanced(RefreshAll(cs, end)), end, traded).failure
  {
  }

  /** Every event of `ts` is no older than `t`. */
  predicate TimesFrom(ts: seq<Event>, t: int) {
    forall k :: 0 <= k < |ts| ==> TimeOf(ts[k]) >= t
  }

  lemma AscendingCons(e: Event, rest: seq<Event>, t: int)
    requires TimeOf(e) >= t && Ascending(rest) && TimesFrom(rest, TimeOf(e))
    ensures Ascending([e] + rest) && TimesFrom([e] + rest, t)
  {
    assert forall k :: 1 <= k < |[e] + rest| ==> ([e] + rest)[k] == rest[k - 1];
  }

  /** The merge of sorted sources writes its ticks in time order, each no
      older than any candle still ahead of a cursor when it starts. */
  lemma {:induction false} MergeAscending(cs: seq<Cursor>, end: int, traded: seq<string>, t: int)
    requires AllTracked(cs) && Floored(cs, t)
    ensures Ascending(MergeFrom(cs, end, traded).ticks) && TimesFrom(MergeFrom(cs, end, traded).ticks, t)
    decreases Measure(cs)
  {
    var live := RefreshAll(cs, end);
    RefreshAllFloored(cs, end, t);
    if |live| > 0 && Tick(Chosen(live), traded).Ok? {
      MergeStep(cs, end, traded);
      RoundAboveFloor(live, t);
      RoundSorted(live);
      var t1 := Head(Chosen(live)).time;
      MergeAscending(Advanced(live), end, traded, t1);
      AscendingCons(Tick(Chosen(live), traded).value, MergeFrom(Advanced(live), end, traded).ticks, t);
    }
  }

  /** With every instrument's candles ascending across its pages, the merge
      writes its ticks in time order. */
  lemma {:induction false} MergeSortedAscending(cs: seq<Cursor>, end: int, traded: seq<string>)
    requires AllTracked(cs) && AllSorted(cs)
    ensures Ascending(MergeFrom(cs, end, traded).ticks)
  {
    var live := RefreshAll(cs, end);
    RefreshAllSorted(cs, end);
    if |live| > 0 && Tick(Chosen(live), traded).Ok? {
      MergeStep(cs, end, traded);
      RoundSorted(live);
      var t1 := Head(Chosen(live)).time;
      MergeAscending(Advanced(live), end, traded, t1);
      AscendingCons(Tick(Chosen(live), traded).value, MergeFrom(Advanced(live), end, traded).ticks, t1);
    }
  }

  /** The history file of sources whose candles ascend is in time order. */
  lemma BuildAscending(sources: seq<Source>, end: int, traded: seq<string>)
    requires forall k :: 0 <= k < |sources| ==> SourceSorted(sources[k])
    ensures Ascending(Build(sources, end, traded).ticks)
  {
    var cs := Init(sources);
    assert AllSorted(cs) by {
      forall k | 0 <= k < |cs| ensures SourceSorted(cs[k].src) {
        assert cs[k] in cs;
      }
    }
    MergeSortedAscending(cs, end, traded);
  }

  // ---------------------------------------------------------------- completeness

  /** The (instrument, time) stamp of a written tick. */
  function Stamp(e: Event): multiset<(string, int)> {
    match e
    case Price(i, t, _, _) => multiset{(i, t)}
    case Quote(i, t, _, _) => multiset{(i, t)}
    case _ => multiset{}
  }

  function Stamps(ts: seq<Event>): multiset<(string, int)>
    decreases |ts|
  {
    if |ts| == 0 then multiset{} else Stamp(ts[0]) + Stamps(ts[1..])
  }

  /** The stamps of the candles of `cs` older than `end`. */
  function Before(inst: string, cs: seq<Candle>, end: int): multiset<(string, int)>
    decreases |cs|
  {
    if |cs| == 0 then multiset{}
    else (if cs[0].time < end then multiset{(inst, cs[0].time)} else multiset{}) + Before(inst, cs[1..], end)
  }

  /** The candles a cursor has still to write: those of its page from its
      price cursor on that are older than `end`. */
  function Pending(c: Cursor, end: int): multiset<(string, int)>
    requires Tracked(c)
  {
    BeforeFrom(c.src.instrument, c.src.pages[c.page], c.price, end)
  }

  /** `Before` of the candles from position `i` on. */
  function BeforeFrom(inst: string, cs: seq<Candle>, i: nat, end: int): multiset<(string, int)>
    requires i <= |cs|
    decreases |cs| - i
  {
    if i == |cs| then multiset{}
    else (if cs[i].time < end then multiset{(inst, cs[i].time)} else multiset{}) + BeforeFrom(inst, cs, i + 1, end)
  }

  lemma {:induction false} BeforeFromAll(inst: string, cs: seq<Candle>, i: nat, end: int)
    requires i <= |cs|
    ensures BeforeFrom(inst, cs, i, end) == Before(inst, cs[i..], end)
    decreases |cs| - i
  {
    if i < |cs| {
      BeforeFromAll(inst, cs, i + 1, end);
      assert cs[i..][1..] == cs[i + 1..];
    }
  }

  function PendingAll(cs: seq<Cursor>, end: int): multiset<(string, int)>
    requires AllTracked(cs)
  {
    if |cs| == 0 then multiset{} else Pending(cs[0], end) + PendingAll(cs[1..], end)
  }

  /** Every instrument's broker answer is a single page. */
  predicate OnePage(cs: seq<Cursor>) {
    forall k :: 0 <= k < |cs| ==> |cs[k].src.pages| == 1
  }

  lemma {:induction false} NoneBefore(inst: string, cs: seq<Candle>, i: nat, end: int)
    requires i <= |cs|
    requires forall k :: i <= k < |cs| ==> cs[k].time >= end
    ensures BeforeFrom(inst, cs, i, end) == multiset{}
    decreases |cs| - i
  {
    if i < |cs| {
      NoneBefore(inst, cs, i + 1, end);
    }
  }

  /** On a sorted single page, refreshing keeps the cursor as it is or
      retires one with nothing left to write. */
  lemma RefreshPending(c: Cursor, end: int)
    requires Tracked(c) && |c.src.pages| == 1 && SourceSorted(c.src)
    ensures Refresh(c, end).Some? ==> Refresh(c, end).value == c
    ensures Refresh(c, end).None? ==> Pending(c, end) == multiset{}
  {
    var page := c.src.pages[c.page];
    if c.price < |page| && page[c.price].time >= end {
      assert forall k :: c.price <= k < |page| ==> page[k].time >= page[c.price].time;
      NoneBefore(c.src.instrument, page, c.price, end);
    }
  }

  lemma {:induction false} RefreshAllPending(cs: seq<Cursor>, end: int)
    requires AllTracked(cs) && OnePage(cs) && AllSorted(cs)
    ensures OnePage(RefreshAll(cs, end))
    ensures PendingAll(RefreshAll(cs, end), end) == PendingAll(cs, end)
    decreases |cs|
  {
    if |cs| > 0 {
      assert forall k :: 0 <= k < |cs[1..]| ==> cs[1..][k] == cs[k + 1];
      RefreshAllPending(cs[1..], end);
      RefreshPending(cs[0], end);
      var rest := RefreshAll(cs[1..], end);
      if Refresh(cs[0], end).Some? {
        var r := [cs[0]] + rest;
        assert r[0] == cs[0] && r[1..] == rest;
        assert forall k :: 1 <= k < |r| ==> r[k] == rest[k - 1];
      }
    }
  }

  /** Replacing one cursor changes the pending candles by that cursor's share. */
  lemma {:induction false} PendingUpdate(cs: seq<Cursor>, i: nat, c: Cursor, end: int)
    requires AllTracked(cs) && Tracked(c) && i < |cs|
    ensures AllTracked(cs[i := c])
    ensures PendingAll(cs[i := c], end) + Pending(cs[i], end) == PendingAll(cs, end) + Pending(c, end)
    decreases i
  {
    var t := cs[i := c];
    MeasureUpdate(cs, i, c);
    PendingAllCons(cs, end);
    PendingAllCons(t, end);
    if i > 0 {
      assert t[0] == cs[0] && t[1..] == cs[1..][i - 1 := c];
      assert cs[1..][i - 1] == cs[i];
      PendingUpdate(cs[1..], i - 1, c, end);
      AddBoth(Pending(cs[0], end), PendingAll(t[1..], end), PendingAll(cs[1..], end), Pending(cs[i], end), Pending(c, end));
    } else {
      assert t[1..] == cs[1..];
    }
  }

  lemma AddBoth<T>(a: multiset<T>, x: multiset<T>, y: multiset<T>, u: multiset<T>, v: multiset<T>)
    requires x + u == y + v
    ensures (a + x) + u == (a + y) + v
  {
    assert (a + x) + u == a + (x + u);
    assert (a + y) + v == a + (y + v);
  }

  lemma PendingAllCons(cs: seq<Cursor>, end: int)
    requires AllTracked(cs) && |cs| > 0
    ensures PendingAll(cs, end) == Pending(cs[0], end) + PendingAll(cs[1..], end)
  {
  }

  /** A round that writes the chosen candle leaves exactly that candle off
      the pending ones. */
  lemma AdvancedPending(live: seq<Cursor>, end: int)
    requires |live| > 0 && AllAtCandle(live)
    requires forall k :: 0 <= k < |live| ==> Head(live[k]).time < end
    ensures PendingAll(Advanced(live), end) + multiset{(live[Earliest(live)].src.instrument, Head(Chosen(live)).time)}
            == PendingAll(live, end)
  {
    var i := Earliest(live);
    var c := Chosen(live);
    var d := c.(price := c.price + 1);
    PendingUpdate(live, i, d, end);
    assert Advanced(live) == live[i := d];
    PendingStep(c, end);
    assert Pending(live[i], end) == Pending(c, end);
    var stamp := multiset{(live[i].src.instrument, Head(c).time)};
    var adv, all := PendingAll(Advanced(live), end), PendingAll(live, end);
    assert adv + Pending(c, end) == all + Pending(d, end);
    assert adv + Pending(c, end) == (adv + stamp) + Pending(d, end);
    Cancel(adv + stamp, all, Pending(d, end));
  }

  lemma Cancel<T>(x: multiset<T>, y: multiset<T>, z: multiset<T>)
    requires x + z == y + z
    ensures x == y
  {
    forall o ensures x[o] == y[o] {
      assert (x + z)[o] == (y + z)[o];
    }
  }

  /** Moving past a current candle older than `end` takes it off the
      pending ones. */
  lemma PendingStep(c: Cursor, end: int)
    requires AtCandle(c) && Head(c).time < end
    ensures Pending(c, end) == multiset{(c.src.instrument, Head(c).time)} + Pending(c.(price := c.price + 1), end)
  {
  }

  /** With every instrument's candles on one ascending page and no tick
      failing, the merge writes exactly the candles older than `end`: its
      stamps are the pending candles of the cursors it starts from. */
  lemma {:induction false} MergeComplete(cs: seq<Cursor>, end: int, traded: seq<string>)
    requires AllTracked(cs) && OnePage(cs) && AllSorted(cs)
    requires MergeFrom(cs, end, traded).failure.None?
    ensures Stamps(MergeFrom(cs, end, traded).ticks) == PendingAll(cs, end)
    decreases Measure(cs)
  {
    var live := RefreshAll(cs, end);
    RefreshAllPending(cs, end);
    RefreshAllSorted(cs, end);
    if |live| > 0 {
      assert Tick(Chosen(live), traded).Ok?;
      var ev := Tick(Chosen(live), traded).value;
      MergeStep(cs, end, traded);
      var next := Advanced(live);
      AdvancedShape(live);
      MergeComplete(next, end, traded);
      AdvancedPending(live, end);
      StampsCons(ev, MergeFrom(next, end, traded).ticks);
    }
  }

  lemma AdvancedShape(live: seq<Cursor>)
    requires |live| > 0 && AllAtCandle(live) && OnePage(live) && AllSorted(live)
    ensures OnePage(Advanced(live)) && AllSorted(Advanced(live))
  {
    var next := Advanced(live);
    forall k | 0 <= k < |next| ensures |next[k].src.pages| == 1 && SourceSorted(next[k].src) {
      AdvancedAt(live, k);
    }
  }

  lemma StampsCons(e: Event, rest: seq<Event>)
    ensures Stamps([e] + rest) == Stamp(e) + Stamps(rest)
  {
    assert ([e] + rest)[1..] == rest;
  }

  /** The candles older than `end` across the sources' single pages. */
  function SourcesBefore(sources: seq<Source>, end: int): multiset<(string, int)>
    decreases |sources|
  {
    if |sources| == 0 then multiset{}
    else (if |sources[0].pages| > 0 then Before(sources[0].instrument, sources[0].pages[0], end) else multiset{})
         + SourcesBefore(sources[1..], end)
  }

  predicate SinglePages(sources: seq<Source>) {
    forall k :: 0 <= k < |sources| ==> |sources[k].pages| == 1 && SourceSorted(sources[k])
  }

  /** The starting cursors of single-page sources are single-page and sorted. */
  lemma InitShape(sources: seq<Source>)
    requires SinglePages(sources)
    ensures OnePage(Init(sources)) && AllSorted(Init(sources))
  {
    var r := Init(sources);
    forall k | 0 <= k < |r| ensures |r[k].src.pages| == 1 && SourceSorted(r[k].src) {
      assert r[k] in r;
      var j :| 0 <= j < |sources| && sources[j] == r[k].src;
    }
  }

  /** `Init` unfolded once. */
  lemma InitCons(sources: seq<Source>)
    requires |sources| > 0
    ensures Init(sources) == (if Starts(sources[0]) then [Cursor(sources[0], 0, 0, 0)] else []) + Init(sources[1..])
  {
  }

  lemma {:induction false} InitPending(sources: seq<Source>, end: int)
    requires SinglePages(sources)
    ensures AllTracked(Init(sources))
    ensures PendingAll(Init(sources), end) == SourcesBefore(sources, end)
    decreases |sources|
  {
    if |sources| > 0 {
      assert SinglePages(sources[1..]) by {
        assert forall k :: 0 <= k < |sources[1..]| ==> sources[1..][k] == sources[k + 1];
      }
      InitPending(sources[1..], end);
      InitCons(sources);
      var s := sources[0];
      var rest := Init(sources[1..]);
      var mine := if |s.pages| > 0 then Before(s.instrument, s.pages[0], end) else multiset{};
      assert SourcesBefore(sources, end) == mine + SourcesBefore(sources[1..], end);
      if Starts(s) {
        var c := Cursor(s, 0, 0, 0);
        var r := [c] + rest;
        assert r[0] == c && r[1..] == rest;
        BeforeFromAll(s.instrument, s.pages[0], 0, end);
        assert s.pages[0][0..] == s.pages[0];
        PendingAllCons(r, end);
      } else {
        assert |s.pages[0]| == 0;
      }
    }
  }

  /** The history file of single-page, ascending sources holds one tick for
      each candle older than `end`, unless a tick failed. */
  lemma BuildComplete(sources: seq<Source>, end: int, traded: seq<string>)
    requires SinglePages(sources)
    requires Build(sources, end, traded).failure.None?
    ensures Stamps(Build(sources, end, traded).ticks) == SourcesBefore(sources, end)
  {
    InitShape(sources);
    InitPending(sources, end);
    MergeComplete(Init(sources), end, traded);
  }

  // ---------------------------------------------------------------- prices

  /** The decimals `Decimal` reads from a price text are the characters
      after its point. */
  lemma ParsePlaces(s: string)
    requires Parse(s).Some? && |Split(s, '.')| >= 2
    ensures Parse(s).value.places == |Split(s, '.')[1]|
  {
    var neg := |s| > 0 && s[0] == '-';
    var body := if neg then s[1..] else s;
    if neg {
      assert s == "-" + body;
      SplitFreePrefix("-", body, '.');
      assert Split(s, '.')[1] == Split(body, '.')[1];
    }
    assert |Split(body, '.')| == 2;
  }

  /** With a non-negative spread, the synthesised bid and ask bracket the
      candle's mid price and carry its number of decimals. */
  lemma TickBrackets(c: Cursor, traded: seq<string>)
    requires AtCandle(c) && Tick(c, traded).Ok?
    requires c.src.spreads[c.spread].pips >= 0.0
    ensures var e := Tick(c, traded).value; var mid := Parse(Head(c).mid).value;
      Value(e.bid) <= Value(mid) <= Value(e.ask) && e.bid.places == mid.places == e.ask.places
  {
    var mid := Parse(Head(c).mid).value;
    var digits := |Split(Head(c).mid, '.')[1]|;
    ParsePlaces(Head(c).mid);
    var half := HalfSpread(c.src.spreads[c.spread].pips, digits);
    QuantizeMonotone(Value(mid) - half, Value(mid), digits);
    QuantizeMonotone(Value(mid), Value(mid) + half, digits);
    QuantizeOwnPlaces(mid);
  }

  /** A 5-decimal candle closing at 1.10010 with a 2-pip spread gives
      bid 1.10000 and ask 1.10020 (by TickOfPrice): one pip from the mid
      on each side. */
  lemma ExampleQuantize()
    ensures Quantize(Value(Decimal(false, 110010, 5)) - HalfSpread(2.0, 5), 5) == Decimal(false, 110000, 5)
    ensures Quantize(Value(Decimal(false, 110010, 5)) + HalfSpread(2.0, 5), 5) == Decimal(false, 110020, 5)
  {
    assert Pow10(5) == 100000;
    assert Value(Decimal(false, 110010, 5)) == 1.1001;
    assert HalfSpread(2.0, 5) == 0.0001;
    assert Scaled(1.1001 - 0.0001, 5) == 110000.0;
    assert Scaled(1.1001 + 0.0001, 5) == 110020.0;
    RoundHalfUpWhole(110000);
    RoundHalfUpWhole(110020);
  }

  /** The tick of a candle whose mid text reads as `mid` with `digits` decimals. */
  lemma TickOfPrice(c: Cursor, traded: seq<string>, text: string, mid: Decimal, digits: nat, pips: real)
    requires AtCandle(c) && |c.src.spreads| > 0 && c.src.instrument in traded
    requires Head(c).mid == text && c.src.spreads[c.spread].pips == pips
    requires Parse(text) == Some(mid) && |Split(text, '.')| >= 2 && |Split(text, '.')[1]| == digits
    ensures Tick(c, traded) == Ok(Price(c.src.instrument, Head(c).time,
                                        Quantize(Value(mid) - HalfSpread(pips, digits), digits),
                                        Quantize(Value(mid) + HalfSpread(pips, digits), digits)))
  {
    TickQuoted(c, traded, text, mid, digits, pips);
  }

  lemma TickQuoted(c: Cursor, traded: seq<string>, text: string, mid: Decimal, digits: nat, pips: real)
    requires AtCandle(c) && |c.src.spreads| > 0
    requires Head(c).mid == text && c.src.spreads[c.spread].pips == pips
    requires Parse(text) == Some(mid) && |Split(text, '.')| >= 2 && |Split(text, '.')[1]| == digits
    ensures Tick(c, traded) == Ok(Quoted(c.src.instrument, Head(c).time, mid, pips, digits, c.src.instrument in traded))
  {
    var candle := Head(c);
    var pieces := Split(candle.mid, '.');
    assert candle.mid == text;
    assert |pieces| >= 2 && |pieces[1]| == digits;
    assert Parse(candle.mid) == Some(mid);
  }

  // ---------------------------------------------------------------- replay

  /** What the replayer put on the queue (`None` for a line whose class
      yields no event), and the decoding error that cut it short, if any. */
  datatype Replayed = Replayed(queued: seq<Option<Event>>, failure: Option<DecodeError>)

  /** `OandaBacktestingGen.gen` (lines 150-158) over the lines already
      decoded: `running[k]` is the run flag as seen before line `k` is
      taken. The loop stops at the first line seen with the flag clear,
      then queues a Stop; a line that does not decode ends the generator
      with no Stop. */
  function ReplayDecoded(decoded: seq<Result<Option<Event>, DecodeError>>, running: seq<bool>): (r: Replayed)
    requires |running| == |decoded|
    ensures r.failure.None? ==>
      && |r.queued| >= 1 && r.queued[|r.queued| - 1] == Some(Stop)
      && |r.queued| - 1 <= |decoded|
      && (|r.queued| - 1 < |decoded| ==> !running[|r.queued| - 1])
    ensures r.failure.Some? ==>
      && |r.queued| < |decoded| && running[|r.queued|]
      && decoded[|r.queued|] == Err(r.failure.value)
    ensures forall k :: 0 <= k < |r.queued| && k < |decoded| && (r.failure.Some? || k < |r.queued| - 1) ==>
      running[k] && decoded[k] == Ok(r.queued[k])
    decreases |decoded|
  {
    if |decoded| == 0 || !running[0] then Replayed([Some(Stop)], None)
    else match decoded[0]
      case Err(e) => Replayed([], Some(e))
      case Ok(ev) =>
        var rest := ReplayDecoded(decoded[1..], running[1..]);
        assert forall k :: 1 <= k < |decoded| ==> decoded[k] == decoded[1..][k - 1] && running[k] == running[1..][k - 1];
        Replayed([ev] + rest.queued, rest.failure)
  }

  /** Each line of the file decoded by `event_from_repr`. */
  function Decoded(lines: seq<string>): (r: seq<Result<Option<Event>, DecodeError>>)
    ensures |r| == |lines| && forall k :: 0 <= k < |lines| ==> r[k] == EventFromRepr(lines[k])
  {
    seq(|lines|, k requires 0 <= k < |lines| => EventFromRepr(lines[k]))
  }

  function Replay(lines: seq<string>, running: seq<bool>): (r: Replayed)
    requires |running| == |lines|
    ensures r.failure.Some? ==> |r.queued| < |lines| && EventFromRepr(lines[|r.queued|]) == Err(r.failure.value)
    ensures r.failure.None? ==> |r.queued| >= 1 && r.queued[|r.queued| - 1] == Some(Stop)
    ensures forall k :: 0 <= k < |r.queued| && k < |lines| && (r.failure.Some? || k < |r.queued| - 1) ==>
      running[k] && EventFromRepr(lines[k]) == Ok(r.queued[k])
  {
    ReplayDecoded(Decoded(lines), running)
  }

  /** The lines the builder writes for the ticks `ts`. */
  function Lines(ts: seq<Event>): (r: seq<string>)
    requires forall k :: 0 <= k < |ts| ==> Writable(ts[k])
    ensures |r| == |ts|
  {
    seq(|ts|, k requires 0 <= k < |ts| && Writable(ts[k]) => Repr(ts[k]).value + "\n")
  }

  /** Replaying written ticks with the flag set throughout queues the ticks
      in order and then a Stop. */
  lemma {:induction false} ReplayWritten(ts: seq<Event>)
    requires forall k :: 0 <= k < |ts| ==> Writable(ts[k])
    ensures Replay(Lines(ts), seq(|ts|, _ => true)) ==
      Replayed(seq(|ts|, k requires 0 <= k < |ts| => Some(ts[k])) + [Some(Stop)], None)
  {
    var decoded := Decoded(Lines(ts));
    forall k | 0 <= k < |ts| ensures decoded[k] == Ok(Some(ts[k])) {
      ReprRoundTrip(ts[k]);
    }
    AllDecoded(ts, decoded);
  }

  lemma {:induction false} AllDecoded(ts: seq<Event>, decoded: seq<Result<Option<Event>, DecodeError>>)
    requires |decoded| == |ts| && forall k :: 0 <= k < |ts| ==> decoded[k] == Ok(Some(ts[k]))
    ensures ReplayDecoded(decoded, seq(|ts|, _ => true)) ==
      Replayed(seq(|ts|, k requires 0 <= k < |ts| => Some(ts[k])) + [Some(Stop)], None)
    decreases |ts|
  {
    if |ts| > 0 {
      AllDecoded(ts[1..], decoded[1..]);
      AllTrueTail(|ts|);
      SomesCons(ts);
    }
  }

  lemma AllTrueTail(n: nat)
    requires n > 0
    ensures seq(n, _ => true)[1..] == seq(n - 1, _ => true)
  {
  }

  lemma SomesCons<T>(ts: seq<T>)
    requires |ts| > 0
    ensures seq(|ts|, k requires 0 <= k < |ts| => Some(ts[k])) ==
      [Some(ts[0])] + seq(|ts| - 1, k requires 0 <= k < |ts| - 1 => Some(ts[1..][k]))
  {
  }

  /** Ticks the builder writes for instruments free of commas, quotes,
      backslashes and line breaks can be read back. */
  lemma BuiltWritable(sources: seq<Source>, end: int, traded: seq<string>)
    requires forall s :: s in sources ==> PlainField(s.instrument)
    ensures var ts := Build(sources, end, traded).ticks;
      forall k :: 0 <= k < |ts| ==> Writable(ts[k])
  {
    BuildNames(sources, end, traded);
  }

  /** Building the history and replaying it with the run flag set queues
      exactly the built ticks, then a Stop. */
  lemma BuildThenReplay(sources: seq<Source>, end: int, traded: seq<string>)
    requires forall s :: s in sources ==> PlainField(s.instrument)
    ensures var ts := Build(sources, end, traded).ticks;
      (forall k :: 0 <= k < |ts| ==> Writable(ts[k])) &&
      Replay(Lines(ts), seq(|ts|, _ => true)) ==
        Replayed(seq(|ts|, k requires 0 <= k < |ts| => Some(ts[k])) + [Some(Stop)], None)
  {
    BuiltWritable(sources, end, traded);
    ReplayWritten(Build(sources, end, traded).ticks);
  }
}

=== FILE: candles.dfy ===
/** The candle request of the earlier broker client (pa/api/oanda.py:46-99):
    the argument checks, the granularity's length in seconds, the count
    worked out from a time range, and the paging of large counts into
    requests of at most 4000 candles; and the bodies of its two close
    calls (lines 136-138 and 173-175). Times are whole epoch seconds, the
    clock reading `now` is a parameter, and the broker's responses are
    given as the sequence of candle-time pages it returns, one per request. */
module Candles {
  import opened Wrappers
  import opened Text

  /** Counts above this are fetched page by page. */
  const PagingThreshold := 5000
  /** The most candles asked for in one page. */
  const PageSize := 4000
  const DefaultGranularity := "S5"

  datatype CandleError =
    | MissingRange     // neither count nor start, or an end without a start: `raise Exception`
    | BadMultiplier    // `int(granularity[1])` on a non-digit: ValueError
    | UnknownUnit      // a granularity letter the table lacks: TypeError on None
    | ZeroUnit         // a multiplier of 0: ZeroDivisionError
    | NoStart          // a count above 5000 without a start: `raise Exception`
    | EmptyResponse    // the first page holds no candles: IndexError on `[-1]`
    | NoResponse       // the given responses ran out before the count was reached

  /** Seconds per unit letter; a bare "M" is a month of 30 days. */
  function BaseSeconds(g: string): (r: Option<nat>)
    requires |g| > 0
    ensures r.Some? ==> r.value > 0
  {
    if g == "M" then Some(30 * 24 * 60 * 60)
    else if g[0] == 'S' then Some(1)
    else if g[0] == 'M' then Some(60)
    else if g[0] == 'H' then Some(60 * 60)
    else if g[0] == 'D' then Some(24 * 60 * 60)
    else if g[0] == 'W' then Some(7 * 24 * 60 * 60)
    else None
  }

  /** Lines 64-66 as written: the multiplier is the single character after
      the letter, so "M15" is taken for one minute. */
  function UnitAsWritten(g: string): (r: Result<nat, CandleError>)
    requires |g| > 0
    ensures r.Ok? ==> BaseSeconds(g).Some? && r.value > 0
    ensures r.Ok? && |g| > 1 ==> IsDigit(g[1]) && r.value == BaseSeconds(g).value * DigitValue(g[1])
  {
    if |g| > 1 && !IsDigit(g[1]) then Err(BadMultiplier)
    else if BaseSeconds(g).None? then Err(UnknownUnit)
    else
      var unit := BaseSeconds(g).value * (if |g| > 1 then DigitValue(g[1]) else 1);
      if unit == 0 then Err(ZeroUnit) else Ok(unit)
  }

  /** The length of a candle: the unit letter's seconds times the whole
      number written after it. */
  function Unit(g: string): (r: Result<nat, CandleError>)
    requires |g| > 0
    ensures r.Ok? ==> BaseSeconds(g).Some? && r.value > 0
  {
    if |g| > 1 && !AllDigits(g[1..]) then Err(BadMultiplier)
    else if BaseSeconds(g).None? then Err(UnknownUnit)
    else
      var unit := BaseSeconds(g).value * (if |g| > 1 then DigitsToNat(g[1..]) else 1);
      if unit == 0 then Err(ZeroUnit) else Ok(unit)
  }

  /** A granularity written as a unit letter and a positive number lasts
      that many units. */
  lemma UnitOfText(letter: char, n: nat)
    requires letter in "SHDW" || letter == 'M'
    requires n >= 1
    ensures var g := [letter] + NatToDigits(n);
      BaseSeconds(g).Some? && Unit(g) == Ok(BaseSeconds(g).value * n)
  {
    var g := [letter] + NatToDigits(n);
    assert g[1..] == NatToDigits(n);
    assert g != "M";
    NatDigitsRoundTrip(n);
  }

  /** The two readings agree on a letter alone and on a single-digit number. */
  lemma UnitSingleDigit(g: string)
    requires |g| == 1 || (|g| == 2 && IsDigit(g[1]))
    ensures UnitAsWritten(g) == Unit(g)
  {
    if |g| == 2 {
      assert g[1..] == [g[1]] && [g[1]][..0] == [];
      assert AllDigits(g[1..]) && DigitsToNat(g[1..]) == DigitValue(g[1]);
    }
  }

  /** Fifteen-minute candles are counted as one-minute candles, so a range
      of one hour asks for 60 candles instead of 4. */
  lemma FifteenMinutesMiscounted()
    ensures UnitAsWritten("M15") == Ok(60)
    ensures Unit("M15") == Ok(900)
    ensures 3600 / UnitAsWritten("M15").value == 60 && 3600 / Unit("M15").value == 4
  {
    UnitOfText('M', 15);
    assert NatToDigits(15) == "15";
    assert [('M' as char)] + "15" == "M15";
  }

  /** A query parameter value. */
  datatype Param = Count(n: int) | Granularity(g: string) | Time(t: int) | Given(text: string)

  /** `_get_instrument_candles_params`: each field is added only when it is
      truthy (a count of 0, an empty granularity and a missing time are
      not), over the parameters passed in. */
  function CandleParams(count: int, granularity: string, start: Option<int>, end: Option<int>,
                        params: map<string, Param>): (r: map<string, Param>)
    ensures forall k :: k !in {"count", "granularity", "start", "end"} ==> (k in r <==> k in params)
    ensures forall k :: k in params && k !in {"count", "granularity", "start", "end"} ==> r[k] == params[k]
    ensures count != 0 ==> "count" in r && r["count"] == Count(count)
    ensures granularity != "" ==> "granularity" in r && r["granularity"] == Granularity(granularity)
    ensures start.Some? ==> "start" in r && r["start"] == Time(start.value)
    ensures end.Some? ==> "end" in r && r["end"] == Time(end.value)
    ensures forall k :: k in {"count", "granularity", "start", "end"} && k !in params ==>
      (k in r <==> (k == "count" && count != 0) || (k == "granularity" && granularity != "") ||
                   (k == "start" && start.Some?) || (k == "end" && end.Some?))
  {
    var p1 := if count != 0 then params["count" := Count(count)] else params;
    var p2 := if granularity != "" then p1["granularity" := Granularity(granularity)] else p1;
    var p3 := if start.Some? then p2["start" := Time(start.value)] else p2;
    if end.Some? then p3["end" := Time(end.value)] else p3
  }

  /** What a call returns: the candle times gathered and the parameters of
      each request sent, in order. */
  datatype Fetched = Fetched(candles: seq<int>, requests: seq<map<string, Param>>)

  function Min(a: int, b: int): int {
    if a < b then a else b
  }

  /** The page sizes a broker that always fills its pages is asked for. */
  function Steps(count: int, running: int): (r: seq<nat>)
    ensures forall k :: 0 <= k < |r| ==> 1 <= r[k] <= PageSize
    decreases count - running
  {
    if running >= count then [] else [Min(PageSize, count - running)] + Steps(count, running + Min(PageSize, count - running))
  }

  /** Lines 72-79: while fewer than `count` candles have come back, ask for
      the rest, at most 4000 at a time, starting at the time of the last
      candle received; the same parameter dictionary is updated request
      after request. */
  function Paginate(count: int, running: int, start: int, end: Option<int>, granularity: string,
                    params: map<string, Param>, pages: seq<seq<int>>, got: seq<int>): (r: Result<Fetched, CandleError>)
    requires granularity != ""
    ensures r.Err? ==> r.error == NoResponse || r.error == EmptyResponse
    ensures r.Ok? ==> running + |r.value.candles| - |got| >= count && got <= r.value.candles
    ensures r.Ok? ==> |r.value.requests| <= |pages|
    ensures r.Ok? ==> forall k :: 0 <= k < |r.value.requests| ==>
      && "count" in r.value.requests[k] && r.value.requests[k]["count"].Count?
      && 1 <= r.value.requests[k]["count"].n <= PageSize
      && "granularity" in r.value.requests[k] && r.value.requests[k]["granularity"] == Granularity(granularity)
    decreases |pages|
  {
    if running >= count then Ok(Fetched(got, []))
    else if |pages| == 0 then Err(NoResponse)
    else
      var step := Min(PageSize, count - running);
      var p := CandleParams(step, granularity, Some(start), end, params);
      var all := got + pages[0];
      if |all| == 0 then Err(EmptyResponse)
      else match Paginate(count, running + |pages[0]|, all[|all| - 1], end, granularity, p, pages[1..], all)
        case Err(e) => Err(e)
        case Ok(rest) =>
          assert got <= all <= rest.candles;
          Ok(Fetched(rest.candles, [p] + rest.requests))
  }

  /** ceil((count - running) / 4000) pages are needed. */
  lemma {:induction false} StepsLength(count: int, running: int)
    requires running <= count
    ensures |Steps(count, running)| == (count - running + PageSize - 1) / PageSize
    decreases count - running
  {
    if running < count {
      StepsLength(count, running + Min(PageSize, count - running));
    }
  }

  /** The broker's pages hold, in turn, as many candles as `steps` asks for. */
  predicate PagesFit(pages: seq<seq<int>>, steps: seq<nat>) {
    |pages| >= |steps| && forall k :: 0 <= k < |steps| ==> |pages[k]| == steps[k]
  }

  /** The requests asked, in turn, for the counts in `steps`. */
  predicate AskedFor(requests: seq<map<string, Param>>, steps: seq<nat>) {
    |requests| == |steps| && forall k :: 0 <= k < |steps| ==> "count" in requests[k] && requests[k]["count"] == Count(steps[k])
  }

  /** A broker that fills every page is asked `Steps(count, running)` in
      turn, and the call returns exactly the missing candles. */
  lemma {:induction false} FullPages(count: int, running: int, start: int, end: Option<int>, granularity: string,
                                     params: map<string, Param>, pages: seq<seq<int>>, got: seq<int>)
    requires granularity != "" && running <= count
    requires PagesFit(pages, Steps(count, running))
    ensures var r := Paginate(count, running, start, end, granularity, params, pages, got);
      && r.Ok? && |r.value.candles| == |got| + count - running
      && AskedFor(r.value.requests, Steps(count, running))
    decreases count - running
  {
    if running < count {
      var step := Min(PageSize, count - running);
      var p := CandleParams(step, granularity, Some(start), end, params);
      var all := got + pages[0];
      var next := running + step;
      var tail := Steps(count, next);
      PagesTail(pages, count, running);
      FullPages(count, next, all[|all| - 1], end, granularity, p, pages[1..], all);
      var rest := Paginate(count, next, all[|all| - 1], end, granularity, p, pages[1..], all).value;
      AskedForCons(p, rest.requests, step, tail);
      PaginateStep(count, running, start, end, granularity, params, pages, got);
    }
  }

  /** One round of the loop: ask for the next page, then carry on from its last candle. */
  lemma PaginateStep(count: int, running: int, start: int, end: Option<int>, granularity: string,
                     params: map<string, Param>, pages: seq<seq<int>>, got: seq<int>)
    requires granularity != "" && running < count && |pages| > 0 && |pages[0]| > 0
    ensures var p := CandleParams(Min(PageSize, count - running), granularity, Some(start), end, params);
      var all := got + pages[0];
      var rest := Paginate(count, running + |pages[0]|, all[|all| - 1], end, granularity, p, pages[1..], all);
      Paginate(count, running, start, end, granularity, params, pages, got)
        == if rest.Ok? then Ok(Fetched(rest.value.candles, [p] + rest.value.requests)) else rest
  {
  }

  /** What is left of the pages once the first has been read. */
  lemma PagesTail(pages: seq<seq<int>>, count: int, running: int)
    requires running < count && PagesFit(pages, Steps(count, running))
    ensures var step := Min(PageSize, count - running);
      |pages[0]| == step && PagesFit(pages[1..], Steps(count, running + step))
  {
    var steps := Steps(count, running);
    assert steps[1..] == Steps(count, running + Min(PageSize, count - running));
    assert forall k :: 0 <= k < |steps[1..]| ==> pages[1..][k] == pages[k + 1] && steps[1..][k] == steps[k + 1];
  }

  lemma AskedForCons(p: map<string, Param>, rest: seq<map<string, Param>>, step: nat, tail: seq<nat>)
    requires "count" in p && p["count"] == Count(step) && AskedFor(rest, tail)
    ensures AskedFor([p] + rest, [step] + tail)
  {
    assert forall k :: 1 <= k < |tail| + 1 ==> ([p] + rest)[k] == rest[k - 1] && ([step] + tail)[k] == tail[k - 1];
  }

  /** The arguments of `instrument_candles`: a count of 0 and an empty
      granularity stand for the falsy values the source tests against. */
  datatype Request = Request(count: int, granularity: string, start: Option<int>, end: Option<int>,
                             params: map<string, Param>)

  /** `instrument_candles` (lines 46-86). Without a count the granularity's
      length is read by `UnitAsWritten` when `asWritten` holds, as lines
      64-66 do, and by the corrected `Unit` otherwise. Without a count, the end becomes `now` and the count is the
      whole number of candles between start and now; counts above 5000
      are paged, and need a start. */
  function InstrumentCandles(req: Request, now: int, pages: seq<seq<int>>, asWritten: bool): (r: Result<Fetched, CandleError>)
    ensures r == Err(MissingRange) <==> (req.count == 0 && req.start.None?) || (req.end.Some? && req.start.None?)
    ensures r == Err(NoStart) <==> req.count > PagingThreshold && req.start.None? && req.end.None?
    ensures r.Ok? ==> forall k :: 0 <= k < |r.value.requests| ==>
      "granularity" in r.value.requests[k] &&
      r.value.requests[k]["granularity"] == Granularity(if req.granularity == "" then DefaultGranularity else req.granularity)
  {
    if (req.count == 0 && req.start.None?) || (req.end.Some? && req.start.None?) then Err(MissingRange)
    else
      var g := if req.granularity == "" then DefaultGranularity else req.granularity;
      var counted: Result<(int, Option<int>), CandleError> :=
        if req.count != 0 then Ok((req.count, req.end))
        else match (if asWritten then UnitAsWritten(g) else Unit(g))
          case Err(e) => Err(e)
          case Ok(unit) => Ok(((now - req.start.value) / unit, Some(now)));
      match counted
      case Err(e) => Err(e)
      case Ok((count, end)) =>
        if count > PagingThreshold then
          if req.start.None? then Err(NoStart)
          else Paginate(count, 0, req.start.value, end, g, req.params, pages, [])
        else if |pages| == 0 then Err(NoResponse)
        else Ok(Fetched(pages[0], [CandleParams(count, g, req.start, end, req.params)]))
  }

  /** Without a count, the request asks for the whole candles between the
      start and `now`: a range of `n` units is one request for `n` candles
      when `n` is at most 5000. */
  lemma CountFromRange(req: Request, now: int, pages: seq<seq<int>>, asWritten: bool, unit: nat)
    requires req.count == 0 && req.start.Some? && |pages| > 0
    requires var g := if req.granularity == "" then DefaultGranularity else req.granularity;
      (if asWritten then UnitAsWritten(g) else Unit(g)) == Ok(unit)
    requires 0 < (now - req.start.value) / unit <= PagingThreshold
    ensures var r := InstrumentCandles(req, now, pages, asWritten);
      && r.Ok? && |r.value.requests| == 1
      && r.value.requests[0]["count"] == Count((now - req.start.value) / unit)
      && r.value.requests[0]["end"] == Time(now)
  {
  }

  /** A count above 5000 served in full comes back in
      ceil(count / 4000) requests of at most 4000 candles each. */
  lemma LargeCountPaged(req: Request, now: int, pages: seq<seq<int>>, asWritten: bool)
    requires req.count > PagingThreshold && req.start.Some?
    requires PagesFit(pages, Steps(req.count, 0))
    ensures InstrumentCandles(req, now, pages, true) == InstrumentCandles(req, now, pages, false)
    ensures var r := InstrumentCandles(req, now, pages, asWritten);
      && r.Ok? && |r.value.candles| == req.count
      && |r.value.requests| == (req.count + PageSize - 1) / PageSize
  {
    var g := if req.granularity == "" then DefaultGranularity else req.granularity;
    FullPages(req.count, 0, req.start.value, req.end, g, req.params, pages, []);
    StepsLength(req.count, 0);
  }

  /** An hour of M15 candles with no count: as written the call asks for 60
      candles, where the hour holds 4. */
  lemma HourOfFifteenMinutes(params: map<string, Param>, start: int, page: seq<int>)
    requires start > 0
    ensures var req := Request(0, "M15", Some(start), None, params);
      var asWritten := InstrumentCandles(req, start + 3600, [page], true);
      var corrected := InstrumentCandles(req, start + 3600, [page], false);
      && asWritten.Ok? && |asWritten.value.requests| == 1 && "count" in asWritten.value.requests[0]
      && asWritten.value.requests[0]["count"] == Count(60)
      && corrected.Ok? && |corrected.value.requests| == 1 && "count" in corrected.value.requests[0]
      && corrected.value.requests[0]["count"] == Count(4)
  {
    FifteenMinutesMiscounted();
    var req := Request(0, "M15", Some(start), None, params);
    CountFromRange(req, start + 3600, [page], true, 60);
    CountFromRange(req, start + 3600, [page], false, 900);
  }

  // ---------------------------------------------------------------- close bodies

  /** The default amount of the close calls: close everything. */
  const Close := "ALL"

  /** `close_trade`'s body: `units` is the text of the amount, "ALL" by default. */
  function CloseTradeBody(close: Option<string>): (r: map<string, string>)
    ensures r.Keys == {"units"}
    ensures close.None? ==> r["units"] == Close
    ensures close.Some? ==> r["units"] == close.value
  {
    map["units" := if close.None? then Close else close.value]
  }

  /** `close_position`'s body: both sides are sent, each "ALL" by default. */
  function ClosePositionBody(long: Option<string>, short: Option<string>): (r: map<string, string>)
    ensures r.Keys == {"longUnits", "shortUnits"}
    ensures r["longUnits"] == (if long.None? then Close else long.value)
    ensures r["shortUnits"] == (if short.None? then Close else short.value)
  {
    map["longUnits" := if long.None? then Close else long.value, "shortUnits" := if short.None? then Close else short.value]
  }
}

=== FILE: cli.dfy ===
/** The interactive command line of both revisions (peoples_advisor/cli/cli.py
    and pa/cli/cli.py, which agree here but for the lexer's style names and
    how a history file is named): the argument types for datetimes,
    granularities and file names, the plain-text error line, the colouring
    of a typed line, and what a parsed command leads to. */
module Cli {
  import opened Wrappers
  import opened Text
  import opened OandaTime
  import FileNames
  import Candles

  /** Why an argument type refuses its text: `ArgumentTypeError` with its own
      message, or a `ValueError` that argparse reports as an invalid value. */
  datatype ArgError =
    | NotDatetime(text: string)
    | BadValue(text: string)
    | NotGranularity(text: string)
    | NotFilename(text: string)

  // ---------------------------------------------------------------- datetimes

  /** `[12][90][0-9][0-9]`. */
  predicate YearPiece(p: string) {
    |p| == 4 && (p[0] == '1' || p[0] == '2') && (p[1] == '9' || p[1] == '0') && IsDigit(p[2]) && IsDigit(p[3])
  }

  /** `[0-L]?[0-9]`: one digit, or two whose first is at most `maxLead`. */
  predicate ShortPiece(p: string, maxLead: char) {
    || (|p| == 1 && IsDigit(p[0]))
    || (|p| == 2 && '0' <= p[0] <= maxLead && IsDigit(p[1]))
  }

  /** The comma-separated fields the datetime pattern accepts: a year, a
      month `[01]?[0-9]`, a day `[0123]?[0-9]` and up to three more
      one- or two-digit fields. */
  predicate PiecesMatch(ps: seq<string>) {
    && 3 <= |ps| <= 6 && YearPiece(ps[0]) && ShortPiece(ps[1], '1') && ShortPiece(ps[2], '3')
    && forall k :: 3 <= k < |ps| ==> ShortPiece(ps[k], '9')
  }

  /** `s.find(c)`, as an option. */
  function FirstIndex(s: string, c: char): (r: Option<nat>)
    ensures r.Some? ==> r.value < |s| && s[r.value] == c && c !in s[..r.value]
    ensures r.None? ==> c !in s
    decreases |s|
  {
    if |s| == 0 then None
    else if s[0] == c then Some(0)
    else match FirstIndex(s[1..], c)
      case None => None
      case Some(i) =>
        assert s[..i + 1] == [s[0]] + s[1..][..i];
        Some(i + 1)
  }

  /** `re.match(datetime_pattern, s)`: the length of the prefix it matches.
      The pattern is `(`, fields holding neither `)` nor `,` separated by
      commas, then `)`; so a match, when there is one, ends at the first `)`
      and its fields are the comma-separated pieces before it. */
  function DatetimeMatch(s: string): (r: Option<nat>)
    ensures r.Some? ==> 2 <= r.value <= |s| && s[0] == '(' && s[r.value - 1] == ')'
  {
    if |s| == 0 || s[0] != '(' then None
    else match FirstIndex(s[1..], ')')
      case None => None
      case Some(p) => if PiecesMatch(Split(s[1..p + 1], ',')) then Some(p + 2) else None
  }

  /** `[int(x) for x in pieces]`, failing when any piece is not an integer. */
  function Fields(ps: seq<string>): (r: Option<seq<int>>)
    ensures r.Some? ==> |r.value| == |ps|
    decreases |ps|
  {
    if |ps| == 0 then Some([])
    else match (ParseInt(ps[0]), Fields(ps[1..]))
      case (Some(v), Some(vs)) => Some([v] + vs)
      case _ => None
  }

  /** The values `Fields` reads are the integers the pieces spell, and it
      fails exactly when some piece is not an integer. */
  lemma {:induction false} FieldsValues(ps: seq<string>)
    ensures Fields(ps).Some? <==> forall k :: 0 <= k < |ps| ==> ParseInt(ps[k]).Some?
    ensures Fields(ps).Some? ==> forall k :: 0 <= k < |ps| ==> ParseInt(ps[k]) == Some(Fields(ps).value[k])
    decreases |ps|
  {
    if |ps| > 0 {
      FieldsValues(ps[1..]);
      assert forall k :: 1 <= k < |ps| ==> ps[1..][k - 1] == ps[k];
    }
  }

  /** The loop appending zeros until there are six values. */
  function Padded(vs: seq<int>): (r: seq<int>)
    ensures |r| >= 6 && |r| >= |vs| && r[..|vs|] == vs
    ensures forall k :: |vs| <= k < |r| ==> r[k] == 0
  {
    if |vs| >= 6 then vs else vs + seq(6 - |vs|, _ => 0)
  }

  /** `cli_datetime`: a text the pattern does not match at its start is
      refused with its own message; otherwise the text between the first
      and last characters is split at commas, every piece read with `int`,
      zeros appended up to six values, and the first six handed to
      `datetime`, whose refusal (and `int`'s) argparse reports as an
      invalid value. */
  function CliDatetime(s: string): (r: Result<DateTime, ArgError>)
    ensures r == Err(NotDatetime(s)) <==> DatetimeMatch(s).None?
    ensures r.Ok? ==> Valid(r.value) && r.value.micro == 0
  {
    if DatetimeMatch(s).None? then Err(NotDatetime(s))
    else match Fields(Split(s[1..|s| - 1], ','))
      case None => Err(BadValue(s))
      case Some(vs) =>
        var v := Padded(vs);
        if v[0] < 0 || v[1] < 0 || v[2] < 0 || v[3] < 0 || v[4] < 0 || v[5] < 0 then Err(BadValue(s))
        else
          var d := DateTime(v[0], v[1], v[2], v[3], v[4], v[5], 0);
          if Valid(d) then Ok(d) else Err(BadValue(s))
  }

  /** `int` refuses a piece holding a `)`. */
  lemma ParenRefused(p: string)
    requires ')' in p
    ensures ParseInt(p).None?
  {
    var k :| 0 <= k < |p| && p[k] == ')';
    if |p| > 1 && p[0] == '-' {
      assert k > 0 && p[1..][k - 1] == ')';
    }
  }

  /** A match that stops short of the end is refused: the closing `)` it
      ends at lies inside some piece, which `int` refuses; so a datetime is
      only ever read from a text the pattern matches whole. */
  lemma ShortMatchRefused(s: string)
    requires DatetimeMatch(s).Some? && DatetimeMatch(s).value < |s|
    ensures CliDatetime(s) == Err(BadValue(s))
  {
    var m := DatetimeMatch(s).value;
    var inner := s[1..|s| - 1];
    var ps := Split(inner, ',');
    assert inner[m - 2] == ')';
    SplitCovers(inner, ',', m - 2);
    var k :| 0 <= k < |ps| && ')' in ps[k];
    ParenRefused(ps[k]);
    FieldsValues(ps);
  }

  /** A text the pattern matches whole always reads as integers, so only
      `datetime`'s range check can still refuse it. */
  lemma WholeMatchReads(s: string)
    requires DatetimeMatch(s) == Some(|s|)
    ensures Fields(Split(s[1..|s| - 1], ',')).Some?
  {
    var ps := Split(s[1..|s| - 1], ',');
    assert s[1..|s| - 1] == s[1..][..|s| - 2];
    forall k | 0 <= k < |ps| ensures ParseInt(ps[k]).Some? {
      assert AllDigits(ps[k]) && |ps[k]| > 0;
    }
    FieldsValues(ps);
  }

  /** The years the pattern's `[12][90][0-9][0-9]` admits. */
  predicate TypedYear(y: nat) {
    (1000 <= y < 1100) || (1900 <= y < 2100) || (2900 <= y < 3000)
  }

  /** The text a user types for `d` with its first `n` fields: `(Y,M,D)`,
      `(Y,M,D,h)`, `(Y,M,D,h,m)` or `(Y,M,D,h,m,s)`. */
  function DatetimeText(d: DateTime, n: nat): string
    requires 3 <= n <= 6
  {
    "(" + Join(FieldTexts(d)[..n], ",") + ")"
  }

  /** The six numbers of a datetime the command line spells, in order. */
  function FieldValues(d: DateTime): (r: seq<nat>)
    ensures |r| == 6
  {
    [d.year, d.month, d.day, d.hour, d.minute, d.second]
  }

  function FieldTexts(d: DateTime): (r: seq<string>)
    ensures |r| == 6 && forall k :: 0 <= k < 6 ==> r[k] == NatToDigits(FieldValues(d)[k])
  {
    seq(6, k requires 0 <= k < 6 => NatToDigits(FieldValues(d)[k]))
  }

  /** `str` of a number below 100 is one digit, or two led by its tens. */
  lemma SmallDigits(n: nat)
    requires n < 100
    ensures n < 10 ==> NatToDigits(n) == [DigitChar(n)]
    ensures n >= 10 ==> NatToDigits(n) == [DigitChar(n / 10), DigitChar(n % 10)]
  {
  }

  /** `str` of a four-digit year, digit by digit. */
  lemma YearDigits(y: nat)
    requires 1000 <= y < 10000
    ensures NatToDigits(y) == [DigitChar(y / 1000), DigitChar(y / 100 % 10), DigitChar(y / 10 % 10), DigitChar(y % 10)]
  {
    var c := y / 10;
    var b := c / 10;
    assert b == y / 100 && b / 10 == y / 1000 && 10 <= b < 100;
    SmallDigits(b);
    assert NatToDigits(c) == NatToDigits(b) + [DigitChar(c % 10)];
    assert NatToDigits(y) == NatToDigits(c) + [DigitChar(y % 10)];
  }

  lemma YearPieceOf(y: nat)
    requires TypedYear(y)
    ensures YearPiece(NatToDigits(y))
  {
    YearDigits(y);
  }

  lemma ShortPieceOf(n: nat, maxLead: char)
    requires n < 10 || (n < 100 && DigitChar(n / 10) <= maxLead)
    ensures ShortPiece(NatToDigits(n), maxLead)
  {
    SmallDigits(n);
  }

  /** Every field of a valid datetime with a typed year fits the pattern. */
  lemma FieldTextsMatch(d: DateTime, n: nat)
    requires Valid(d) && TypedYear(d.year) && 3 <= n <= 6
    ensures PiecesMatch(FieldTexts(d)[..n])
  {
    var ps := FieldTexts(d)[..n];
    YearPieceOf(d.year);
    ShortPieceOf(d.month, '1');
    ShortPieceOf(d.day, '3');
    ShortPieceOf(d.hour, '9');
    ShortPieceOf(d.minute, '9');
    ShortPieceOf(d.second, '9');
    assert forall k :: 3 <= k < n ==> ps[k] == FieldTexts(d)[k];
  }

  /** The text of a field holds neither a comma nor a parenthesis. */
  lemma FieldTextsPlain(d: DateTime, n: nat, c: char)
    requires n <= 6 && !IsDigit(c)
    ensures forall k :: 0 <= k < n ==> c !in FieldTexts(d)[..n][k]
  {
    forall k | 0 <= k < n ensures c !in FieldTexts(d)[..n][k] {
      assert AllDigits(FieldTexts(d)[k]);
    }
  }

  /** `int` reads each field text back as its value. */
  lemma FieldsOfTexts(d: DateTime, n: nat)
    requires n <= 6
    ensures Fields(FieldTexts(d)[..n]) == Some(FieldValues(d)[..n])
  {
    var ps := FieldTexts(d)[..n];
    var vs := FieldValues(d)[..n];
    forall k | 0 <= k < n ensures ParseInt(ps[k]) == Some(vs[k] as int) {
      IntRoundTrip(vs[k]);
    }
    FieldsValues(ps);
    assert Fields(ps).value == vs;
  }

  /** A parenthesised text free of other `)` whose pieces fit is matched whole. */
  lemma WrappedMatched(inner: string)
    requires ')' !in inner && PiecesMatch(Split(inner, ','))
    ensures var s := "(" + inner + ")"; DatetimeMatch(s) == Some(|s|) && s[1..|s| - 1] == inner
  {
    var s := "(" + inner + ")";
    assert s[1..] == inner + ")" && s[1..][|inner|] == ')';
    assert s[1..|inner| + 1] == inner;
  }

  /** The typed text is matched whole, and its inside is the joined fields. */
  lemma DatetimeTextMatched(d: DateTime, n: nat)
    requires Valid(d) && TypedYear(d.year) && 3 <= n <= 6
    ensures var s := DatetimeText(d, n);
      && DatetimeMatch(s) == Some(|s|) && s[1..|s| - 1] == Join(FieldTexts(d)[..n], ",")
  {
    var ps := FieldTexts(d)[..n];
    FieldTextsPlain(d, n, ',');
    FieldTextsPlain(d, n, ')');
    JoinExcludes(ps, ",", ')');
    SplitJoin(ps, ',');
    FieldTextsMatch(d, n);
    WrappedMatched(Join(ps, ","));
  }

  /** Typing a valid datetime with a typed year as its first 3 to 6 fields,
      the rest being zero, reads back that datetime to the second. */
  lemma DatetimeTextRoundTrip(d: DateTime, n: nat)
    requires Valid(d) && TypedYear(d.year) && d.micro == 0 && 3 <= n <= 6
    requires n <= 3 ==> d.hour == 0
    requires n <= 4 ==> d.minute == 0
    requires n <= 5 ==> d.second == 0
    ensures CliDatetime(DatetimeText(d, n)) == Ok(d)
  {
    var ps := FieldTexts(d)[..n];
    var s := DatetimeText(d, n);
    DatetimeTextMatched(d, n);
    FieldTextsPlain(d, n, ',');
    SplitJoin(ps, ',');
    FieldsOfTexts(d, n);
    PaddedValues(d, n);
    ReadsAs(s, d);
  }

  /** A matched text whose padded values are those of a valid datetime reads as it. */
  lemma ReadsAs(s: string, d: DateTime)
    requires DatetimeMatch(s).Some? && Valid(d) && d.micro == 0
    requires Fields(Split(s[1..|s| - 1], ',')).Some?
    requires Padded(Fields(Split(s[1..|s| - 1], ',')).value) == FieldValues(d)
    ensures CliDatetime(s) == Ok(d)
  {
  }

  /** Zeros stand in for the fields left out. */
  lemma PaddedValues(d: DateTime, n: nat)
    requires 3 <= n <= 6
    requires n <= 3 ==> d.hour == 0
    requires n <= 4 ==> d.minute == 0
    requires n <= 5 ==> d.second == 0
    ensures Padded(FieldValues(d)[..n]) == FieldValues(d)
  {
  }

  // ---------------------------------------------------------------- granularities

  /** `allowed_grans`. */
  const AllowedGrans: seq<string> := [
    "S5", "S10", "S15", "S30", "M1", "M2", "M4", "M5", "M10", "M15", "M30",
    "H1", "H2", "H3", "H4", "H6", "H8", "H12", "D", "W", "M"]

  /** `cli_granularity`: membership in the list, the text itself kept. */
  function CliGranularity(s: string): (r: Result<string, ArgError>)
    ensures r.Ok? <==> s in AllowedGrans
    ensures r.Ok? ==> r.value == s
    ensures r.Err? ==> r.error == NotGranularity(s)
  {
    if s in AllowedGrans then Ok(s) else Err(NotGranularity(s))
  }

  /** Every granularity the command line lets through is one the candle
      request can turn into a positive number of seconds. */
  lemma GranularitiesUnderstood(s: string)
    requires CliGranularity(s).Ok?
    ensures Candles.Unit(s).Ok? && Candles.Unit(s).value > 0
  {
    forall k | 0 <= k < |AllowedGrans|
      ensures |AllowedGrans[k]| > 0 && Candles.Unit(AllowedGrans[k]).Ok? && Candles.Unit(AllowedGrans[k]).value > 0
    {
      var g := AllowedGrans[k];
      if |g| > 1 {
        assert AllDigits(g[1..]) && DigitsToNat(g[1..]) > 0;
      }
    }
  }

  // ---------------------------------------------------------------- file names

  /** The class `[a-zA-Z-_\[\].]`: letters, '-', '_', '[', ']' and '.'. Python
      reads the '-' after the completed range `A-Z` as a literal. */
  predicate NameChar(ch: char) {
    IsLetter(ch) || ch == '-' || ch == '_' || ch == '[' || ch == ']' || ch == '.'
  }

  /** `cli_filename`: `re.match` with `+` only needs the first character to
      be in the class; the rest of the name is not looked at. */
  function CliFilename(s: string): (r: Result<string, ArgError>)
    ensures r.Ok? ==> r.value == s && |s| > 0
    ensures r.Err? ==> r.error == NotFilename(s)
  {
    if |s| > 0 && NameChar(s[0]) then Ok(s) else Err(NotFilename(s))
  }

  /** Only the first character decides: any tail may follow an accepted one. */
  lemma FilenameFirstOnly(s: string, t: string)
    requires |s| > 0 && |t| > 0 && s[0] == t[0]
    ensures CliFilename(s).Ok? <==> CliFilename(t).Ok?
  {
  }

  /** A name starting with '-' is accepted; one starting with '^' or '\' is not. */
  lemma FilenameLeadingChars(rest: string)
    ensures CliFilename("-" + rest).Ok?
    ensures CliFilename("^" + rest).Err? && CliFilename("\\" + rest).Err?
  {
  }

  /** `history`'s choice of file name: the standard name when no alias (or an
      empty one) is given, else the alias with ".txt" appended. */
  function HistoryFileName(instruments: seq<string>, from: DateTime, to: DateTime, alias: Option<string>): (r: string)
    requires Valid(from) && Valid(to)
    ensures |r| >= 4 && r[|r| - 4..] == ".txt"
  {
    if alias.None? || alias.value == "" then FileNames.StandardFileName(instruments, from, to)
    else alias.value + ".txt"
  }

  /** An alias the command line accepts names the file, with ".txt" added. */
  lemma AliasNamesFile(instruments: seq<string>, from: DateTime, to: DateTime, alias: string)
    requires Valid(from) && Valid(to) && CliFilename(alias).Ok?
    ensures HistoryFileName(instruments, from, to, Some(alias)) == alias + ".txt"
  {
  }

  /** A standard history name starts with its year's digits, so it cannot
      itself be given as an alias. */
  lemma StandardNameNotAlias(instruments: seq<string>, from: DateTime, to: DateTime)
    requires Valid(from) && Valid(to)
    ensures CliFilename(FileNames.StandardFileName(instruments, from, to)).Err?
  {
    var y := FileNames.YearText(from.year);
    assert FileNames.StandardFileName(instruments, from, to)[0] == y[0];
    assert IsDigit(y[0]);
  }

  // ---------------------------------------------------------------- error line

  const InvalidChoice := "argument command: invalid choice: "

  /** The internal argument names the error line renames, in order. */
  predicate NoSnippet(m: string) {
    && !Contains(m, "from_time") && !Contains(m, "to_time")
    && !Contains(m, "cli_datetime") && !Contains(m, "cli_granularity")
  }

  /** The four renames, applied in order to the whole message. */
  function Renamed(msg: string): (r: string)
    ensures NoSnippet(msg) ==> r == msg
  {
    if NoSnippet(msg) then
      ReplaceAbsent(msg, "from_time", "FROM");
      ReplaceAbsent(msg, "to_time", "TO");
      ReplaceAbsent(msg, "cli_datetime", "datetime");
      ReplaceAbsent(msg, "cli_granularity", "granularity");
      RenameAll(msg)
    else RenameAll(msg)
  }

  function RenameAll(msg: string): string {
    var m := Replace(msg, "from_time", "FROM");
    var m := Replace(m, "to_time", "TO");
    var m := Replace(m, "cli_datetime", "datetime");
    Replace(m, "cli_granularity", "granularity")
  }

  /** `error` without terminal colours: the renamed message, its invalid-choice
      prefix shortened, indented after "Error: " and ended by a newline. Its
      five branches differ only in that shortening. */
  function ErrorText(msg: string): (r: string)
    ensures |r| >= 12 && r[..11] == "    Error: " && r[|r| - 1] == '\n'
  {
    var m := Renamed(msg);
    var m := if InvalidChoice <= m then Replace(m, InvalidChoice, "invalid command: ") else m;
    "    Error: " + m + "\n"
  }


  /** A plain message is shown word for word inside the frame. */
  lemma ErrorTextKeeps(msg: string)
    requires NoSnippet(msg) && !(InvalidChoice <= msg)
    ensures ErrorText(msg) == "    Error: " + msg + "\n"
  {
    assert Renamed(msg) == msg;
  }

  /** argparse's complaint about an unknown command is shown as
      "invalid command: " followed by the rest of its message. */
  lemma ErrorTextInvalidCommand(rest: string)
    requires NoSnippet(InvalidChoice + rest) && !Contains(rest, InvalidChoice)
    ensures ErrorText(InvalidChoice + rest) == "    Error: invalid command: " + rest + "\n"
  {
    var m := InvalidChoice + rest;
    assert Renamed(m) == m;
    ReplaceHead(InvalidChoice, rest, "invalid command: ");
    ReplaceAbsent(rest, InvalidChoice, "invalid command: ");
  }

  /** The positional `from_time` is called FROM in the error line. */
  lemma ErrorTextNamesFrom(a: string, b: string)
    requires !Contains(b, "from_time")
    requires forall i :: 0 <= i < |a| ==> !OccursAt(a + "from_time" + b, "from_time", i)
    requires NoSnippet(a + "FROM" + b) && !(InvalidChoice <= a + "FROM" + b)
    ensures ErrorText(a + "from_time" + b) == "    Error: " + a + "FROM" + b + "\n"
  {
    ReplaceOnce(a, "from_time", b, "FROM");
    var m := a + "FROM" + b;
    ReplaceAbsent(m, "to_time", "TO");
    ReplaceAbsent(m, "cli_datetime", "datetime");
    ReplaceAbsent(m, "cli_granularity", "granularity");
  }

  // ---------------------------------------------------------------- lexer

  /** How the lexer colours a token. */
  datatype Kind = CommandWord | Variable | FlagWord | PlainWord

  /** The two revisions colour alike but name their styles differently. */
  datatype Revision = Current | Earlier

  const Commands: seq<string> := ["start", "stop", "exit", "history", "backtest", "deploy", "help"]

  /** `re.match("-[a-zA-Z]", token)`. */
  predicate FlagLike(t: string) {
    |t| >= 2 && t[0] == '-' && IsLetter(t[1])
  }

  /** The first test that holds decides: command, datetime, granularity,
      history file, flag, and otherwise plain. */
  function Classify(t: string, files: set<string>): Kind {
    if t in Commands then CommandWord
    else if DatetimeMatch(t).Some? then Variable
    else if t in AllowedGrans then Variable
    else if t in files then Variable
    else if FlagLike(t) then FlagWord
    else PlainWord
  }

  /** A token is a command exactly when it is a command word; a flag is
      flag-like and neither a history file nor a granularity; a plain token
      is neither flag-like nor a history file. */
  lemma ClassifyKinds(t: string, files: set<string>)
    ensures Classify(t, files) == CommandWord <==> t in Commands
    ensures Classify(t, files) == FlagWord ==> FlagLike(t) && t !in files && t !in AllowedGrans
    ensures Classify(t, files) == PlainWord ==> !FlagLike(t) && t !in files
  {
  }


  function StyleOf(k: Kind, rev: Revision): string {
    match (k, rev)
    case (CommandWord, Current) => "class:command"
    case (CommandWord, Earlier) => "class:green"
    case (Variable, Current) => "class:variable"
    case (Variable, Earlier) => "class:yellow"
    case (FlagWord, Current) => "class:flag"
    case (FlagWord, Earlier) => "class:blue"
    case (PlainWord, _) => ""
  }

  /** Each token as a styled fragment followed by an unstyled space. */
  function LexTokens(tokens: seq<string>, files: set<string>, rev: Revision): (r: seq<(string, string)>)
    ensures |r| == 2 * |tokens|
    decreases |tokens|
  {
    if |tokens| == 0 then []
    else [(StyleOf(Classify(tokens[0], files), rev), tokens[0]), ("", " ")] + LexTokens(tokens[1..], files, rev)
  }

  /** `get_line`: the line split at single spaces, history files given as names. */
  function LexLine(line: string, files: set<string>, rev: Revision): (r: seq<(string, string)>)
    ensures |r| == 2 * |Split(line, ' ')|
    ensures Texts(r) == line + " "
  {
    TokensText(Split(line, ' '), files, rev);
    JoinSplit(line, ' ');
    LexTokens(Split(line, ' '), files, rev)
  }

  /** The text of a list of fragments, as the terminal shows it. */
  function Texts(fragments: seq<(string, string)>): string
    decreases |fragments|
  {
    if |fragments| == 0 then "" else fragments[0].1 + Texts(fragments[1..])
  }

  lemma {:induction false} TokensText(tokens: seq<string>, files: set<string>, rev: Revision)
    requires |tokens| >= 1
    ensures Texts(LexTokens(tokens, files, rev)) == Join(tokens, " ") + " "
    decreases |tokens|
  {
    var fr := LexTokens(tokens, files, rev);
    var tail := LexTokens(tokens[1..], files, rev);
    assert fr[1..] == [("", " ")] + tail && fr[1..][1..] == tail;
    assert Texts(fr) == tokens[0] + (" " + Texts(tail));
    if |tokens| > 1 {
      TokensText(tokens[1..], files, rev);
      assert Join(tokens, " ") == tokens[0] + " " + Join(tokens[1..], " ");
    } else {
      assert tail == [];
    }
  }


  /** Fragment `2k` carries token `k` in the style of its kind, fragment `2k+1` the space. */
  lemma {:induction false} LexFragments(tokens: seq<string>, files: set<string>, rev: Revision, k: nat)
    requires k < |tokens|
    ensures LexTokens(tokens, files, rev)[2 * k] == (StyleOf(Classify(tokens[k], files), rev), tokens[k])
    ensures LexTokens(tokens, files, rev)[2 * k + 1] == ("", " ")
    decreases k
  {
    var head := [(StyleOf(Classify(tokens[0], files), rev), tokens[0]), ("", " ")];
    var tail := LexTokens(tokens[1..], files, rev);
    assert LexTokens(tokens, files, rev) == head + tail;
    if k > 0 {
      LexFragments(tokens[1..], files, rev, k - 1);
      assert tokens[1..][k - 1] == tokens[k];
      assert (head + tail)[2 * k] == tail[2 * (k - 1)];
      assert (head + tail)[2 * k + 1] == tail[2 * (k - 1) + 1];
    }
  }

  /** A text the datetime type accepts is coloured as a value. */
  lemma AcceptedDatetimeIsVariable(t: string, files: set<string>)
    requires CliDatetime(t).Ok?
    ensures Classify(t, files) == Variable
  {
    assert DatetimeMatch(t).Some?;
    CommandsAreWords();
  }

  /** Every command starts with a lower-case letter, every granularity with an upper-case one. */
  lemma CommandsAreWords()
    ensures forall c :: c in Commands ==> |c| > 0 && IsLower(c[0])
    ensures forall g :: g in AllowedGrans ==> |g| > 0 && IsUpper(g[0])
  {
    forall k | 0 <= k < |Commands| ensures |Commands[k]| > 0 && IsLower(Commands[k][0]) {
    }
    forall k | 0 <= k < |AllowedGrans| ensures |AllowedGrans[k]| > 0 && IsUpper(AllowedGrans[k][0]) {
    }
  }

  /** So is every granularity the command line accepts. */
  lemma AcceptedGranularityIsVariable(t: string, files: set<string>)
    requires CliGranularity(t).Ok?
    ensures Classify(t, files) == Variable
  {
    CommandsAreWords();
  }

  // ---------------------------------------------------------------- one turn

  /** A command line argparse has accepted. */
  datatype Command =
    | StartCommand
    | StopCommand
    | ExitCommand
    | HistoryCommand(from: DateTime, to: DateTime, granularity: string, alias: Option<string>)
    | BacktestCommand(file: string)
    | DeployCommand
    | HelpCommand

  /** `a < b` between naive datetimes. */
  predicate Before(a: DateTime, b: DateTime) {
    || a.year < b.year
    || (a.year == b.year && a.month < b.month)
    || (a.year == b.year && a.month == b.month && a.day < b.day)
    || (a.year == b.year && a.month == b.month && a.day == b.day && a.hour < b.hour)
    || (a.year == b.year && a.month == b.month && a.day == b.day && a.hour == b.hour && a.minute < b.minute)
    || (a.year == b.year && a.month == b.month && a.day == b.day && a.hour == b.hour && a.minute == b.minute
        && a.second < b.second)
    || (a.year == b.year && a.month == b.month && a.day == b.day && a.hour == b.hour && a.minute == b.minute
        && a.second == b.second && a.micro < b.micro)
  }

  /** `Before` is a strict total order. */
  lemma BeforeOrder(a: DateTime, b: DateTime, c: DateTime)
    ensures !Before(a, a)
    ensures Before(a, b) ==> !Before(b, a)
    ensures a != b ==> Before(a, b) || Before(b, a)
    ensures Before(a, b) && Before(b, c) ==> Before(a, c)
  {
  }

  /** What the user sees: the history usage text or an error line. */
  datatype Shown = HistoryUsage | ErrorLine(text: string)

  /** One turn of the loop: what is shown and which command then runs. */
  datatype Outcome = Outcome(shown: seq<Shown>, run: Option<Command>)

  const ReversedRange := "FROM must be chronologically before TO"

  predicate Reversed(c: Command) {
    c.HistoryCommand? && !Before(c.from, c.to)
  }

  /** The loop as written: a history range whose FROM is not before TO gets
      the usage and the error printed, but the `if` has no `continue`, so
      the command is dispatched all the same. */
  function TurnAsWritten(c: Command): (r: Outcome)
    ensures r.run == Some(c)
    ensures |r.shown| > 0 <==> Reversed(c)
  {
    if Reversed(c) then Outcome([HistoryUsage, ErrorLine(ErrorText(ReversedRange))], Some(c))
    else Outcome([], Some(c))
  }

  /** A request for the empty range from an instant to itself is dispatched. */
  lemma EmptyRangeDispatched(d: DateTime)
    ensures Reversed(HistoryCommand(d, d, "M5", None))
    ensures TurnAsWritten(HistoryCommand(d, d, "M5", None)).run == Some(HistoryCommand(d, d, "M5", None))
  {
    BeforeOrder(d, d, d);
  }

  /** The loop as intended: a reversed range is reported and nothing runs. */
  function Turn(c: Command): (r: Outcome)
    ensures r.run.Some? ==> r.run == Some(c) && r.shown == []
  {
    if Reversed(c) then Outcome([HistoryUsage, ErrorLine(ErrorText(ReversedRange))], None)
    else Outcome([], Some(c))
  }

  /** A command runs exactly when it is not a reversed history range, and
      every history request that runs spans a non-empty range. */
  lemma TurnRuns(c: Command)
    ensures Turn(c).run.Some? <==> !Reversed(c)
    ensures Turn(c).run.Some? && c.HistoryCommand? ==> Before(c.from, c.to)
    ensures Turn(c).run.None? ==> |Turn(c).shown| == 2 && Turn(c).shown[0] == HistoryUsage
  {
  }
}

=== FILE: common.dfy ===
/** Settings and instrument helpers of pa/common/common.py: the closure of
    instruments needed to price the traded ones in the account currency,
    the margin-rate choice, and the checks on the settings module. The
    broker's list of instruments is a parameter. */
module Common {
  import opened Wrappers
  import opened Text

  datatype CommonError =
    | ImpossiblePair(account: string, currency: string)   // PAError
    | Invalid(setting: string)                             // PAError naming the setting
    | TypeMismatch                                         // an ordering comparison across types
    | MissingEntry                                         // a tuple with too few entries

  const Oanda := "OANDA"

  /** The pairs that price each `_`-separated leg against the account
      currency: `leg_account` if listed, else `account_leg`. */
  function LegPairs(listed: set<string>, legs: seq<string>, account: string): (r: Result<set<string>, CommonError>)
    ensures r.Ok? ==> r.value <= listed
    ensures r.Ok? ==> FromLegs(listed, legs, account, r.value)
    ensures r.Ok? <==> AllPriceable(listed, legs, account)
    ensures r.Ok? ==> LegsCovered(listed, legs, account, r.value)
    decreases |legs|
  {
    if |legs| == 0 then Ok({})
    else if !Priceable(listed, legs[0], account) then
      assert !AllPriceable(listed, legs, account);
      Err(ImpossiblePair(account, legs[0]))
    else
      AllPriceableCons(listed, legs, account);
      match LegPairs(listed, legs[1..], account)
      case Err(e) => Err(e)
      case Ok(rest) =>
        LegPairsCons(listed, legs, account, rest);
        Ok({ChosenPair(listed, legs[0], account)} + rest)
  }

  /** Every pair in `found` is the pair chosen for some leg. */
  predicate FromLegs(listed: set<string>, legs: seq<string>, account: string, found: set<string>) {
    forall x :: x in found ==> ChosenFor(listed, legs, account, x)
  }

  /** `x` is the pair chosen for one of `legs`. */
  predicate ChosenFor(listed: set<string>, legs: seq<string>, account: string, x: string) {
    exists k :: 0 <= k < |legs| && x == ChosenPair(listed, legs[k], account)
  }

  /** Every leg has a listed pair with the account currency. */
  predicate AllPriceable(listed: set<string>, legs: seq<string>, account: string) {
    forall k :: 0 <= k < |legs| ==> Priceable(listed, legs[k], account)
  }

  lemma AllPriceableCons(listed: set<string>, legs: seq<string>, account: string)
    requires |legs| > 0
    ensures AllPriceable(listed, legs, account) <==>
      Priceable(listed, legs[0], account) && AllPriceable(listed, legs[1..], account)
  {
    assert forall k :: 1 <= k < |legs| ==> legs[k] == legs[1..][k - 1];
  }

  /** Adding the first leg's chosen pair to the pairs of the other legs. */
  lemma LegPairsCons(listed: set<string>, legs: seq<string>, account: string, rest: set<string>)
    requires |legs| > 0 && Priceable(listed, legs[0], account) && rest <= listed
    requires FromLegs(listed, legs[1..], account, rest) && LegsCovered(listed, legs[1..], account, rest)
    ensures {ChosenPair(listed, legs[0], account)} + rest <= listed
    ensures FromLegs(listed, legs, account, {ChosenPair(listed, legs[0], account)} + rest)
    ensures LegsCovered(listed, legs, account, {ChosenPair(listed, legs[0], account)} + rest)
  {
    var p := ChosenPair(listed, legs[0], account);
    ChosenListed(listed, legs[0], account);
    SubsetAdd(p, rest, listed);
    FromLegsCons(listed, legs, account, rest);
    CoveredCons(listed, legs, account, rest);
  }

  lemma SubsetAdd<T>(p: T, rest: set<T>, all: set<T>)
    requires p in all && rest <= all
    ensures {p} + rest <= all
  {
  }

  /** A priceable leg's chosen pair is listed and joins it with the account currency. */
  lemma ChosenListed(listed: set<string>, leg: string, account: string)
    requires Priceable(listed, leg, account)
    ensures ChosenPair(listed, leg, account) in listed && LegPair(leg, account, ChosenPair(listed, leg, account))
  {
  }

  lemma FromLegsCons(listed: set<string>, legs: seq<string>, account: string, rest: set<string>)
    requires |legs| > 0 && FromLegs(listed, legs[1..], account, rest)
    ensures FromLegs(listed, legs, account, {ChosenPair(listed, legs[0], account)} + rest)
  {
    var p := ChosenPair(listed, legs[0], account);
    forall x | x in {p} + rest
      ensures ChosenFor(listed, legs, account, x)
    {
      if x != p {
        var k :| 0 <= k < |legs[1..]| && x == ChosenPair(listed, legs[1..][k], account);
        assert legs[1..][k] == legs[k + 1];
      } else {
        assert x == ChosenPair(listed, legs[0], account);
      }
    }
  }

  lemma CoveredCons(listed: set<string>, legs: seq<string>, account: string, rest: set<string>)
    requires |legs| > 0 && LegsCovered(listed, legs[1..], account, rest)
    ensures LegsCovered(listed, legs, account, {ChosenPair(listed, legs[0], account)} + rest)
  {
    forall k | 0 <= k < |legs|
      ensures ChosenPair(listed, legs[k], account) in {ChosenPair(listed, legs[0], account)} + rest
    {
      if k > 0 {
        assert legs[k] == legs[1..][k - 1];
      }
    }
  }

  /** `x` is one of the two pairs joining `leg` and `account`. */
  predicate LegPair(leg: string, account: string, x: string) {
    x == leg + "_" + account || x == account + "_" + leg
  }

  /** The pair picked for `leg`: `leg_account` when listed, else `account_leg`. */
  function ChosenPair(listed: set<string>, leg: string, account: string): string {
    if leg + "_" + account in listed then leg + "_" + account else account + "_" + leg
  }

  predicate Priceable(listed: set<string>, leg: string, account: string) {
    leg + "_" + account in listed || account + "_" + leg in listed
  }

  /** The requested instruments together with the pairs they need. */
  function Closure(listed: set<string>, instruments: seq<string>, account: string): (r: Result<set<string>, CommonError>)
    ensures r.Ok? ==> HoldsAll(instruments, r.value)
    ensures r.Ok? ==> DrawnFrom(instruments, listed, r.value)
    ensures r.Ok? ==> CoversLegs(listed, instruments, account, r.value)
    ensures r.Ok? ==> OnlyNeeded(listed, instruments, account, r.value)
    decreases |instruments|
  {
    if |instruments| == 0 then Ok({})
    else
      var inst := instruments[0];
      var extra := if Contains(inst, account) then Ok({}) else LegPairs(listed, Split(inst, '_'), account);
      match extra
      case Err(e) => Err(e)
      case Ok(pairs) =>
        match Closure(listed, instruments[1..], account)
        case Err(e) => Err(e)
        case Ok(rest) =>
          ClosureCons(listed, instruments, account, pairs, rest);
          NeededCons(listed, instruments, account, pairs, rest);
          Ok(pairs + {inst} + rest)
  }

  /** Every requested instrument is in `found`. */
  predicate HoldsAll(instruments: seq<string>, found: set<string>) {
    forall k :: 0 <= k < |instruments| ==> instruments[k] in found
  }

  /** Every entry of `found` is requested or listed by the broker. */
  predicate DrawnFrom(instruments: seq<string>, listed: set<string>, found: set<string>) {
    forall x :: x in found ==> x in instruments || x in listed
  }

  /** Every requested instrument that does not name the account currency
      has each of its legs' chosen pairs in `found`. */
  predicate CoversLegs(listed: set<string>, instruments: seq<string>, account: string, found: set<string>) {
    forall k :: 0 <= k < |instruments| && NeedsPricing(instruments[k], account) ==>
      LegsCovered(listed, Split(instruments[k], '_'), account, found)
  }

  /** Every entry of `found` is requested, or is the pair chosen for a leg
      of a requested instrument that does not name the account currency. */
  predicate OnlyNeeded(listed: set<string>, instruments: seq<string>, account: string, found: set<string>) {
    forall x :: x in found ==> x in instruments || NeededBy(listed, instruments, account, x)
  }

  /** `x` is the pair chosen for a leg of some requested instrument that
      does not name the account currency. */
  predicate NeededBy(listed: set<string>, instruments: seq<string>, account: string, x: string) {
    exists k :: 0 <= k < |instruments| && NeedsPricing(instruments[k], account) &&
      ChosenFor(listed, Split(instruments[k], '_'), account, x)
  }

  /** The closure is exact: an instrument is in it exactly when it is
      requested or chosen to price a leg of a requested instrument. */
  lemma ClosureExact(listed: set<string>, instruments: seq<string>, account: string, x: string)
    requires Closure(listed, instruments, account).Ok?
    ensures x in Closure(listed, instruments, account).value <==>
      x in instruments || NeededBy(listed, instruments, account, x)
  {
    var found := Closure(listed, instruments, account).value;
    if NeededBy(listed, instruments, account, x) {
      var k :| 0 <= k < |instruments| && NeedsPricing(instruments[k], account) &&
        ChosenFor(listed, Split(instruments[k], '_'), account, x);
      var legs := Split(instruments[k], '_');
      var j :| 0 <= j < |legs| && x == ChosenPair(listed, legs[j], account);
      assert LegsCovered(listed, legs, account, found);
    }
    if x in instruments {
      var k :| 0 <= k < |instruments| && instruments[k] == x;
    }
  }

  /** The first instrument's pairs and the closure of the rest hold nothing
      that is not needed. */
  lemma NeededCons(listed: set<string>, instruments: seq<string>, account: string, pairs: set<string>, rest: set<string>)
    requires |instruments| > 0
    requires NeedsPricing(instruments[0], account) ==> FromLegs(listed, Split(instruments[0], '_'), account, pairs)
    requires !NeedsPricing(instruments[0], account) ==> pairs == {}
    requires OnlyNeeded(listed, instruments[1..], account, rest)
    ensures OnlyNeeded(listed, instruments, account, pairs + {instruments[0]} + rest)
  {
    forall x | x in pairs + {instruments[0]} + rest
      ensures x in instruments || NeededBy(listed, instruments, account, x)
    {
      if x in pairs {
        assert ChosenFor(listed, Split(instruments[0], '_'), account, x);
      } else if x in rest && x != instruments[0] {
        if x in instruments[1..] {
          var k :| 0 <= k < |instruments[1..]| && instruments[1..][k] == x;
          assert instruments[k + 1] == x;
        } else {
          var k :| 0 <= k < |instruments[1..]| && NeedsPricing(instruments[1..][k], account) &&
            ChosenFor(listed, Split(instruments[1..][k], '_'), account, x);
          assert instruments[1..][k] == instruments[k + 1];
        }
      }
    }
  }

  /** Adding the first instrument and its pairs to the closure of the rest. */
  lemma ClosureCons(listed: set<string>, instruments: seq<string>, account: string, pairs: set<string>, rest: set<string>)
    requires |instruments| > 0 && pairs <= listed
    requires NeedsPricing(instruments[0], account) ==> LegsCovered(listed, Split(instruments[0], '_'), account, pairs)
    requires HoldsAll(instruments[1..], rest) && DrawnFrom(instruments[1..], listed, rest)
    requires CoversLegs(listed, instruments[1..], account, rest)
    ensures HoldsAll(instruments, pairs + {instruments[0]} + rest)
    ensures DrawnFrom(instruments, listed, pairs + {instruments[0]} + rest)
    ensures CoversLegs(listed, instruments, account, pairs + {instruments[0]} + rest)
  {
    var r := pairs + {instruments[0]} + rest;
    forall k | 0 <= k < |instruments| ensures instruments[k] in r {
      if k > 0 {
        assert instruments[k] == instruments[1..][k - 1];
      }
    }
    forall x | x in r ensures x in instruments || x in listed {
      if x in rest && x !in listed {
        var k :| 0 <= k < |instruments[1..]| && instruments[1..][k] == x;
        assert instruments[k + 1] == x;
      }
    }
    forall k | 0 <= k < |instruments| && NeedsPricing(instruments[k], account)
      ensures LegsCovered(listed, Split(instruments[k], '_'), account, r)
    {
      if k == 0 {
        CoveredMore(listed, Split(instruments[0], '_'), account, pairs, r);
      } else {
        assert instruments[k] == instruments[1..][k - 1];
        CoveredMore(listed, Split(instruments[k], '_'), account, rest, r);
      }
    }
  }

  /** Covering is kept when more pairs are found. */
  lemma CoveredMore(listed: set<string>, legs: seq<string>, account: string, a: set<string>, b: set<string>)
    requires a <= b && LegsCovered(listed, legs, account, a)
    ensures LegsCovered(listed, legs, account, b)
  {
  }

  /** `extend_instrument_list`: `None` unless the broker is OANDA. The
      source returns `list(set(...))`, whose order is unspecified, so the
      result is a set. */
  function ExtendInstrumentList(broker: string, listed: set<string>, instruments: seq<string>, account: string): (r: Result<Option<set<string>>, CommonError>)
    ensures broker != Oanda ==> r == Ok(None)
    ensures broker == Oanda && r.Ok? ==> r.value.Some?
  {
    if broker != Oanda then Ok(None)
    else match Closure(listed, instruments, account)
      case Err(e) => Err(e)
      case Ok(s) => Ok(Some(s))
  }

  /** Every leg's chosen pair is in `found`. */
  predicate LegsCovered(listed: set<string>, legs: seq<string>, account: string, found: set<string>) {
    forall k :: 0 <= k < |legs| ==> ChosenPair(listed, legs[k], account) in found
  }

  /** An instrument needs extra pairs unless it names the account currency. */
  predicate NeedsPricing(inst: string, account: string) {
    !Contains(inst, account)
  }

  /** `inst` does not name the account currency and one of its legs has
      no listed pair with it. */
  predicate Unpriceable(listed: set<string>, inst: string, account: string) {
    NeedsPricing(inst, account) &&
    exists j :: 0 <= j < |Split(inst, '_')| && !Priceable(listed, Split(inst, '_')[j], account)
  }

  lemma InstrumentFailsIff(listed: set<string>, inst: string, account: string)
    ensures NeedsPricing(inst, account) ==> (LegPairs(listed, Split(inst, '_'), account).Err? <==> Unpriceable(listed, inst, account))
  {
  }

  /** The closure fails exactly when some instrument that does not name the
      account currency has a leg that cannot be priced against it. */
  lemma {:induction false} ClosureFailsIff(listed: set<string>, instruments: seq<string>, account: string)
    ensures Closure(listed, instruments, account).Err? <==>
      exists k :: 0 <= k < |instruments| && Unpriceable(listed, instruments[k], account)
    decreases |instruments|
  {
    if |instruments| > 0 {
      ClosureFailsIff(listed, instruments[1..], account);
      InstrumentFailsIff(listed, instruments[0], account);
      var tail := instruments[1..];
      assert forall k :: 0 <= k < |tail| ==> tail[k] == instruments[k + 1];
      if exists k :: 0 <= k < |instruments| && Unpriceable(listed, instruments[k], account) {
        var k :| 0 <= k < |instruments| && Unpriceable(listed, instruments[k], account);
        if k > 0 {
          assert Unpriceable(listed, tail[k - 1], account);
        }
      }
      if exists k :: 0 <= k < |tail| && Unpriceable(listed, tail[k], account) {
        var k :| 0 <= k < |tail| && Unpriceable(listed, tail[k], account);
        assert Unpriceable(listed, instruments[k + 1], account);
      }
    }
  }

  /** An instrument that names the account currency contributes only itself. */
  lemma AccountInstrumentAlone(listed: set<string>, inst: string, account: string)
    requires Contains(inst, account)
    ensures Closure(listed, [inst], account) == Ok({inst})
  {
    assert [inst][0] == inst && [inst][1..] == [];
    assert {} + {inst} + {} == {inst};
  }

  /** `get_margins` as written: the rates are chosen but never returned. */
  function GetMarginsAsWritten(leverage: real, account: seq<(string, real)>, instruments: seq<string>): (r: Option<map<string, real>>)
    ensures r.None?
  {
    None
  }

  /** The margin rate used for each requested instrument the account lists:
      the leverage when it exceeds the broker's rate, else the broker's
      rate. A later listing of the same name overwrites an earlier one. */
  function GetMargins(leverage: real, account: seq<(string, real)>, instruments: seq<string>): (r: map<string, real>)
    ensures forall name :: name in r ==> name in instruments && r[name] >= leverage
    decreases |account|
  {
    if |account| == 0 then map[]
    else
      var (name, rate) := account[|account| - 1];
      var earlier := GetMargins(leverage, account[..|account| - 1], instruments);
      if name in instruments then earlier[name := if leverage > rate then leverage else rate]
      else earlier
  }

  /** An instrument gets a rate exactly when it is requested and the
      account lists it. */
  lemma {:induction false} GetMarginsKeys(leverage: real, account: seq<(string, real)>, instruments: seq<string>, name: string)
    ensures name in GetMargins(leverage, account, instruments) <==>
      name in instruments && exists k :: 0 <= k < |account| && account[k].0 == name
    decreases |account|
  {
    if |account| > 0 {
      var front := account[..|account| - 1];
      GetMarginsKeys(leverage, front, instruments, name);
      if name in instruments && account[|account| - 1].0 != name {
        if k :| 0 <= k < |account| && account[k].0 == name {
          assert front[k].0 == name;
        }
      }
    }
  }

  /** The rate chosen for an instrument is the larger of the leverage and
      the broker's rate at the account's LAST listing of that name. */
  lemma {:induction false} GetMarginsRate(leverage: real, account: seq<(string, real)>, instruments: seq<string>, name: string)
    requires name in GetMargins(leverage, account, instruments)
    ensures exists k :: (0 <= k < |account| && account[k].0 == name &&
                         (forall j :: k < j < |account| ==> account[j].0 != name) &&
                         GetMargins(leverage, account, instruments)[name] == (if leverage > account[k].1 then leverage else account[k].1))
    decreases |account|
  {
    var last := |account| - 1;
    var front := account[..last];
    if account[last].0 != name {
      GetMarginsRate(leverage, front, instruments, name);
      var k :| 0 <= k < |front| && front[k].0 == name &&
        (forall j :: k < j < |front| ==> front[j].0 != name) &&
        GetMargins(leverage, front, instruments)[name] == (if leverage > front[k].1 then leverage else front[k].1);
      assert forall j :: k < j < |account| ==> account[j].0 != name by {
        forall j | k < j < |account| ensures account[j].0 != name {
          if j < last { assert account[j] == front[j]; }
        }
      }
    }
  }

  /** The missing return: every requested instrument the account lists has
      a chosen rate, yet the caller receives nothing. */
  lemma GetMarginsDropped(leverage: real, name: string, rate: real)
    ensures GetMarginsAsWritten(leverage, [(name, rate)], [name]).None?
    ensures GetMargins(leverage, [(name, rate)], [name]) == map[name := if leverage > rate then leverage else rate]
  {
    assert [(name, rate)][..0] == [];
  }

  /** The settings values `validate_settings` inspects, as Python values. */
  datatype PyValue =
    | PyNone
    | PyBool(b: bool)
    | PyInt(i: int)
    | PyDecimal(d: real)
    | PyFloat(f: real)
    | PyStr(s: string)
    | PyTuple(items: seq<PyValue>)
    | PyObject(isSignal: bool, isSizing: bool)   // an instance; which strategy base classes its type subclasses

  datatype Settings = Settings(
    broker: PyValue, apiToken: PyValue, live: PyValue, accountIndex: PyValue,
    datetimeFormat: PyValue, instruments: seq<string>, leverage: PyValue,
    liveStrategies: PyValue, backtestStrategies: seq<PyValue>, balance: PyValue,
    terminalColors: PyValue)

  /** The value of a number for an ordering comparison; anything else makes
      Python raise a type error. */
  function Number(v: PyValue): (r: Option<real>)
    ensures r.Some? <==> v.PyBool? || v.PyInt? || v.PyDecimal? || v.PyFloat?
  {
    match v
    case PyBool(b) => Some(if b then 1.0 else 0.0)
    case PyInt(i) => Some(i as real)
    case PyDecimal(d) => Some(d)
    case PyFloat(f) => Some(f)
    case _ => None
  }

  predicate SubclassesSignal(v: PyValue) { v.PyObject? && v.isSignal }
  predicate SubclassesSizing(v: PyValue) { v.PyObject? && v.isSizing }

  /** The checks from BROKER through LIVE_STRATEGIES, in source order. */
  function CheckHead(s: Settings, listed: set<string>): (r: Result<(), CommonError>)
    ensures r.Err? && r.error == TypeMismatch ==> Number(s.leverage).None?
    ensures r.Err? && r.error == MissingEntry ==> s.liveStrategies.PyTuple? && |s.liveStrategies.items| < 2
  {
    if s.broker != PyStr(Oanda) then Err(Invalid("BROKER"))
    else if s.apiToken == PyNone || s.apiToken == PyStr("") then Err(Invalid("API_TOKEN"))
    else if !s.live.PyBool? then Err(Invalid("LIVE"))
    else if !s.accountIndex.PyInt? || s.accountIndex.i < 0 then Err(Invalid("ACCOUNT_INDEX"))
    else if s.datetimeFormat != PyStr("RFC3339") && s.datetimeFormat != PyStr("UNIX") then Err(Invalid("DATETIME_FORMAT"))
    else if exists k :: 0 <= k < |s.instruments| && s.instruments[k] !in listed then Err(Invalid("INSTRUMENTS"))
    else if Number(s.leverage).None? then Err(TypeMismatch)
    else if Number(s.leverage).value > 1.0 || Number(s.leverage).value <= 0.0 then Err(Invalid("LEVERAGE"))
    else if !s.leverage.PyDecimal? then Err(Invalid("LEVERAGE"))
    else if !s.liveStrategies.PyTuple? then Err(Invalid("LIVE_STRATEGIES"))
    else if |s.liveStrategies.items| == 0 then Err(MissingEntry)
    else if !SubclassesSignal(s.liveStrategies.items[0]) then Err(Invalid("LIVE_STRATEGIES"))
    else if |s.liveStrategies.items| == 1 then Err(MissingEntry)
    else if !SubclassesSizing(s.liveStrategies.items[1]) then Err(Invalid("LIVE_STRATEGIES"))
    else Ok(())
  }

  /** The BACKTEST_STRATEGIES loop as written: each entry must be a tuple,
      but the subclass tests look at LIVE_STRATEGIES, which already passed,
      so the entries of the tuples are never examined. */
  function CheckPairsAsWritten(pairs: seq<PyValue>): (r: Result<(), CommonError>)
    ensures r.Ok? <==> forall k :: 0 <= k < |pairs| ==> pairs[k].PyTuple?
    ensures r.Err? ==> r.error == Invalid("BACKTEST_STRATEGIES")
  {
    if exists k :: 0 <= k < |pairs| && !pairs[k].PyTuple? then Err(Invalid("BACKTEST_STRATEGIES"))
    else Ok(())
  }

  /** The BACKTEST_STRATEGIES loop as intended: each entry is tested like
      LIVE_STRATEGIES. */
  function CheckPairs(pairs: seq<PyValue>): (r: Result<(), CommonError>)
    ensures r.Ok? <==> forall k :: 0 <= k < |pairs| ==> StrategyPair(pairs[k])
    decreases |pairs|
  {
    if |pairs| == 0 then Ok(())
    else
      var p := pairs[0];
      var first :=
        if !p.PyTuple? then Err(Invalid("BACKTEST_STRATEGIES"))
        else if |p.items| == 0 then Err(MissingEntry)
        else if !SubclassesSignal(p.items[0]) then Err(Invalid("BACKTEST_STRATEGIES"))
        else if |p.items| == 1 then Err(MissingEntry)
        else if !SubclassesSizing(p.items[1]) then Err(Invalid("BACKTEST_STRATEGIES"))
        else Ok(());
      if first.Err? then first
      else
        var rest := CheckPairs(pairs[1..]);
        assert forall k :: 1 <= k < |pairs| ==> pairs[k] == pairs[1..][k - 1];
        rest
  }

  function CheckTail(s: Settings): (r: Result<(), CommonError>)
    ensures r.Ok? <==> Number(s.balance).Some? && Number(s.balance).value > 0.0 && s.terminalColors.PyBool?
  {
    if Number(s.balance).None? then Err(TypeMismatch)
    else if Number(s.balance).value <= 0.0 then Err(Invalid("BALANCE"))
    else if !s.terminalColors.PyBool? then Err(Invalid("TERMINAL_COLORS"))
    else Ok(())
  }

  /** `validate_settings` as written. */
  function ValidateSettingsAsWritten(s: Settings, listed: set<string>): (r: Result<(), CommonError>)
    ensures CheckHead(s, listed).Err? ==> r == CheckHead(s, listed)
  {
    if CheckHead(s, listed).Err? then CheckHead(s, listed)
    else if CheckPairsAsWritten(s.backtestStrategies).Err? then CheckPairsAsWritten(s.backtestStrategies)
    else CheckTail(s)
  }

  /** `validate_settings` with each backtest pair tested. */
  function ValidateSettings(s: Settings, listed: set<string>): (r: Result<(), CommonError>)
    ensures CheckHead(s, listed).Err? ==> r == CheckHead(s, listed)
  {
    if CheckHead(s, listed).Err? then CheckHead(s, listed)
    else if CheckPairs(s.backtestStrategies).Err? then CheckPairs(s.backtestStrategies)
    else CheckTail(s)
  }

  /** A tuple whose first two entries are a signal and a sizing strategy. */
  predicate StrategyPair(v: PyValue) {
    v.PyTuple? && |v.items| >= 2 && SubclassesSignal(v.items[0]) && SubclassesSizing(v.items[1])
  }

  /** What the settings module must hold, stated without the check order. */
  predicate WellFormed(s: Settings, listed: set<string>) {
    && s.broker == PyStr(Oanda)
    && s.apiToken != PyNone && s.apiToken != PyStr("")
    && s.live.PyBool?
    && s.accountIndex.PyInt? && s.accountIndex.i >= 0
    && (s.datetimeFormat == PyStr("RFC3339") || s.datetimeFormat == PyStr("UNIX"))
    && (forall k :: 0 <= k < |s.instruments| ==> s.instruments[k] in listed)
    && s.leverage.PyDecimal? && 0.0 < s.leverage.d <= 1.0
    && StrategyPair(s.liveStrategies)
    && (forall k :: 0 <= k < |s.backtestStrategies| ==> StrategyPair(s.backtestStrategies[k]))
    && Number(s.balance).Some? && Number(s.balance).value > 0.0
    && s.terminalColors.PyBool?
  }

  lemma HeadOkIff(s: Settings, listed: set<string>)
    ensures CheckHead(s, listed).Ok? <==>
      && s.broker == PyStr(Oanda)
      && s.apiToken != PyNone && s.apiToken != PyStr("")
      && s.live.PyBool?
      && s.accountIndex.PyInt? && s.accountIndex.i >= 0
      && (s.datetimeFormat == PyStr("RFC3339") || s.datetimeFormat == PyStr("UNIX"))
      && (forall k :: 0 <= k < |s.instruments| ==> s.instruments[k] in listed)
      && s.leverage.PyDecimal? && 0.0 < s.leverage.d <= 1.0
      && StrategyPair(s.liveStrategies)
  {
  }

  /** The corrected validation accepts exactly the well-formed settings. */
  lemma ValidateSettingsIff(s: Settings, listed: set<string>)
    ensures ValidateSettings(s, listed).Ok? <==> WellFormed(s, listed)
  {
    HeadOkIff(s, listed);
  }

  /** The validation as written accepts every well-formed settings module,
      and also any whose backtest entries are merely tuples. */
  lemma ValidateSettingsAsWrittenIff(s: Settings, listed: set<string>)
    ensures ValidateSettingsAsWritten(s, listed).Ok? <==>
      CheckHead(s, listed).Ok? && (forall k :: 0 <= k < |s.backtestStrategies| ==> s.backtestStrategies[k].PyTuple?) && CheckTail(s).Ok?
    ensures WellFormed(s, listed) ==> ValidateSettingsAsWritten(s, listed).Ok?
  {
    HeadOkIff(s, listed);
  }

  /** A backtest pair of two `None`s passes the loop as written but not the
      corrected one. */
  lemma NonePairAccepted(s: Settings, listed: set<string>)
    requires WellFormed(s, listed)
    ensures var t := s.(backtestStrategies := [PyTuple([PyNone, PyNone])]);
      ValidateSettingsAsWritten(t, listed).Ok? && ValidateSettings(t, listed) == Err(Invalid("BACKTEST_STRATEGIES"))
  {
    var t := s.(backtestStrategies := [PyTuple([PyNone, PyNone])]);
    HeadOkIff(s, listed);
    HeadOkIff(t, listed);
    assert !StrategyPair(t.backtestStrategies[0]);
  }
}

=== FILE: control.dfy ===
/** The control loop of peoples_advisor/control/control.py: one consumer
    draining a priority queue of events, with a run flag that the START and
    STOP events toggle and an exit flag that the EXIT event sets. The signal
    and sizing strategies are parameters: each takes its own state and an
    event and returns its next state and at most one new event. */
module Control {
  import opened Wrappers
  import opened Events

  datatype Control<S, Z> = Control(
    run: bool,
    exit: bool,
    pending: multiset<Event>,
    signals: S,
    sizing: Z)

  type Strategy<!T> = (T, Event) -> (T, Option<Event>)

  /** `PriorityQueue.get` hands out an event of least priority; among equal
      priorities the choice is the queue's, so any of them may come next. */
  predicate IsNext(e: Event, pending: multiset<Event>) {
    e in pending && forall x :: x in pending ==> Priority(e) <= Priority(x)
  }

  /** `queue_event`: nothing is queued once the exit flag is set, and a
      strategy's "no event" is dropped. */
  function QueueEvent<S, Z>(c: Control<S, Z>, o: Option<Event>): (r: Control<S, Z>)
    ensures r.run == c.run && r.exit == c.exit && r.signals == c.signals && r.sizing == c.sizing
    ensures r.pending == if !c.exit && o.Some? then c.pending + multiset{o.value} else c.pending
  {
    if !c.exit && o.Some? then c.(pending := c.pending + multiset{o.value}) else c
  }

  /** What queueing a strategy's answer adds: its event, or nothing. */
  function Queued(o: Option<Event>): multiset<Event> {
    if o.Some? then multiset{o.value} else multiset{}
  }

  /** The body of the loop for one event, after it left the queue. While
      running, a price hands the signal strategy's event to the queue and a
      signal hands the sizing strategy's order; every other event leaves
      the queue and both strategies as they were. */
  function Handle<S, Z>(c: Control<S, Z>, e: Event, genSignal: Strategy<S>, genOrder: Strategy<Z>): (r: Control<S, Z>)
    ensures r.exit <==> c.exit || e.Exit?
    ensures c.run && e.Price? ==>
      r.signals == genSignal(c.signals, e).0 && r.sizing == c.sizing &&
      r.pending == c.pending + (if c.exit then multiset{} else Queued(genSignal(c.signals, e).1))
    ensures c.run && e.Signal? ==>
      r.sizing == genOrder(c.sizing, e).0 && r.signals == c.signals &&
      r.pending == c.pending + (if c.exit then multiset{} else Queued(genOrder(c.sizing, e).1))
    ensures !(c.run && (e.Price? || e.Signal?)) ==>
      r.pending == c.pending && r.signals == c.signals && r.sizing == c.sizing
  {
    match e
    case Exit => c.(exit := true)
    case Start => c.(run := true)
    case Stop => c.(run := false)
    case _ =>
      if !c.run then c
      else match e
        case Signal(_, _, _, _) =>
          var (z, o) := genOrder(c.sizing, e);
          QueueEvent(c.(sizing := z), o)
        case Price(_, _, _, _) =>
          var (s, o) := genSignal(c.signals, e);
          QueueEvent(c.(signals := s), o)
        case _ => c
  }

  /** One turn of `run`: take the next event and handle it. The loop only
      turns while the exit flag is clear. */
  function Step<S, Z>(c: Control<S, Z>, e: Event, genSignal: Strategy<S>, genOrder: Strategy<Z>): (r: Control<S, Z>)
    requires !c.exit && IsNext(e, c.pending)
    ensures r.exit <==> e.Exit?
    ensures |r.pending| <= |c.pending|
    ensures c.pending - multiset{e} <= r.pending
  {
    Handle(c.(pending := c.pending - multiset{e}), e, genSignal, genOrder)
  }

  /** Each turn removes the event it took. While running, a price adds the
      signal strategy's event and moves the signal strategy on, and a
      signal adds the sizing strategy's order and moves the sizing strategy
      on; any other turn adds nothing and consults no strategy. */
  lemma StepQueue<S, Z>(c: Control<S, Z>, e: Event, genSignal: Strategy<S>, genOrder: Strategy<Z>)
    requires !c.exit && IsNext(e, c.pending)
    ensures var r := Step(c, e, genSignal, genOrder);
      c.run && e.Price? ==>
        r.signals == genSignal(c.signals, e).0 && r.sizing == c.sizing &&
        r.pending == c.pending - multiset{e} + Queued(genSignal(c.signals, e).1)
    ensures var r := Step(c, e, genSignal, genOrder);
      c.run && e.Signal? ==>
        r.sizing == genOrder(c.sizing, e).0 && r.signals == c.signals &&
        r.pending == c.pending - multiset{e} + Queued(genOrder(c.sizing, e).1)
    ensures var r := Step(c, e, genSignal, genOrder);
      !(c.run && (e.Price? || e.Signal?)) ==>
        r.pending == c.pending - multiset{e} && r.signals == c.signals && r.sizing == c.sizing
  {
  }

  /** A queued EXIT is always the next event: it outranks every other. */
  lemma ExitPreempts<S, Z>(c: Control<S, Z>, e: Event)
    requires Exit in c.pending && IsNext(e, c.pending)
    ensures e == Exit
  {
    assert Priority(e) <= Priority(Exit);
  }

  /** With an EXIT queued, the very next turn ends the loop, whatever else
      is waiting. */
  lemma ExitEndsLoop<S, Z>(c: Control<S, Z>, e: Event, genSignal: Strategy<S>, genOrder: Strategy<Z>)
    requires !c.exit && Exit in c.pending && IsNext(e, c.pending)
    ensures Step(c, e, genSignal, genOrder).exit
    ensures Step(c, e, genSignal, genOrder).pending == c.pending - multiset{Exit}
  {
    ExitPreempts(c, e);
  }

  /** START and STOP only move the run flag; nothing is queued and no
      strategy is consulted. */
  lemma RunFlagEvents<S, Z>(c: Control<S, Z>, e: Event, genSignal: Strategy<S>, genOrder: Strategy<Z>)
    requires e.Start? || e.Stop?
    ensures Handle(c, e, genSignal, genOrder) == c.(run := e.Start?)
  {
  }

  /** While the run flag is clear, market events are taken and dropped: the
      strategies keep their state and nothing is queued. */
  lemma StoppedDrops<S, Z>(c: Control<S, Z>, e: Event, genSignal: Strategy<S>, genOrder: Strategy<Z>)
    requires !c.run && !e.Start? && !e.Stop? && !e.Exit?
    ensures Handle(c, e, genSignal, genOrder) == c
  {
  }

  /** Quotes only serve currency conversion and orders are not yet acted on:
      neither reaches a strategy. */
  lemma QuotesAndOrdersIgnored<S, Z>(c: Control<S, Z>, e: Event, genSignal: Strategy<S>, genOrder: Strategy<Z>)
    requires e.Quote? || e.Order?
    ensures Handle(c, e, genSignal, genOrder) == c
  {
  }

  /** Only a price consults the signal strategy, and only a signal the
      sizing strategy; while running, each does. */
  lemma StrategyRouting<S, Z>(c: Control<S, Z>, e: Event, genSignal: Strategy<S>, genOrder: Strategy<Z>)
    requires !c.exit
    ensures var r := Handle(c, e, genSignal, genOrder);
      (r.signals != c.signals ==> c.run && e.Price?) &&
      (r.sizing != c.sizing ==> c.run && e.Signal?)
    ensures var r := Handle(c, e, genSignal, genOrder);
      (c.run && e.Price? ==> r.signals == genSignal(c.signals, e).0) &&
      (c.run && e.Signal? ==> r.sizing == genOrder(c.sizing, e).0)
  {
  }
}

=== FILE: decimals.dfy ===
/** Python `Decimal` values as the backtest writes and reads them: a sign, a
    coefficient and a number of places after the point, shown in plain
    notation, and `quantize` under the ROUND_HALF_UP context that the legacy
    entry point installs (pa/peoples_advisor.py:7). */
module Decimals {
  import opened Wrappers
  import opened Text

  /** The number `(-1)^negative * coef / 10^places`. Negative zero is kept,
      as Python keeps it. */
  datatype Decimal = Decimal(negative: bool, coef: nat, places: nat)

  function Pow10(k: nat): (r: nat)
    ensures r >= 1
  {
    if k == 0 then 1 else 10 * Pow10(k - 1)
  }

  function Value(d: Decimal): real {
    var mag := d.coef as real / Pow10(d.places) as real;
    if d.negative then -mag else mag
  }

  /** Characters that may appear in the text of a decimal. */
  predicate DecimalChar(ch: char) {
    IsDigit(ch) || ch == '-' || ch == '.'
  }

  /** `str(d)`: at least one digit before the point, exactly `places` after it. */
  function Show(d: Decimal): (s: string)
    ensures |s| > 0
    ensures forall i :: 0 <= i < |s| ==> DecimalChar(s[i])
  {
    var padded := Padded(d);
    var body := if d.places == 0 then padded
                else padded[..|padded| - d.places] + "." + padded[|padded| - d.places..];
    assert forall i :: 0 <= i < |body| ==> DecimalChar(body[i]);
    if d.negative then "-" + body else body
  }

  /** The text of a decimal starts with a minus sign exactly when it is
      negative, and ends with exactly `places` digits after a point. */
  lemma ShowLayout(d: Decimal)
    ensures var s := Show(d); s[0] == '-' <==> d.negative
    ensures var s := Show(d); |s| >= d.places + 1
    ensures var s := Show(d); d.places > 0 ==> s[|s| - d.places - 1] == '.' && AllDigits(s[|s| - d.places..])
  {
    Layout(d.negative, Padded(d), d.places);
  }

  lemma Layout(neg: bool, padded: string, places: nat)
    requires |padded| >= places + 1 && AllDigits(padded)
    ensures var body := if places == 0 then padded else padded[..|padded| - places] + "." + padded[|padded| - places..];
      var s := if neg then "-" + body else body;
      && (s[0] == '-' <==> neg)
      && |s| >= places + 1
      && (places > 0 ==> s[|s| - places - 1] == '.' && AllDigits(s[|s| - places..]))
  {
    var body := if places == 0 then padded else padded[..|padded| - places] + "." + padded[|padded| - places..];
    assert body[0] == padded[0];
    if places > 0 {
      var tail := padded[|padded| - places..];
      assert body[|body| - places..] == tail;
      var s := if neg then "-" + body else body;
      assert s[|s| - places..] == tail;
    }
  }

  /** The coefficient's digits, zero-padded so that one digit precedes the point. */
  function Padded(d: Decimal): (p: string)
    ensures |p| >= d.places + 1 && AllDigits(p)
    ensures DigitsToNat(p) == d.coef
  {
    var ds := NatToDigits(d.coef);
    NatDigitsRoundTrip(d.coef);
    if |ds| <= d.places then
      LeadingZerosValue(d.places + 1 - |ds|, ds);
      Zeros(d.places + 1 - |ds|) + ds
    else ds
  }

  /** `Decimal(s)` for an optional minus sign, digits, and optionally a point
      followed by more digits; any other text is refused. */
  function Parse(s: string): (r: Option<Decimal>)
    ensures r.Some? ==> |s| > 0 && (r.value.negative <==> s[0] == '-')
    ensures r.Some? ==> forall i :: 0 <= i < |s| ==> DecimalChar(s[i])
    ensures r.Some? ==> r.value.places < |s|
  {
    var neg := |s| > 0 && s[0] == '-';
    var body := if neg then s[1..] else s;
    var parts := Split(body, '.');
    BodyChars(body);
    if |parts| == 1 && |parts[0]| > 0 && AllDigits(parts[0]) then
      Some(Decimal(neg, DigitsToNat(parts[0]), 0))
    else if |parts| == 2 && |parts[0]| > 0 && |parts[1]| > 0 && AllDigits(parts[0] + parts[1]) then
      Some(Decimal(neg, DigitsToNat(parts[0] + parts[1]), |parts[1]|))
    else None
  }

  /** A text that splits at its points into one or two digit runs holds
      only digits and points, and its last run is shorter than it. */
  lemma BodyChars(body: string)
    ensures var parts := Split(body, '.');
      |parts| == 1 && AllDigits(parts[0]) ==> forall i :: 0 <= i < |body| ==> IsDigit(body[i])
    ensures var parts := Split(body, '.');
      |parts| == 2 && AllDigits(parts[0] + parts[1]) ==>
        |parts[1]| < |body| && forall i :: 0 <= i < |body| ==> DecimalChar(body[i])
  {
    var parts := Split(body, '.');
    JoinSplit(body, '.');
    if |parts| == 2 {
      assert body == parts[0] + "." + parts[1];
      if AllDigits(parts[0] + parts[1]) {
        forall i | 0 <= i < |body| ensures DecimalChar(body[i]) {
          if i < |parts[0]| {
            assert body[i] == (parts[0] + parts[1])[i];
          } else if i > |parts[0]| {
            assert body[i] == (parts[0] + parts[1])[i - 1];
          }
        }
      }
    }
  }

  /** The text of a signed digit run reads as that whole number. */
  lemma ParseWhole(neg: bool, a: string)
    requires |a| > 0 && AllDigits(a)
    ensures Parse(if neg then "-" + a else a) == Some(Decimal(neg, DigitsToNat(a), 0))
  {
    var s := if neg then "-" + a else a;
    assert s[0] == (if neg then '-' else a[0]);
    assert neg ==> s[1..] == a;
    assert '.' !in a by {
      assert forall i :: 0 <= i < |a| ==> IsDigit(a[i]);
    }
    SplitJoin([a], '.');
  }

  /** The text of a signed `a.b` reads as the digits of `a + b` with `|b|` places. */
  lemma ParseFraction(neg: bool, a: string, b: string)
    requires |a| > 0 && |b| > 0 && AllDigits(a + b)
    ensures Parse(if neg then "-" + (a + "." + b) else a + "." + b) == Some(Decimal(neg, DigitsToNat(a + b), |b|))
  {
    var body := a + "." + b;
    var s := if neg then "-" + body else body;
    FractionParts(a, b);
    assert s[0] == (if neg then '-' else body[0]);
    assert neg ==> s[1..] == body;
  }

  /** `a.b` splits at its point into `a` and `b`, and starts with a digit. */
  lemma FractionParts(a: string, b: string)
    requires |a| > 0 && |b| > 0 && AllDigits(a + b)
    ensures Split(a + "." + b, '.') == [a, b]
    ensures IsDigit((a + "." + b)[0])
  {
    var body := a + "." + b;
    assert body[0] == a[0] && IsDigit(a[0]) by {
      assert (a + b)[0] == a[0];
    }
    assert '.' !in a && '.' !in b by {
      assert forall i :: 0 <= i < |a| ==> (a + b)[i] == a[i] && IsDigit(a[i]);
      assert forall i :: 0 <= i < |b| ==> (a + b)[|a| + i] == b[i] && IsDigit(b[i]);
    }
    SplitJoin([a, b], '.');
    assert Join([a, b], ".") == body;
  }

  /** Reading back the text of a decimal gives the same decimal. */
  lemma ParseShow(d: Decimal)
    ensures Parse(Show(d)) == Some(d)
  {
    var padded := Padded(d);
    if d.places == 0 {
      ParseWhole(d.negative, padded);
    } else {
      var a, b := padded[..|padded| - d.places], padded[|padded| - d.places..];
      assert a + b == padded;
      ParseFraction(d.negative, a, b);
    }
  }

  /** Python's ROUND_HALF_UP: the nearest integer, ties away from zero. */
  function RoundHalfUp(x: real): (n: int)
    ensures x - 0.5 <= n as real <= x + 0.5
    ensures n as real == x + 0.5 ==> x >= 0.0
    ensures n as real == x - 0.5 ==> x < 0.0
    ensures x >= 0.0 ==> n >= 0
    ensures x <= 0.0 ==> n <= 0
  {
    if x >= 0.0 then (x + 0.5).Floor else -((-x + 0.5).Floor)
  }

  lemma FloorMonotone(a: real, b: real)
    requires a <= b
    ensures a.Floor <= b.Floor
  {
  }

  lemma RoundHalfUpMonotone(x: real, y: real)
    requires x <= y
    ensures RoundHalfUp(x) <= RoundHalfUp(y)
  {
    if x >= 0.0 {
      FloorMonotone(x + 0.5, y + 0.5);
    } else if y < 0.0 {
      FloorMonotone(-y + 0.5, -x + 0.5);
    }
  }

  /** A whole number is its own rounding. */
  lemma RoundHalfUpWhole(k: int)
    ensures RoundHalfUp(k as real) == k
  {
  }

  /** `x` measured in steps of `10^-places`. */
  function Scaled(x: real, places: nat): real {
    x * Pow10(places) as real
  }

  /** `Decimal(x).quantize(Decimal(10) ** -places)` under ROUND_HALF_UP. */
  function Quantize(x: real, places: nat): (d: Decimal)
    ensures d.places == places
    ensures d.negative <==> x < 0.0
    ensures x - 0.5 / Pow10(places) as real <= Value(d) <= x + 0.5 / Pow10(places) as real
    ensures Signed(d) == RoundHalfUp(Scaled(x, places))
  {
    var p := Pow10(places) as real;
    var a := Scaled(x, places);
    var n := RoundHalfUp(a);
    ScaleSign(x, p);
    assert x < 0.0 ==> n <= 0;
    assert x >= 0.0 ==> n >= 0;
    var c: nat := if n < 0 then -n else n;
    var d := Decimal(x < 0.0, c, places);
    assert Signed(d) == n;
    SignedValue(d);
    assert Value(d) == n as real / p;
    DivideBounds(a, n as real, p);
    assert a / p == x;
    d
  }

  /** The coefficient with the sign applied. */
  function Signed(d: Decimal): int {
    if d.negative then -(d.coef as int) else d.coef
  }

  lemma SignedValue(d: Decimal)
    ensures Value(d) == Signed(d) as real / Pow10(d.places) as real
    ensures Value(d) * Pow10(d.places) as real == Signed(d) as real
  {
  }

  lemma ScaleSign(x: real, p: real)
    requires p > 0.0
    ensures x < 0.0 <==> x * p < 0.0
  {
  }

  lemma DivideMonotone(a: real, b: real, p: real)
    requires p > 0.0 && a <= b
    ensures a / p <= b / p
  {
  }

  lemma MultiplyMonotone(a: real, b: real, p: real)
    requires p > 0.0 && a <= b
    ensures a * p <= b * p
  {
  }

  lemma DivideBounds(a: real, n: real, p: real)
    requires p > 0.0
    requires a - 0.5 <= n <= a + 0.5
    ensures a / p - 0.5 / p <= n / p <= a / p + 0.5 / p
  {
  }

  /** Quantizing preserves order. */
  lemma QuantizeMonotone(x: real, y: real, places: nat)
    requires x <= y
    ensures Value(Quantize(x, places)) <= Value(Quantize(y, places))
  {
    var p := Pow10(places) as real;
    MultiplyMonotone(x, y, p);
    RoundHalfUpMonotone(Scaled(x, places), Scaled(y, places));
    var dx, dy := Quantize(x, places), Quantize(y, places);
    SignedValue(dx);
    SignedValue(dy);
    DivideMonotone(Signed(dx) as real, Signed(dy) as real, p);
  }

  /** A decimal is unchanged in value when quantized to its own places. */
  lemma QuantizeOwnPlaces(d: Decimal)
    ensures Value(Quantize(Value(d), d.places)) == Value(d)
  {
    SignedValue(d);
    assert Scaled(Value(d), d.places) == Signed(d) as real;
    RoundHalfUpWhole(Signed(d));
    var q := Quantize(Value(d), d.places);
    assert Signed(q) == Signed(d);
    SignedValue(q);
  }
}

=== FILE: events.dfy ===
/** The events that flow through the engine's priority queue
    (peoples_advisor/event/event.py): their priorities, the comparison the
    queue orders them by, and the one-line text form the backtest writes to
    its history file and reads back. */
module Events {
  import opened Wrappers
  import opened Text
  import opened Decimals

  /** Times are whole epoch seconds: the text form keeps `int(time.timestamp())`. */
  datatype Event =
    | Price(instrument: string, time: int, bid: Decimal, ask: Decimal)
    | Quote(instrument: string, time: int, bid: Decimal, ask: Decimal)
    | Signal(instrument: string, time: int, side: string, info: Option<string>)
    | Order(instrument: string, time: int, units: int, orderType: string)
    | Start
    | Stop
    | Exit

  /** The priority each class passes to `BaseEvent.__init__`; lower is served first. */
  function Priority(e: Event): (r: nat)
    ensures r <= 5
    ensures r == 0 <==> e.Exit?
    ensures r == 5 <==> e.Stop?
  {
    match e
    case Price(_, _, _, _) => 4
    case Quote(_, _, _, _) => 4
    case Signal(_, _, _, _) => 3
    case Order(_, _, _, _) => 2
    case Start => 1
    case Stop => 5
    case Exit => 0
  }

  /** `BaseEvent.__lt__`: "less than" holds for equal priorities too. */
  predicate Less(a: Event, b: Event)
    ensures a.Exit? || b.Stop? ==> Less(a, b)
  {
    Priority(a) <= Priority(b)
  }

  /** `BaseEvent.__eq__`: only the priority is compared. */
  predicate Same(a: Event, b: Event)
    ensures Same(a, b) <==> Less(a, b) && Less(b, a)
  {
    Priority(a) == Priority(b)
  }

  /** Any two events are comparable, and each is "less" than the other
      exactly when they compare equal. */
  lemma LessTotal(a: Event, b: Event)
    ensures Less(a, b) || Less(b, a)
    ensures Less(a, b) && Less(b, a) <==> Same(a, b)
  {
  }

  /** An exit precedes everything; a stop follows everything. */
  lemma ExitFirstStopLast(e: Event)
    ensures Less(Exit, e) && Less(e, Stop)
    ensures Less(e, Exit) ==> e == Exit
    ensures Less(Stop, e) ==> e == Stop
  {
  }

  /** The `type` attribute, which is also the first field of the text form. */
  function Tag(e: Event): string {
    match e
    case Price(_, _, _, _) => "PRICE"
    case Quote(_, _, _, _) => "QUOTE"
    case Signal(_, _, _, _) => "SIGNAL"
    case Order(_, _, _, _) => "ORDER"
    case Start => "START"
    case Stop => "STOP"
    case Exit => "EXIT"
  }

  /** The fields of `repr(e)`, or `None` for an order event, whose `__repr__`
      returns nothing. Signal info is printed as `None` or as its text. */
  function ReprFields(e: Event): Option<seq<string>> {
    match e
    case Price(i, t, b, a) => Some(["PRICE", i, IntToString(t), Show(b), Show(a)])
    case Quote(i, t, b, a) => Some(["QUOTE", i, IntToString(t), Show(b), Show(a)])
    case Signal(i, t, s, info) =>
      Some(["SIGNAL", i, IntToString(t), s, if info.None? then "None" else info.value])
    case Order(_, _, _, _) => None
    case Start => Some(["START"])
    case Stop => Some(["STOP"])
    case Exit => Some(["EXIT"])
  }

  /** `repr(e)`: the fields joined by commas. */
  function Repr(e: Event): (r: Option<string>)
    ensures r.Some? <==> !e.Order?
    ensures r.Some? ==> Tag(e) <= r.value
  {
    match ReprFields(e)
    case None => None
    case Some(fs) =>
      assert fs[0] == Tag(e);
      Some(Join(fs, ","))
  }

  datatype DecodeError =
    | UnknownType(tag: string)   // no class `<Tag>Event` exists: NameError
    | Malformed                  // too few fields, or a field `int`/`Decimal` refuses
    | Unevaluated                // signal info other than `None` goes through `eval`
    | Quoting                    // a quote, backslash or carriage return breaks the evaluated literal

  /** Characters that end or alter the single-quoted literal the decoder evaluates. */
  predicate BreaksLiteral(ch: char) {
    ch == '\'' || ch == '\\' || ch == '\r'
  }

  function PriceFields(fs: seq<string>, quote: bool): Result<Option<Event>, DecodeError> {
    if |fs| < 5 then Err(Malformed)
    else match (ParseInt(fs[2]), Parse(fs[3]), Parse(fs[4]))
      case (Some(t), Some(b), Some(a)) =>
        Ok(Some(if quote then Quote(fs[1], t, b, a) else Price(fs[1], t, b, a)))
      case _ => Err(Malformed)
  }

  function SignalFields(fs: seq<string>): Result<Option<Event>, DecodeError> {
    if |fs| < 5 then Err(Malformed)
    else match ParseInt(fs[2])
      case None => Err(Malformed)
      case Some(t) =>
        if fs[4] == "None" then Ok(Some(Signal(fs[1], t, fs[3], None))) else Err(Unevaluated)
  }

  /** `event_from_repr`: drop newlines, pick the class from the title-cased
      first field, and call its `from_repr`. */
  function EventFromRepr(line: string): (r: Result<Option<Event>, DecodeError>)
    ensures r.Ok? && r.value.Some? ==> !r.value.value.Order?
    ensures r.Ok? ==> NoBreaks(Replace(line, "\n", ""))
  {
    var s := Replace(line, "\n", "");
    if !NoBreaks(s) then Err(Quoting)
    else FromFields(Split(s, ','))
  }

  /** The dispatch on the first field. `BaseEvent.from_repr` and
      `OrderEvent.from_repr` return `None`; start, stop and exit ignore the
      rest of the line. */
  function FromFields(fs: seq<string>): (r: Result<Option<Event>, DecodeError>)
    requires |fs| >= 1
    ensures r.Ok? && r.value.Some? ==> !r.value.value.Order?
  {
    match Title(fs[0])
    case "Price" => PriceFields(fs, false)
    case "Quote" => PriceFields(fs, true)
    case "Signal" => SignalFields(fs)
    case "Order" => Ok(None)
    case "Base" => Ok(None)
    case "Start" => Ok(Some(Start))
    case "Stop" => Ok(Some(Stop))
    case "Exit" => Ok(Some(Exit))
    case _ => Err(UnknownType(fs[0]))
  }

  /** Text with no newline and nothing that breaks the evaluated literal. */
  predicate NoBreaks(s: string) {
    forall k :: 0 <= k < |s| ==> s[k] != '\n' && !BreaksLiteral(s[k])
  }

  /** Text that survives a round trip as one field of a line. */
  predicate PlainField(f: string) {
    NoBreaks(f) && ',' !in f
  }

  /** An event whose text form can be read back: its free-text fields are
      plain and a signal carries no info dictionary. */
  predicate Writable(e: Event) {
    match e
    case Price(i, _, _, _) => PlainField(i)
    case Quote(i, _, _, _) => PlainField(i)
    case Signal(i, _, s, info) => PlainField(i) && PlainField(s) && info.None?
    case Order(_, _, _, _) => false
    case _ => true
  }

  /** Title-casing a run of letters upper-cases the first and lower-cases the rest. */
  lemma {:induction false} TitleLetters(s: string, afterLetter: bool)
    requires forall i :: 0 <= i < |s| ==> IsLetter(s[i])
    ensures forall i :: 0 <= i < |s| ==>
      TitleAfter(s, afterLetter)[i] == (if i == 0 && !afterLetter then ToUpper(s[i]) else ToLower(s[i]))
    decreases |s|
  {
    if |s| > 0 {
      TitleLetters(s[1..], true);
    }
  }

  /** A run of letters title-cases to its first letter upper-cased and the rest lower-cased. */
  lemma TitleWord(s: string, t: string)
    requires |s| == |t| > 0
    requires forall i :: 0 <= i < |s| ==> IsLetter(s[i])
    requires t[0] == ToUpper(s[0])
    requires forall i :: 1 <= i < |s| ==> t[i] == ToLower(s[i])
    ensures Title(s) == t
  {
    TitleLetters(s, false);
  }

  lemma TitlePrice()
    ensures Title("PRICE") == "Price"
  {
    TitleWord("PRICE", "Price");
  }

  lemma TitleQuote()
    ensures Title("QUOTE") == "Quote"
  {
    TitleWord("QUOTE", "Quote");
  }

  lemma TitleSignal()
    ensures Title("SIGNAL") == "Signal"
  {
    TitleWord("SIGNAL", "Signal");
  }

  lemma TitleStart()
    ensures Title("START") == "Start"
  {
    TitleWord("START", "Start");
  }

  lemma TitleStop()
    ensures Title("STOP") == "Stop"
  {
    TitleWord("STOP", "Stop");
  }

  lemma TitleExit()
    ensures Title("EXIT") == "Exit"
  {
    TitleWord("EXIT", "Exit");
  }

  lemma {:induction false} JoinNoBreaks(fs: seq<string>)
    requires forall i :: 0 <= i < |fs| ==> PlainField(fs[i])
    ensures NoBreaks(Join(fs, ","))
    decreases |fs|
  {
    if |fs| > 1 {
      JoinNoBreaks(fs[1..]);
    }
  }

  lemma IntTextPlain(t: int)
    ensures PlainField(IntToString(t))
  {
    IntTextChars(t);
  }

  lemma DecimalTextPlain(d: Decimal)
    ensures PlainField(Show(d))
  {
  }

  lemma WritableFieldsPlain(e: Event)
    requires Writable(e)
    ensures forall i :: 0 <= i < |ReprFields(e).value| ==> PlainField(ReprFields(e).value[i])
  {
    if e.Price? || e.Quote? {
      PriceFieldsPlain(e);
    } else if e.Signal? {
      SignalFieldsPlain(e);
    }
  }

  lemma PriceFieldsPlain(e: Event)
    requires (e.Price? || e.Quote?) && Writable(e)
    ensures forall i :: 0 <= i < |ReprFields(e).value| ==> PlainField(ReprFields(e).value[i])
  {
    IntTextPlain(e.time); DecimalTextPlain(e.bid); DecimalTextPlain(e.ask);
    TagPlain(e);
    FivePlain(Tag(e), e.instrument, IntToString(e.time), Show(e.bid), Show(e.ask));
  }

  lemma TagPlain(e: Event)
    ensures PlainField(Tag(e))
  {
  }

  lemma SignalFieldsPlain(e: Event)
    requires e.Signal? && Writable(e)
    ensures forall i :: 0 <= i < |ReprFields(e).value| ==> PlainField(ReprFields(e).value[i])
  {
    IntTextPlain(e.time);
    FivePlain("SIGNAL", e.instrument, IntToString(e.time), e.side, "None");
  }

  lemma FivePlain(f0: string, f1: string, f2: string, f3: string, f4: string)
    requires PlainField(f0) && PlainField(f1) && PlainField(f2) && PlainField(f3) && PlainField(f4)
    ensures forall i :: 0 <= i < 5 ==> PlainField([f0, f1, f2, f3, f4][i])
  {
  }

  /** A line joined from plain fields splits back into them, with or without
      a trailing newline. */
  lemma DecodeJoined(fs: seq<string>)
    requires |fs| >= 1
    requires forall i :: 0 <= i < |fs| ==> PlainField(fs[i])
    ensures EventFromRepr(Join(fs, ",")) == FromFields(fs)
    ensures EventFromRepr(Join(fs, ",") + "\n") == FromFields(fs)
  {
    var line := Join(fs, ",");
    JoinNoBreaks(fs);
    ReplaceAbsentChar(line, '\n', "");
    StripTrailingChar(line, '\n');
    SplitJoin(fs, ',');
  }

  /** The dispatch picks the class whose name the first field title-cases to. */
  lemma DispatchPrice(fs: seq<string>, quote: bool)
    requires |fs| >= 1 && Title(fs[0]) == (if quote then "Quote" else "Price")
    ensures FromFields(fs) == PriceFields(fs, quote)
  {
  }

  lemma DispatchSignal(fs: seq<string>)
    requires |fs| >= 1 && Title(fs[0]) == "Signal"
    ensures FromFields(fs) == SignalFields(fs)
  {
  }

  /** The five fields of a written price or quote read back as its parts. */
  lemma PriceFieldsParts(tag: string, quote: bool, i: string, t: int, b: Decimal, a: Decimal)
    ensures PriceFields([tag, i, IntToString(t), Show(b), Show(a)], quote) ==
      Ok(Some(if quote then Quote(i, t, b, a) else Price(i, t, b, a)))
  {
    IntRoundTrip(t);
    ParseShow(b);
    ParseShow(a);
  }

  lemma PriceFieldsRoundTrip(e: Event)
    requires (e.Price? || e.Quote?) && Writable(e)
    ensures FromFields(ReprFields(e).value) == Ok(Some(e))
  {
    var fs := ReprFields(e).value;
    if e.Price? { TitlePrice(); } else { TitleQuote(); }
    DispatchPrice(fs, e.Quote?);
    PriceFieldsParts(fs[0], e.Quote?, e.instrument, e.time, e.bid, e.ask);
  }

  lemma SignalFieldsRoundTrip(e: Event)
    requires e.Signal? && Writable(e)
    ensures FromFields(ReprFields(e).value) == Ok(Some(e))
  {
    TitleSignal();
    DispatchSignal(ReprFields(e).value);
    IntRoundTrip(e.time);
  }

  /** The fields of a writable event decode to that event. */
  lemma FieldsRoundTrip(e: Event)
    requires Writable(e)
    ensures FromFields(ReprFields(e).value) == Ok(Some(e))
  {
    if e.Price? || e.Quote? {
      PriceFieldsRoundTrip(e);
    } else if e.Signal? {
      SignalFieldsRoundTrip(e);
    } else if e.Start? {
      TitleStart();
    } else if e.Stop? {
      TitleStop();
    } else {
      TitleExit();
    }
  }

  /** Reading back the written line of an event gives the event, with or
      without the newline the writer appends. */
  lemma ReprRoundTrip(e: Event)
    requires Writable(e)
    ensures Repr(e).Some?
    ensures EventFromRepr(Repr(e).value) == Ok(Some(e))
    ensures EventFromRepr(Repr(e).value + "\n") == Ok(Some(e))
  {
    WritableFieldsPlain(e);
    DecodeJoined(ReprFields(e).value);
    FieldsRoundTrip(e);
  }
}

=== FILE: feeds.dfy ===
/** The live price feeds of both revisions
    (peoples_advisor/price/oanda/oanda_price.py, pa/price/oanda_price.py):
    each tick of the broker's stream becomes an event on the queue, a Price
    for a traded instrument and a Quote (newer) or Info (older) event for an
    instrument subscribed only to convert currencies. The stream is a
    sequence of ticks, and the run flag as seen before each tick is a
    sequence of booleans. */
module Feeds {
  import opened Wrappers
  import opened Decimals
  import Events
  import LegacyEvents
  import Common

  /** A streamed price message: instrument, time text, and the price texts
      of its bid and ask ladders. */
  datatype Tick = Tick(instrument: string, time: string, bids: seq<string>, asks: seq<string>)

  /** A tick read into the fields of an event, with whether its instrument is traded. */
  datatype Reading = Reading(traded: bool, instrument: string, time: int, bid: Decimal, ask: Decimal)

  datatype FeedError =
    | NoClosure(cause: Common.CommonError)   // `extend_instrument_list` raised
    | BadTime                                // the time text does not convert
    | NoPrice                                // an empty bid or ask ladder: IndexError
    | BadPrice                               // `Decimal` refuses a price text
    | NoInstruments                          // no instrument list: `",".join(None)` raises TypeError

  /** The readings queued, whether the exit flag was set, and the error re-raised. */
  datatype Fed = Fed(readings: seq<Reading>, exitSet: bool, failure: Option<FeedError>)

  /** The body of the loop for one tick: the time, then the best bid, then
      the best ask are converted, in the order the arguments are evaluated. */
  function ReadTick(t: Tick, traded: seq<string>, toTime: string -> Option<int>): (r: Result<Reading, FeedError>)
    ensures toTime(t.time).None? ==> r == Err(BadTime)
    ensures toTime(t.time).Some? && (|t.bids| == 0 || |t.asks| == 0) ==> r.Err?
    ensures r.Ok? ==> r.value.instrument == t.instrument && (r.value.traded <==> t.instrument in traded)
    ensures r.Ok? ==> Some(r.value.time) == toTime(t.time)
    ensures r.Err? ==> !r.error.NoClosure? && !r.error.NoInstruments?
  {
    match toTime(t.time)
    case None => Err(BadTime)
    case Some(time) =>
      if |t.bids| == 0 then Err(NoPrice)
      else match Parse(t.bids[0])
        case None => Err(BadPrice)
        case Some(bid) =>
          if |t.asks| == 0 then Err(NoPrice)
          else match Parse(t.asks[0])
            case None => Err(BadPrice)
            case Some(ask) => Ok(Reading(t.instrument in traded, t.instrument, time, bid, ask))
  }

  /** A tick reads exactly when its time converts and both ladders have a
      readable best price; the reading carries those values. */
  lemma ReadTickValue(t: Tick, traded: seq<string>, toTime: string -> Option<int>)
    ensures var r := ReadTick(t, traded, toTime);
      && (r.Ok? <==> toTime(t.time).Some? && |t.bids| > 0 && |t.asks| > 0 && Parse(t.bids[0]).Some? && Parse(t.asks[0]).Some?)
      && (r.Ok? ==> r.value == Reading(t.instrument in traded, t.instrument, toTime(t.time).value,
                                       Parse(t.bids[0]).value, Parse(t.asks[0]).value))
  {
  }

  /** The `for` loop: stop before the first tick seen with the run flag
      clear; on an error set the exit flag and stop. */
  function Consume(ticks: seq<Tick>, running: seq<bool>, traded: seq<string>, toTime: string -> Option<int>): (r: Fed)
    requires |running| == |ticks|
    ensures r.exitSet <==> r.failure.Some?
    ensures |r.readings| <= |ticks|
    ensures r.failure.Some? ==> !r.failure.value.NoClosure? && !r.failure.value.NoInstruments?
    decreases |ticks|
  {
    if |ticks| == 0 || !running[0] then Fed([], false, None)
    else match ReadTick(ticks[0], traded, toTime)
      case Err(e) => Fed([], true, Some(e))
      case Ok(reading) =>
        var rest := Consume(ticks[1..], running[1..], traded, toTime);
        Fed([reading] + rest.readings, rest.exitSet, rest.failure)
  }

  /** The loop ends at the end of the stream, at a tick seen with the flag
      clear, or at the first tick that does not read, whose error it keeps. */
  lemma {:induction false} ConsumeEnd(ticks: seq<Tick>, running: seq<bool>, traded: seq<string>,
                                      toTime: string -> Option<int>)
    requires |running| == |ticks|
    ensures var r := Consume(ticks, running, traded, toTime);
      && (r.failure.None? ==> |r.readings| == |ticks| || !running[|r.readings|])
      && (r.failure.Some? ==>
            |r.readings| < |ticks| && running[|r.readings|] && ReadTick(ticks[|r.readings|], traded, toTime) == Err(r.failure.value))
    decreases |ticks|
  {
    if |ticks| > 0 && running[0] && ReadTick(ticks[0], traded, toTime).Ok? {
      ConsumeEnd(ticks[1..], running[1..], traded, toTime);
    }
  }

  /** Every queued reading is the reading of its tick, taken with the flag set. */
  lemma {:induction false} ConsumeReads(ticks: seq<Tick>, running: seq<bool>, traded: seq<string>,
                                        toTime: string -> Option<int>, k: nat)
    requires |running| == |ticks| && k < |Consume(ticks, running, traded, toTime).readings|
    ensures running[k] && ReadTick(ticks[k], traded, toTime) == Ok(Consume(ticks, running, traded, toTime).readings[k])
    decreases k
  {
    if k > 0 {
      ConsumeReads(ticks[1..], running[1..], traded, toTime, k - 1);
    }
  }

  /** `OandaPricingGen.gen`: the subscription list comes first; its failure
      sets the exit flag before any tick is read. A missing list (`None`, which
      `extend_instrument_list` returns when the broker is not OANDA) makes
      the stream raise while it builds its query, so no tick is read either. */
  function Gen(closure: Result<Option<set<string>>, Common.CommonError>, ticks: seq<Tick>, running: seq<bool>,
               traded: seq<string>, toTime: string -> Option<int>): (r: Fed)
    requires |running| == |ticks|
    ensures closure.Err? ==> r == Fed([], true, Some(NoClosure(closure.error)))
    ensures closure.Ok? ==> |r.readings| <= |ticks| && (r.exitSet <==> r.failure.Some?)
    ensures closure == Ok(None) ==> r == Fed([], true, Some(NoInstruments))
    ensures (r.failure.Some? && r.failure.value.NoClosure?) <==> closure.Err?
    ensures (r.failure.Some? && r.failure.value.NoInstruments?) <==> closure == Ok(None)
  {
    match closure
    case Err(e) => Fed([], true, Some(NoClosure(e)))
    case Ok(None) => Fed([], true, Some(NoInstruments))
    case Ok(Some(_)) => Consume(ticks, running, traded, toTime)
  }

  /** The newer revision's events: Price for traded instruments, else Quote. */
  function NewerEvents(rs: seq<Reading>): (es: seq<Events.Event>)
    ensures |es| == |rs|
    ensures forall k :: 0 <= k < |rs| ==> (es[k].Price? || es[k].Quote?) && (es[k].Price? <==> rs[k].traded)
    ensures forall k :: 0 <= k < |rs| ==>
      es[k].instrument == rs[k].instrument && es[k].time == rs[k].time && es[k].bid == rs[k].bid && es[k].ask == rs[k].ask
  {
    seq(|rs|, k requires 0 <= k < |rs| =>
      var r := rs[k];
      if r.traded then Events.Price(r.instrument, r.time, r.bid, r.ask)
      else Events.Quote(r.instrument, r.time, r.bid, r.ask))
  }

  /** The older revision's events: Price for traded instruments, else Info. */
  function OlderEvents(rs: seq<Reading>): (es: seq<LegacyEvents.Event>)
    ensures |es| == |rs|
    ensures forall k :: 0 <= k < |rs| ==> (es[k].Price? || es[k].Info?) && (es[k].Price? <==> rs[k].traded)
    ensures forall k :: 0 <= k < |rs| ==>
      es[k].instrument == rs[k].instrument && es[k].time == rs[k].time && es[k].bid == rs[k].bid && es[k].ask == rs[k].ask
  {
    seq(|rs|, k requires 0 <= k < |rs| =>
      var r := rs[k];
      if r.traded then LegacyEvents.Price(r.instrument, r.time, r.bid, r.ask)
      else LegacyEvents.Info(r.instrument, r.time, r.bid, r.ask))
  }

  /** With the flag set throughout and every tick readable, each tick is
      queued once, in order, and classified by its instrument. */
  lemma EveryTickQueued(ticks: seq<Tick>, traded: seq<string>, toTime: string -> Option<int>)
    requires forall k :: 0 <= k < |ticks| ==> ReadTick(ticks[k], traded, toTime).Ok?
    ensures var r := Consume(ticks, seq(|ticks|, _ => true), traded, toTime);
      r.failure.None? && !r.exitSet && |r.readings| == |ticks| &&
      forall k :: 0 <= k < |ticks| ==> (r.readings[k].traded <==> ticks[k].instrument in traded)
  {
    var running := seq(|ticks|, _ => true);
    var r := Consume(ticks, running, traded, toTime);
    ConsumeEnd(ticks, running, traded, toTime);
    forall k | 0 <= k < |ticks| ensures r.readings[k].traded <==> ticks[k].instrument in traded {
      ConsumeReads(ticks, running, traded, toTime, k);
      ReadTickValue(ticks[k], traded, toTime);
    }
  }

  /** The two revisions classify every tick alike: the older Info events
      are the newer Quote events. */
  lemma RevisionsAgree(rs: seq<Reading>)
    ensures forall k :: 0 <= k < |rs| ==> (NewerEvents(rs)[k].Price? <==> OlderEvents(rs)[k].Price?)
    ensures forall k :: 0 <= k < |rs| ==> (NewerEvents(rs)[k].Quote? <==> OlderEvents(rs)[k].Info?)
  {
  }
}

=== FILE: filenames.dfy ===
/** The names of history files (peoples_advisor/backtest/common/common.py,
    peoples_advisor/backtest/common.py and pa/backtest/common.py, which
    agree but for the order of the arguments in the last) and of live-feed
    logs (peoples_advisor/price/common/common.py), each with a reader that
    recovers what the name was made from; and the progress counts
    `filesize` yields while reading a file. Dates are naive datetimes
    formatted by `strftime`. */
module FileNames {
  import opened Wrappers
  import opened Text
  import opened OandaTime

  /** `%Y`: the year's decimal digits, not padded (as the C library's
      `strftime` writes it). */
  function YearText(year: nat): (r: string)
    ensures AllDigits(r) && DigitsToNat(r) == year
  {
    NatDigitsRoundTrip(year);
    NatToDigits(year)
  }

  /** A four-digit year is written with four characters. */
  lemma FourDigitYear(year: nat)
    requires 1000 <= year <= 9999
    ensures |YearText(year)| == 4
  {
    assert 100 <= year / 10 <= 999 && 10 <= year / 100 <= 99 && 1 <= year / 1000 <= 9;
    assert |NatToDigits(year / 1000)| == 1;
    assert |NatToDigits(year / 100)| == 2;
    assert |NatToDigits(year / 10)| == 3;
  }

  /** `%Y.%m.%d`. */
  function DateText(d: DateTime): string
    requires Valid(d)
  {
    YearText(d.year) + "." + Pad(d.month, 2) + "." + Pad(d.day, 2)
  }

  /** `%Y.%m.%dT%H.%M.%S`: the fraction of a second is not written. */
  function StampText(d: DateTime): string
    requires Valid(d)
  {
    DateText(d) + "T" + Pad(d.hour, 2) + "." + Pad(d.minute, 2) + "." + Pad(d.second, 2)
  }

  /** A calendar day, what `%Y.%m.%d` keeps of a datetime. */
  datatype Day = Day(year: nat, month: nat, day: nat)

  function DayOf(d: DateTime): Day {
    Day(d.year, d.month, d.day)
  }

  /** A datetime cut to the whole second, what `%Y.%m.%dT%H.%M.%S` keeps. */
  function WholeSecond(d: DateTime): DateTime {
    d.(micro := 0)
  }

  // ---------------------------------------------------------------- history files

  /** `standard_filename(from_time, to_time, instruments)`:
      `FROM-TO[I1-I2-...].txt` with both dates as `%Y.%m.%d`. */
  function StandardName(from: DateTime, to: DateTime, instruments: seq<string>): (r: string)
    requires Valid(from) && Valid(to)
    ensures |r| >= 5 && r[|r| - 5..] == "].txt"
    ensures DateText(from) <= r
  {
    TxtSuffix(DateText(from) + "-" + DateText(to), Join(instruments, "-"));
    DateText(from) + "-" + DateText(to) + "[" + Join(instruments, "-") + "]" + ".txt"
  }

  /** `standard_file_name(instruments, from_time, to_time)` of the earlier
      revision: the same name, the instruments passed first. */
  function StandardFileName(instruments: seq<string>, from: DateTime, to: DateTime): (r: string)
    requires Valid(from) && Valid(to)
    ensures |r| >= 5 && r[|r| - 5..] == "].txt"
  {
    StandardName(from, to, instruments)
  }

  lemma TxtSuffix(head: string, mid: string)
    ensures var s := head + "[" + mid + "]" + ".txt"; |s| >= 5 && s[|s| - 5..] == "].txt"
  {
  }

  /** `YYYY.MM.DD` read back into a day. */
  function ParseDay(s: string): (r: Option<Day>)
    requires |s| == 10
  {
    if s[4] != '.' || s[7] != '.' then None
    else match (Field(s, 0, 4), Field(s, 5, 2), Field(s, 8, 2))
      case (Some(y), Some(m), Some(d)) => Some(Day(y, m, d))
      case _ => None
  }

  /** Reads a history file name back into its two days and its instruments. */
  function ParseStandardName(s: string): (r: Option<(Day, Day, seq<string>)>)
    ensures r.Some? ==> |s| >= 27 && s[|s| - 5..] == "].txt"
  {
    if |s| < 27 || s[10] != '-' || s[21] != '[' || s[|s| - 5..] != "].txt" then None
    else match (ParseDay(s[..10]), ParseDay(s[11..21]))
      case (Some(a), Some(b)) => Some((a, b, Split(s[22..|s| - 5], '-')))
      case _ => None
  }

  /** Where the pieces of `A-B[M].txt` sit, for ten-character `A` and `B`. */
  lemma NameLayout(a: string, b: string, mid: string)
    requires |a| == 10 && |b| == 10
    ensures var s := a + "-" + b + "[" + mid + "]" + ".txt";
      && |s| == 27 + |mid| && s[..10] == a && s[10] == '-' && s[11..21] == b && s[21] == '['
      && s[22..|s| - 5] == mid && s[|s| - 5..] == "].txt"
  {
  }

  /** Where the pieces of `Y.M.D` sit, for a four-digit `Y` and two-digit `M` and `D`. */
  lemma DotDateLayout(y: string, m: string, d: string)
    requires |y| == 4 && |m| == 2 && |d| == 2
    ensures var s := y + "." + m + "." + d;
      && |s| == 10 && s[0..4] == y && s[4] == '.' && s[5..7] == m && s[7] == '.' && s[8..10] == d
  {
  }

  /** A day with a four-digit year reads back from its text. */
  lemma DayRoundTrip(d: DateTime)
    requires Valid(d) && d.year >= 1000
    ensures |DateText(d)| == 10 && ParseDay(DateText(d)) == Some(DayOf(d))
  {
    FourDigitYear(d.year);
    DotDateLayout(YearText(d.year), Pad(d.month, 2), Pad(d.day, 2));
  }

  /** The name of a history file gives back the two days it was made from
      and the instruments in their order, provided the years have four
      digits, there is at least one instrument and no instrument holds a
      '-'. */
  lemma NameRoundTrip(from: DateTime, to: DateTime, instruments: seq<string>)
    requires Valid(from) && Valid(to) && from.year >= 1000 && to.year >= 1000
    requires |instruments| >= 1 && forall k :: 0 <= k < |instruments| ==> '-' !in instruments[k]
    ensures ParseStandardName(StandardName(from, to, instruments)) == Some((DayOf(from), DayOf(to), instruments))
  {
    DayRoundTrip(from);
    DayRoundTrip(to);
    NameLayout(DateText(from), DateText(to), Join(instruments, "-"));
    SplitJoin(instruments, '-');
  }

  /** Both revisions name a history file the same way. */
  lemma RevisionsNameAlike(instruments: seq<string>, from: DateTime, to: DateTime)
    requires Valid(from) && Valid(to) && from.year >= 1000 && to.year >= 1000
    requires |instruments| >= 1 && forall k :: 0 <= k < |instruments| ==> '-' !in instruments[k]
    ensures ParseStandardName(StandardFileName(instruments, from, to)) == Some((DayOf(from), DayOf(to), instruments))
  {
    NameRoundTrip(from, to, instruments);
  }

  // ---------------------------------------------------------------- live logs

  /** `standard_filename(from_time, to_time)` for a live log:
      `LIVE-[FROM-TO]` with both times to the second and no extension. */
  function LiveName(from: DateTime, to: DateTime): (r: string)
    requires Valid(from) && Valid(to)
    ensures |r| >= 8 && r[..6] == "LIVE-[" && r[|r| - 1] == ']'
  {
    var r := "LIVE-[" + StampText(from) + "-" + StampText(to) + "]";
    assert r[..6] == "LIVE-[";
    r
  }

  /** `YYYY.MM.DDTHH.MM.SS` read back into a whole-second datetime. */
  function ParseStamp(s: string): (r: Option<DateTime>)
    requires |s| == 19
  {
    if s[10] != 'T' || s[13] != '.' || s[16] != '.' then None
    else match (ParseDay(s[..10]), Field(s, 11, 2), Field(s, 14, 2), Field(s, 17, 2))
      case (Some(d), Some(h), Some(mi), Some(se)) => Some(DateTime(d.year, d.month, d.day, h, mi, se, 0))
      case _ => None
  }

  /** Reads a live log name back into its two times. */
  function ParseLiveName(s: string): (r: Option<(DateTime, DateTime)>)
    ensures r.Some? ==> |s| == 46
  {
    if |s| != 46 || s[..6] != "LIVE-[" || s[25] != '-' || s[45] != ']' then None
    else match (ParseStamp(s[6..25]), ParseStamp(s[26..45]))
      case (Some(a), Some(b)) => Some((a, b))
      case _ => None
  }

  /** Where the pieces of `D?H.M.S` sit, for a ten-character `D`. */
  lemma StampLayout(d: string, sep: char, h: string, mi: string, se: string)
    requires |d| == 10 && |h| == 2 && |mi| == 2 && |se| == 2
    ensures var s := d + [sep] + h + "." + mi + "." + se;
      && |s| == 19 && s[..10] == d && s[10] == sep && s[11..13] == h && s[13] == '.'
      && s[14..16] == mi && s[16] == '.' && s[17..19] == se
  {
  }

  lemma StampRoundTrip(d: DateTime)
    requires Valid(d) && d.year >= 1000
    ensures |StampText(d)| == 19 && ParseStamp(StampText(d)) == Some(WholeSecond(d))
  {
    DayRoundTrip(d);
    StampLayout(DateText(d), 'T', Pad(d.hour, 2), Pad(d.minute, 2), Pad(d.second, 2));
    assert StampText(d) == DateText(d) + ['T'] + Pad(d.hour, 2) + "." + Pad(d.minute, 2) + "." + Pad(d.second, 2);
  }

  /** Where the pieces of `LIVE-[A-B]` sit, for nineteen-character `A` and `B`. */
  lemma LiveLayout(a: string, b: string)
    requires |a| == 19 && |b| == 19
    ensures var s := "LIVE-[" + a + "-" + b + "]";
      && |s| == 46 && s[..6] == "LIVE-[" && s[6..25] == a && s[25] == '-' && s[26..45] == b && s[45] == ']'
  {
  }

  /** With four-digit years a live log name is 46 characters long and
      gives back, in order, the start and end times to the second. */
  lemma LiveRoundTrip(from: DateTime, to: DateTime)
    requires Valid(from) && Valid(to) && from.year >= 1000 && to.year >= 1000
    ensures |LiveName(from, to)| == 46
    ensures ParseLiveName(LiveName(from, to)) == Some((WholeSecond(from), WholeSecond(to)))
  {
    StampRoundTrip(from);
    StampRoundTrip(to);
    LiveLayout(StampText(from), StampText(to));
  }

  // ---------------------------------------------------------------- progress

  /** `filesize`: one count per line read, 1, 2, ..., and the number of
      lines as the generator's return value. */
  method FileSize(lines: seq<string>) returns (counts: seq<nat>, total: nat)
    ensures total == |lines| && |counts| == |lines|
    ensures forall k :: 0 <= k < |counts| ==> counts[k] == k + 1
  {
    counts, total := [], 0;
    while total < |lines|
      invariant total <= |lines| && |counts| == total
      invariant forall k :: 0 <= k < |counts| ==> counts[k] == k + 1
    {
      total := total + 1;
      counts := counts + [total];
    }
  }
}

=== FILE: legacy_control.dfy ===
/** The control loop of the earlier revision (pa/control/control.py). It has
    no run-flag gate: every price reaches the portfolio and the signal
    strategy. START sets the run flag and, when trading live, starts the
    price-feed thread; STOP clears the flag and queues an EXIT. */
module LegacyControl {
  import opened Wrappers
  import opened LegacyEvents

  datatype Control<S, Z, P> = Control(
    run: bool,
    exit: bool,
    backtesting: bool,
    feedStarted: bool,
    pending: multiset<Event>,
    signals: S,
    sizing: Z,
    portfolio: P)

  type Strategy<!T> = (T, Event) -> (T, Option<Event>)

  /** A Python thread may be started once; a second `start` raises. */
  datatype ControlError = ThreadStartedTwice

  predicate IsNext(e: Event, pending: multiset<Event>) {
    e in pending && forall x :: x in pending ==> Priority(e) <= Priority(x)
  }

  /** `queue_event`: refused once the exit flag is set, and `None` is dropped. */
  function QueueEvent<S, Z, P>(c: Control<S, Z, P>, o: Option<Event>): (r: Control<S, Z, P>)
    ensures r.(pending := c.pending) == c
    ensures r.pending == if !c.exit && o.Some? then c.pending + multiset{o.value} else c.pending
  {
    if !c.exit && o.Some? then c.(pending := c.pending + multiset{o.value}) else c
  }

  /** What queueing a strategy's answer adds while the exit flag is clear. */
  function Queued(exit: bool, o: Option<Event>): multiset<Event> {
    if !exit && o.Some? then multiset{o.value} else multiset{}
  }

  /** The body of the loop for one event. `updatePrice` is the portfolio's
      `update_price`. Whatever the run flag, a price reaches the portfolio
      and hands the signal strategy's event to the queue, a signal hands the
      sizing strategy's order, and a STOP queues an EXIT; every other event
      queues nothing. */
  function Handle<S, Z, P>(c: Control<S, Z, P>, e: Event, genSignal: Strategy<S>, genOrder: Strategy<Z>,
                           updatePrice: (P, Event) -> P): (r: Result<Control<S, Z, P>, ControlError>)
    ensures r.Err? <==> e.Start? && !c.backtesting && c.feedStarted
    ensures r.Ok? ==> (r.value.exit <==> c.exit || e.Exit?)
    ensures r.Ok? ==> c.pending <= r.value.pending
    ensures e.Price? ==>
      r.Ok? && r.value.signals == genSignal(c.signals, e).0 && r.value.sizing == c.sizing &&
      r.value.portfolio == updatePrice(c.portfolio, e) &&
      r.value.pending == c.pending + Queued(c.exit, genSignal(c.signals, e).1)
    ensures e.Signal? ==>
      r.Ok? && r.value.sizing == genOrder(c.sizing, e).0 && r.value.signals == c.signals &&
      r.value.pending == c.pending + Queued(c.exit, genOrder(c.sizing, e).1)
    ensures e.Stop? ==> r.Ok? && !r.value.run && r.value.pending == c.pending + Queued(c.exit, Some(Exit))
    ensures r.Ok? && !e.Price? && !e.Signal? && !e.Stop? ==>
      r.value.pending == c.pending && r.value.signals == c.signals && r.value.sizing == c.sizing
  {
    match e
    case Exit => Ok(c.(exit := true))
    case Start =>
      if c.backtesting then Ok(c.(run := true))
      else if c.feedStarted then Err(ThreadStartedTwice)
      else Ok(c.(run := true, feedStarted := true))
    case Order(_, _, _, _) => Ok(c)
    case Signal(_, _, _) =>
      var (z, o) := genOrder(c.sizing, e);
      Ok(QueueEvent(c.(sizing := z), o))
    case Price(_, _, _, _) =>
      var (s, o) := genSignal(c.signals, e);
      Ok(QueueEvent(c.(portfolio := updatePrice(c.portfolio, e), signals := s), o))
    case Info(_, _, _, _) => Ok(c.(portfolio := updatePrice(c.portfolio, e)))
    case Stop => Ok(QueueEvent(c.(run := false), Some(Exit)))
    case Eof => Ok(c)
  }

  function Step<S, Z, P>(c: Control<S, Z, P>, e: Event, genSignal: Strategy<S>, genOrder: Strategy<Z>,
                         updatePrice: (P, Event) -> P): (r: Result<Control<S, Z, P>, ControlError>)
    requires !c.exit && IsNext(e, c.pending)
    ensures r.Err? <==> e.Start? && !c.backtesting && c.feedStarted
    ensures r.Ok? ==> (r.value.exit <==> e.Exit?)
    ensures r.Ok? ==> c.pending - multiset{e} <= r.value.pending
    ensures e.Price? ==>
      r.Ok? && r.value.signals == genSignal(c.signals, e).0 &&
      r.value.pending == c.pending - multiset{e} + Queued(false, genSignal(c.signals, e).1)
    ensures e.Signal? ==>
      r.Ok? && r.value.sizing == genOrder(c.sizing, e).0 &&
      r.value.pending == c.pending - multiset{e} + Queued(false, genOrder(c.sizing, e).1)
    ensures r.Ok? && !e.Price? && !e.Signal? && !e.Stop? ==> r.value.pending == c.pending - multiset{e}
  {
    Handle(c.(pending := c.pending - multiset{e}), e, genSignal, genOrder, updatePrice)
  }

  /** A STOP leaves an EXIT queued, so the loop takes it on the following
      turn and ends. */
  lemma StopThenExit<S, Z, P>(c: Control<S, Z, P>, genSignal: Strategy<S>, genOrder: Strategy<Z>,
                              updatePrice: (P, Event) -> P, e: Event)
    requires !c.exit && IsNext(Stop, c.pending)
    ensures var r := Step(c, Stop, genSignal, genOrder, updatePrice);
      r.Ok? && !r.value.run && !r.value.exit && Exit in r.value.pending &&
      (IsNext(e, r.value.pending) ==>
        (e == Exit && Step(r.value, e, genSignal, genOrder, updatePrice).Ok? &&
         Step(r.value, e, genSignal, genOrder, updatePrice).value.exit))
  {
    var r := Step(c, Stop, genSignal, genOrder, updatePrice).value;
    if IsNext(e, r.pending) {
      assert Priority(e) <= Priority(Exit);
    }
  }

  /** Trading live, a second START fails when it tries to start the feed
      thread again. */
  lemma RestartFails<S, Z, P>(c: Control<S, Z, P>, genSignal: Strategy<S>, genOrder: Strategy<Z>,
                              updatePrice: (P, Event) -> P)
    requires !c.exit && !c.backtesting && !c.feedStarted
    requires multiset{Start, Start} <= c.pending
    requires forall x :: x in c.pending ==> x == Start || Priority(x) > Priority(Start)
    ensures var r := Step(c, Start, genSignal, genOrder, updatePrice);
      r.Ok? && r.value.run && Step(r.value, Start, genSignal, genOrder, updatePrice).Err?
  {
    var r := Step(c, Start, genSignal, genOrder, updatePrice).value;
    assert r.pending == c.pending - multiset{Start};
    assert Start in r.pending;
  }

  /** Without a run-flag gate, every price reaches the portfolio, whether the
      engine is running or not. */
  lemma PricesAlwaysReachPortfolio<S, Z, P>(c: Control<S, Z, P>, e: Event, genSignal: Strategy<S>,
                                            genOrder: Strategy<Z>, updatePrice: (P, Event) -> P)
    requires e.Price? || e.Info?
    ensures Handle(c, e, genSignal, genOrder, updatePrice).Ok?
    ensures Handle(c, e, genSignal, genOrder, updatePrice).value.portfolio == updatePrice(c.portfolio, e)
  {
  }
}

=== FILE: legacy_events.dfy ===
/** The events of the earlier revision (pa/event/event.py): the same priority
    scheme without a text form, an end-of-file event, and the informational
    price the earlier feed emits for conversion-only instruments. */
module LegacyEvents {
  import opened Decimals

  datatype Event =
    | Price(instrument: string, time: int, bid: Decimal, ask: Decimal)
    | Info(instrument: string, time: int, bid: Decimal, ask: Decimal)
    | Signal(instrument: string, time: int, side: string)
    | Order(instrument: string, time: int, units: int, orderType: string)
    | Start
    | Stop
    | Exit
    | Eof

  /** The priorities of pa/event/event.py. `InfoEvent` has no class there;
      it takes the priority of a price, as its successor `QuoteEvent` does. */
  function Priority(e: Event): (r: nat)
    ensures r <= 5
    ensures r == 0 <==> e.Exit?
    ensures r == 5 <==> e.Stop? || e.Eof?
  {
    match e
    case Price(_, _, _, _) => 4
    case Info(_, _, _, _) => 4
    case Signal(_, _, _) => 3
    case Order(_, _, _, _) => 2
    case Start => 1
    case Stop => 5
    case Exit => 0
    case Eof => 5
  }

  /** `BaseEvent.__lt__`, true for equal priorities. */
  predicate Less(a: Event, b: Event)
    ensures a.Exit? || b.Stop? || b.Eof? ==> Less(a, b)
  {
    Priority(a) <= Priority(b)
  }

  /** `BaseEvent.__eq__`, on priorities alone. */
  predicate Same(a: Event, b: Event)
    ensures Same(a, b) <==> Less(a, b) && Less(b, a)
  {
    Priority(a) == Priority(b)
  }

  /** An exit outranks every other event; stop and end-of-file come last and
      compare equal although they are different events. */
  lemma LegacyOrdering(e: Event)
    ensures Less(Exit, e)
    ensures Less(e, Exit) ==> e == Exit
    ensures Less(e, Stop) && Less(e, Eof)
    ensures Same(Stop, Eof) && Stop != Eof
  {
  }

  /** The `type` attribute the control loop dispatches on. */
  function Tag(e: Event): string {
    match e
    case Price(_, _, _, _) => "PRICE"
    case Info(_, _, _, _) => "INFO"
    case Signal(_, _, _) => "SIGNAL"
    case Order(_, _, _, _) => "ORDER"
    case Start => "START"
    case Stop => "STOP"
    case Exit => "EXIT"
    case Eof => "EOF"
  }
}

=== FILE: oanda_api.dfy ===
/** The request builders and helpers of the newer broker client
    (peoples_advisor/api/oanda/oanda_api.py): JSON bodies of order details
    and order requests, the close and modify bodies, the RFC 3339 time
    conversion, and the pricing-stream filter. HTTP itself is not modelled. */
module OandaApi {
  import opened Wrappers
  import opened Text

  /** The object keys the client sends or reads, by their JSON names
      (see `KeyName`); `Other` covers the rest of a streamed message. */
  datatype Key =
    | TypeKey | InstrumentKey | UnitsKey | PriceKey | Distance | TimeInForce | GtdTime | PositionFill
    | PriceBound | TriggerCondition | TradeId | ClientTradeId | Id | Tag | Comment
    | TakeProfitOnFill | StopLossOnFill | GuaranteedStopLossOnFill | TrailingStopLossOnFill
    | ClientExtensions | TradeClientExtensions
    | LongUnits | ShortUnits | LongClientExtensions | ShortClientExtensions
    | TakeProfitKey | StopLossKey | TrailingStopLossKey | GuaranteedStopLossKey
    | Tradeable | Status | Other(name: string)

  /** The JSON spelling of a key. */
  function KeyName(k: Key): string {
    match k
    case TypeKey => "type" case InstrumentKey => "instrument" case UnitsKey => "units"
    case PriceKey => "price" case Distance => "distance" case TimeInForce => "timeInForce"
    case GtdTime => "gtdTime" case PositionFill => "positionFill" case PriceBound => "priceBound"
    case TriggerCondition => "triggerCondition" case TradeId => "tradeID" case ClientTradeId => "clientTradeID"
    case Id => "id" case Tag => "tag" case Comment => "comment"
    case TakeProfitOnFill => "takeProfitOnFill" case StopLossOnFill => "stopLossOnFill"
    case GuaranteedStopLossOnFill => "guaranteedStopLossOnFill" case TrailingStopLossOnFill => "trailingStopLossOnFill"
    case ClientExtensions => "clientExtensions" case TradeClientExtensions => "tradeClientExtensions"
    case LongUnits => "longUnits" case ShortUnits => "shortUnits"
    case LongClientExtensions => "longClientExtensions" case ShortClientExtensions => "shortClientExtensions"
    case TakeProfitKey => "takeProfit" case StopLossKey => "stopLoss"
    case TrailingStopLossKey => "trailingStopLoss" case GuaranteedStopLossKey => "guaranteedStopLoss"
    case Tradeable => "tradeable" case Status => "status" case Other(n) => n
  }

  /** A JSON value as Python's `json` module sees it. */
  datatype Json =
    | JNull
    | JBool(b: bool)
    | JInt(i: int)
    | JStr(s: string)
    | JObj(fields: map<Key, Json>)
    | JList(items: seq<Json>)

  type Dict = map<Key, Json>

  /** Python truthiness of a value. */
  predicate Truthy(j: Json) {
    match j
    case JNull => false
    case JBool(b) => b
    case JInt(i) => i != 0
    case JStr(s) => |s| > 0
    case JObj(m) => |m| > 0
    case JList(xs) => |xs| > 0
  }

  /** A float argument: its value and its `str` text, which the model keeps opaque. */
  datatype Num = Num(value: real, text: string)

  function NumText(n: Option<Num>): string {
    match n
    case None => "None"
    case Some(x) => x.text
  }

  predicate NumTruthy(n: Option<Num>) {
    n.Some? && n.value.value != 0.0
  }

  function OptStr(s: Option<string>): Json {
    match s
    case None => JNull
    case Some(t) => JStr(t)
  }

  /** A time in force is any text the caller passes; the client only
      compares it with "GTD". */
  type Tif = string
  const GTD: Tif := "GTD"
  const FOK: Tif := "FOK"

  function OptTif(t: Option<Tif>): Json {
    match t
    case None => JNull
    case Some(x) => JStr(x)
  }

  datatype ApiError =
    | GtdMissing                   // time in force GTD without a GTD time
    | PriceOrDistance              // stop-loss details need exactly one of the two
    | NoneAttribute(key: Key)   // `.as_dict()` called on None
    | NoAsDict(key: Key)        // `.as_dict()` called on a string
    | BadTime                      // a time text `fromisoformat` refuses
    | BadFormat                    // a datetime format other than RFC3339 or UNIX
    | MissingStatus                // a PRICE message without "status"

  /** `_conditional_update` (lines 15-17). The test `condition is not bool`
      compares with the type object `bool`, which no value is, so every
      condition other than None adds the key. */
  function ConditionalUpdate(d: Dict, condition: Json, key: Key, value: Json): (r: Dict)
    ensures key in r <==> key in d || condition != JNull
    ensures condition != JNull ==> r[key] == value
  {
    if condition != JNull then d[key := value] else d
  }

  /** A conditional update leaves every other key as it was. */
  lemma ConditionalUpdateFrame(d: Dict, condition: Json, key: Key, value: Json, k: Key)
    requires k != key
    ensures k in ConditionalUpdate(d, condition, key, value) <==> k in d
    ensures k in d ==> ConditionalUpdate(d, condition, key, value)[k] == d[k]
  {
  }

  /** A false condition still adds its key; only None leaves the dictionary alone. */
  lemma FalseConditionAdds(d: Dict, key: Key, value: Json)
    ensures key in ConditionalUpdate(d, JBool(false), key, value)
    ensures ConditionalUpdate(d, JNull, key, value) == d
  {
  }

  // ---------------------------------------------------------------- details

  datatype Extensions = Extensions(id: string, tag: string, comment: string)

  /** `ClientExtensions.as_dict` (lines 43-44). */
  function ExtensionsDict(e: Extensions): (r: Dict)
    ensures r.Keys == {Id, Tag, Comment}
  {
    map[Id := JStr(e.id), Tag := JStr(e.tag), Comment := JStr(e.comment)]
  }

  /** The details objects merge their extensions' keys at the top level. */
  function MergeExtensions(d: Dict, e: Option<Extensions>): (r: Dict)
    ensures e.None? ==> r == d
    ensures e.Some? ==> Id in r && Tag in r && Comment in r
  {
    match e
    case None => d
    case Some(x) => d + ExtensionsDict(x)
  }

  /** Merging extensions leaves every key but their three as it was. */
  lemma MergeExtensionsFrame(d: Dict, e: Option<Extensions>, k: Key)
    requires k != Id && k != Tag && k != Comment
    ensures k in MergeExtensions(d, e) <==> k in d
    ensures k in d ==> MergeExtensions(d, e)[k] == d[k]
  {
  }

  datatype DetailsKind = TakeProfitDetails | StopLossDetails | GuaranteedStopLossDetails | TrailingStopLossDetails

  /** The on-fill details of lines 47-221. Only the stop-loss kinds use
      both `price` and `distance`; take-profit uses `price` only and
      trailing stop-loss `distance` only. */
  datatype Details = Details(kind: DetailsKind, price: Option<Num>, distance: Option<Num>,
                             timeInForce: Option<Tif>, gtdTime: Option<string>, ext: Option<Extensions>)

  /** The constructors' check (lines 116-117, 165-166): both missing, or
      both truthy, is refused. */
  predicate PriceDistanceOk(price: Option<Num>, distance: Option<Num>) {
    !((price.None? && distance.None?) || (NumTruthy(price) && NumTruthy(distance)))
  }

  /** `StopLossDetails(...)` and `GuaranteedStopLossDetails(...)`. */
  function MakeStopLossDetails(guaranteed: bool, price: Option<Num>, distance: Option<Num>,
                               timeInForce: Option<Tif>, gtdTime: Option<string>, ext: Option<Extensions>): (r: Result<Details, ApiError>)
    ensures r.Err? <==> !PriceDistanceOk(price, distance)
    ensures r.Err? ==> r.error == PriceOrDistance
    ensures r.Ok? ==> r.value.price == price && r.value.distance == distance && (r.value.kind == GuaranteedStopLossDetails <==> guaranteed)
  {
    if !PriceDistanceOk(price, distance) then Err(PriceOrDistance)
    else Ok(Details(if guaranteed then GuaranteedStopLossDetails else StopLossDetails, price, distance, timeInForce, gtdTime, ext))
  }

  /** With non-zero amounts, the stop-loss constructors accept exactly one
      of price and distance. */
  lemma ExactlyOneOfPriceDistance(price: Option<Num>, distance: Option<Num>)
    requires price.Some? ==> price.value.value != 0.0
    requires distance.Some? ==> distance.value.value != 0.0
    ensures PriceDistanceOk(price, distance) <==> (price.Some? != distance.Some?)
  {
  }

  predicate GtdWithoutTime(timeInForce: Option<Tif>, gtdTime: Option<string>) {
    timeInForce == Some(GTD) && gtdTime.None?
  }

  /** The keys a details object writes before the GTD time and the
      extensions: take-profit always names its price, trailing stop-loss
      only a truthy distance, the stop-losses whichever of the two is truthy. */
  function DetailsHead(d: Details): Dict {
    match d.kind
    case TakeProfitDetails => map[PriceKey := JStr(NumText(d.price)), TimeInForce := OptTif(d.timeInForce)]
    case TrailingStopLossDetails =>
      var base := map[TimeInForce := OptTif(d.timeInForce)];
      if NumTruthy(d.distance) then base[Distance := JStr(NumText(d.distance))] else base
    case _ =>
      var base := map[TimeInForce := OptTif(d.timeInForce)];
      var withPrice := if NumTruthy(d.price) then base[PriceKey := JStr(NumText(d.price))] else base;
      if NumTruthy(d.distance) then withPrice[Distance := JStr(NumText(d.distance))] else withPrice
  }

  /** The `as_dict` of the four details classes (lines 67-78, 118-133,
      167-182, 209-221). */
  function DetailsDict(d: Details): (r: Result<Dict, ApiError>)
    ensures r.Err? <==> GtdWithoutTime(d.timeInForce, d.gtdTime)
    ensures r.Err? ==> r.error == GtdMissing
  {
    if GtdWithoutTime(d.timeInForce, d.gtdTime) then Err(GtdMissing)
    else
      var withGtd := ConditionalUpdate(DetailsHead(d), JBool(d.timeInForce == Some(GTD)), GtdTime, OptStr(d.gtdTime));
      Ok(MergeExtensions(withGtd, d.ext))
  }

  /** A serialised details object always carries the time in force and a
      GTD time key (the condition is a bool, never None). */
  lemma DetailsDictTime(d: Details)
    requires !GtdWithoutTime(d.timeInForce, d.gtdTime)
    ensures TimeInForce in DetailsDict(d).value && GtdTime in DetailsDict(d).value
  {
  }

  /** Take-profit details always name their price, trailing stop-loss
      never, the stop-losses only when it is truthy. */
  lemma DetailsDictPrice(d: Details)
    requires !GtdWithoutTime(d.timeInForce, d.gtdTime)
    ensures PriceKey in DetailsDict(d).value <==>
      d.kind == TakeProfitDetails || (d.kind != TrailingStopLossDetails && NumTruthy(d.price))
  {
  }

  /** Every kind but take-profit names its distance exactly when it is truthy. */
  lemma DetailsDictDistance(d: Details)
    requires !GtdWithoutTime(d.timeInForce, d.gtdTime)
    ensures Distance in DetailsDict(d).value <==> d.kind != TakeProfitDetails && NumTruthy(d.distance)
  {
  }

  // ---------------------------------------------------------------- order requests

  /** The optional on-fill parts shared by market and limit order requests. */
  datatype OnFill = OnFill(takeProfit: Option<Details>, stopLoss: Option<Details>,
                           guaranteedStopLoss: Option<Details>, trailingStopLoss: Option<Details>,
                           ext: Option<Extensions>, tradeExt: Option<Extensions>)

  /** Every optional part left at its default of None. */
  const Defaults := OnFill(None, None, None, None, None, None)

  predicate AllPresent(f: OnFill) {
    f.takeProfit.Some? && f.stopLoss.Some? && f.guaranteedStopLoss.Some? && f.trailingStopLoss.Some?
    && f.ext.Some? && f.tradeExt.Some?
  }

  predicate DetailsOk(x: Option<Details>) {
    x.None? || !GtdWithoutTime(x.value.timeInForce, x.value.gtdTime)
  }

  predicate OnFillOk(f: OnFill) {
    DetailsOk(f.takeProfit) && DetailsOk(f.stopLoss) && DetailsOk(f.guaranteedStopLoss) && DetailsOk(f.trailingStopLoss)
  }

  /** An optional on-fill part: a details object or client extensions,
      either of which may be None. */
  datatype Part = DetailsPart(details: Option<Details>) | ExtensionsPart(ext: Option<Extensions>)

  predicate Given(p: Part) {
    match p
    case DetailsPart(x) => x.Some?
    case ExtensionsPart(x) => x.Some?
  }

  /** The part's `as_dict()` raises. */
  predicate Failed(p: Part) {
    p.DetailsPart? && !DetailsOk(p.details)
  }

  /** The part's `as_dict()`, wrapped as a JSON object. */
  function Serialise(p: Part): (r: Result<Json, ApiError>)
    requires Given(p)
    ensures r.Err? <==> Failed(p)
  {
    match p
    case DetailsPart(x) =>
      (match DetailsDict(x.value)
       case Err(e) => Err(e)
       case Ok(body) => Ok(JObj(body)))
    case ExtensionsPart(x) => Ok(JObj(ExtensionsDict(x.value)))
  }

  /** The six on-fill updates of lines 305-340 (and 426-461), in order. */
  function Parts(f: OnFill): seq<(Key, Part)> {
    [(TakeProfitOnFill, DetailsPart(f.takeProfit)), (StopLossOnFill, DetailsPart(f.stopLoss)),
     (GuaranteedStopLossOnFill, DetailsPart(f.guaranteedStopLoss)),
     (TrailingStopLossOnFill, DetailsPart(f.trailingStopLoss)),
     (ClientExtensions, ExtensionsPart(f.ext)), (TradeClientExtensions, ExtensionsPart(f.tradeExt))]
  }

  /** `_conditional_update(d, x, key, x.as_dict())` repeated, as the source
      writes it: the argument `x.as_dict()` is evaluated before the
      condition is looked at, so a None part raises. */
  function EagerUpdates(d: Dict, ps: seq<(Key, Part)>): (r: Result<Dict, ApiError>)
    ensures r.Ok? <==> forall i :: 0 <= i < |ps| ==> Given(ps[i].1) && !Failed(ps[i].1)
    decreases |ps|
  {
    if ps == [] then Ok(d)
    else if !Given(ps[0].1) then Err(NoneAttribute(ps[0].0))
    else
      match Serialise(ps[0].1)
      case Err(e) => Err(e)
      case Ok(j) => EagerUpdates(d[ps[0].0 := j], ps[1..])
  }

  /** The same updates with the evidently intended reading: a part left at
      None is skipped. */
  function LazyUpdates(d: Dict, ps: seq<(Key, Part)>): (r: Result<Dict, ApiError>)
    ensures r.Ok? <==> forall i :: 0 <= i < |ps| ==> !Failed(ps[i].1)
    ensures (forall i :: 0 <= i < |ps| ==> Given(ps[i].1)) ==> r == EagerUpdates(d, ps)
    decreases |ps|
  {
    if ps == [] then Ok(d)
    else if !Given(ps[0].1) then LazyUpdates(d, ps[1..])
    else
      match Serialise(ps[0].1)
      case Err(e) => Err(e)
      case Ok(j) => LazyUpdates(d[ps[0].0 := j], ps[1..])
  }

  /** Some update of `ps` owns key `k`. */
  predicate Owns(ps: seq<(Key, Part)>, k: Key)
    decreases |ps|
  {
    ps != [] && (ps[0].0 == k || Owns(ps[1..], k))
  }

  /** Some update of `ps` owns key `k` and is given. */
  predicate Sends(ps: seq<(Key, Part)>, k: Key)
    decreases |ps|
  {
    ps != [] && ((ps[0].0 == k && Given(ps[0].1)) || Sends(ps[1..], k))
  }

  /** The corrected updates keep every key they do not own, and hold a key
      exactly when it was there before or some given part sends it. */
  lemma {:induction false} LazyUpdatesKeys(d: Dict, ps: seq<(Key, Part)>)
    requires LazyUpdates(d, ps).Ok?
    ensures forall k :: k in d && !Owns(ps, k) ==> k in LazyUpdates(d, ps).value && LazyUpdates(d, ps).value[k] == d[k]
    ensures forall k :: k in LazyUpdates(d, ps).value <==> k in d || Sends(ps, k)
    decreases |ps|
  {
    if ps != [] {
      var e := if Given(ps[0].1) then d[ps[0].0 := Serialise(ps[0].1).value] else d;
      assert LazyUpdates(d, ps) == LazyUpdates(e, ps[1..]);
      LazyUpdatesKeys(e, ps[1..]);
    }
  }

  /** `LazyUpdatesKeys` for one key. */
  lemma LazyKey(d: Dict, ps: seq<(Key, Part)>, k: Key)
    requires LazyUpdates(d, ps).Ok?
    ensures k in d && !Owns(ps, k) ==> k in LazyUpdates(d, ps).value && LazyUpdates(d, ps).value[k] == d[k]
    ensures k in LazyUpdates(d, ps).value <==> k in d || Sends(ps, k)
  {
    LazyUpdatesKeys(d, ps);
  }

  /** As written, the on-fill updates succeed only when all six parts are
      given and serialise. */
  lemma OnFillAsWrittenNeedsAll(d: Dict, f: OnFill)
    ensures EagerUpdates(d, Parts(f)).Ok? <==> AllPresent(f) && OnFillOk(f)
  {
    var ps := Parts(f);
    if AllPresent(f) && OnFillOk(f) {
      forall i | 0 <= i < |ps| ensures Given(ps[i].1) && !Failed(ps[i].1) {
        assert i in {0, 1, 2, 3, 4, 5};
      }
    } else {
      assert !Given(ps[0].1) || Failed(ps[0].1) || !Given(ps[1].1) || Failed(ps[1].1)
          || !Given(ps[2].1) || Failed(ps[2].1) || !Given(ps[3].1) || Failed(ps[3].1)
          || !Given(ps[4].1) || !Given(ps[5].1);
    }
  }

  /** The corrected on-fill updates fail only on a GTD part without its
      time. */
  lemma OnFillBodyOk(d: Dict, f: OnFill)
    ensures LazyUpdates(d, Parts(f)).Ok? <==> OnFillOk(f)
  {
    var ps := Parts(f);
    if OnFillOk(f) {
      forall i | 0 <= i < |ps| ensures !Failed(ps[i].1) {
        assert i in {0, 1, 2, 3, 4, 5};
      }
    } else {
      assert Failed(ps[0].1) || Failed(ps[1].1) || Failed(ps[2].1) || Failed(ps[3].1);
    }
  }

  /** When all six parts are given, the corrected updates agree with the
      source. */
  lemma OnFillAgree(d: Dict, f: OnFill)
    requires AllPresent(f)
    ensures LazyUpdates(d, Parts(f)) == EagerUpdates(d, Parts(f))
  {
    var ps := Parts(f);
    forall i | 0 <= i < |ps| ensures Given(ps[i].1) {
      assert i in {0, 1, 2, 3, 4, 5};
    }
  }

  /** The six updates own none of the base keys. */
  lemma PartsOwnOnly(f: OnFill, k: Key)
    requires k !in OnFillKeys
    ensures !Owns(Parts(f), k) && !Sends(Parts(f), k)
  {
    var ps := Parts(f);
    forall i | 0 <= i < |ps| ensures ps[i].0 != k {
      assert i in {0, 1, 2, 3, 4, 5};
    }
    NotOwned(ps, k);
  }

  /** The six updates send an on-fill key exactly when its part is given. */
  lemma PartsSend(f: OnFill, k: Key, j: nat)
    requires j < 6 && k == [TakeProfitOnFill, StopLossOnFill, GuaranteedStopLossOnFill,
                            TrailingStopLossOnFill, ClientExtensions, TradeClientExtensions][j]
    ensures Sends(Parts(f), k) <==> SentBy(f, k)
  {
    var ps := Parts(f);
    forall i | 0 <= i < |ps| && i != j ensures ps[i].0 != k {
      assert i in {0, 1, 2, 3, 4, 5};
    }
    OwnedAt(ps, j, k);
  }

  /** The on-fill key `k` names a part of `f` that is given. */
  predicate SentBy(f: OnFill, k: Key) {
    || (k == TakeProfitOnFill && f.takeProfit.Some?)
    || (k == StopLossOnFill && f.stopLoss.Some?)
    || (k == GuaranteedStopLossOnFill && f.guaranteedStopLoss.Some?)
    || (k == TrailingStopLossOnFill && f.trailingStopLoss.Some?)
    || (k == ClientExtensions && f.ext.Some?)
    || (k == TradeClientExtensions && f.tradeExt.Some?)
  }

  lemma {:induction false} NotOwned(ps: seq<(Key, Part)>, k: Key)
    requires forall i :: 0 <= i < |ps| ==> ps[i].0 != k
    ensures !Owns(ps, k) && !Sends(ps, k)
    decreases |ps|
  {
    if ps != [] {
      NotOwned(ps[1..], k);
    }
  }

  /** A key owned by exactly one update, at `j`, is sent exactly when that
      update is given. */
  lemma {:induction false} OwnedAt(ps: seq<(Key, Part)>, j: nat, k: Key)
    requires j < |ps| && ps[j].0 == k
    requires forall i :: 0 <= i < |ps| && i != j ==> ps[i].0 != k
    ensures Owns(ps, k)
    ensures Sends(ps, k) <==> Given(ps[j].1)
    decreases |ps|
  {
    if j == 0 {
      NotOwned(ps[1..], k);
    } else {
      OwnedAt(ps[1..], j - 1, k);
    }
  }

  /** The keys the on-fill updates may add. */
  const OnFillKeys: set<Key> := {TakeProfitOnFill, StopLossOnFill, GuaranteedStopLossOnFill,
                                 TrailingStopLossOnFill, ClientExtensions, TradeClientExtensions}

  /** A key outside the on-fill keys is in the corrected body exactly when
      it is in the head, with the head's value. */
  lemma BodyKey(d: Dict, f: OnFill, k: Key)
    requires OnFillOk(f) && k !in OnFillKeys
    ensures LazyUpdates(d, Parts(f)).Ok?
    ensures k in LazyUpdates(d, Parts(f)).value <==> k in d
    ensures k in d ==> LazyUpdates(d, Parts(f)).value[k] == d[k]
  {
    OnFillBodyOk(d, f);
    PartsOwnOnly(f, k);
    LazyKey(d, Parts(f), k);
  }

  /** An on-fill key is in the corrected body exactly when it is in the
      head or its part is given. */
  lemma BodyOnFillKey(d: Dict, f: OnFill, k: Key, j: nat)
    requires OnFillOk(f)
    requires j < 6 && k == [TakeProfitOnFill, StopLossOnFill, GuaranteedStopLossOnFill,
                            TrailingStopLossOnFill, ClientExtensions, TradeClientExtensions][j]
    ensures LazyUpdates(d, Parts(f)).Ok?
    ensures k in LazyUpdates(d, Parts(f)).value <==> k in d || SentBy(f, k)
  {
    OnFillBodyOk(d, f);
    PartsSend(f, k, j);
    LazyKey(d, Parts(f), k);
  }

  /** A given part's key holds its `as_dict()` value in the body; a part
      left at None leaves its key as the head had it. */
  predicate PartCarried(head: Dict, kp: (Key, Part), body: Dict) {
    if Given(kp.1) then kp.0 in body && Serialise(kp.1).Ok? && body[kp.0] == Serialise(kp.1).value
    else kp.0 in body <==> kp.0 in head
  }

  /** `body` is `head` with the on-fill parts of `f` added: the head's other
      keys keep their values, nothing else is added, and each part is
      carried. */
  predicate CarriesOnFill(head: Dict, f: OnFill, body: Dict) {
    && (forall k :: k in head && k !in OnFillKeys ==> k in body && body[k] == head[k])
    && (forall k :: k in body ==> k in head || k in OnFillKeys)
    && (forall j :: 0 <= j < |Parts(f)| ==> PartCarried(head, Parts(f)[j], body))
  }

  /** A key outside the on-fill keys is in a body carrying `f` exactly when
      it is in the head, with the head's value. */
  lemma Kept(head: Dict, f: OnFill, body: Dict, k: Key)
    requires CarriesOnFill(head, f, body) && k !in OnFillKeys
    ensures k in body <==> k in head
    ensures k in head ==> body[k] == head[k]
  {
  }

  /** The corrected updates give an update's key its serialised part when
      no other update owns that key. */
  lemma {:induction false} LazyValue(d: Dict, ps: seq<(Key, Part)>, j: nat)
    requires LazyUpdates(d, ps).Ok? && j < |ps| && Given(ps[j].1)
    requires forall i :: 0 <= i < |ps| && i != j ==> ps[i].0 != ps[j].0
    ensures Serialise(ps[j].1).Ok?
    ensures ps[j].0 in LazyUpdates(d, ps).value && LazyUpdates(d, ps).value[ps[j].0] == Serialise(ps[j].1).value
    decreases |ps|
  {
    var e := if Given(ps[0].1) then d[ps[0].0 := Serialise(ps[0].1).value] else d;
    assert LazyUpdates(d, ps) == LazyUpdates(e, ps[1..]);
    assert forall i :: 0 <= i < |ps[1..]| ==> ps[1..][i] == ps[i + 1];
    if j == 0 {
      NotOwned(ps[1..], ps[0].0);
      LazyKey(e, ps[1..], ps[0].0);
    } else {
      LazyValue(e, ps[1..], j - 1);
    }
  }

  /** The corrected on-fill updates carry every part of `f` into `d`. */
  lemma OnFillContents(d: Dict, f: OnFill)
    ensures LazyUpdates(d, Parts(f)).Ok? <==> OnFillOk(f)
    ensures LazyUpdates(d, Parts(f)).Ok? ==> CarriesOnFill(d, f, LazyUpdates(d, Parts(f)).value)
  {
    OnFillBodyOk(d, f);
    if !OnFillOk(f) {
      return;
    }
    var ps := Parts(f);
    var body := LazyUpdates(d, ps).value;
    forall k | k !in OnFillKeys
      ensures k in d ==> k in body && body[k] == d[k]
      ensures k in body ==> k in d
    {
      PartsOwnOnly(f, k);
      LazyKey(d, ps, k);
    }
    forall j | 0 <= j < |ps| ensures PartCarried(d, ps[j], body) {
      assert j in {0, 1, 2, 3, 4, 5};
      forall i | 0 <= i < |ps| && i != j ensures ps[i].0 != ps[j].0 {
        assert i in {0, 1, 2, 3, 4, 5};
      }
      OwnedAt(ps, j, ps[j].0);
      LazyKey(d, ps, ps[j].0);
      if Given(ps[j].1) {
        LazyValue(d, ps, j);
      }
    }
  }

  datatype MarketRequest = MarketRequest(instrument: string, units: Num, timeInForce: Option<Tif>,
                                         positionFill: Option<string>, priceBound: Option<Num>, onFill: OnFill)

  /** `MarketOrderRequest(instrument, units)` with every default of lines 235-294. */
  function DefaultMarket(instrument: string, units: Num): (r: MarketRequest)
    ensures r.timeInForce == Some(FOK) && r.positionFill == Some("DEFAULT") && r.onFill == Defaults
  {
    MarketRequest(instrument, units, Some(FOK), Some("DEFAULT"), None, Defaults)
  }

  function MarketHead(m: MarketRequest): Dict {
    var base := map[TypeKey := JStr("MARKET"), InstrumentKey := JStr(m.instrument), UnitsKey := JStr(m.units.text),
                    TimeInForce := OptTif(m.timeInForce), PositionFill := OptStr(m.positionFill)];
    ConditionalUpdate(base, if m.priceBound.Some? then JStr(m.priceBound.value.text) else JNull,
                      PriceBound, JStr(NumText(m.priceBound)))
  }

  /** `MarketOrderRequest.as_dict` as written (lines 296-341). */
  function MarketDictAsWritten(m: MarketRequest): (r: Result<Dict, ApiError>)
    ensures r.Ok? <==> AllPresent(m.onFill) && OnFillOk(m.onFill)
  {
    OnFillAsWrittenNeedsAll(MarketHead(m), m.onFill);
    EagerUpdates(MarketHead(m), Parts(m.onFill))
  }

  /** `MarketOrderRequest.as_dict` with None parts skipped. */
  function MarketDict(m: MarketRequest): (r: Result<Dict, ApiError>)
    ensures r.Ok? <==> OnFillOk(m.onFill)
    ensures r.Ok? ==> CarriesOnFill(MarketHead(m), m.onFill, r.value)
  {
    OnFillContents(MarketHead(m), m.onFill);
    LazyUpdates(MarketHead(m), Parts(m.onFill))
  }

  /** The base keys of a market body, before the on-fill updates. */
  lemma MarketHeadKeys(m: MarketRequest)
    ensures var d := MarketHead(m);
      && TypeKey in d && d[TypeKey] == JStr("MARKET")
      && InstrumentKey in d && d[InstrumentKey] == JStr(m.instrument)
      && UnitsKey in d && d[UnitsKey] == JStr(m.units.text)
      && TimeInForce in d && d[TimeInForce] == OptTif(m.timeInForce)
      && PositionFill in d && d[PositionFill] == OptStr(m.positionFill)
  {
  }

  /** A market head holds a price bound exactly when one is given. */
  lemma MarketHeadBound(m: MarketRequest)
    ensures PriceBound in MarketHead(m) <==> m.priceBound.Some?
  {
  }

  /** A market head holds none of the on-fill keys. */
  lemma MarketHeadNoOnFill(m: MarketRequest, k: Key)
    requires k in OnFillKeys
    ensures k !in MarketHead(m)
  {
  }

  /** The corrected market body keeps the base keys as given and sends a
      price bound exactly when one is given. */
  lemma MarketDictBase(m: MarketRequest)
    requires OnFillOk(m.onFill)
    ensures MarketDict(m).Ok?
    ensures var r := MarketDict(m).value;
      && TypeKey in r && r[TypeKey] == JStr("MARKET")
      && InstrumentKey in r && r[InstrumentKey] == JStr(m.instrument)
      && UnitsKey in r && r[UnitsKey] == JStr(m.units.text)
      && TimeInForce in r && r[TimeInForce] == OptTif(m.timeInForce)
      && PositionFill in r && r[PositionFill] == OptStr(m.positionFill)
      && (PriceBound in r <==> m.priceBound.Some?)
  {
    MarketBodyKeys(m, MarketDict(m).value);
  }

  /** Any body carrying a market head's on-fill parts keeps its base keys. */
  lemma MarketBodyKeys(m: MarketRequest, r: Dict)
    requires CarriesOnFill(MarketHead(m), m.onFill, r)
    ensures && TypeKey in r && r[TypeKey] == JStr("MARKET")
            && InstrumentKey in r && r[InstrumentKey] == JStr(m.instrument)
            && UnitsKey in r && r[UnitsKey] == JStr(m.units.text)
            && TimeInForce in r && r[TimeInForce] == OptTif(m.timeInForce)
            && PositionFill in r && r[PositionFill] == OptStr(m.positionFill)
            && (PriceBound in r <==> m.priceBound.Some?)
  {
    var h := MarketHead(m);
    MarketHeadKeys(m);
    MarketHeadBound(m);
    Kept(h, m.onFill, r, TypeKey);
    Kept(h, m.onFill, r, InstrumentKey);
    Kept(h, m.onFill, r, UnitsKey);
    Kept(h, m.onFill, r, TimeInForce);
    Kept(h, m.onFill, r, PositionFill);
    Kept(h, m.onFill, r, PriceBound);
  }

  /** The corrected market body sends an on-fill key exactly when its part
      is given; the source sends all six or fails. */
  lemma MarketDictOnFill(m: MarketRequest, k: Key, j: nat)
    requires OnFillOk(m.onFill)
    requires j < 6 && k == [TakeProfitOnFill, StopLossOnFill, GuaranteedStopLossOnFill,
                            TrailingStopLossOnFill, ClientExtensions, TradeClientExtensions][j]
    ensures MarketDict(m).Ok?
    ensures k in MarketDict(m).value <==> SentBy(m.onFill, k)
  {
    MarketHeadNoOnFill(m, k);
    BodyOnFillKey(MarketHead(m), m.onFill, k, j);
  }

  /** The default market order cannot be serialised as written. */
  lemma DefaultMarketFails(instrument: string, units: Num)
    ensures MarketDictAsWritten(DefaultMarket(instrument, units)) == Err(NoneAttribute(TakeProfitOnFill))
  {
    var m := DefaultMarket(instrument, units);
    assert !Given(Parts(m.onFill)[0].1);
  }

  /** The corrected serialiser sends the default market order as its five
      base keys and nothing else. */
  lemma DefaultMarketBody(instrument: string, units: Num)
    ensures MarketDict(DefaultMarket(instrument, units)) == Ok(MarketHead(DefaultMarket(instrument, units)))
    ensures MarketHead(DefaultMarket(instrument, units)).Keys == {TypeKey, InstrumentKey, UnitsKey, TimeInForce, PositionFill}
  {
    var m := DefaultMarket(instrument, units);
    var ps := Parts(m.onFill);
    forall i | 0 <= i < |ps| ensures !Given(ps[i].1) {
      assert i in {0, 1, 2, 3, 4, 5};
    }
    NoneGiven(MarketHead(m), ps);
  }

  /** With every optional part given, the corrected serialiser and the
      source agree. */
  lemma MarketAgree(m: MarketRequest)
    requires AllPresent(m.onFill)
    ensures MarketDict(m) == MarketDictAsWritten(m)
  {
    OnFillAgree(MarketHead(m), m.onFill);
  }

  /** With no part given, the corrected updates change nothing. */
  lemma {:induction false} NoneGiven(d: Dict, ps: seq<(Key, Part)>)
    requires forall i :: 0 <= i < |ps| ==> !Given(ps[i].1)
    ensures LazyUpdates(d, ps) == Ok(d)
    decreases |ps|
  {
    if ps != [] {
      NoneGiven(d, ps[1..]);
    }
  }

  datatype LimitRequest = LimitRequest(instrument: string, units: Num, price: Num, timeInForce: Option<Tif>,
                                       gtdTime: Option<string>, positionFill: Option<string>,
                                       triggerCondition: Option<string>, onFill: OnFill)

  function LimitHead(l: LimitRequest): Dict {
    var base := map[TypeKey := JStr("LIMIT"), InstrumentKey := JStr(l.instrument), UnitsKey := JStr(l.units.text),
                    PriceKey := JStr(l.price.text), TimeInForce := OptTif(l.timeInForce),
                    PositionFill := OptStr(l.positionFill), TriggerCondition := OptStr(l.triggerCondition)];
    ConditionalUpdate(base, JBool(l.timeInForce == Some(GTD)), GtdTime, OptStr(l.gtdTime))
  }

  /** `LimitOrderRequest.as_dict` as written (lines 413-462). */
  function LimitDictAsWritten(l: LimitRequest): (r: Result<Dict, ApiError>)
    ensures r.Ok? <==> !GtdWithoutTime(l.timeInForce, l.gtdTime) && AllPresent(l.onFill) && OnFillOk(l.onFill)
    ensures GtdWithoutTime(l.timeInForce, l.gtdTime) ==> r == Err(GtdMissing)
  {
    if GtdWithoutTime(l.timeInForce, l.gtdTime) then Err(GtdMissing)
    else
      OnFillAsWrittenNeedsAll(LimitHead(l), l.onFill);
      EagerUpdates(LimitHead(l), Parts(l.onFill))
  }

  /** `LimitOrderRequest.as_dict` with None parts skipped. */
  function LimitDict(l: LimitRequest): (r: Result<Dict, ApiError>)
    ensures r.Ok? <==> !GtdWithoutTime(l.timeInForce, l.gtdTime) && OnFillOk(l.onFill)
    ensures GtdWithoutTime(l.timeInForce, l.gtdTime) ==> r == Err(GtdMissing)
    ensures r.Ok? ==> CarriesOnFill(LimitHead(l), l.onFill, r.value)
  {
    if GtdWithoutTime(l.timeInForce, l.gtdTime) then Err(GtdMissing)
    else
      OnFillContents(LimitHead(l), l.onFill);
      LazyUpdates(LimitHead(l), Parts(l.onFill))
  }

  /** The corrected limit body always carries its price and a GTD time
      key, and sends the take-profit part exactly when it is given. */
  lemma LimitDictKeys(l: LimitRequest)
    requires LimitDict(l).Ok?
    ensures var r := LimitDict(l).value;
      && TypeKey in r && r[TypeKey] == JStr("LIMIT")
      && PriceKey in r && r[PriceKey] == JStr(l.price.text) && GtdTime in r
  {
    var h, r := LimitHead(l), LimitDict(l).value;
    LimitHeadKeys(l);
    Kept(h, l.onFill, r, TypeKey);
    Kept(h, l.onFill, r, PriceKey);
    Kept(h, l.onFill, r, GtdTime);
  }

  lemma LimitDictTakeProfit(l: LimitRequest)
    requires LimitDict(l).Ok?
    ensures TakeProfitOnFill in LimitDict(l).value <==> l.onFill.takeProfit.Some?
  {
    LimitHeadKeys(l);
    BodyOnFillKey(LimitHead(l), l.onFill, TakeProfitOnFill, 0);
  }

  lemma LimitHeadKeys(l: LimitRequest)
    ensures var d := LimitHead(l);
      && TypeKey in d && d[TypeKey] == JStr("LIMIT")
      && PriceKey in d && d[PriceKey] == JStr(l.price.text)
      && GtdTime in d && TakeProfitOnFill !in d
  {
  }

  lemma LimitAgree(l: LimitRequest)
    requires AllPresent(l.onFill)
    ensures LimitDict(l) == LimitDictAsWritten(l)
  {
    OnFillAgree(LimitHead(l), l.onFill);
  }

  // ---------------------------------------------------------------- trade-dependent order requests

  /** `clientExtensions` as the dependent order requests write it: the
      argument's `as_dict()` is evaluated first, so None raises. */
  function ExtensionsAsWritten(d: Dict, ext: Option<Extensions>): (r: Result<Dict, ApiError>)
    ensures r.Err? <==> ext.None?
    ensures r.Ok? ==> ClientExtensions in r.value && r.value[ClientExtensions] == JObj(ExtensionsDict(ext.value))
  {
    match ext
    case None => Err(NoneAttribute(ClientExtensions))
    case Some(e) => Ok(d[ClientExtensions := JObj(ExtensionsDict(e))])
  }

  /** The same update with None skipped. */
  function WithExtensions(d: Dict, ext: Option<Extensions>): (r: Dict)
    ensures ClientExtensions in r <==> ClientExtensions in d || ext.Some?
    ensures ext.Some? ==> Ok(r) == ExtensionsAsWritten(d, ext)
  {
    if ext.None? then d else ExtensionsAsWritten(d, ext).value
  }

  /** Adding extensions leaves every other key as it was. */
  lemma WithExtensionsFrame(d: Dict, ext: Option<Extensions>, k: Key)
    requires k != ClientExtensions
    ensures k in WithExtensions(d, ext) <==> k in d
    ensures k in d ==> WithExtensions(d, ext)[k] == d[k]
  {
  }

  datatype TakeProfitOrder = TakeProfitOrder(tradeId: int, price: Option<Num>, timeInForce: Option<Tif>,
                                             gtdTime: Option<string>, triggerCondition: Option<string>,
                                             clientTradeId: Option<string>, ext: Option<Extensions>)

  function TakeProfitHead(t: TakeProfitOrder): Dict {
    var base := map[TypeKey := JStr("TAKE_PROFIT"), TradeId := JInt(t.tradeId), PriceKey := JStr(NumText(t.price)),
                    TimeInForce := OptTif(t.timeInForce), TriggerCondition := OptStr(t.triggerCondition)];
    var withGtd := ConditionalUpdate(base, JBool(t.timeInForce == Some(GTD)), GtdTime, OptStr(t.gtdTime));
    ConditionalUpdate(withGtd, OptStr(t.clientTradeId), ClientTradeId, OptStr(t.clientTradeId))
  }

  /** `TakeProfitOrderRequest.as_dict` as written (lines 759-778). */
  function TakeProfitDictAsWritten(t: TakeProfitOrder): (r: Result<Dict, ApiError>)
    ensures r.Ok? <==> !GtdWithoutTime(t.timeInForce, t.gtdTime) && t.ext.Some?
  {
    if GtdWithoutTime(t.timeInForce, t.gtdTime) then Err(GtdMissing)
    else ExtensionsAsWritten(TakeProfitHead(t), t.ext)
  }

  /** `TakeProfitOrderRequest.as_dict` with None extensions skipped; with
      extensions given it is the source's body. */
  function TakeProfitDict(t: TakeProfitOrder): (r: Result<Dict, ApiError>)
    ensures r.Ok? <==> !GtdWithoutTime(t.timeInForce, t.gtdTime)
    ensures t.ext.Some? ==> r == TakeProfitDictAsWritten(t)
  {
    if GtdWithoutTime(t.timeInForce, t.gtdTime) then Err(GtdMissing)
    else Ok(WithExtensions(TakeProfitHead(t), t.ext))
  }

  /** The take-profit body names its type and trade, always carries a GTD
      time key, and a client trade ID only when one is given. */
  lemma TakeProfitHeadKeys(t: TakeProfitOrder)
    ensures var d := TakeProfitHead(t);
      && TypeKey in d && d[TypeKey] == JStr("TAKE_PROFIT")
      && TradeId in d && d[TradeId] == JInt(t.tradeId)
      && GtdTime in d && (ClientTradeId in d <==> t.clientTradeId.Some?)
  {
  }

  lemma TakeProfitHeadNoExtensions(t: TakeProfitOrder)
    ensures ClientExtensions !in TakeProfitHead(t)
  {
  }

  /** The corrected take-profit body keeps the head's keys and sends
      extensions exactly when they are given. */
  lemma TakeProfitDictKeys(t: TakeProfitOrder)
    requires !GtdWithoutTime(t.timeInForce, t.gtdTime)
    ensures var r := TakeProfitDict(t).value;
      && TypeKey in r && r[TypeKey] == JStr("TAKE_PROFIT")
      && TradeId in r && r[TradeId] == JInt(t.tradeId)
      && GtdTime in r && (ClientTradeId in r <==> t.clientTradeId.Some?)
      && (ClientExtensions in r <==> t.ext.Some?)
  {
    var d := TakeProfitHead(t);
    TakeProfitHeadKeys(t);
    TakeProfitHeadNoExtensions(t);
    WithExtensionsFrame(d, t.ext, TypeKey);
    WithExtensionsFrame(d, t.ext, TradeId);
    WithExtensionsFrame(d, t.ext, GtdTime);
    WithExtensionsFrame(d, t.ext, ClientTradeId);
  }

  /** A stop-loss order request, or with `guaranteed` its guaranteed twin
      (lines 851-923), which differs only in its type tag. */
  datatype StopLossOrder = StopLossOrder(guaranteed: bool, tradeId: int, price: Option<Num>, distance: Option<Num>,
                                         timeInForce: Option<Tif>, gtdTime: Option<string>,
                                         triggerCondition: Option<string>, clientTradeId: Option<string>,
                                         ext: Option<Extensions>)

  /** `StopLossOrderRequest(...)` (lines 780-829) and
      `GuaranteedStopLossOrderRequest(...)`: the constructors refuse both
      or neither of price and distance, as the details do. */
  function MakeStopLossOrder(guaranteed: bool, tradeId: int, price: Option<Num>, distance: Option<Num>, timeInForce: Option<Tif>,
                             gtdTime: Option<string>, triggerCondition: Option<string>,
                             clientTradeId: Option<string>, ext: Option<Extensions>): (r: Result<StopLossOrder, ApiError>)
    ensures r.Err? <==> !PriceDistanceOk(price, distance)
    ensures r.Ok? ==> r.value.price == price && r.value.distance == distance && r.value.tradeId == tradeId
    ensures r.Ok? ==> r.value.guaranteed == guaranteed
  {
    if !PriceDistanceOk(price, distance) then Err(PriceOrDistance)
    else Ok(StopLossOrder(guaranteed, tradeId, price, distance, timeInForce, gtdTime, triggerCondition, clientTradeId, ext))
  }

  function StopLossHead(o: StopLossOrder): Dict {
    var base := map[TypeKey := JStr(if o.guaranteed then "GUARANTEED_STOP_LOSS" else "STOP_LOSS"), TradeId := JInt(o.tradeId),
                    TimeInForce := OptTif(o.timeInForce), TriggerCondition := OptStr(o.triggerCondition)];
    var withPrice := if NumTruthy(o.price) then base[PriceKey := JStr(NumText(o.price))] else base;
    var withDistance := if NumTruthy(o.distance) then withPrice[Distance := JStr(NumText(o.distance))] else withPrice;
    var withGtd := ConditionalUpdate(withDistance, JBool(o.timeInForce == Some(GTD)), GtdTime, OptStr(o.gtdTime));
    ConditionalUpdate(withGtd, OptStr(o.clientTradeId), ClientTradeId, OptStr(o.clientTradeId))
  }

  lemma StopLossHeadKeys(o: StopLossOrder)
    ensures var d := StopLossHead(o);
      && TypeKey in d && d[TypeKey] == JStr(if o.guaranteed then "GUARANTEED_STOP_LOSS" else "STOP_LOSS")
      && (PriceKey in d <==> NumTruthy(o.price)) && (Distance in d <==> NumTruthy(o.distance))
      && ClientExtensions !in d
  {
  }

  /** `StopLossOrderRequest.as_dict` as written (lines 830-849). */
  function StopLossDictAsWritten(o: StopLossOrder): (r: Result<Dict, ApiError>)
    ensures r.Ok? <==> !GtdWithoutTime(o.timeInForce, o.gtdTime) && o.ext.Some?
  {
    if GtdWithoutTime(o.timeInForce, o.gtdTime) then Err(GtdMissing)
    else ExtensionsAsWritten(StopLossHead(o), o.ext)
  }

  /** `StopLossOrderRequest.as_dict` with None extensions skipped: the
      body names the price or the distance, whichever is truthy. */
  function StopLossDict(o: StopLossOrder): (r: Result<Dict, ApiError>)
    ensures r.Ok? <==> !GtdWithoutTime(o.timeInForce, o.gtdTime)
    ensures r.Ok? ==>
      TypeKey in r.value && r.value[TypeKey] == JStr(if o.guaranteed then "GUARANTEED_STOP_LOSS" else "STOP_LOSS")
    ensures r.Ok? ==> (PriceKey in r.value <==> NumTruthy(o.price))
    ensures r.Ok? ==> (Distance in r.value <==> NumTruthy(o.distance))
    ensures r.Ok? ==> (ClientExtensions in r.value <==> o.ext.Some?)
    ensures o.ext.Some? ==> r == StopLossDictAsWritten(o)
  {
    if GtdWithoutTime(o.timeInForce, o.gtdTime) then Err(GtdMissing)
    else
      StopLossHeadKeys(o);
      Ok(WithExtensions(StopLossHead(o), o.ext))
  }

  /** A stop-loss order built by the constructor with non-zero amounts
      names exactly one of price and distance. */
  lemma StopLossNamesOne(guaranteed: bool, tradeId: int, price: Option<Num>, distance: Option<Num>, timeInForce: Option<Tif>,
                         gtdTime: Option<string>, triggerCondition: Option<string>,
                         clientTradeId: Option<string>, ext: Option<Extensions>)
    requires price.Some? ==> price.value.value != 0.0
    requires distance.Some? ==> distance.value.value != 0.0
    requires !GtdWithoutTime(timeInForce, gtdTime)
    ensures var o := MakeStopLossOrder(guaranteed, tradeId, price, distance, timeInForce, gtdTime, triggerCondition, clientTradeId, ext);
      o.Ok? ==> (PriceKey in StopLossDict(o.value).value) != (Distance in StopLossDict(o.value).value)
  {
    ExactlyOneOfPriceDistance(price, distance);
  }

  // ---------------------------------------------------------------- trade and position bodies

  /** `close_trade`'s body (line 1408): all units unless some are given. */
  function CloseTradeBody(units: Option<Num>): (r: Dict)
    ensures r.Keys == {UnitsKey}
    ensures r[UnitsKey] == JStr(if units.None? then "ALL" else units.value.text)
  {
    map[UnitsKey := JStr(if units.None? then "ALL" else units.value.text)]
  }

  /** An amount argument: the strings "ALL" or "NONE", a number, or None. */
  datatype Amount = AmountText(s: string) | AmountNumber(n: Num) | AmountNone

  /** What `close_instrument_position` sends for one side, as written
      (lines 1542-1553): only a string other than "ALL" is sent; a number
      fails the `type(...) == str` test and is dropped. */
  function SideAsWritten(a: Amount): (r: Option<Json>)
    ensures r.Some? <==> a.AmountText? && a.s != "ALL"
  {
    match a
    case AmountText(s) => if s != "ALL" then Some(JStr(if s == "NONE" then "NONE" else s)) else None
    case _ => None
  }

  /** The evidently intended side: numbers are sent as their text too. */
  function Side(a: Amount): (r: Option<Json>)
    ensures r.Some? <==> (a.AmountText? && a.s != "ALL") || a.AmountNumber?
    ensures a.AmountNumber? ==> r == Some(JStr(a.n.text))
    ensures !a.AmountNumber? ==> r == SideAsWritten(a)
  {
    match a
    case AmountNumber(n) => Some(JStr(n.text))
    case _ => SideAsWritten(a)
  }

  function Put(d: Dict, k: Key, v: Option<Json>): (r: Dict)
    ensures k in r <==> k in d || v.Some?
    ensures v.Some? ==> r[k] == v.value
  {
    if v.Some? then d[k := v.value] else d
  }

  /** `close_instrument_position`'s body (lines 1541-1555), as written or
      corrected by the choice of side function. */
  function ClosePositionBody(long: Amount, short: Amount, longExt: Option<Extensions>,
                             shortExt: Option<Extensions>, asWritten: bool): (r: Dict)
    ensures LongUnits in r <==> (if asWritten then SideAsWritten(long) else Side(long)).Some?
    ensures ShortUnits in r <==> (if asWritten then SideAsWritten(short) else Side(short)).Some?
    ensures LongClientExtensions in r <==> longExt.Some?
    ensures ShortClientExtensions in r <==> shortExt.Some?
  {
    var side := if asWritten then SideAsWritten else Side;
    var a := Put(map[], LongUnits, side(long));
    var b := Put(a, ShortUnits, side(short));
    var c := Put(b, LongClientExtensions, if longExt.Some? then Some(JObj(ExtensionsDict(longExt.value))) else None);
    Put(c, ShortClientExtensions, if shortExt.Some? then Some(JObj(ExtensionsDict(shortExt.value))) else None)
  }

  /** Closing part of a position by a number of units sends nothing for
      that side as written, so the broker closes all of it; the corrected
      body sends the amount. The defaults ("ALL") send an empty body. */
  lemma PartialCloseDropped(n: Num)
    ensures LongUnits !in ClosePositionBody(AmountNumber(n), AmountText("ALL"), None, None, true)
    ensures var r := ClosePositionBody(AmountNumber(n), AmountText("ALL"), None, None, false);
      LongUnits in r && r[LongUnits] == JStr(n.text)
    ensures ClosePositionBody(AmountText("ALL"), AmountText("ALL"), None, None, true) == map[]
  {
  }

  /** A trade-dependent order argument: a string ("NO_CHANGE", "CANCEL"),
      a details object, or None. */
  datatype Dependent = DependentText(s: string) | DependentDetails(d: Details) | DependentNone

  /** One field of `modify_trade_dependent_orders` as written (lines
      1446-1469): only a string other than "NO_CHANGE" enters the branch;
      "CANCEL" sends null and any other string has no `as_dict`. A
      details object fails the string test and is never sent. */
  function DependentAsWritten(key: Key, a: Dependent): (r: Result<Option<Json>, ApiError>)
    ensures r.Err? <==> a.DependentText? && a.s != "NO_CHANGE" && a.s != "CANCEL"
    ensures r.Ok? && r.value.Some? <==> a == DependentText("CANCEL")
  {
    match a
    case DependentText(s) =>
      if s == "NO_CHANGE" then Ok(None)
      else if s == "CANCEL" then Ok(Some(JNull))
      else Err(NoAsDict(key))
    case _ => Ok(None)
  }

  /** The evidently intended field: a details object is sent as its
      `as_dict()`. */
  function DependentField(key: Key, a: Dependent): (r: Result<Option<Json>, ApiError>)
    ensures a.DependentDetails? ==> (r.Ok? <==> !GtdWithoutTime(a.d.timeInForce, a.d.gtdTime))
    ensures a.DependentDetails? && r.Ok? ==> r.value.Some? && r.value.value.JObj?
    ensures !a.DependentDetails? ==> r == DependentAsWritten(key, a)
  {
    match a
    case DependentDetails(d) =>
      (match DetailsDict(d)
       case Err(e) => Err(e)
       case Ok(body) => Ok(Some(JObj(body))))
    case _ => DependentAsWritten(key, a)
  }

  function DependentWith(key: Key, a: Dependent, asWritten: bool): Result<Option<Json>, ApiError> {
    if asWritten then DependentAsWritten(key, a) else DependentField(key, a)
  }

  /** `d` holds `k` exactly when a value is sent for it, and holds that value. */
  predicate Sent(d: Dict, k: Key, v: Option<Json>) {
    (k in d <==> v.Some?) && (v.Some? ==> d[k] == v.value)
  }

  /** `modify_trade_dependent_orders`'s body: the four fields in order,
      the first failure raising. */
  function ModifyBody(takeProfit: Dependent, stopLoss: Dependent, trailingStopLoss: Dependent,
                      guaranteedStopLoss: Dependent, asWritten: bool): (r: Result<Dict, ApiError>)
    ensures r.Ok? <==> DependentWith(TakeProfitKey, takeProfit, asWritten).Ok?
                       && DependentWith(StopLossKey, stopLoss, asWritten).Ok?
                       && DependentWith(TrailingStopLossKey, trailingStopLoss, asWritten).Ok?
                       && DependentWith(GuaranteedStopLossKey, guaranteedStopLoss, asWritten).Ok?
    ensures r.Ok? ==> r.value.Keys <= {TakeProfitKey, StopLossKey, TrailingStopLossKey, GuaranteedStopLossKey}
    ensures r.Ok? ==> Sent(r.value, TakeProfitKey, DependentWith(TakeProfitKey, takeProfit, asWritten).value)
    ensures r.Ok? ==> Sent(r.value, StopLossKey, DependentWith(StopLossKey, stopLoss, asWritten).value)
    ensures r.Ok? ==> Sent(r.value, TrailingStopLossKey, DependentWith(TrailingStopLossKey, trailingStopLoss, asWritten).value)
    ensures r.Ok? ==> Sent(r.value, GuaranteedStopLossKey, DependentWith(GuaranteedStopLossKey, guaranteedStopLoss, asWritten).value)
  {
    var a :- DependentWith(TakeProfitKey, takeProfit, asWritten);
    var b :- DependentWith(StopLossKey, stopLoss, asWritten);
    var c :- DependentWith(TrailingStopLossKey, trailingStopLoss, asWritten);
    var g :- DependentWith(GuaranteedStopLossKey, guaranteedStopLoss, asWritten);
    Ok(Put(Put(Put(Put(map[], TakeProfitKey, a), StopLossKey, b), TrailingStopLossKey, c), GuaranteedStopLossKey, g))
  }

  /** Modifying a take-profit with a details object sends nothing as
      written; the corrected body sends the details. */
  lemma DetailsNeverSent(d: Details)
    requires !GtdWithoutTime(d.timeInForce, d.gtdTime)
    ensures var r := ModifyBody(DependentDetails(d), DependentText("NO_CHANGE"), DependentText("NO_CHANGE"),
                                DependentText("NO_CHANGE"), true);
      r.Ok? && TakeProfitKey !in r.value
    ensures var r := ModifyBody(DependentDetails(d), DependentText("NO_CHANGE"), DependentText("NO_CHANGE"),
                                DependentText("NO_CHANGE"), false);
      r.Ok? && TakeProfitKey in r.value
  {
  }

  // ---------------------------------------------------------------- pricing stream

  /** A streamed message the generator yields: a PRICE that is tradeable. */
  predicate IsPrice(m: Dict) {
    TypeKey in m && Truthy(m[TypeKey]) && m[TypeKey] == JStr("PRICE") && Tradeable in m && Truthy(m[Tradeable])
  }

  /** A message with its "status" popped. */
  function Popped(m: Dict): (r: Dict)
    ensures Status !in r && r.Keys == m.Keys - {Status}
  {
    m - {Status}
  }

  /** What the generator yields before it stops, and whether it stopped on
      a PRICE message without "status" (`pop` raises `KeyError`). */
  datatype Streamed = Streamed(prices: seq<Dict>, failed: bool)

  /** The loop of `pricing_stream` (lines 1736-1741) over decoded lines:
      no yielded message keeps its status, and the loop fails exactly when
      some PRICE message has none. */
  function Stream(msgs: seq<Dict>): (r: Streamed)
    ensures forall j :: 0 <= j < |r.prices| ==> Status !in r.prices[j]
    ensures r.failed <==> exists i :: 0 <= i < |msgs| && IsPrice(msgs[i]) && Status !in msgs[i]
    decreases |msgs|
  {
    if msgs == [] then Streamed([], false)
    else
      var rest := Stream(msgs[1..]);
      assert forall i :: 0 < i < |msgs| ==> msgs[i] == msgs[1..][i - 1];
      if !IsPrice(msgs[0]) then rest
      else if Status !in msgs[0] then Streamed([], true)
      else Streamed([Popped(msgs[0])] + rest.prices, rest.failed)
  }

  /** Every yielded message is a PRICE message with its status popped. */
  lemma {:induction false} StreamYieldsPrices(msgs: seq<Dict>, j: nat)
    requires j < |Stream(msgs).prices|
    ensures exists i :: 0 <= i < |msgs| && IsPrice(msgs[i]) && Stream(msgs).prices[j] == Popped(msgs[i])
    decreases |msgs|
  {
    var rest := Stream(msgs[1..]);
    if !IsPrice(msgs[0]) {
      StreamYieldsPrices(msgs[1..], j);
      var i :| 0 <= i < |msgs[1..]| && IsPrice(msgs[1..][i]) && rest.prices[j] == Popped(msgs[1..][i]);
      assert msgs[i + 1] == msgs[1..][i];
    } else if j > 0 {
      StreamYieldsPrices(msgs[1..], j - 1);
      var i :| 0 <= i < |msgs[1..]| && IsPrice(msgs[1..][i]) && rest.prices[j - 1] == Popped(msgs[1..][i]);
      assert msgs[i + 1] == msgs[1..][i];
    }
  }

  /** When the loop does not fail, it yields every PRICE message. */
  lemma {:induction false} StreamYieldsAll(msgs: seq<Dict>, i: nat)
    requires i < |msgs| && IsPrice(msgs[i]) && !Stream(msgs).failed
    ensures Popped(msgs[i]) in Stream(msgs).prices
    decreases |msgs|
  {
    if i > 0 {
      assert msgs[1..][i - 1] == msgs[i];
      StreamYieldsAll(msgs[1..], i - 1);
    }
  }
}

=== FILE: oanda_time.dfy ===
/** The broker client's time conversion
    (peoples_advisor/api/oanda/oanda_api.py:1743-1760): in RFC3339 mode a
    naive datetime is written as `isoformat("T")` followed by "000Z" and
    read back by dropping the last four characters of a text ending in
    'Z' before `datetime.fromisoformat`; in UNIX mode the local-time
    conversions are parameters. */
module OandaTime {
  import opened Wrappers
  import opened Text
  import Decimals

  /** A naive `datetime` to the microsecond. */
  datatype DateTime = DateTime(year: nat, month: nat, day: nat, hour: nat, minute: nat, second: nat, micro: nat)

  predicate Leap(year: nat) {
    year % 4 == 0 && (year % 100 != 0 || year % 400 == 0)
  }

  function DaysIn(year: nat, month: nat): nat {
    if month == 2 then (if Leap(year) then 29 else 28)
    else if month == 4 || month == 6 || month == 9 || month == 11 then 30
    else 31
  }

  /** The values `datetime` accepts. */
  predicate Valid(d: DateTime) {
    && 1 <= d.year <= 9999 && 1 <= d.month <= 12 && 1 <= d.day <= DaysIn(d.year, d.month)
    && d.hour < 24 && d.minute < 60 && d.second < 60 && d.micro < 1000000
  }

  /** `%0*d`: the decimal digits of `n`, zero-padded on the left to `w`. */
  function Pad(n: nat, w: nat): (r: string)
    requires n < Decimals.Pow10(w) && w >= 1
    ensures |r| == w && AllDigits(r) && DigitsToNat(r) == n
  {
    DigitsFit(n, w);
    NatDigitsRoundTrip(n);
    LeadingZerosValue(w - |NatToDigits(n)|, NatToDigits(n));
    Zeros(w - |NatToDigits(n)|) + NatToDigits(n)
  }

  lemma {:induction false} DigitsFit(n: nat, w: nat)
    requires n < Decimals.Pow10(w) && w >= 1
    ensures |NatToDigits(n)| <= w
    decreases n
  {
    if n >= 10 {
      assert n / 10 < Decimals.Pow10(w - 1);
      DigitsFit(n / 10, w - 1);
    }
  }

  /** `isoformat("T")`: the fraction is written only when it is not zero. */
  function IsoFormat(d: DateTime): (r: string)
    requires Valid(d)
    ensures |r| == (if d.micro == 0 then 19 else 26)
  {
    Pad(d.year, 4) + "-" + Pad(d.month, 2) + "-" + Pad(d.day, 2) + "T"
    + Pad(d.hour, 2) + ":" + Pad(d.minute, 2) + ":" + Pad(d.second, 2)
    + (if d.micro == 0 then "" else "." + Pad(d.micro, 6))
  }

  /** A fixed-width run of digits at `at`. */
  function Field(s: string, at: nat, w: nat): (r: Option<nat>)
    requires at + w <= |s|
    ensures r.Some? <==> AllDigits(s[at..at + w])
  {
    if AllDigits(s[at..at + w]) then Some(DigitsToNat(s[at..at + w])) else None
  }

  /** `datetime.fromisoformat` on the two shapes `isoformat` writes:
      `YYYY-MM-DD?HH:MM:SS` and the same with `.ffffff`, where `?` is any
      character; the result must be a valid datetime. */
  function FromIsoFormat(s: string): (r: Option<DateTime>)
    ensures r.Some? ==> Valid(r.value)
    ensures r.Some? ==> (|s| == 19 || |s| == 26) && s[4] == '-' && s[7] == '-' && s[13] == ':' && s[16] == ':'
    ensures r.Some? && |s| == 19 ==> r.value.micro == 0
  {
    if !(|s| == 19 || (|s| == 26 && s[19] == '.')) then None
    else if s[4] != '-' || s[7] != '-' || s[13] != ':' || s[16] != ':' then None
    else
      var y := Field(s, 0, 4);
      var mo := Field(s, 5, 2);
      var dd := Field(s, 8, 2);
      var h := Field(s, 11, 2);
      var mi := Field(s, 14, 2);
      var se := Field(s, 17, 2);
      var us := if |s| == 26 then Field(s, 20, 6) else Some(0);
      if y.None? || mo.None? || dd.None? || h.None? || mi.None? || se.None? || us.None? then None
      else
        var d := DateTime(y.value, mo.value, dd.value, h.value, mi.value, se.value, us.value);
        if Valid(d) then Some(d) else None
  }

  /** Where the date's pieces sit in `YYYY-MM-DD?`. */
  lemma DateLayout(y: string, mo: string, dd: string, sep: char)
    requires |y| == 4 && |mo| == 2 && |dd| == 2
    ensures var h := y + "-" + mo + "-" + dd + [sep];
      && |h| == 11 && h[0..4] == y && h[4] == '-' && h[5..7] == mo && h[7] == '-' && h[8..10] == dd
  {
  }

  /** Where the time's pieces sit in `HH:MM:SS`. */
  lemma TimeLayout(h: string, mi: string, se: string)
    requires |h| == 2 && |mi| == 2 && |se| == 2
    ensures var t := h + ":" + mi + ":" + se;
      && |t| == 8 && t[0..2] == h && t[2] == ':' && t[3..5] == mi && t[5] == ':' && t[6..8] == se
  {
  }

  /** Where the pieces of `YYYY-MM-DD?HH:MM:SS` followed by a tail sit. */
  lemma IsoLayout(y: string, mo: string, dd: string, h: string, mi: string, se: string, tail: string)
    requires |y| == 4 && |mo| == 2 && |dd| == 2 && |h| == 2 && |mi| == 2 && |se| == 2
    ensures var s := y + "-" + mo + "-" + dd + "T" + h + ":" + mi + ":" + se + tail;
      && s[0..4] == y && s[4] == '-' && s[5..7] == mo && s[7] == '-' && s[8..10] == dd
      && s[11..13] == h && s[13] == ':' && s[14..16] == mi && s[16] == ':' && s[17..19] == se
      && s[19..] == tail
  {
    var head := y + "-" + mo + "-" + dd + "T";
    var mid := h + ":" + mi + ":" + se;
    DateLayout(y, mo, dd, 'T');
    TimeLayout(h, mi, se);
    var s := y + "-" + mo + "-" + dd + "T" + h + ":" + mi + ":" + se + tail;
    assert s == head + mid + tail;
    assert s[0..11] == head;
    assert s[11..19] == mid;
    assert s[19..] == tail;
  }

  /** The fields of a formatted datetime sit at their fixed places. */
  lemma IsoFields(d: DateTime)
    requires Valid(d)
    ensures var s := IsoFormat(d);
      && s[0..4] == Pad(d.year, 4) && s[4] == '-' && s[5..7] == Pad(d.month, 2) && s[7] == '-'
      && s[8..10] == Pad(d.day, 2) && s[11..13] == Pad(d.hour, 2) && s[13] == ':'
      && s[14..16] == Pad(d.minute, 2) && s[16] == ':' && s[17..19] == Pad(d.second, 2)
      && (d.micro != 0 ==> s[19] == '.' && s[20..26] == Pad(d.micro, 6))
  {
    var tail := if d.micro == 0 then "" else "." + Pad(d.micro, 6);
    IsoLayout(Pad(d.year, 4), Pad(d.month, 2), Pad(d.day, 2), Pad(d.hour, 2), Pad(d.minute, 2), Pad(d.second, 2), tail);
    if d.micro != 0 {
      var s := IsoFormat(d);
      assert s[19..] == tail;
      assert s[19] == tail[0] && s[20..26] == tail[1..];
    }
  }

  /** `fromisoformat(isoformat(d)) == d`. */
  lemma IsoRoundTrip(d: DateTime)
    requires Valid(d)
    ensures FromIsoFormat(IsoFormat(d)) == Some(d)
  {
    IsoFields(d);
  }

  datatype TimeError = BadTime | BadFormat

  /** What `datetime_to_oanda_time` returns: a text, or a float timestamp. */
  datatype OandaTime = TimeText(text: string) | TimeStamp(seconds: real)

  /** `int(x)` for a float: truncation toward zero. */
  function Truncate(x: real): (r: int)
    ensures x >= 0.0 ==> r as real <= x < r as real + 1.0
    ensures x < 0.0 ==> r as real - 1.0 < x <= r as real
  {
    if x >= 0.0 then x.Floor else -((-x).Floor)
  }

  /** `oanda_time_to_datetime` (lines 1743-1752). `fromTimestamp` is
      `datetime.fromtimestamp` in the local time zone; only plain decimal
      texts are read as floats. */
  function ToDateTime(format: string, text: string, fromTimestamp: int -> DateTime): (r: Result<DateTime, TimeError>)
    ensures format != "RFC3339" && format != "UNIX" ==> r == Err(BadFormat)
    ensures format == "RFC3339" && r.Ok? ==> Valid(r.value)
    ensures format == "RFC3339" && |text| == 0 ==> r == Err(BadTime)
    ensures format == "RFC3339" && |text| > 0 ==>
      (r.Ok? <==> FromIsoFormat(Stripped(text)).Some?) && (r.Ok? ==> FromIsoFormat(Stripped(text)) == Some(r.value))
    ensures format == "UNIX" ==> (r.Ok? <==> Decimals.Parse(text).Some?)
  {
    if format == "RFC3339" then
      if |text| == 0 then Err(BadTime)
      else
        match FromIsoFormat(Stripped(text))
        case None => Err(BadTime)
        case Some(d) => Ok(d)
    else if format == "UNIX" then
      match Decimals.Parse(text)
      case None => Err(BadTime)
      case Some(x) => Ok(fromTimestamp(Truncate(Decimals.Value(x))))
    else Err(BadFormat)
  }

  /** What `fromisoformat` is given: a text ending in 'Z' loses its last
      four characters (all of it when shorter), any other is kept whole. */
  function Stripped(text: string): (r: string)
    requires |text| > 0
    ensures text[|text| - 1] != 'Z' ==> r == text
    ensures text[|text| - 1] == 'Z' ==> r <= text && |r| == if |text| >= 4 then |text| - 4 else 0
  {
    if text[|text| - 1] == 'Z' then (if |text| >= 4 then text[..|text| - 4] else "") else text
  }

  /** `datetime_to_oanda_time` (lines 1754-1760). `toTimestamp` is
      `datetime.timestamp` in the local time zone. */
  function FromDateTime(format: string, d: DateTime, toTimestamp: DateTime -> real): (r: Result<OandaTime, TimeError>)
    requires Valid(d)
    ensures format != "RFC3339" && format != "UNIX" ==> r == Err(BadFormat)
    ensures format == "RFC3339" ==> r.Ok? && r.value.TimeText? && |r.value.text| >= 4
                                    && r.value.text[|r.value.text| - 4..] == "000Z"
  {
    if format == "RFC3339" then Ok(TimeText(IsoFormat(d) + "000Z"))
    else if format == "UNIX" then Ok(TimeStamp(toTimestamp(d)))
    else Err(BadFormat)
  }

  /** In RFC3339 mode a datetime written for the broker reads back as the
      same datetime. */
  lemma RfcRoundTrip(d: DateTime, toTimestamp: DateTime -> real, fromTimestamp: int -> DateTime)
    requires Valid(d)
    ensures var t := FromDateTime("RFC3339", d, toTimestamp);
      t.Ok? && t.value.TimeText? && ToDateTime("RFC3339", t.value.text, fromTimestamp) == Ok(d)
  {
    var s := IsoFormat(d) + "000Z";
    assert s[|s| - 1] == 'Z';
    assert s[..|s| - 4] == IsoFormat(d);
    IsoRoundTrip(d);
  }
}

=== FILE: orders.dfy ===
/** Order kinds of the newer revision: the trigger rules of the six
    conditional orders and their type tags
    (peoples_advisor/order/forex/common/common.py), and the `conditional`
    flag each kind carries (peoples_advisor/order/common/common.py). */
module Orders {
  import opened Wrappers

  datatype Kind = Market | Limit | Stop | TakeProfit | StopLoss | MarketIfTouched | TrailingStop

  /** A forex order: a market order has no trigger price. */
  datatype ForexOrder =
    | MarketOrder(instrument: string, units: int)
    | ConditionalOrder(kind: Kind, instrument: string, units: int, triggerPrice: real)

  const Kinds: seq<Kind> := [Market, Limit, Stop, TakeProfit, StopLoss, MarketIfTouched, TrailingStop]

  /** The `type` each constructor passes to `BaseOrder`. */
  function TypeTag(k: Kind): (tag: string)
    ensures |tag| > 0
  {
    match k
    case Market => "MARKET"
    case Limit => "LIMIT"
    case Stop => "STOP"
    case TakeProfit => "TAKE_PROFIT"
    case StopLoss => "STOP_LOSS"
    case MarketIfTouched => "MARKET_IF_TOUCHED"
    case TrailingStop => "TRAILING_STOP"
  }

  function OrderTag(o: ForexOrder): string {
    match o
    case MarketOrder(_, _) => TypeTag(Market)
    case ConditionalOrder(k, _, _, _) => TypeTag(k)
  }

  /** Kinds that buy when the price falls to the trigger (and sell when it
      rises to it); the others act the opposite way. */
  predicate BuysLow(k: Kind) {
    k == Limit || k == TakeProfit || k == MarketIfTouched
  }

  /** `trigger(price)`: for a long order a buy-low kind fires at or below
      its trigger price and the others at or above; a short order mirrors
      that; an order of zero units falls through both branches and yields
      `None`. */
  function Trigger(k: Kind, units: int, triggerPrice: real, price: real): (r: Option<bool>)
    requires k != Market
    ensures r.None? <==> units == 0
    ensures price == triggerPrice ==> r != Some(false)
    ensures r == Some(true) && price != triggerPrice ==> ((price < triggerPrice) <==> (BuysLow(k) == (units > 0)))
  {
    if units > 0 then Some(if BuysLow(k) then price <= triggerPrice else price >= triggerPrice)
    else if units < 0 then Some(if BuysLow(k) then price >= triggerPrice else price <= triggerPrice)
    else None
  }

  /** The `conditional` flag each kind's constructor passes to `BaseOrder`. */
  function ConditionalFlag(k: Kind): bool {
    k != Market
  }

  /** The seven kinds are distinct and each has its own tag. */
  lemma TagsDistinct()
    ensures forall a, b :: 0 <= a < b < |Kinds| ==> Kinds[a] != Kinds[b] && TypeTag(Kinds[a]) != TypeTag(Kinds[b])
    ensures forall k: Kind :: k in Kinds
  {
    forall k: Kind ensures k in Kinds {
      match k
      case Market => assert Kinds[0] == k;
      case Limit => assert Kinds[1] == k;
      case Stop => assert Kinds[2] == k;
      case TakeProfit => assert Kinds[3] == k;
      case StopLoss => assert Kinds[4] == k;
      case MarketIfTouched => assert Kinds[5] == k;
      case TrailingStop => assert Kinds[6] == k;
    }
  }

  /** Exactly one of the seven kinds is unconditional: the market order. */
  lemma ExactlyOneUnconditional()
    ensures forall a :: 0 <= a < |Kinds| ==> (!ConditionalFlag(Kinds[a]) <==> a == 0)
    ensures !ConditionalFlag(Market)
  {
  }

  /** A long limit order fires exactly where a short stop order with the
      same trigger fires, and the same for every buy-low kind against
      every other conditional kind. */
  lemma MirrorKinds(low: Kind, high: Kind, units: int, triggerPrice: real, price: real)
    requires BuysLow(low) && high != Market && !BuysLow(high)
    ensures Trigger(low, units, triggerPrice, price) == Trigger(high, -units, triggerPrice, price)
  {
  }

  /** Reversing the position of a conditional order reverses its decision
      at every price except the trigger price itself, where both fire. */
  lemma OppositeSides(k: Kind, units: int, triggerPrice: real, price: real)
    requires k != Market && units != 0
    ensures price != triggerPrice ==>
      Trigger(k, units, triggerPrice, price).value != Trigger(k, -units, triggerPrice, price).value
    ensures price == triggerPrice ==>
      Trigger(k, units, triggerPrice, price) == Some(true) == Trigger(k, -units, triggerPrice, price)
  {
  }
}

=== FILE: portfolio.dfy ===
/** Portfolio accounting (peoples_advisor/portfolio/portfolio.py): the latest
    quotes, currency conversion through a quoted pair, unrealised profit and
    loss, equity and margin. Decimal arithmetic is exact here (`real`). */
module Portfolio {
  import opened Wrappers
  import opened Text
  import opened Decimals
  import Events

  datatype Quote = Quote(bid: real, ask: real)

  /** An open position: signed units and the price it was entered at. */
  datatype Position = Position(instrument: string, units: real, entry: real)

  /** `positions` lists the position dictionary's entries in its order. */
  datatype Portfolio = Portfolio(
    balance: real,
    home: string,
    marginRates: map<string, real>,
    prices: map<string, Quote>,
    positions: seq<Position>)

  datatype PortfolioError =
    | NoPair(from: string, to: string)        // PAError: neither orientation is quoted
    | DivisionByZero                          // `1 / price` with a zero price
    | MissingPrice(instrument: string)        // KeyError on `self.prices`
    | MissingMarginRate(instrument: string)   // KeyError on `self.margin_rates`
    | NoQuoteCurrency(instrument: string)     // IndexError: the name has no `_`
    | TypeMismatch                            // a string compared with a number

  /** `update_price`: the event's instrument gets the event's bid and ask. */
  function UpdatePrice(p: Portfolio, e: Events.Event): (r: Portfolio)
    requires e.Price? || e.Quote?
    ensures r.prices.Keys == p.prices.Keys + {e.instrument}
    ensures r.prices[e.instrument] == Quote(Value(e.bid), Value(e.ask))
    ensures forall k :: k in p.prices && k != e.instrument ==> r.prices[k] == p.prices[k]
    ensures r.(prices := p.prices) == p
  {
    p.(prices := p.prices[e.instrument := Quote(Value(e.bid), Value(e.ask))])
  }

  /** `base_currency`: the text before the first `_`. */
  function BaseCurrency(instrument: string): (c: string)
    ensures c <= instrument && '_' !in c
  {
    SplitPiecesFree(instrument, '_', 0);
    Split(instrument, '_')[0]
  }

  /** `quote_currency`: the text between the first and second `_`. */
  function QuoteCurrency(instrument: string): (r: Result<string, PortfolioError>)
    ensures r.Err? <==> '_' !in instrument
    ensures r.Ok? ==> '_' !in r.value
  {
    var parts := Split(instrument, '_');
    SplitCount(instrument, '_');
    if |parts| < 2 then Err(NoQuoteCurrency(instrument))
    else
      SplitPiecesFree(instrument, '_', 1);
      Ok(parts[1])
  }

  /** A split yields more than one piece exactly when the separator occurs. */
  lemma {:induction false} SplitCount(s: string, c: char)
    ensures |Split(s, c)| >= 2 <==> c in s
    decreases |s|
  {
    if |s| > 0 {
      SplitCount(s[1..], c);
      assert c in s <==> s[0] == c || c in s[1..];
    }
  }

  /** Splitting `a_b`, with neither part holding `_`, gives the two parts. */
  lemma PairCurrencies(a: string, b: string)
    requires '_' !in a && '_' !in b
    ensures BaseCurrency(a + "_" + b) == a
    ensures QuoteCurrency(a + "_" + b) == Ok(b)
  {
    SplitJoin([a, b], '_');
  }

  function PairName(first: string, second: string): string {
    first + "_" + second
  }

  /** `_convert(to, from, units)` as written: amounts are turned into `to`
      through the pair `to_from` (dividing by its price) or, failing that,
      `from_to` (multiplying by its price); a positive amount is valued at
      the less favourable side, a negative one at the other. */
  function ConvertAsWritten(prices: map<string, Quote>, to: string, from: string, units: real): (r: Result<real, PortfolioError>)
    ensures units == 0.0 ==> r == Ok(0.0)
    ensures r.Err? && units != 0.0 ==> (r.error == NoPair(from, to) <==> PairName(to, from) !in prices && PairName(from, to) !in prices)
  {
    if units == 0.0 then Ok(0.0)
    else
      var direct, inverse := PairName(to, from), PairName(from, to);
      if direct in prices then
        var price := if units > 0.0 then prices[direct].ask else prices[direct].bid;
        if price == 0.0 then Err(DivisionByZero) else Ok(units * (1.0 / price))
      else if inverse in prices then
        Ok(units * (if units > 0.0 then prices[inverse].bid else prices[inverse].ask))
      else Err(NoPair(from, to))
  }

  /** The conversion the accounting needs: a currency converts to itself
      unchanged, and otherwise as written. */
  function Convert(prices: map<string, Quote>, to: string, from: string, units: real): (r: Result<real, PortfolioError>)
    ensures to == from ==> r == Ok(units)
    ensures to != from ==> r == ConvertAsWritten(prices, to, from, units)
  {
    if to == from then Ok(units) else ConvertAsWritten(prices, to, from, units)
  }

  predicate PositivePrices(prices: map<string, Quote>) {
    forall k :: k in prices ==> prices[k].bid > 0.0 && prices[k].ask > 0.0
  }

  /** With positive prices a conversion succeeds whenever a pair is quoted,
      and keeps the sign of the amount. */
  lemma ConvertKeepsSign(prices: map<string, Quote>, to: string, from: string, units: real)
    requires PositivePrices(prices)
    requires to == from || PairName(to, from) in prices || PairName(from, to) in prices
    ensures Convert(prices, to, from, units).Ok?
    ensures var v := Convert(prices, to, from, units).value;
      (units > 0.0 ==> v > 0.0) && (units < 0.0 ==> v < 0.0) && (units == 0.0 ==> v == 0.0)
  {
    if to != from && units != 0.0 {
      var direct := PairName(to, from);
      if direct in prices {
        var price := if units > 0.0 then prices[direct].ask else prices[direct].bid;
        assert 1.0 / price > 0.0;
      }
    }
  }

  /** Converting an amount across a quoted pair and straight back never
      gains: the round trip pays the spread. */
  lemma ConvertRoundTripLoses(prices: map<string, Quote>, a: string, b: string, x: real)
    requires a != b && PairName(a, b) in prices && PairName(b, a) !in prices
    requires 0.0 < prices[PairName(a, b)].bid <= prices[PairName(a, b)].ask
    requires x > 0.0
    ensures Convert(prices, b, a, x).Ok?
    ensures var y := Convert(prices, b, a, x).value;
      y > 0.0 && Convert(prices, a, b, y).Ok? && Convert(prices, a, b, y).value <= x
  {
    var q := prices[PairName(a, b)];
    var y := x * q.bid;
    assert ConvertAsWritten(prices, b, a, x).value == y;
    assert y > 0.0;
    assert ConvertAsWritten(prices, a, b, y).value == y * (1.0 / q.ask);
    assert y * (1.0 / q.ask) == x * (q.bid / q.ask);
    assert q.bid / q.ask <= 1.0;
  }

  /** Profit of a position at the current price: it grows with the price
      for a long position and falls with it for a short one. */
  function Profit(units: real, entry: real, current: real): (r: real)
    ensures units > 0.0 && current > entry ==> r > 0.0
    ensures units < 0.0 && current < entry ==> r > 0.0
  {
    units * (current - entry)
  }

  /** The profit term as written: `units * (entry - current)`. */
  function ProfitAsWritten(units: real, entry: real, current: real): (r: real)
    ensures r == -Profit(units, entry, current)
  {
    units * (entry - current)
  }

  /** The price a position would close at: the ask for a short, the bid for
      a long. */
  function ClosingPrice(q: Quote, units: real): real {
    if units < 0.0 then q.ask else q.bid
  }

  /** `unrealized_pl` summed over the positions from `i` on; `asWritten`
      chooses between the source's profit term with its conversion and the
      corrected term with the corrected conversion. Zero-unit positions are
      skipped. */
  function SumPl(p: Portfolio, i: nat, asWritten: bool): (r: Result<real, PortfolioError>)
    requires i <= |p.positions|
    ensures Flat(p, i) ==> r == Ok(0.0)
    ensures r.Err? && r.error.MissingPrice? ==> r.error.instrument !in p.prices
    ensures r.Err? ==> !Flat(p, i)
    decreases |p.positions| - i
  {
    if i == |p.positions| then Ok(0.0)
    else
      var pos := p.positions[i];
      var rest := SumPl(p, i + 1, asWritten);
      if pos.units == 0.0 then rest
      else if pos.instrument !in p.prices then Err(MissingPrice(pos.instrument))
      else match QuoteCurrency(pos.instrument)
        case Err(e) => Err(e)
        case Ok(quote) =>
          var current := ClosingPrice(p.prices[pos.instrument], pos.units);
          var converted :=
            if asWritten then ConvertAsWritten(p.prices, p.home, quote, ProfitAsWritten(pos.units, pos.entry, current))
            else Convert(p.prices, p.home, quote, Profit(pos.units, pos.entry, current));
          match converted
          case Err(e) => Err(e)
          case Ok(v) => if rest.Err? then rest else Ok(v + rest.value)
  }

  /** No position from `i` on holds any units. */
  predicate Flat(p: Portfolio, i: nat) {
    forall k :: i <= k < |p.positions| ==> p.positions[k].units == 0.0
  }

  function UnrealizedPlAsWritten(p: Portfolio): (r: Result<real, PortfolioError>)
    ensures Flat(p, 0) ==> r == Ok(0.0)
    ensures r.Err? && r.error.MissingPrice? ==> r.error.instrument !in p.prices
  {
    SumPl(p, 0, true)
  }

  function UnrealizedPl(p: Portfolio): (r: Result<real, PortfolioError>)
    ensures Flat(p, 0) ==> r == Ok(0.0)
    ensures r.Err? && r.error.MissingPrice? ==> r.error.instrument !in p.prices
  {
    SumPl(p, 0, false)
  }

  /** Every position from `i` on is priced and quoted in the home currency. */
  predicate HomeQuoted(p: Portfolio, i: nat) {
    forall k :: i <= k < |p.positions| ==>
      p.positions[k].instrument in p.prices && QuoteCurrency(p.positions[k].instrument) == Ok(p.home)
  }

  /** Reference sum of the plain profits of the positions from `i` on, each
      at its closing price. */
  function PlainPl(p: Portfolio, i: nat): real
    requires i <= |p.positions| && HomeQuoted(p, i)
    decreases |p.positions| - i
  {
    if i == |p.positions| then 0.0
    else
      var pos := p.positions[i];
      Profit(pos.units, pos.entry, ClosingPrice(p.prices[pos.instrument], pos.units)) + PlainPl(p, i + 1)
  }

  /** When every position is quoted in the home currency, no conversion is
      needed and the unrealised profit is the plain sum of the profits. */
  lemma {:induction false} HomeQuotedSumPl(p: Portfolio, i: nat)
    requires i <= |p.positions| && HomeQuoted(p, i)
    ensures SumPl(p, i, false) == Ok(PlainPl(p, i))
    decreases |p.positions| - i
  {
    if i < |p.positions| {
      HomeQuotedTail(p, i);
      HomeQuotedSumPl(p, i + 1);
      HomeQuotedStep(p, i);
    }
  }

  lemma HomeQuotedTail(p: Portfolio, i: nat)
    requires i < |p.positions| && HomeQuoted(p, i)
    ensures HomeQuoted(p, i + 1)
  {
  }

  /** One position quoted in the home currency adds its plain profit. */
  lemma HomeQuotedStep(p: Portfolio, i: nat)
    requires i < |p.positions| && HomeQuoted(p, i) && HomeQuoted(p, i + 1)
    requires SumPl(p, i + 1, false) == Ok(PlainPl(p, i + 1))
    ensures SumPl(p, i, false) == Ok(PlainPl(p, i))
  {
    var pos := p.positions[i];
    assert pos.instrument in p.prices && QuoteCurrency(pos.instrument) == Ok(p.home);
    var current := ClosingPrice(p.prices[pos.instrument], pos.units);
    if pos.units == 0.0 {
      assert Profit(0.0, pos.entry, current) == 0.0;
    } else {
      assert Convert(p.prices, p.home, p.home, Profit(pos.units, pos.entry, current)) == Ok(Profit(pos.units, pos.entry, current));
    }
  }

  lemma HomeQuotedPl(p: Portfolio)
    requires HomeQuoted(p, 0)
    ensures UnrealizedPl(p) == Ok(PlainPl(p, 0))
  {
    HomeQuotedSumPl(p, 0);
  }

  /** `required_margin`: the margin for `units` of an instrument, in the
      home currency, from its base currency. */
  function RequiredMargin(p: Portfolio, instrument: string, units: real): (r: Result<real, PortfolioError>)
    ensures units == 0.0 ==> r == Ok(0.0)
    ensures units != 0.0 && instrument !in p.marginRates ==> r == Err(MissingMarginRate(instrument))
    ensures units != 0.0 && instrument in p.marginRates && BaseCurrency(instrument) == p.home ==>
      r == Ok(MarginFor(units, p.marginRates[instrument]))
    ensures units != 0.0 && instrument in p.marginRates && BaseCurrency(instrument) != p.home ==>
      r == ConvertAsWritten(p.prices, p.home, BaseCurrency(instrument), MarginFor(units, p.marginRates[instrument]))
  {
    if units == 0.0 then Ok(0.0)
    else if instrument !in p.marginRates then Err(MissingMarginRate(instrument))
    else Convert(p.prices, p.home, BaseCurrency(instrument), MarginFor(units, p.marginRates[instrument]))
  }

  /** `required_margin` as written, converting even from the home currency
      to itself. */
  function RequiredMarginAsWritten(p: Portfolio, instrument: string, units: real): (r: Result<real, PortfolioError>)
    ensures units == 0.0 ==> r == Ok(0.0)
    ensures units != 0.0 && instrument !in p.marginRates ==> r == Err(MissingMarginRate(instrument))
    ensures BaseCurrency(instrument) != p.home ==> r == RequiredMargin(p, instrument, units)
  {
    if units == 0.0 then Ok(0.0)
    else if instrument !in p.marginRates then Err(MissingMarginRate(instrument))
    else ConvertAsWritten(p.prices, p.home, BaseCurrency(instrument), MarginFor(units, p.marginRates[instrument]))
  }

  /** The margin of a position in a pair based on the home currency cannot
      be computed as written, because the conversion looks for the pair
      `home_home`; the corrected margin is the plain margin. */
  lemma HomeBasedMarginAsWritten(a: string, b: string, units: real, rate: real, q: Quote)
    requires '_' !in a && '_' !in b && a != b && units != 0.0 && rate > 0.0
    ensures var p := Portfolio(0.0, a, map[PairName(a, b) := rate], map[PairName(a, b) := q], []);
      RequiredMarginAsWritten(p, PairName(a, b), units) == Err(NoPair(a, a)) &&
      RequiredMargin(p, PairName(a, b), units) == Ok(MarginFor(units, rate))
  {
    PairCurrencies(a, b);
    assert PairName(a, a) != PairName(a, b) by {
      assert PairName(a, a)[|a| + 1..] == a;
      assert PairName(a, b)[|a| + 1..] == b;
    }
    assert MarginFor(units, rate) != 0.0 by {
      if units < 0.0 { assert (-units) * rate > 0.0; } else { assert units * rate > 0.0; }
    }
  }

  /** The margin in the base currency: the size of the position, short or
      long, times the margin rate. */
  function MarginFor(units: real, rate: real): (m: real)
    ensures rate >= 0.0 ==> m >= 0.0
  {
    if units < 0.0 then (-units) * rate else units * rate
  }

  /** A short position needs the same margin as a long one of the same size. */
  lemma RequiredMarginSymmetric(p: Portfolio, instrument: string, units: real)
    ensures RequiredMargin(p, instrument, -units) == RequiredMargin(p, instrument, units)
  {
    if instrument in p.marginRates {
      var rate := p.marginRates[instrument];
      assert MarginFor(-units, rate) == MarginFor(units, rate) by {
        if units > 0.0 {
          assert (-(-units)) * rate == units * rate;
        }
      }
    }
  }

  /** `used_margin` as written passes the units where the instrument is
      expected, so its first position compares a string with a number. */
  function UsedMarginAsWritten(p: Portfolio): (r: Result<real, PortfolioError>)
    ensures r.Ok? <==> |p.positions| == 0
  {
    if |p.positions| == 0 then Ok(0.0) else Err(TypeMismatch)
  }

  /** `used_margin` with the arguments in their intended order: the sum of
      the required margins of the positions from `i` on. */
  function SumMargin(p: Portfolio, i: nat): (r: Result<real, PortfolioError>)
    requires i <= |p.positions|
    ensures Flat(p, i) ==> r == Ok(0.0)
    ensures r.Err? && r.error.MissingMarginRate? ==> r.error.instrument !in p.marginRates
    ensures r.Err? ==> !Flat(p, i)
    decreases |p.positions| - i
  {
    if i == |p.positions| then Ok(0.0)
    else match RequiredMargin(p, p.positions[i].instrument, p.positions[i].units)
      case Err(e) => Err(e)
      case Ok(m) =>
        var rest := SumMargin(p, i + 1);
        if rest.Err? then rest else Ok(m + rest.value)
  }

  function UsedMargin(p: Portfolio): (r: Result<real, PortfolioError>)
    ensures Flat(p, 0) ==> r == Ok(0.0)
    ensures r.Err? && r.error.MissingMarginRate? ==> r.error.instrument !in p.marginRates
  {
    SumMargin(p, 0)
  }

  predicate NonNegativeRates(p: Portfolio) {
    forall k :: k in p.marginRates ==> p.marginRates[k] >= 0.0
  }

  lemma RequiredMarginNonNegative(p: Portfolio, instrument: string, units: real)
    requires PositivePrices(p.prices) && NonNegativeRates(p)
    ensures RequiredMargin(p, instrument, units).Ok? ==> RequiredMargin(p, instrument, units).value >= 0.0
  {
    if units != 0.0 && instrument in p.marginRates {
      var base := BaseCurrency(instrument);
      if p.home == base || PairName(p.home, base) in p.prices || PairName(base, p.home) in p.prices {
        ConvertKeepsSign(p.prices, p.home, base, MarginFor(units, p.marginRates[instrument]));
      }
    }
  }

  /** With positive prices and non-negative margin rates, the used margin is
      never negative. */
  lemma {:induction false} SumMarginNonNegative(p: Portfolio, i: nat)
    requires i <= |p.positions|
    requires PositivePrices(p.prices) && NonNegativeRates(p)
    ensures SumMargin(p, i).Ok? ==> SumMargin(p, i).value >= 0.0
    decreases |p.positions| - i
  {
    if i < |p.positions| {
      SumMarginNonNegative(p, i + 1);
      RequiredMarginNonNegative(p, p.positions[i].instrument, p.positions[i].units);
    }
  }

  lemma UsedMarginNonNegative(p: Portfolio)
    requires PositivePrices(p.prices) && NonNegativeRates(p)
    ensures UsedMargin(p).Ok? ==> UsedMargin(p).value >= 0.0
  {
    SumMarginNonNegative(p, 0);
  }

  /** `equity`: the balance plus the unrealised profit. */
  function Equity(p: Portfolio): (r: Result<real, PortfolioError>)
    ensures r.Ok? <==> UnrealizedPl(p).Ok?
    ensures r.Ok? ==> r.value - p.balance == UnrealizedPl(p).value
  {
    match UnrealizedPl(p)
    case Err(e) => Err(e)
    case Ok(u) => Ok(p.balance + u)
  }

  /** `free_margin`: what the equity leaves over the used margin. */
  function FreeMargin(p: Portfolio): (r: Result<real, PortfolioError>)
    ensures r.Ok? <==> Equity(p).Ok? && UsedMargin(p).Ok?
    ensures r.Ok? ==> r.value + UsedMargin(p).value == Equity(p).value
  {
    match (Equity(p), UsedMargin(p))
    case (Ok(e), Ok(u)) => Ok(e - u)
    case (Err(x), _) => Err(x)
    case (_, Err(x)) => Err(x)
  }

  /** `margin_level`: equity as a percentage of the used margin, and 0 when
      no margin is used. */
  function MarginLevel(p: Portfolio): (r: Result<real, PortfolioError>)
    ensures r.Ok? ==> UsedMargin(p).Ok?
    ensures r.Ok? && UsedMargin(p).value == 0.0 ==> r.value == 0.0
    ensures r.Ok? && UsedMargin(p).value != 0.0 ==>
      Equity(p).Ok? && r.value * UsedMargin(p).value == Equity(p).value * 100.0
  {
    match UsedMargin(p)
    case Err(x) => Err(x)
    case Ok(used) =>
      if used == 0.0 then Ok(0.0)
      else match Equity(p)
        case Err(x) => Err(x)
        case Ok(e) => Ok(e / used * 100.0)
  }

  /** `equity` as written, on the sign-flipped profit of `unrealized_pl`. */
  function EquityAsWritten(p: Portfolio): (r: Result<real, PortfolioError>)
    ensures r.Ok? <==> UnrealizedPlAsWritten(p).Ok?
    ensures Flat(p, 0) ==> r == Ok(p.balance)
  {
    match UnrealizedPlAsWritten(p)
    case Err(e) => Err(e)
    case Ok(u) => Ok(p.balance + u)
  }

  /** `free_margin` as written: the equity is taken first, then the used
      margin, which raises as soon as there is any position. */
  function FreeMarginAsWritten(p: Portfolio): (r: Result<real, PortfolioError>)
    ensures r.Ok? <==> |p.positions| == 0
    ensures r.Ok? ==> r.value == p.balance
    ensures |p.positions| > 0 && EquityAsWritten(p).Ok? ==> r == Err(TypeMismatch)
  {
    match (EquityAsWritten(p), UsedMarginAsWritten(p))
    case (Ok(e), Ok(u)) => Ok(e - u)
    case (Err(x), _) => Err(x)
    case (_, Err(x)) => Err(x)
  }

  /** `margin_level` as written: it asks for the used margin first, so it
      raises for any position and is 0 otherwise. */
  function MarginLevelAsWritten(p: Portfolio): (r: Result<real, PortfolioError>)
    ensures r == if |p.positions| == 0 then Ok(0.0) else Err(TypeMismatch)
  {
    match UsedMarginAsWritten(p)
    case Err(x) => Err(x)
    // the used margin as written exists only without positions, where it
    // is 0, so the source's zero test always gives 0 and its quotient
    // branch has no case here
    case Ok(_) => Ok(0.0)
  }

  /** Without positions the as-written chain and the corrected one report
      the same equity, free margin and margin level; with any position the
      as-written free margin and margin level do not exist. */
  lemma AccountFiguresAgree(p: Portfolio)
    ensures |p.positions| == 0 ==>
      EquityAsWritten(p) == Equity(p) == Ok(p.balance) &&
      FreeMarginAsWritten(p) == FreeMargin(p) == Ok(p.balance) &&
      MarginLevelAsWritten(p) == MarginLevel(p) == Ok(0.0)
    ensures |p.positions| > 0 ==> FreeMarginAsWritten(p).Err? && MarginLevelAsWritten(p).Err?
  {
    if |p.positions| == 0 {
      EquityNoPositions(p);
    }
  }

  /** With no open units the equity is the balance and no margin is used,
      so all of it is free and the margin level is reported as 0. */
  lemma EquityNoPositions(p: Portfolio)
    requires Flat(p, 0)
    ensures Equity(p) == Ok(p.balance)
    ensures FreeMargin(p) == Ok(p.balance)
    ensures MarginLevel(p) == Ok(0.0)
  {
  }

  /** With positive prices and non-negative margin rates, the free margin
      never exceeds the equity. */
  lemma FreeMarginAtMostEquity(p: Portfolio)
    requires PositivePrices(p.prices) && NonNegativeRates(p)
    ensures FreeMargin(p).Ok? ==> FreeMargin(p).value <= Equity(p).value
  {
    UsedMarginNonNegative(p);
  }

  /** Under the same conditions, a non-negative equity gives a non-negative
      margin level. */
  lemma MarginLevelNonNegative(p: Portfolio)
    requires PositivePrices(p.prices) && NonNegativeRates(p)
    requires Equity(p).Ok? && Equity(p).value >= 0.0
    ensures MarginLevel(p).Ok? ==> MarginLevel(p).value >= 0.0
  {
    UsedMarginNonNegative(p);
    if MarginLevel(p).Ok? && UsedMargin(p).value != 0.0 {
      var e, u := Equity(p).value, UsedMargin(p).value;
      assert u > 0.0;
      assert e / u >= 0.0;
    }
  }

  /** A portfolio holding one position in the pair `a_b`, priced only there. */
  function OnePosition(home: string, a: string, b: string, units: real, entry: real, q: Quote): Portfolio {
    Portfolio(0.0, home, map[], map[PairName(a, b) := q], [Position(PairName(a, b), units, entry)])
  }

  /** The unrealised profit as written has the wrong sign: a long position in
      `a_b` held in an `a` account whose bid rose above the entry shows a
      loss. */
  lemma ProfitSignAsWritten(a: string, b: string, units: real, entry: real, bid: real, ask: real)
    requires '_' !in a && '_' !in b && a != b
    requires units > 0.0 && 0.0 < entry < bid && ask > 0.0
    ensures UnrealizedPlAsWritten(OnePosition(a, a, b, units, entry, Quote(bid, ask))).Ok?
    ensures UnrealizedPlAsWritten(OnePosition(a, a, b, units, entry, Quote(bid, ask))).value < 0.0
    ensures UnrealizedPl(OnePosition(a, a, b, units, entry, Quote(bid, ask))).Ok?
    ensures UnrealizedPl(OnePosition(a, a, b, units, entry, Quote(bid, ask))).value > 0.0
  {
    var p := OnePosition(a, a, b, units, entry, Quote(bid, ask));
    PairCurrencies(a, b);
    assert QuoteCurrency(p.positions[0].instrument) == Ok(b);
    var bad := ProfitAsWritten(units, entry, bid);
    var good := Profit(units, entry, bid);
    assert bad < 0.0 && good > 0.0;
    assert 1.0 / bid > 0.0 && 1.0 / ask > 0.0;
    assert PairName(a, b) in p.prices;
    var cBad := ConvertAsWritten(p.prices, a, b, bad);
    assert cBad.Ok? && cBad.value == bad * (1.0 / bid);
    var cGood := Convert(p.prices, a, b, good);
    assert cGood.Ok? && cGood.value == good * (1.0 / ask);
    assert SumPl(p, 1, true) == Ok(0.0);
    assert SumPl(p, 1, false) == Ok(0.0);
  }

  /** A position in a pair quoted in the home currency cannot be valued as
      written: the conversion looks for the pair `home_home`. The corrected
      conversion values it at its plain profit. */
  lemma HomeQuotedAsWritten(a: string, b: string, units: real, entry: real, bid: real, ask: real)
    requires '_' !in a && '_' !in b && a != b
    requires units > 0.0 && bid != entry
    ensures UnrealizedPlAsWritten(OnePosition(b, a, b, units, entry, Quote(bid, ask))) == Err(NoPair(b, b))
    ensures UnrealizedPl(OnePosition(b, a, b, units, entry, Quote(bid, ask))) == Ok(units * (bid - entry))
  {
    var p := OnePosition(b, a, b, units, entry, Quote(bid, ask));
    PairCurrencies(a, b);
    assert QuoteCurrency(p.positions[0].instrument) == Ok(b);
    assert PairName(b, b) != PairName(a, b) by {
      assert |PairName(b, b)| != |PairName(a, b)| || PairName(b, b) != PairName(a, b);
    }
    assert units * (entry - bid) != 0.0;
    assert ConvertAsWritten(p.prices, b, b, ProfitAsWritten(units, entry, bid)) == Err(NoPair(b, b));
    assert SumPl(p, 1, false) == Ok(0.0);
    assert Convert(p.prices, b, b, Profit(units, entry, bid)) == Ok(units * (bid - entry));
  }
}

=== FILE: strategies.dfy ===
/** The example signal and sizing strategies, identical in both revisions
    (peoples_advisor/strategy/example_strategy.py and
    pa/strategy/example_strategy.py). Each keeps a call counter: the signal
    strategy sells on every fifth price and buys on every tenth, and the
    sizing strategy turns every fifth signal into a market order of 100
    units. */
module Strategies {
  import opened Wrappers
  import opened Events
  import LegacyEvents

  /** The side the signal strategy chooses on its `ticks`-th call. */
  function SignalDecision(ticks: nat): (r: Option<string>)
    ensures r.Some? ==> r.value == "BUY" || r.value == "SELL"
  {
    if ticks % 10 == 0 then Some("BUY")
    else if ticks % 5 == 0 then Some("SELL")
    else None
  }

  /** Whether the sizing strategy orders on its `ticks`-th call. */
  predicate OrderDue(ticks: nat) {
    ticks % 5 == 0
  }

  /** A buy signal goes long 100 units; any other side goes short 100. */
  function OrderUnits(side: string): (u: int)
    ensures u == 100 || u == -100
    ensures u > 0 <==> side == "BUY"
  {
    if side == "BUY" then 100 else -100
  }

  /** `TestSignalStrategy.gen_signal` for a price event: the counter moves by
      one, and a signal, when due, copies the price's instrument and time. */
  function GenSignal(ticks: nat, price: Event): (r: (nat, Option<Event>))
    requires price.Price?
    ensures r.0 == ticks + 1
    ensures r.1.Some? <==> SignalDecision(ticks + 1).Some?
    ensures r.1.Some? ==> r.1.value == Signal(price.instrument, price.time, SignalDecision(ticks + 1).value, None)
  {
    var t := ticks + 1;
    match SignalDecision(t)
    case None => (t, None)
    case Some(side) => (t, Some(Signal(price.instrument, price.time, side, None)))
  }

  /** `TestSizingStrategy.gen_order` for a signal event. */
  function GenOrder(ticks: nat, signal: Event): (r: (nat, Option<Event>))
    requires signal.Signal?
    ensures r.0 == ticks + 1
    ensures r.1.Some? <==> OrderDue(ticks + 1)
    ensures r.1.Some? ==> r.1.value == Order(signal.instrument, signal.time, OrderUnits(signal.side), "MARKET")
  {
    var t := ticks + 1;
    if OrderDue(t) then (t, Some(Order(signal.instrument, signal.time, OrderUnits(signal.side), "MARKET")))
    else (t, None)
  }

  /** The earlier revision's `gen_signal`, over its own events. */
  function LegacyGenSignal(ticks: nat, price: LegacyEvents.Event): (r: (nat, Option<LegacyEvents.Event>))
    requires price.Price?
    ensures r.0 == ticks + 1
    ensures r.1.Some? <==> SignalDecision(ticks + 1).Some?
    ensures r.1.Some? ==> r.1.value == LegacyEvents.Signal(price.instrument, price.time, SignalDecision(ticks + 1).value)
  {
    var t := ticks + 1;
    match SignalDecision(t)
    case None => (t, None)
    case Some(side) => (t, Some(LegacyEvents.Signal(price.instrument, price.time, side)))
  }

  /** The earlier revision's `gen_order`. */
  function LegacyGenOrder(ticks: nat, signal: LegacyEvents.Event): (r: (nat, Option<LegacyEvents.Event>))
    requires signal.Signal?
    ensures r.0 == ticks + 1
    ensures r.1.Some? <==> OrderDue(ticks + 1)
    ensures r.1.Some? ==> r.1.value == LegacyEvents.Order(signal.instrument, signal.time, OrderUnits(signal.side), "MARKET")
  {
    var t := ticks + 1;
    if OrderDue(t) then (t, Some(LegacyEvents.Order(signal.instrument, signal.time, OrderUnits(signal.side), "MARKET")))
    else (t, None)
  }

  /** The decisions of `n` consecutive calls, the first made with counter `ticks`. */
  function Decisions(ticks: nat, n: nat): (r: seq<Option<string>>)
    ensures |r| == n
    ensures forall i :: 0 <= i < n ==> r[i] == SignalDecision(ticks + i + 1)
  {
    seq(n, i requires 0 <= i < n => SignalDecision(ticks + i + 1))
  }

  /** Moving the head of a sequence to its end keeps its elements. */
  lemma RotateKeeps<T>(s: seq<T>)
    requires |s| > 0
    ensures multiset(s[1..] + [s[0]]) == multiset(s)
  {
    assert s == [s[0]] + s[1..];
  }

  /** Ten calls later the signal strategy repeats itself. */
  lemma DecisionPeriod(k: nat)
    ensures SignalDecision(k + 10) == SignalDecision(k)
  {
  }

  /** Shifting a window of ten calls by one only rotates its decisions. */
  lemma {:induction false} DecisionWindow(ticks: nat)
    ensures multiset(Decisions(ticks, 10)) == multiset(Decisions(0, 10))
    decreases ticks
  {
    if ticks > 0 {
      DecisionWindow(ticks - 1);
      var prev, cur := Decisions(ticks - 1, 10), Decisions(ticks, 10);
      DecisionPeriod(ticks);
      assert cur == prev[1..] + [prev[0]];
      RotateKeeps(prev);
    }
  }

  /** Any ten consecutive calls of the signal strategy produce exactly one
      buy, exactly one sell, and eight nothings. */
  lemma TenCallsOneBuyOneSell(ticks: nat)
    ensures multiset(Decisions(ticks, 10))[Some("BUY")] == 1
    ensures multiset(Decisions(ticks, 10))[Some("SELL")] == 1
    ensures multiset(Decisions(ticks, 10))[None] == 8
  {
    DecisionWindow(ticks);
    var d := Decisions(0, 10);
    assert d == [None, None, None, None, Some("SELL"), None, None, None, None, Some("BUY")];
  }

  /** Which of `n` consecutive calls of the sizing strategy order. */
  function OrderWindow(ticks: nat, n: nat): (r: seq<bool>)
    ensures |r| == n
    ensures forall i :: 0 <= i < n ==> r[i] == OrderDue(ticks + i + 1)
  {
    seq(n, i requires 0 <= i < n => OrderDue(ticks + i + 1))
  }

  /** Any five consecutive signals produce exactly one order. */
  lemma {:induction false} FiveSignalsOneOrder(ticks: nat)
    ensures multiset(OrderWindow(ticks, 5))[true] == 1
    decreases ticks
  {
    if ticks == 0 {
      assert OrderWindow(0, 5) == [false, false, false, false, true];
    } else {
      FiveSignalsOneOrder(ticks - 1);
      var prev, cur := OrderWindow(ticks - 1, 5), OrderWindow(ticks, 5);
      assert OrderDue(ticks + 5) == OrderDue(ticks);
      assert cur == prev[1..] + [prev[0]];
      RotateKeeps(prev);
    }
  }
}

=== FILE: text.dfy ===
/** Character-string helpers with the semantics of the Python built-ins the
    source relies on: `str.split` with a one-character separator, `str.join`,
    `str.replace`, substring tests, and decimal digit strings for `int`/`str`. */
module Text {
  import opened Wrappers

  /** `s.split(c)`: the pieces of `s` between occurrences of `c`; never empty. */
  function Split(s: string, c: char): (r: seq<string>)
    ensures |r| >= 1
    ensures r[0] <= s
    decreases |s|
  {
    if |s| == 0 then [""]
    else
      var rest := Split(s[1..], c);
      if s[0] == c then [""] + rest
      else [[s[0]] + rest[0]] + rest[1..]
  }

  /** No piece of a split holds the separator. */
  lemma {:induction false} SplitPiecesFree(s: string, c: char, i: nat)
    requires i < |Split(s, c)|
    ensures c !in Split(s, c)[i]
    decreases |s|
  {
    if |s| > 0 {
      var rest := Split(s[1..], c);
      if s[0] == c {
        if i > 0 {
          SplitPiecesFree(s[1..], c, i - 1);
        }
      } else if i == 0 {
        SplitPiecesFree(s[1..], c, 0);
      } else {
        SplitPiecesFree(s[1..], c, i);
      }
    }
  }

  /** `sep.join(fs)`. */
  function Join(fs: seq<string>, sep: string): string
    decreases |fs|
  {
    if |fs| == 0 then ""
    else if |fs| == 1 then fs[0]
    else fs[0] + sep + Join(fs[1..], sep)
  }

  lemma HeadConcat<T>(f: seq<T>, t: seq<T>)
    requires |f| > 0
    ensures f + t == [f[0]] + (f[1..] + t)
  {
    assert f == [f[0]] + f[1..];
  }

  /** A character other than the separator joins the first piece. */
  lemma SplitCons(ch: char, s: string, c: char)
    requires ch != c
    ensures Split([ch] + s, c) == [[ch] + Split(s, c)[0]] + Split(s, c)[1..]
  {
    assert ([ch] + s)[1..] == s;
  }

  /** A piece free of the separator is kept whole at the front of a split. */
  lemma {:induction false} SplitFreePrefix(f: string, t: string, c: char)
    requires c !in f
    ensures Split(f + t, c) == [f + Split(t, c)[0]] + Split(t, c)[1..]
    decreases |f|
  {
    var pieces := Split(t, c);
    if |f| == 0 {
      assert f + t == t && f + pieces[0] == pieces[0];
      assert [pieces[0]] + pieces[1..] == pieces;
    } else {
      var rest := Split(f[1..] + t, c);
      SplitFreePrefix(f[1..], t, c);
      HeadConcat(f, t);
      SplitCons(f[0], f[1..] + t, c);
      HeadConcat(f, pieces[0]);
    }
  }

  /** Splitting a join recovers the pieces, provided none holds the separator. */
  lemma {:induction false} SplitJoin(fs: seq<string>, c: char)
    requires |fs| >= 1
    requires forall i :: 0 <= i < |fs| ==> c !in fs[i]
    ensures Split(Join(fs, [c]), c) == fs
    decreases |fs|
  {
    if |fs| == 1 {
      SplitFreePrefix(fs[0], "", c);
      assert fs[0] + "" == fs[0];
    } else {
      var tail := Join(fs[1..], [c]);
      SplitJoin(fs[1..], c);
      var withSep := [c] + tail;
      assert withSep[0] == c && withSep[1..] == tail;
      assert Split(withSep, c) == [""] + fs[1..];
      assert Join(fs, [c]) == fs[0] + withSep;
      SplitFreePrefix(fs[0], withSep, c);
      assert fs[0] + "" == fs[0];
      assert [fs[0]] + fs[1..] == fs;
    }
  }

  /** Joining a split with its separator gives back the string. */
  lemma {:induction false} JoinSplit(s: string, c: char)
    ensures Join(Split(s, c), [c]) == s
    decreases |s|
  {
    if |s| > 0 {
      var rest := Split(s[1..], c);
      JoinSplit(s[1..], c);
      if s[0] == c {
        assert ([""] + rest)[1..] == rest;
      } else {
        var pieces := [[s[0]] + rest[0]] + rest[1..];
        assert pieces[1..] == rest[1..];
        if |rest| > 1 {
          assert Join(rest, [c]) == rest[0] + [c] + Join(rest[1..], [c]);
        }
      }
      assert [s[0]] + s[1..] == s;
    }
  }

  /** Every character of a string other than the separator lands in some piece. */
  lemma {:induction false} SplitCovers(s: string, c: char, i: nat)
    requires i < |s| && s[i] != c
    ensures exists k :: 0 <= k < |Split(s, c)| && s[i] in Split(s, c)[k]
    decreases |s|
  {
    var rest := Split(s[1..], c);
    if i == 0 {
      assert s[0] in Split(s, c)[0];
    } else {
      SplitCovers(s[1..], c, i - 1);
      var k :| 0 <= k < |rest| && s[1..][i - 1] in rest[k];
      if s[0] == c {
        assert Split(s, c)[k + 1] == rest[k];
      } else if k == 0 {
        assert Split(s, c)[0] == [s[0]] + rest[0];
      } else {
        assert Split(s, c)[k] == rest[k];
      }
    }
  }

  /** Python's `pat in s` for strings. */
  predicate Contains(s: string, pat: string) {
    exists i | 0 <= i <= |s| - |pat| :: OccursAt(s, pat, i)
  }

  predicate OccursAt(s: string, pat: string, i: int) {
    0 <= i && i + |pat| <= |s| && s[i..i + |pat|] == pat
  }

  /** `s.replace(pat, rep)`: every non-overlapping occurrence, left to right. */
  function Replace(s: string, pat: string, rep: string): (r: string)
    requires |pat| > 0
    ensures |rep| == |pat| ==> |r| == |s|
    ensures rep == pat ==> r == s
    decreases |s|
  {
    if |s| < |pat| then s
    else if s[..|pat|] == pat then rep + Replace(s[|pat|..], pat, rep)
    else [s[0]] + Replace(s[1..], pat, rep)
  }

  /** Deleting a character that does not occur changes nothing. */
  lemma {:induction false} ReplaceAbsentChar(s: string, c: char, rep: string)
    requires c !in s
    ensures Replace(s, [c], rep) == s
    decreases |s|
  {
    if |s| >= 1 {
      assert s[..1] != [c] by { assert s[0] != c; }
      ReplaceAbsentChar(s[1..], c, rep);
      assert [s[0]] + s[1..] == s;
    }
  }

  /** A pattern that does not occur is never replaced. */
  lemma {:induction false} ReplaceAbsent(s: string, pat: string, rep: string)
    requires |pat| > 0 && !Contains(s, pat)
    ensures Replace(s, pat, rep) == s
    decreases |s|
  {
    if |s| >= |pat| {
      assert !OccursAt(s, pat, 0);
      assert !Contains(s[1..], pat) by {
        forall i | 0 <= i <= |s[1..]| - |pat| ensures !OccursAt(s[1..], pat, i) {
          assert !OccursAt(s, pat, i + 1);
          assert s[1..][i..i + |pat|] == s[i + 1..i + 1 + |pat|];
        }
      }
      ReplaceAbsent(s[1..], pat, rep);
      assert [s[0]] + s[1..] == s;
    }
  }

  /** A pattern at the front is replaced first. */
  lemma ReplaceHead(pat: string, b: string, rep: string)
    requires |pat| > 0
    ensures pat <= pat + b
    ensures Replace(pat + b, pat, rep) == rep + Replace(b, pat, rep)
  {
    assert (pat + b)[..|pat|] == pat && (pat + b)[|pat|..] == b;
  }

  /** The one occurrence of a pattern, where no earlier one starts, is replaced and nothing else changes. */
  lemma {:induction false} ReplaceOnce(a: string, pat: string, b: string, rep: string)
    requires |pat| > 0 && !Contains(b, pat)
    requires forall i :: 0 <= i < |a| ==> !OccursAt(a + pat + b, pat, i)
    ensures Replace(a + pat + b, pat, rep) == a + rep + b
    decreases |a|
  {
    var s := a + pat + b;
    if |a| == 0 {
      assert s == pat + b && s[..|pat|] == pat && s[|pat|..] == b;
      ReplaceAbsent(b, pat, rep);
    } else {
      assert !OccursAt(s, pat, 0);
      assert s[1..] == a[1..] + pat + b;
      forall i | 0 <= i < |a| - 1 ensures !OccursAt(a[1..] + pat + b, pat, i) {
        assert !OccursAt(s, pat, i + 1);
        assert s[1..][i..i + |pat|] == s[i + 1..i + 1 + |pat|];
      }
      ReplaceOnce(a[1..], pat, b, rep);
      assert [a[0]] + (a[1..] + rep + b) == a + rep + b;
    }
  }

  predicate IsDigit(ch: char) {
    '0' <= ch <= '9'
  }

  predicate AllDigits(s: string) {
    forall i :: 0 <= i < |s| ==> IsDigit(s[i])
  }

  function DigitValue(ch: char): nat
    requires IsDigit(ch)
  {
    (ch as int - '0' as int) as nat
  }

  function DigitChar(d: nat): (ch: char)
    requires d < 10
    ensures IsDigit(ch) && DigitValue(ch) == d
  {
    (48 + d) as char
  }

  /** `int(s)` for a plain run of decimal digits (most significant first). */
  function DigitsToNat(s: string): nat
    requires AllDigits(s)
    decreases |s|
  {
    if |s| == 0 then 0 else DigitsToNat(s[..|s| - 1]) * 10 + DigitValue(s[|s| - 1])
  }

  /** `str(n)` for a natural number: no leading zeros, "0" for zero. */
  function NatToDigits(n: nat): (r: string)
    ensures |r| >= 1 && AllDigits(r)
    decreases n
  {
    if n < 10 then [DigitChar(n)] else NatToDigits(n / 10) + [DigitChar(n % 10)]
  }

  lemma {:induction false} NatDigitsRoundTrip(n: nat)
    ensures DigitsToNat(NatToDigits(n)) == n
    decreases n
  {
    if n >= 10 {
      var r := NatToDigits(n);
      NatDigitsRoundTrip(n / 10);
      assert r[..|r| - 1] == NatToDigits(n / 10);
    }
  }

  function Zeros(k: nat): (z: string)
    ensures |z| == k && AllDigits(z)
    ensures forall i :: 0 <= i < k ==> z[i] == '0'
  {
    seq(k, _ => '0')
  }

  lemma {:induction false} ZerosValue(k: nat)
    ensures DigitsToNat(Zeros(k)) == 0
    decreases k
  {
    if k > 0 {
      assert Zeros(k)[..k - 1] == Zeros(k - 1);
      ZerosValue(k - 1);
    }
  }

  /** Leading zeros do not change the value of a digit string. */
  lemma {:induction false} LeadingZerosValue(k: nat, s: string)
    requires AllDigits(s)
    ensures DigitsToNat(Zeros(k) + s) == DigitsToNat(s)
    decreases |s|
  {
    if |s| == 0 {
      assert Zeros(k) + s == Zeros(k);
      ZerosValue(k);
    } else {
      var t := Zeros(k) + s;
      assert t[..|t| - 1] == Zeros(k) + s[..|s| - 1];
      LeadingZerosValue(k, s[..|s| - 1]);
    }
  }

  /** `str(i)` for an integer. */
  function IntToString(i: int): string {
    if i < 0 then "-" + NatToDigits(-i) else NatToDigits(i)
  }

  /** `int(s)` restricted to an optional minus sign followed by digits. */
  function ParseInt(s: string): (r: Option<int>)
    ensures |s| == 0 ==> r.None?
    ensures |s| > 0 && AllDigits(s) ==> r.Some? && r.value >= 0
    ensures r.Some? ==> AllDigits(s) || (s[0] == '-' && |s| > 1 && AllDigits(s[1..]) && r.value <= 0)
  {
    if |s| > 1 && s[0] == '-' && AllDigits(s[1..]) then Some(0 - DigitsToNat(s[1..]) as int)
    else if |s| > 0 && AllDigits(s) then Some(DigitsToNat(s))
    else None
  }

  lemma IntRoundTrip(i: int)
    ensures ParseInt(IntToString(i)) == Some(i)
  {
    if i < 0 {
      var d := NatToDigits(-i);
      assert ("-" + d)[1..] == d;
      NatDigitsRoundTrip(-i);
    } else {
      var d := NatToDigits(i);
      assert IsDigit(d[0]);
      NatDigitsRoundTrip(i);
    }
  }

  /** The text of an integer holds only digits and a leading minus sign. */
  lemma IntTextChars(i: int)
    ensures forall k :: 0 <= k < |IntToString(i)| ==> IsDigit(IntToString(i)[k]) || IntToString(i)[k] == '-'
  {
  }

  /** A separator-free join leaves out every character absent from the pieces and the separator. */
  lemma {:induction false} JoinExcludes(fs: seq<string>, sep: string, c: char)
    requires c !in sep
    requires forall i :: 0 <= i < |fs| ==> c !in fs[i]
    ensures c !in Join(fs, sep)
    decreases |fs|
  {
    if |fs| > 1 {
      JoinExcludes(fs[1..], sep, c);
    }
  }

  /** Deleting every `c` from `s + [c]` gives back `s` when `s` holds no `c`. */
  lemma {:induction false} StripTrailingChar(s: string, c: char)
    requires c !in s
    ensures Replace(s + [c], [c], "") == s
    decreases |s|
  {
    var t := s + [c];
    if |s| == 0 {
      assert t[..1] == [c];
      assert t[1..] == [];
    } else {
      assert t[..1] != [c] by { assert t[0] == s[0]; }
      assert t[1..] == s[1..] + [c];
      StripTrailingChar(s[1..], c);
      assert [s[0]] + s[1..] == s;
    }
  }

  predicate IsUpper(ch: char) { 'A' <= ch <= 'Z' }
  predicate IsLower(ch: char) { 'a' <= ch <= 'z' }
  predicate IsLetter(ch: char) { IsUpper(ch) || IsLower(ch) }

  function ToUpper(ch: char): (r: char)
    ensures IsLetter(ch) ==> IsUpper(r)
  {
    if IsLower(ch) then (ch as int - 32) as char else ch
  }

  function ToLower(ch: char): (r: char)
    ensures IsLetter(ch) ==> IsLower(r)
  {
    if IsUpper(ch) then (ch as int + 32) as char else ch
  }

  /** `s.title()` over ASCII: a letter is upper-cased when it follows a
      non-letter (or starts the string) and lower-cased otherwise. */
  function Title(s: string): (r: string)
    ensures |r| == |s|
    ensures forall i :: 0 <= i < |s| && !IsLetter(s[i]) ==> r[i] == s[i]
    ensures forall i :: 0 <= i < |s| && IsLetter(s[i]) ==>
      r[i] == if i == 0 || !IsLetter(s[i - 1]) then ToUpper(s[i]) else ToLower(s[i])
  {
    TitleAfter(s, false)
  }

  function TitleAfter(s: string, afterLetter: bool): (r: string)
    ensures |r| == |s|
    ensures forall i :: 0 <= i < |s| ==> (IsLetter(r[i]) <==> IsLetter(s[i]))
    ensures forall i :: 0 <= i < |s| && !IsLetter(s[i]) ==> r[i] == s[i]
    ensures forall i :: 0 <= i < |s| && IsLetter(s[i]) ==>
      r[i] == if StartsWord(s, i, afterLetter) then ToUpper(s[i]) else ToLower(s[i])
    decreases |s|
  {
    if |s| == 0 then ""
    else if IsLetter(s[0]) then
      [if afterLetter then ToLower(s[0]) else ToUpper(s[0])] + TitleAfter(s[1..], true)
    else [s[0]] + TitleAfter(s[1..], false)
  }

  /** Position `i` of `s` begins a word: the character before it, or the
      flag for the text before `s`, is not a letter. */
  predicate StartsWord(s: string, i: nat, afterLetter: bool)
    requires i < |s|
  {
    if i == 0 then !afterLetter else !IsLetter(s[i - 1])
  }

  /** Title-casing ignores the case of its input. */
  lemma {:induction false} TitleIgnoresCase(s: string, t: string, afterLetter: bool)
    requires |s| == |t|
    requires forall i :: 0 <= i < |s| ==> ToLower(s[i]) == ToLower(t[i])
    ensures TitleAfter(s, afterLetter) == TitleAfter(t, afterLetter)
    decreases |s|
  {
    if |s| > 0 {
      assert IsLetter(s[0]) <==> IsLetter(t[0]);
      TitleIgnoresCase(s[1..], t[1..], IsLetter(s[0]));
    }
  }
}

=== FILE: unofficial.dfy ===
/** The scraping helpers of peoples_advisor/api/oanda/unofficial_oanda_api.py:
    hex decoding of the encrypted rates page, the RC4 cipher that decrypts
    it, and the parser of the decrypted price lines. The page fetches are
    not modelled. Characters below 256 stand as bytes. */
module Unofficial {
  import opened Wrappers
  import opened Text

  type byte = x: int | 0 <= x < 256

  datatype ScrapeError = BadHex | EmptyKey | ShortLine

  // ---------------------------------------------------------------- hex

  predicate IsHex(c: char) {
    ('0' <= c <= '9') || ('a' <= c <= 'f') || ('A' <= c <= 'F')
  }

  function HexValue(c: char): (v: nat)
    requires IsHex(c)
    ensures v < 16
  {
    if '0' <= c <= '9' then c as int - '0' as int
    else if 'a' <= c <= 'f' then c as int - 'a' as int + 10
    else c as int - 'A' as int + 10
  }

  function HexDigit(v: nat): (c: char)
    requires v < 16
    ensures IsHex(c) && HexValue(c) == v
  {
    if v < 10 then ('0' as int + v) as char else ('a' as int + v - 10) as char
  }

  /** The value of the pair of hex digits at `2 * k`. */
  function PairValue(t: string, k: nat): byte
    requires 2 * k + 1 < |t| && IsHex(t[2 * k]) && IsHex(t[2 * k + 1])
  {
    16 * HexValue(t[2 * k]) + HexValue(t[2 * k + 1])
  }

  predicate AllHex(s: string) {
    forall i :: 0 <= i < |s| ==> IsHex(s[i])
  }

  /** Decodes consecutive pairs of an even-length text. */
  function Pairs(t: string): (r: Option<seq<byte>>)
    requires |t| % 2 == 0
    ensures r.Some? <==> AllHex(t)
    ensures r.Some? ==> |r.value| == |t| / 2
    ensures r.Some? ==> forall k :: 0 <= k < |r.value| ==> r.value[k] == PairValue(t, k)
    decreases |t|
  {
    if |t| == 0 then Some([])
    else if !IsHex(t[0]) || !IsHex(t[1]) then None
    else
      var rest := Pairs(t[2..]);
      if rest.None? then None
      else
        assert forall k :: 0 < k < |t| / 2 ==> PairValue(t, k) == PairValue(t[2..], k - 1);
        Some([PairValue(t, 0)] + rest.value)
  }

  /** `_hex_decode` (lines 48-52): odd-length input gains a leading '0',
      then every pair of hex digits becomes one character. `int(x, 16)`
      also takes signs and blanks, which this model refuses. */
  function HexDecode(s: string): (r: Option<seq<byte>>)
    ensures r.Some? <==> AllHex(s)
    ensures r.Some? ==> |r.value| == (|s| + 1) / 2
    ensures r.Some? && |s| % 2 == 1 ==> r.value[0] == HexValue(s[0])
  {
    var t := if |s| % 2 == 1 then "0" + s else s;
    assert AllHex(t) <==> AllHex(s) by {
      if |s| % 2 == 1 {
        PadKeepsHex(s);
      }
    }
    Pairs(t)
  }

  lemma PadKeepsHex(s: string)
    ensures AllHex("0" + s) <==> AllHex(s)
  {
    var t := "0" + s;
    if AllHex(s) {
      forall i | 0 <= i < |t| ensures IsHex(t[i]) {
        if i > 0 { assert t[i] == s[i - 1]; }
      }
    }
    if AllHex(t) {
      forall i | 0 <= i < |s| ensures IsHex(s[i]) {
        assert s[i] == t[i + 1];
      }
    }
  }

  /** Lower-case hex, two digits per byte. */
  function HexEncode(bs: seq<byte>): (r: string)
    ensures |r| == 2 * |bs|
  {
    seq(2 * |bs|, i requires 0 <= i < 2 * |bs| =>
      if i % 2 == 0 then HexDigit(bs[i / 2] / 16) else HexDigit(bs[i / 2] % 16))
  }

  /** Both digits of byte `k` sit at `2 * k` and `2 * k + 1`. */
  lemma EncodedPair(bs: seq<byte>, k: nat)
    requires k < |bs|
    ensures IsHex(HexEncode(bs)[2 * k]) && IsHex(HexEncode(bs)[2 * k + 1])
    ensures PairValue(HexEncode(bs), k) == bs[k]
  {
    var r := HexEncode(bs);
    assert (2 * k) / 2 == k && (2 * k) % 2 == 0;
    assert (2 * k + 1) / 2 == k && (2 * k + 1) % 2 == 1;
    assert r[2 * k] == HexDigit(bs[k] / 16);
    assert r[2 * k + 1] == HexDigit(bs[k] % 16);
  }

  lemma EncodedHex(bs: seq<byte>)
    ensures AllHex(HexEncode(bs))
  {
    var t := HexEncode(bs);
    forall i | 0 <= i < |t| ensures IsHex(t[i]) {
      var k := i / 2;
      EncodedPair(bs, k);
      if i % 2 == 0 {
        assert i == 2 * k;
      } else {
        assert i == 2 * k + 1;
      }
    }
  }

  /** Decoding undoes encoding. */
  lemma HexRoundTrip(bs: seq<byte>)
    ensures HexDecode(HexEncode(bs)) == Some(bs)
  {
    var t := HexEncode(bs);
    EncodedHex(bs);
    assert |t| % 2 == 0;
    assert HexDecode(t) == Pairs(t);
    var r := Pairs(t).value;
    forall k | 0 <= k < |bs| ensures r[k] == bs[k] {
      EncodedPair(bs, k);
    }
    assert r == bs;
  }

  // ---------------------------------------------------------------- RC4

  function Identity(): (r: seq<byte>)
    ensures |r| == 256 && forall i :: 0 <= i < 256 ==> r[i] == i
  {
    seq(256, i requires 0 <= i < 256 => i)
  }

  function Swap(s: seq<byte>, i: nat, j: nat): (r: seq<byte>)
    requires i < |s| && j < |s|
    ensures |r| == |s| && r[i] == s[j] && r[j] == s[i]
  {
    s[i := s[j]][j := s[i]]
  }

  /** A swap permutes. */
  lemma SwapPermutes(s: seq<byte>, i: nat, j: nat)
    requires i < |s| && j < |s|
    ensures multiset(Swap(s, i, j)) == multiset(s)
  {
    var u := s[i := s[j]];
    assert multiset(u) == multiset(s) - multiset{s[i]} + multiset{s[j]};
    assert u[j] == (if i == j then s[j] else s[j]);
    assert multiset(u[j := s[i]]) == multiset(u) - multiset{u[j]} + multiset{s[i]};
  }

  /** The schedule and `j` after `n` rounds of key scheduling. */
  datatype Schedule = Schedule(s: seq<byte>, j: byte)

  /** Round `n` of the key-scheduling loop (lines 59-61). */
  function KsaStep(key: string, p: Schedule, n: nat): (r: Schedule)
    requires |key| > 0 && |p.s| == 256 && n < 256
    ensures |r.s| == 256
  {
    var j := (p.j as int + p.s[n] + key[n % |key|] as int) % 256;
    Schedule(Swap(p.s, n, j), j)
  }

  /** The key-scheduling loop of lines 57-61 after `n` rounds. */
  function KsaUpTo(key: string, n: nat): (r: Schedule)
    requires |key| > 0 && n <= 256
    ensures |r.s| == 256
    decreases n
  {
    if n == 0 then Schedule(Identity(), 0) else KsaStep(key, KsaUpTo(key, n - 1), n - 1)
  }

  lemma KsaStepPermutes(key: string, p: Schedule, n: nat)
    requires |key| > 0 && |p.s| == 256 && n < 256
    ensures multiset(KsaStep(key, p, n).s) == multiset(p.s)
  {
    var j := (p.j as int + p.s[n] + key[n % |key|] as int) % 256;
    SwapPermutes(p.s, n, j);
  }

  /** Key scheduling keeps the schedule a permutation of the identity. */
  lemma KsaUpToPermutes(key: string, n: nat)
    requires |key| > 0 && n <= 256
    ensures multiset(KsaUpTo(key, n).s) == multiset(Identity())
  {
    var k := 0;
    while k < n
      invariant k <= n && multiset(KsaUpTo(key, k).s) == multiset(Identity())
    {
      KsaStepPermutes(key, KsaUpTo(key, k), k);
      k := k + 1;
    }
  }

  /** After key scheduling the schedule is a permutation of 0..255. */
  function Ksa(key: string): (s: seq<byte>)
    requires |key| > 0
    ensures |s| == 256
    ensures forall v :: 0 <= v < 256 ==> v in s
  {
    KsaUpToPermutes(key, 256);
    HoldsAll(KsaUpTo(key, 256).s);
    KsaUpTo(key, 256).s
  }

  /** A permutation of the identity holds every byte. */
  lemma HoldsAll(s: seq<byte>)
    requires multiset(s) == multiset(Identity())
    ensures forall v :: 0 <= v < 256 ==> v in s
  {
    forall v | 0 <= v < 256 ensures v in s {
      assert Identity()[v] == v;
      assert v in multiset(Identity());
      assert v in multiset(s);
    }
  }

  datatype Generator = Generator(s: seq<byte>, i: byte, j: byte)

  /** One round of the generation loop (lines 66-68). */
  function PrgaStep(p: Generator): (r: Generator)
    requires |p.s| == 256
    ensures |r.s| == 256
  {
    var i := (p.i as int + 1) % 256;
    var j := (p.j as int + p.s[i]) % 256;
    Generator(Swap(p.s, i, j), i, j)
  }

  /** The generation loop's state after `n` rounds. */
  function PrgaUpTo(s0: seq<byte>, n: nat): (r: Generator)
    requires |s0| == 256
    ensures |r.s| == 256
    decreases n
  {
    if n == 0 then Generator(s0, 0, 0) else PrgaStep(PrgaUpTo(s0, n - 1))
  }

  lemma StepPermutes(p: Generator)
    requires |p.s| == 256
    ensures multiset(PrgaStep(p).s) == multiset(p.s)
  {
    var i := (p.i as int + 1) % 256;
    var j := (p.j as int + p.s[i]) % 256;
    SwapPermutes(p.s, i, j);
  }

  /** Generation keeps the schedule a permutation of the initial one. */
  lemma PrgaUpToPermutes(s0: seq<byte>, n: nat)
    requires |s0| == 256
    ensures multiset(PrgaUpTo(s0, n).s) == multiset(s0)
  {
    var k := 0;
    while k < n
      invariant k <= n && multiset(PrgaUpTo(s0, k).s) == multiset(s0)
    {
      StepPermutes(PrgaUpTo(s0, k));
      k := k + 1;
    }
  }

  /** The byte a generator state emits (line 69). */
  function Emitted(p: Generator): byte
    requires |p.s| == 256
  {
    p.s[(p.s[p.i] as int + p.s[p.j]) % 256]
  }

  /** The keystream byte of round `n`: it depends on the schedule and the
      position only, never on the text. */
  function KeyByte(s0: seq<byte>, n: nat): byte
    requires |s0| == 256
  {
    Emitted(PrgaUpTo(s0, n + 1))
  }

  function Pow2(n: nat): (r: nat)
    ensures r >= 1
  {
    if n == 0 then 1 else 2 * Pow2(n - 1)
  }

  /** Bitwise exclusive or, one bit at a time from the lowest. */
  function BitXor(a: nat, b: nat): nat
    decreases a + b
  {
    if a == 0 && b == 0 then 0
    else 2 * BitXor(a / 2, b / 2) + (a % 2 + b % 2) % 2
  }

  lemma {:induction false} BitXorBound(a: nat, b: nat, n: nat)
    requires a < Pow2(n) && b < Pow2(n)
    ensures BitXor(a, b) < Pow2(n)
    decreases n
  {
    if a != 0 || b != 0 {
      BitXorBound(a / 2, b / 2, n - 1);
    }
  }

  lemma BitXorByte(a: byte, b: byte)
    ensures BitXor(a, b) < 256
  {
    assert Pow2(8) == 256;
    BitXorBound(a, b, 8);
  }

  /** Bitwise exclusive or of two bytes. */
  function Xor(a: byte, b: byte): byte
  {
    BitXorByte(a, b);
    BitXor(a, b)
  }

  lemma {:induction false} BitXorZero(a: nat)
    ensures BitXor(a, 0) == a
    decreases a
  {
    if a > 0 {
      BitXorZero(a / 2);
    }
  }

  lemma {:induction false} BitXorSymmetric(a: nat, b: nat)
    ensures BitXor(a, b) == BitXor(b, a)
    decreases a + b
  {
    if a != 0 || b != 0 {
      BitXorSymmetric(a / 2, b / 2);
    }
  }

  /** An exclusive or splits into its low bit and the rest, zero included. */
  lemma BitXorStep(a: nat, b: nat)
    ensures BitXor(a, b) == 2 * BitXor(a / 2, b / 2) + (a % 2 + b % 2) % 2
  {
  }

  /** Bit arithmetic behind cancellation: a value built from `h` and the
      low bits of `a` and `b` halves back to `h` and re-masks to `a`'s bit. */
  lemma LowBitCancel(a: nat, b: nat, x: nat, h: nat)
    requires x == 2 * h + (a % 2 + b % 2) % 2
    ensures x / 2 == h && (x % 2 + b % 2) % 2 == a % 2
  {
  }

  /** Masking twice with the same value unmasks. */
  lemma {:induction false} BitXorCancel(a: nat, b: nat)
    ensures BitXor(BitXor(a, b), b) == a
    decreases a + b
  {
    if a != 0 || b != 0 {
      var x, h := BitXor(a, b), BitXor(a / 2, b / 2);
      BitXorStep(a, b);
      LowBitCancel(a, b, x, h);
      BitXorStep(x, b);
      BitXorCancel(a / 2, b / 2);
    }
  }

  /** Masking twice with the same byte unmasks, from either side. */
  lemma XorCancel(a: byte, b: byte)
    ensures Xor(Xor(a, b), b) == a
    ensures Xor(Xor(a, b), a) == b
  {
    BitXorCancel(a, b);
    BitXorSymmetric(a, b);
    BitXorCancel(b, a);
  }

  /** The first `k` bytes of `cypher`, each masked with its keystream byte. */
  function Masked(s0: seq<byte>, cypher: seq<byte>, k: nat): (r: seq<byte>)
    requires |s0| == 256 && k <= |cypher|
    ensures |r| == k
  {
    if k == 0 then [] else Masked(s0, cypher, k - 1) + [Xor(cypher[k - 1], KeyByte(s0, k - 1))]
  }

  /** Byte `m` of the masked text is byte `m` of the input masked with the
      keystream byte of round `m`. */
  lemma {:induction false} MaskedAt(s0: seq<byte>, cypher: seq<byte>, k: nat, m: nat)
    requires |s0| == 256 && m < k <= |cypher|
    ensures Masked(s0, cypher, k)[m] == Xor(cypher[m], KeyByte(s0, m))
    decreases k
  {
    if m < k - 1 {
      MaskedAt(s0, cypher, k - 1, m);
    }
  }

  /** `_rc4decrypt(key, cypher)`: an empty key divides by zero. */
  function Rc4(key: string, cypher: seq<byte>): (r: Result<seq<byte>, ScrapeError>)
    ensures r.Err? <==> |key| == 0
    ensures r.Ok? ==> |r.value| == |cypher|
  {
    if |key| == 0 then Err(EmptyKey) else Ok(Masked(Ksa(key), cypher, |cypher|))
  }

  /** Byte `k` of the output is byte `k` of the input masked with a
      keystream byte that depends on the key and `k` only. */
  lemma Rc4At(key: string, cypher: seq<byte>, k: nat)
    requires |key| > 0 && k < |cypher|
    ensures Rc4(key, cypher).value[k] == Xor(cypher[k], KeyByte(Ksa(key), k))
  {
    MaskedAt(Ksa(key), cypher, |cypher|, k);
  }

  /** Decrypting twice with the same key gives the text back. */
  lemma Rc4Involution(key: string, text: seq<byte>)
    requires |key| > 0
    ensures Rc4(key, Rc4(key, text).value) == Ok(text)
  {
    var once := Rc4(key, text).value;
    var twice := Rc4(key, once).value;
    forall k | 0 <= k < |text| ensures twice[k] == text[k] {
      Rc4At(key, text, k);
      Rc4At(key, once, k);
      XorCancel(text[k], KeyByte(Ksa(key), k));
    }
    assert twice == text;
  }

  /** Two texts under the same key are masked by the same keystream. */
  lemma SameKeystream(key: string, a: seq<byte>, b: seq<byte>, k: nat)
    requires |key| > 0 && k < |a| && k < |b|
    ensures Xor(Rc4(key, a).value[k], a[k]) == Xor(Rc4(key, b).value[k], b[k])
  {
    var ks := KeyByte(Ksa(key), k);
    Rc4At(key, a, k);
    Rc4At(key, b, k);
    XorCancel(a[k], ks);
    XorCancel(b[k], ks);
  }

  /** The key-scheduling loop on a mutable schedule. */
  method Schedule256(key: string) returns (ks: array<byte>)
    requires |key| > 0
    ensures fresh(ks) && ks.Length == 256 && ks[..] == Ksa(key)
  {
    ks := new byte[256](m => if 0 <= m < 256 then m else 0);
    assert ks[..] == Identity();
    var j: byte := 0;
    for i := 0 to 256
      invariant ks.Length == 256
      invariant Schedule(ks[..], j) == KsaUpTo(key, i)
    {
      j := KsaRound(ks, key, i, j);
    }
  }

  /** One round of the key-scheduling loop on a mutable schedule. */
  method KsaRound(ks: array<byte>, key: string, i: nat, j0: byte) returns (j: byte)
    requires ks.Length == 256 && |key| > 0 && i < 256
    modifies ks
    ensures Schedule(ks[..], j) == KsaStep(key, Schedule(old(ks[..]), j0), i)
  {
    ghost var before := ks[..];
    j := (j0 as int + ks[i] + key[i % |key|] as int) % 256;
    ks[i], ks[j] := ks[j], ks[i];
    assert ks[..] == Swap(before, i, j);
  }

  /** Round `k + 1` of generation, seen from round `k`. */
  lemma PrgaNext(s0: seq<byte>, k: nat, g: Generator)
    requires |s0| == 256 && g == PrgaUpTo(s0, k)
    ensures PrgaStep(g) == PrgaUpTo(s0, k + 1)
    ensures Emitted(PrgaStep(g)) == KeyByte(s0, k)
  {
  }

  /** One round of the generation loop on a mutable schedule; returns the
      emitted keystream byte. */
  method Round(ks: array<byte>, i0: byte, j0: byte) returns (i: byte, j: byte, out: byte)
    requires ks.Length == 256
    modifies ks
    ensures Generator(ks[..], i, j) == PrgaStep(Generator(old(ks[..]), i0, j0))
    ensures out == Emitted(Generator(ks[..], i, j))
  {
    ghost var before := ks[..];
    i := (i0 as int + 1) % 256;
    j := (j0 as int + ks[i]) % 256;
    ks[i], ks[j] := ks[j], ks[i];
    assert ks[..] == Swap(before, i, j);
    out := ks[(ks[i] as int + ks[j]) % 256];
  }

  /** The generation loop on a mutable schedule, masking `cypher`. */
  method Generate(ks: array<byte>, ghost s0: seq<byte>, cypher: seq<byte>) returns (c: seq<byte>)
    requires ks.Length == 256 && ks[..] == s0
    modifies ks
    ensures c == Masked(s0, cypher, |cypher|)
  {
    c := [];
    var i: byte := 0;
    var j: byte := 0;
    for k := 0 to |cypher|
      invariant |s0| == 256 && Generator(ks[..], i, j) == PrgaUpTo(s0, k)
      invariant c == Masked(s0, cypher, k)
    {
      PrgaNext(s0, k, Generator(ks[..], i, j));
      var out;
      i, j, out := Round(ks, i, j);
      c := c + [Xor(cypher[k], out)];
    }
  }

  /** `_rc4decrypt` as the source writes it, on a mutable schedule. */
  method Rc4Decrypt(key: string, cypher: seq<byte>) returns (r: Result<seq<byte>, ScrapeError>)
    ensures r == Rc4(key, cypher)
  {
    if |key| == 0 {
      return Err(EmptyKey);
    }
    var ks := Schedule256(key);
    var c := Generate(ks, Ksa(key), cypher);
    return Ok(c);
  }

  // ---------------------------------------------------------------- price lines

  datatype Quote = Quote(bid: string, ask: string, spread: string)

  function Fields(line: string): seq<string> {
    Split(line, '=')
  }

  function Key(line: string): string {
    Fields(line)[0]
  }

  predicate Complete(line: string) {
    |Fields(line)| >= 5
  }

  function Entry(line: string): Quote
    requires Complete(line)
  {
    Quote(Fields(line)[1], Fields(line)[2], Fields(line)[4])
  }

  /** No later line has the same name as line `i`. */
  predicate LastOf(lines: seq<string>, i: nat)
    requires i < |lines|
  {
    forall m :: i < m < |lines| ==> Key(lines[m]) != Key(lines[i])
  }

  /** The loop of `_to_price_dict` (lines 74-79) over the lines: fails iff
      some line is short. */
  function PriceDict(lines: seq<string>): (r: Result<map<string, Quote>, ScrapeError>)
    ensures r.Ok? <==> forall i :: 0 <= i < |lines| ==> Complete(lines[i])
    ensures r.Err? ==> r.error == ShortLine
    decreases |lines|
  {
    if lines == [] then Ok(map[])
    else
      var init := lines[..|lines| - 1];
      var last := lines[|lines| - 1];
      assert forall i :: 0 <= i < |init| ==> init[i] == lines[i];
      match PriceDict(init)
      case Err(e) => Err(e)
      case Ok(p) =>
        if !Complete(last) then Err(ShortLine)
        else Ok(p[Key(last) := Entry(last)])
  }

  /** The names in the dictionary are exactly the lines' first fields. */
  lemma {:induction false} PriceDictKeys(lines: seq<string>, k: string)
    requires PriceDict(lines).Ok?
    ensures k in PriceDict(lines).value <==> exists i :: 0 <= i < |lines| && Key(lines[i]) == k
    decreases |lines|
  {
    if lines != [] {
      var init := lines[..|lines| - 1];
      assert forall i :: 0 <= i < |init| ==> init[i] == lines[i];
      PriceDictKeys(init, k);
      if k in PriceDict(init).value {
        var i :| 0 <= i < |init| && Key(init[i]) == k;
        assert Key(lines[i]) == k;
      }
      if exists i :: 0 <= i < |lines| && Key(lines[i]) == k {
        var i :| 0 <= i < |lines| && Key(lines[i]) == k;
        if i < |init| {
          assert Key(init[i]) == k;
        }
      }
    }
  }

  /** A later line with the same name overwrites an earlier one. */
  lemma {:induction false} PriceDictLastWins(lines: seq<string>, i: nat)
    requires PriceDict(lines).Ok? && i < |lines| && LastOf(lines, i)
    ensures Key(lines[i]) in PriceDict(lines).value
    ensures PriceDict(lines).value[Key(lines[i])] == Entry(lines[i])
    decreases |lines|
  {
    var init := lines[..|lines| - 1];
    assert forall m :: 0 <= m < |init| ==> init[m] == lines[m];
    if i < |init| {
      assert LastOf(init, i);
      PriceDictLastWins(init, i);
    }
  }

  /** `_to_price_dict(text)`: one entry per line, named by its first
      '='-separated field; a line with fewer than five fields raises. */
  function ToPriceDict(text: string): (r: Result<map<string, Quote>, ScrapeError>)
    ensures r.Ok? <==> forall line :: line in Split(text, '\n') ==> Complete(line)
  {
    PriceDict(Split(text, '\n'))
  }

  /** A text ending in a newline has an empty last line, which raises. */
  lemma TrailingNewlineRaises(text: string)
    requires |text| > 0 && text[|text| - 1] == '\n'
    ensures ToPriceDict(text) == Err(ShortLine)
  {
    SplitLastEmpty(text);
    var lines := Split(text, '\n');
    assert Fields(lines[|lines| - 1]) == [""];
  }

  /** Splitting a text that ends in the separator yields at least two
      pieces, the last one empty. */
  lemma {:induction false} SplitLastEmpty(s: string)
    requires |s| > 0 && s[|s| - 1] == '\n'
    ensures |Split(s, '\n')| >= 2
    ensures Split(s, '\n')[|Split(s, '\n')| - 1] == ""
    decreases |s|
  {
    if |s| > 1 {
      SplitLastEmpty(s[1..]);
    }
  }
}

=== FILE: wrappers.dfy ===
/** Failure-carrying results used throughout the model: `Option` for values the
    source may leave as `None`, `Result` for operations that raise. */
module Wrappers {

  datatype Option<+T> = None | Some(value: T)

  datatype Result<+T, +E> = Ok(value: T) | Err(error: E) {
    predicate IsFailure() {
      Err?
    }

    function PropagateFailure<U>(): Result<U, E>
      requires Err?
    {
      Err(error)
    }

    function Extract(): T
      requires Ok?
    {
      value
    }
  }
}
